=== FILE: README.md ===
# Rescue-robot dialogue system: a verified model of its decision logic

The rescue robot talks to a disaster victim. It runs two interview phases:

- **Phase 1, assessment**: injuries, breathing, immediate danger, being stuck or trapped, mobility, and people nearby.
- **Phase 2, comfort and special needs**: medication, allergies, age, disabilities, and so on.

After every victim reply, a language model extracts record updates, decides the next action (continue, move to phase 2, evacuate, abort and alert the command center, or complete) and phrases the robot's next sentence. A deterministic tree-walking backup dialogue takes over when the model fails. A triage agent assigns a START colour.

This project models all of that decision logic as Dafny functions, classes and methods, and proves its properties:

- how each agent filters and merges what the model extracts;
- the completion queries;
- how model replies are normalised and how failures are detected;
- the phase controller's and the conversation manager's turn loops, including the switch to the backup dialogue;
- the backup dialogue's question tree;
- the prompt texts the decisions are made from;
- the MQTT manager's offline queue;
- the configuration defaults and overrides.

The language model is an outside call: every reply it gives is a parameter of type `Reply`. That value is either a transport failure, which stands for a timeout or connection error, or an HTTP status with a text. JSON decoding is a parameter `parse: string -> Option<Json>`. What the microphone hears is a queue of strings, where `""` stands for a timeout or a message without text.

Files, one per source file (paths relative to the repository root):

| file | models |
|---|---|
| `text.dfy` | Python string operations used by the code (`in`, `lower`, `strip`, `split`, `join`, `replace`, `find`) and `Option` |
| `oracles.dfy` | decoded JSON values, dict lookup, model replies |
| `listening.dfy` | the retry loop both conversation drivers use to hear the victim |
| `action_agent.dfy` | `dialog/agents/action_agent.py` |
| `assessment_agent.dfy` | `dialog/agents/assessment_agent.py` |
| `comfort_assessment_agent.dfy` | `dialog/agents/comfort_assessment_agent.py` |
| `comfort_agent.dfy` | `dialog/agents/comfort_agent.py` |
| `dialog_agent.dfy` | `dialog/agents/dialog_agent.py` |
| `triage_agent.dfy` | `dialog/agents/triage_agent.py` |
| `action_decision_builder.dfy` | `dialog/helpers/action_decision_builder.py` |
| `backup_dialog.dfy` | `dialog/helpers/backup_dialog.py` |
| `phase_controller.dfy` | `dialog/helpers/phase_controller.py` |
| `conversation_manager.dfy` | `dialog/helpers/conversation_manager.py` |
| `mqtt_manager.dfy` | `dialog/helpers/mqtt_manager.py` (offline queue) |
| `config_manager.dfy` | `dialog/helpers/config_manager.py` |

Objects whose fields the source updates in place are Dafny classes, and their methods are proved equal to specification functions (`Snapshot()` is the object's state as a value):

- the agents;
- the backup interaction;
- the phase controller;
- the conversation manager;
- the MQTT manager;
- the configuration manager.

Each specification function carries its own properties, and the lemmas beside it state the rest.

## Model

| member | source | states |
|---|---|---|
| ActionAgent.Normalize | dialog/agents/action_agent.py:132-160 | the decision is absent exactly when the primary action cannot be looked up (it is a list or dict); `send_message_to_cc` equals `alert_command_center`; `action` is the label of the primary action; every field holds the reply's value, or its default when the key is missing |
| ActionAgent.NormalizeIdempotent | dialog/agents/action_agent.py:132-160 | normalising a decision that normalisation produced gives it back unchanged |
| ActionAgent.NormalizeDefault | dialog/agents/action_agent.py:162-176 | the default decision is consistent and is a fixed point of normalisation |
| ActionAgent.StripFencesPlain | dialog/agents/action_agent.py:94-107 | a reply without back-ticks is only stripped of surrounding whitespace |
| ActionAgent.StripFencesBlock | dialog/agents/action_agent.py:94-107 | a reply fenced as a ```` ```json ```` block yields the block's stripped body |
| ActionAgent.ParseActionJson | dialog/agents/action_agent.py:109-130 | an empty reply gives nothing; otherwise the text between the first `{` and the last `}` of the unfenced reply is decoded, and its dict is returned exactly when it decodes to one naming `primary_action` or `action` |
| ActionAgent.Candidate | dialog/agents/action_agent.py:118-122 | with a `{` before a `}`, the text from the first `{` to the last `}`, braces included; otherwise the text itself |
| ActionAgent.DecideOutcomes | dialog/agents/action_agent.py:32-92 | the call returns `False` exactly on a transport failure, an error status, or an unhashable primary action; an unreadable reply gives the default decision; every decision returned is consistent |
| ActionAgent.EmptyReplyGivesDefault | dialog/agents/action_agent.py:67-81 | a successful reply that is empty after stripping gives the default decision |
| Assessment.ExtractJsonPlain | dialog/agents/assessment_agent.py:117-141 | a reply without back-ticks that decodes as it stands is taken whole |
| Assessment.ExtractJsonNoObject | dialog/agents/assessment_agent.py:117-156 | a reply without back-ticks and without `{` that does not decode gives the empty object |
| Assessment.Validated | dialog/agents/assessment_agent.py:158-191 | the loop raises exactly when some record field has a truthy non-string value; otherwise every kept update is an accepted entry of the reply with its value stripped, and every accepted entry is kept |
| Assessment.AnalyzeFailsOnlyOnException | dialog/agents/assessment_agent.py:61-115 | `False` comes back exactly on a transport failure or an exception in decoding or validation; a non-200 status gives the empty dict |
| Assessment.AnalyzeYieldsCleanUpdates | dialog/agents/assessment_agent.py:89-101 | every update handed back names a record field and carries a stripped, non-empty value that is not "unknown" |
| Assessment.MergeAll | dialog/agents/assessment_agent.py:223-251 | the merge loop keeps the record's fields |
| Assessment.Update | dialog/agents/assessment_agent.py:216-259 | `update_assessment` keeps the record's fields |
| Assessment.MergeAllKeys | dialog/agents/assessment_agent.py:223-251 | the merge adds to the assessed set exactly the updated keys that are record fields |
| Assessment.UpdateKeepsShape | dialog/agents/assessment_agent.py:216-259 | the record keeps exactly the template's fields; the assessed set grows by exactly the in-template updated keys, plus `can_walk` when the trapped-victim inference fires |
| Assessment.MergeAllFrame | dialog/agents/assessment_agent.py:223-251 | a field no update mentions keeps its value |
| Assessment.MergeAllAt | dialog/agents/assessment_agent.py:223-251 | with distinct keys, each field is merged once, from its value before the call |
| Assessment.UnknownTakesValue | dialog/agents/assessment_agent.py:230-233 | a field still "unknown" takes the update's value and becomes assessed |
| Assessment.InjuryMerge | dialog/agents/assessment_agent.py:237-243 | a new non-duplicate injury description is appended, without its "yes - ", to a record starting with "yes"; a duplicate leaves it unchanged; injuries are assessed either way |
| Assessment.StuckImpliesCannotWalk | dialog/agents/assessment_agent.py:253-258 | a stuck/trapped update containing "yes", with mobility still unknown, sets `can_walk` to "No - victim is stuck/trapped" and marks it assessed |
| Assessment.NoStuckNoInference | dialog/agents/assessment_agent.py:253-258 | without a stuck/trapped update the inference changes nothing |
| Assessment.MergedValueKnown | dialog/agents/assessment_agent.py:230-248 | merging a known value into a known field never gives "unknown" |
| Assessment.MergeAllMonotone | dialog/agents/assessment_agent.py:223-251 | a merge whose values are never "unknown" never turns a known field back into "unknown" |
| Assessment.ValidateThenUpdateMonotone | dialog/agents/assessment_agent.py:158-259 | with the corrected value test, once a field is known no analysed reply makes it "unknown" again |
| Assessment.ValidatedAsWrittenStoresUnknown | dialog/agents/assessment_agent.py:178-189 | the value test as written lets " unknown" through and stores "unknown" over a known breathing status, which stays assessed; the corrected test drops it |
| Assessment.Incomplete | dialog/agents/assessment_agent.py:285-287 | the incomplete categories are exactly the priority fields not assessed |
| Assessment.FirstUnassessed | dialog/agents/assessment_agent.py:296-306 | "" exactly when every priority field is assessed; otherwise the first priority field not assessed |
| Assessment.CompletionQueriesAgree | dialog/agents/assessment_agent.py:285-306 | the next field is "" exactly when the assessment is complete, exactly when nothing is incomplete; otherwise it is the head of the incomplete list |
| Assessment.EmptyIncomplete | dialog/agents/assessment_agent.py:285-294 | the incomplete list is empty exactly when every priority field is assessed |
| Assessment.FirstIsHead | dialog/agents/assessment_agent.py:285-306 | the next priority field is the head of the incomplete list |
| Assessment.ImmediateDangerNeverHolds | dialog/agents/assessment_agent.py:389-409 | `is_in_immediate_danger` never holds, before or after any update: it consults a "danger" field the record does not have |
| Assessment.StuckVictimCannotWalk | dialog/agents/assessment_agent.py:253-258 | after a stuck "yes" with mobility unknown, the victim counts as stuck and not able to walk |
| Assessment.StuckWalkValueSaysNo | dialog/agents/assessment_agent.py:328-334 | the inferred mobility text reads as "cannot walk" |
| Assessment.EvacuationNeedsEvidence | dialog/agents/assessment_agent.py:431-444 | evacuation is advised only when injuries, breathing or consciousness have been assessed |
| Assessment.AssessmentAgent.constructor | dialog/agents/assessment_agent.py:19-55 | a new agent holds the template record with nothing assessed |
| Assessment.AssessmentAgent.ValidateUpdates | dialog/agents/assessment_agent.py:158-191 | the loop computes the corrected validation of the decoded reply |
| Assessment.AssessmentAgent.AnalyzeVictimResponse | dialog/agents/assessment_agent.py:61-115 | the method returns the analysis of the reply against the current record |
| Assessment.AssessmentAgent.UpdateAssessment | dialog/agents/assessment_agent.py:216-259 | the new record and assessed set are `Update` of the old ones, and the agent stays well formed |
| Assessment.AssessmentAgent.MergeUpdate | dialog/agents/assessment_agent.py:223-251 | one update of the loop changes the record and the assessed set as `Merge` specifies |
| ComfortAssessment.SkipPlain | dialog/agents/comfort_assessment_agent.py:166-167 | the pattern's `[^{}]*` run ends at the first brace or at the end of the text |
| ComfortAssessment.MatchRest | dialog/agents/comfort_assessment_agent.py:166-167 | a match of the pattern's tail ends just after a closing brace |
| ComfortAssessment.MatchAt | dialog/agents/comfort_assessment_agent.py:166-167 | a match starting at a position begins with `{` and ends with `}` |
| ComfortAssessment.FindObjects | dialog/agents/comfort_assessment_agent.py:166-167 | every candidate `re.findall` yields starts with `{` and ends with `}` |
| ComfortAssessment.NoBraceNoObjects | dialog/agents/comfort_assessment_agent.py:166-167 | a text without `{` yields no candidate |
| ComfortAssessment.FlatObjectMatches | dialog/agents/comfort_assessment_agent.py:166-167 | a text that is one flat object is its own only candidate |
| ComfortAssessment.KeepFields | dialog/agents/comfort_assessment_agent.py:173 | the filtered dict holds exactly the decoded entries whose key is a record field |
| ComfortAssessment.AnalyzeMarksReturnedKeys | dialog/agents/comfort_assessment_agent.py:72-153 | analysis marks as assessed exactly the returned keys, returns only record fields, and on a failed call returns the empty dict and marks nothing |
| ComfortAssessment.ExtractOnlyFields | dialog/agents/comfort_assessment_agent.py:155-178 | the extracted dict holds only record fields |
| ComfortAssessment.MergeNeeds | dialog/agents/comfort_assessment_agent.py:187-195 | the merge loop keeps the record's fields |
| ComfortAssessment.MergeNeedsExtends | dialog/agents/comfort_assessment_agent.py:187-195 | a field no update names keeps its value; a known field keeps its old text as a prefix and never becomes "unknown" again |
| ComfortAssessment.UpdateNeeds | dialog/agents/comfort_assessment_agent.py:180-195 | `update_special_needs` keeps the record's fields and the assessed set; a known field stays known and keeps its old text as a prefix |
| ComfortAssessment.IgnoredUpdates | dialog/agents/comfort_assessment_agent.py:188 | a key outside the record, an empty value or "unknown" leaves the record unchanged |
| ComfortAssessment.MergeOne | dialog/agents/comfort_assessment_agent.py:188-195 | a different value reported over a known one is appended after "; "; otherwise the field takes the value |
| ComfortAssessment.ReapplyIsNoOp | dialog/agents/comfort_assessment_agent.py:188-195 | applying the same update twice equals applying it once when the field was "unknown" or already held the value |
| ComfortAssessment.ReapplyAppendsAgain | dialog/agents/comfort_assessment_agent.py:188-195 | with a different earlier value the update is not idempotent: "pollen" then "penicillin" twice gives "pollen; penicillin; penicillin" |
| ComfortAssessment.CountAssessed | dialog/agents/comfort_assessment_agent.py:225-226 | the count is the number of positions of the list holding an assessed field |
| ComfortAssessment.CountMissing | dialog/agents/comfort_assessment_agent.py:226-227 | one unassessed field lowers the count below the total |
| ComfortAssessment.CountAll | dialog/agents/comfort_assessment_agent.py:226-227 | with every field assessed the count is the total |
| ComfortAssessment.CompletionThreshold | dialog/agents/comfort_assessment_agent.py:218-227 | two unassessed fields among the top five rule completion out |
| ComfortAssessment.CountAllBut | dialog/agents/comfort_assessment_agent.py:225-226 | with all fields but one assessed, the count is at least one less than the length |
| ComfortAssessment.OneMissingIsComplete | dialog/agents/comfort_assessment_agent.py:218-227 | with only one of the top five unassessed the assessment is complete |
| ComfortAssessment.CompleteIffAtMostOneMissing | dialog/agents/comfort_assessment_agent.py:218-227 | complete exactly when no two of the top five fields are both unassessed |
| ComfortAssessment.AllTopAssessedIsComplete | dialog/agents/comfort_assessment_agent.py:218-228 | all five top fields assessed makes the assessment complete |
| ComfortAssessment.CountTwoMissing | dialog/agents/comfort_assessment_agent.py:226-227 | two unassessed fields lower the count by two |
| ComfortAssessment.NextField | dialog/agents/comfort_assessment_agent.py:205-215 | the next field is the first priority field, in priority order, neither assessed nor filled in; None only when every priority field is assessed or filled in |
| ComfortAssessment.FreshRecordSignalsNothing | dialog/agents/comfort_assessment_agent.py:248-300 | a fresh record signals no emergency medication, allergy, mobility limit or old age |
| ComfortAssessment.ElderlyByAge | dialog/agents/comfort_assessment_agent.py:278-300 | "67 years old" counts as elderly and "40" does not |
| ComfortAssessment.ReportedAllergyIsCritical | dialog/agents/comfort_assessment_agent.py:258-266 | an allergy reported in words other than no/none/n/a over "unknown" makes allergies critical |
| ComfortAssessment.ComfortAssessmentAgent.constructor | dialog/agents/comfort_assessment_agent.py:27-70 | a new agent holds the nine "unknown" fields with nothing assessed |
| ComfortAssessment.ComfortAssessmentAgent.AnalyzeVictimResponse | dialog/agents/comfort_assessment_agent.py:72-153 | the returned dict and the new assessed set are those of `Analyze`; the record is unchanged |
| ComfortAssessment.ComfortAssessmentAgent.MarkAssessed | dialog/agents/comfort_assessment_agent.py:142-144 | the loop adds exactly the returned keys that are record fields to the assessed set |
| ComfortAssessment.ComfortAssessmentAgent.UpdateSpecialNeeds | dialog/agents/comfort_assessment_agent.py:180-195 | the new state is `UpdateNeeds` of the old one |
| ComfortAgent.PriorityCoversNeeds | dialog/agents/comfort_agent.py:29-53 | the priority list names exactly the needs of the record, each once, and the initial state is well formed |
| ComfortAgent.DistressOf | dialog/agents/comfort_agent.py:180-203 | high distress is panic or anxiety; the victim is calm exactly when the lower-cased reply holds no panic and no anxiety word |
| ComfortAgent.ShoutedHelpIsPanic | dialog/agents/comfort_agent.py:187-191 | "HELP" is panic, hence high distress and not calm |
| ComfortAgent.SilenceIsCalm | dialog/agents/comfort_agent.py:180-203 | an empty reply leaves the victim calm |
| ComfortAgent.AnalyzeNeeds | dialog/agents/comfort_agent.py:131-178 | anything but a 200 reply gives the empty dict; every update returned names a need and carries a stripped, non-empty value that is not "unknown" |
| ComfortAgent.AnalyzeNeedsKeepsAccepted | dialog/agents/comfort_agent.py:331-361 | every string member naming a need that passes the value test reaches the update, stripped |
| ComfortAgent.NeedsValidatedAsWrittenStoresUnknown | dialog/agents/comfort_agent.py:343-361 | the value test as written lets " unknown" through, so "unknown" is stored over a known need that stays assessed; the corrected test drops it |
| ComfortAgent.Update | dialog/agents/comfort_agent.py:363-386 | the update keeps the record's needs, only grows the assessed set, and leaves history and distress alone |
| ComfortAgent.UpdateAssessedWithin | dialog/agents/comfort_agent.py:363-386 | only needs named by the updates can join the assessed set |
| ComfortAgent.UpdateFrame | dialog/agents/comfort_agent.py:363-386 | a need the updates do not name keeps its value and its assessed mark |
| ComfortAgent.UpdateAt | dialog/agents/comfort_agent.py:370-386 | with distinct keys, a named need ends with exactly the update's value (replaced, never appended); it is assessed afterwards exactly when it was before or the value changed it |
| ComfortAgent.UnknownNeedTakesValue | dialog/agents/comfort_agent.py:377-382 | a need still "unknown" takes the update's value and is assessed |
| ComfortAgent.UpdateKeepsShape | dialog/agents/comfort_agent.py:363-386 | the update keeps the agent well formed |
| ComfortAgent.UpdateIdempotent | dialog/agents/comfort_agent.py:363-386 | applying the same dict of updates twice is applying it once |
| ComfortAgent.UpdateKeepsKnown | dialog/agents/comfort_agent.py:363-386 | updates whose values are never "unknown" never make a known need unknown |
| ComfortAgent.AnalyzeThenUpdateMonotone | dialog/agents/comfort_agent.py:131-178 | with the corrected value test, once a need is known no analysed reply turns it back into "unknown" |
| ComfortAgent.NextNeedAgrees | dialog/agents/comfort_agent.py:388-410 | the next need is "" exactly when the phase is complete, exactly when every need is assessed; otherwise it is the first unassessed need in priority order |
| ComfortAgent.FallbackMessagesDiffer | dialog/agents/comfort_agent.py:420-445 | in every language the distressed and the calm victim get different messages; a language other than Spanish or French gets English |
| ComfortAgent.QuestionsCoverNeeds | dialog/agents/comfort_agent.py:503-548 | every need has a non-empty question of its own in every language, and the defaults are non-empty |
| ComfortAgent.EnglishCoversNeeds | dialog/agents/comfort_agent.py:505-514 | the English questions cover every need, none empty |
| ComfortAgent.FrenchCoversNeeds | dialog/agents/comfort_agent.py:516-525 | the French questions cover every need, none empty |
| ComfortAgent.SpanishCoversNeeds | dialog/agents/comfort_agent.py:527-536 | the Spanish questions cover every need, none empty |
| ComfortAgent.NextResponseSilentIffComplete | dialog/agents/comfort_agent.py:475-501 | the next response is empty exactly when the phase is complete |
| ComfortAgent.CleanedReply | dialog/agents/comfort_agent.py:101-107 | the reply is stripped, a leading "Robot:" label is dropped and the rest stripped again; an unlabelled reply is only stripped |
| ComfortAgent.ComfortResponse | dialog/agents/comfort_agent.py:66-129 | the distress flags follow the victim's reply; the needs are untouched; a 200 reply adds the victim's and the robot's turns to the history; any other outcome gives the fallback message for the distress level and leaves the history |
| ComfortAgent.ComfortAgentObject.constructor | dialog/agents/comfort_agent.py:12-64 | a new agent holds the initial state in its language |
| ComfortAgent.ComfortAgentObject.AnalyzeDistress | dialog/agents/comfort_agent.py:180-203 | only the distress flags change, to those of the reply |
| ComfortAgent.ComfortAgentObject.AnalyzeSpecialNeeds | dialog/agents/comfort_agent.py:131-178 | the method returns the analysis of the reply against the current needs |
| ComfortAgent.ComfortAgentObject.UpdateSpecialNeeds | dialog/agents/comfort_agent.py:363-386 | the new state is `Update` of the old one |
| ComfortAgent.ComfortAgentObject.GetNextPriorityNeed | dialog/agents/comfort_agent.py:388-398 | the loop returns the next priority need |
| ComfortAgent.ComfortAgentObject.IsComfortPhaseComplete | dialog/agents/comfort_agent.py:400-410 | the loop returns whether every need is assessed |
| ComfortAgent.ComfortAgentObject.Reset | dialog/agents/comfort_agent.py:447-457 | every need back to "unknown", nothing assessed, no history, calm |
| ComfortAgent.ComfortAgentObject.AddToHistory | dialog/agents/comfort_agent.py:469-473 | the history gains exactly the one entry |
| ComfortAgent.ComfortAgentObject.GenerateComfortResponse | dialog/agents/comfort_agent.py:66-129 | the text and the new state are those of `ComfortResponse` |
| ComfortAgent.FirstUnassessedAt | dialog/agents/comfort_agent.py:395-398 | the first unassessed entry found by scanning in order is the one the first-unassessed function names |
| Dialogue.Greeting | dialog/agents/dialog_agent.py:137-155 | there is a greeting exactly for English, Spanish and French (any other language leaves the table unbound) |
| Dialogue.MatchingTemplates | dialog/agents/dialog_agent.py:672-677 | none found exactly when no non-"default" key occurs in the action; otherwise the table of the first such key |
| Dialogue.UnmatchedActionGetsDefault | dialog/agents/dialog_agent.py:663-683 | an action naming no key gets the specialised-help message in its language (English fallback) and level |
| Dialogue.GuideActionGetsGuide | dialog/agents/dialog_agent.py:556-558 | the guide action's closing message is the evacuation message |
| Dialogue.FinalMessagesAgree | dialog/agents/dialog_agent.py:493-551 | in a supported language `get_final_message` gives the same text as the action-based closing for the guide action (walking, not stuck) or for an unmatched action |
| Dialogue.NoResponseFallsBack | dialog/agents/dialog_agent.py:686-698 | an unsupported language gets the English prompt and an unknown level the "medium" one |
| Dialogue.ClosingMessageNonEmpty | dialog/agents/dialog_agent.py:663-683 | every closing message has text, whatever the action, language and level |
| Dialogue.DropPrefixesSlice | dialog/agents/dialog_agent.py:326-342 | cleaning keeps a contiguous piece of the text and leaves text starting with no prefix unchanged |
| Dialogue.CleanResponse | dialog/agents/dialog_agent.py:326-342 | the loop drops each prefix in turn exactly as the prefix-by-prefix function does |
| Dialogue.CleanRobotLabel | dialog/agents/dialog_agent.py:337-341 | "Robot: " in front of a clean answer is removed and nothing more |
| Dialogue.LengthConstraintShape | dialog/agents/dialog_agent.py:344-368 | text within the sentence limit (4 for "high", else 2) is unchanged; longer text becomes its first `limit` sentences, a prefix of the text, ending in "." |
| Dialogue.LlmResponse | dialog/agents/dialog_agent.py:267-324 | a text comes back only for a successful call and is never empty; a failed call gives `False` |
| Dialogue.QuestionOf | dialog/agents/dialog_agent.py:714-721 | a remembered question is lower-case, stripped and longer than five characters |
| Dialogue.Added | dialog/agents/dialog_agent.py:704-721 | recording a line keeps every remembered question well formed |
| Dialogue.AddedShape | dialog/agents/dialog_agent.py:704-721 | the history gains exactly the new entry; asked questions only grow, by at most the line's question, and only for a robot line with a "?" |
| Dialogue.NextResponseShape | dialog/agents/dialog_agent.py:389-427 | complete: nothing recorded and the closing message chosen by "can walk" and "stuck" (raises for an unsupported language); otherwise `False` exactly when the model call fails, with nothing recorded, and a spoken line becomes the last question and the last history entry |
| Dialogue.ActionBasedResponseAsWritten | dialog/agents/dialog_agent.py:457-489 | as written, the call never returns `False`: a failed model call raises from `add_to_history` |
| Dialogue.ActionBasedResponse | dialog/agents/dialog_agent.py:457-489 | corrected: never raises; `False` exactly when an incomplete turn's model call fails, leaving the state alone; a spoken line becomes the last question and the last history entry |
| Dialogue.ActionBasedResponseDiffers | dialog/agents/dialog_agent.py:484-489 | on a failed model call the written code raises where the corrected one returns `False` with the state unchanged |
| Dialogue.DialogueAgent.constructor | dialog/agents/dialog_agent.py:66-68 | empty history, no last question, no asked questions |
| Dialogue.DialogueAgent.AddToHistory | dialog/agents/dialog_agent.py:704-721 | the new state is `Added` of the old one |
| Dialogue.DialogueAgent.GetInitialResponse | dialog/agents/dialog_agent.py:126-159 | returns the greeting, records it and makes it the last question |
| Dialogue.DialogueAgent.GetNextResponse | dialog/agents/dialog_agent.py:389-427 | result and new state are those of `NextResponse` |
| Dialogue.DialogueAgent.GetActionBasedResponse | dialog/agents/dialog_agent.py:457-489 | result and new state are those of the corrected `ActionBasedResponse` |
| Triage.Get | dialog/agents/triage_agent.py:224 | an absent key gives the default; a present key gives the value stored under it |
| Triage.SufficientFrom | dialog/agents/triage_agent.py:210-230 | sufficient exactly when some critical field is present, not blank and not "unknown" in any case |
| Triage.EmptyInsufficient | dialog/agents/triage_agent.py:78-80 | an empty record is never sufficient |
| Triage.Pick | dialog/agents/triage_agent.py:165-173 | the first category the answer names, in the order Red, Yellow, Green, Black; the answer itself when it names none |
| Triage.CleanPriority | dialog/agents/triage_agent.py:151-173 | corrected (whole-word matching): the result is a category or the cleaned answer |
| Triage.CleanSingleMention | dialog/agents/triage_agent.py:162-167 | corrected: an answer naming exactly one category as a word is read as that category |
| Triage.InjuredExampleClean | dialog/agents/triage_agent.py:162 | the example answer has no line breaks or outer blanks to remove |
| Triage.InjuredExampleLower | dialog/agents/triage_agent.py:166 | in the example's lower-case form the only "r" belongs to "injured" |
| Triage.CleanedPlain | dialog/agents/triage_agent.py:162 | an answer with no line breaks and no outer blanks is left as it is |
| Triage.InjuredNamesNoRed | dialog/agents/triage_agent.py:165-167 | "Yellow, injured" does not name Red as a whole word |
| Triage.MisreadInjuredAsRed | dialog/agents/triage_agent.py:165-167 | as written, "Yellow, injured" is read as Red |
| Triage.InjuredReadAsYellow | dialog/agents/triage_agent.py:165-167 | corrected, "Yellow, injured" is read as Yellow |
| Triage.Listed | dialog/agents/triage_agent.py:197-199 | at most one line per item, and every line is the bullet of a known item |
| Triage.ListedInOrder | dialog/agents/triage_agent.py:197-199 | listing two runs of items is listing each in turn, so the lines keep the items' order |
| Triage.ListedComplete | dialog/agents/triage_agent.py:197-199 | every known item gets its bullet line |
| Triage.PromptShape | dialog/agents/triage_agent.py:175-208 | the prompt starts with the instructions and the phase-1 header; the phase-2 header appears exactly when comfort data is given; its length counts the listed items |
| Triage.BuildTriagePrompt | dialog/agents/triage_agent.py:190-208 | the two loops build exactly the specified list of parts |
| Triage.AssignTriagePriority | dialog/agents/triage_agent.py:62-93 | a thin record gives Yellow without asking the model; otherwise the model is asked the joined prompt; the result is always a category, Yellow on a failed call or an answer naming none |
| Triage.Description | dialog/agents/triage_agent.py:232-249 | the "unknown" description is given exactly to a string that is not a category |
| Triage.AssignedPriorityDescribed | dialog/agents/triage_agent.py:232-273 | every category has a real description and none is both high priority and ambulatory |
| ActionPrompt.GetOr | dialog/helpers/action_decision_builder.py:76 | an absent key gives the default; a present key gives the value stored under it |
| ActionPrompt.NatToString | dialog/helpers/action_decision_builder.py:78 | the decimal text of a count is a non-empty run of digits |
| ActionPrompt.DigitsValueSnoc | dialog/helpers/action_decision_builder.py:78 | reading one more digit multiplies the value read so far by ten and adds the digit |
| ActionPrompt.NatToStringReadsBack | dialog/helpers/action_decision_builder.py:78 | the decimal text of a count reads back as that count |
| ActionPrompt.PercentFull | dialog/helpers/action_decision_builder.py:203-208 | over four or six fields, the rounded percentage shows 100 exactly when every field is assessed |
| ActionPrompt.ListingLines | dialog/helpers/action_decision_builder.py:66-71 | the first-phase listing has exactly the lines of the non-internal items; a line is ticked exactly when its value is known |
| ActionPrompt.FieldsWhere | dialog/helpers/action_decision_builder.py:76 | the assessed (or unknown) critical fields are exactly those whose value is (or is not) other than "unknown" |
| ActionPrompt.FieldsSplit | dialog/helpers/action_decision_builder.py:76-78 | assessed and unknown fields together count the critical fields, and none is unknown exactly when all are assessed |
| ActionPrompt.TransitionFactors | dialog/helpers/action_decision_builder.py:181-192 | "cannot walk" is a factor exactly when the mobility value contains "no" in any case |
| ActionPrompt.TransitionFactorsExact | dialog/helpers/action_decision_builder.py:181-192 | "trapped", "severe injuries" and "high distress" are factors exactly when their tests hold; there are no other factors, at most four |
| ActionPrompt.DangerRecommends | dialog/helpers/action_decision_builder.py:140-151 | with danger reported, the recommendation is evacuation exactly when the victim is reported able to walk, and abort-and-alert otherwise |
| ActionPrompt.TransitionRecommended | dialog/helpers/action_decision_builder.py:153-199 | without danger, the transition to phase 2 is recommended exactly when some transition factor holds |
| ActionPrompt.UnknownMobilityIsFactor | dialog/helpers/action_decision_builder.py:184-185 | an unknown mobility value counts as "cannot walk", since "unknown" contains "no" |
| ActionPrompt.UnconsciousMayEvacuateEarly | dialog/helpers/action_decision_builder.py:161-167 | "Unconscious" passes the consciousness test and "unknown" passes the not-trapped test, so such a victim is an early-evacuation candidate |
| ActionPrompt.StatusReportsCompletion | dialog/helpers/action_decision_builder.py:202-213 | the status ends with the completion line exactly when all six critical fields are assessed; otherwise it names the unknown ones |
| ActionPrompt.CriticalDiscoveries | dialog/helpers/action_decision_builder.py:231-240 | the medication line is present exactly when the value is set and not "no"; the same for allergies; the pregnancy line exactly when the value says yes; no other line, at most three |
| ActionPrompt.AmbulatoryEvacuationOffered | dialog/helpers/action_decision_builder.py:253-267 | for a walking victim with comfort data, evacuation is offered exactly when at least two of the three medical-critical fields are known |
| ActionPrompt.ComfortCompletion | dialog/helpers/action_decision_builder.py:286-298 | with comfort data, completion is recommended exactly when all four priority fields are known; without it there are no comfort lines |
| ActionPrompt.Preview | dialog/helpers/action_decision_builder.py:100 | content up to 150 characters is kept whole; longer content becomes its first 150 characters and "..." |
| ActionPrompt.HistoryLines | dialog/helpers/action_decision_builder.py:91-101 | no history gives no lines; otherwise a three-line header and one line per entry, in order |
| ActionPrompt.Phase2Section | dialog/helpers/action_decision_builder.py:81-88 | the phase-2 section appears exactly in phase 2 with comfort data |
| ActionPrompt.MiddleLines | dialog/helpers/action_decision_builder.py:53-58 | the state section starts with its header |
| ActionPrompt.MiddleLinesLayout | dialog/helpers/action_decision_builder.py:53-78 | the prompt opens with the six state lines, the phase-1 header comes next, and the completion line is present |
| ActionPrompt.MiddleLinesPhase2 | dialog/helpers/action_decision_builder.py:80-88 | in phase 2 with comfort data the phase-2 header is present |
| ActionPrompt.MiddleLinesHistory | dialog/helpers/action_decision_builder.py:90-101 | the history lines close the section, in order |
| ActionPrompt.PartsLayout | dialog/helpers/action_decision_builder.py:43-110 | the parts begin with the base prompt and end with the criteria and the output format lines |
| ActionPrompt.PromptShape | dialog/helpers/action_decision_builder.py:36-110 | the prompt begins with the file's text (the default prompt when the file is missing) and ends with the phase's criteria and the format lines |
| ActionPrompt.PromptContext | dialog/helpers/action_decision_builder.py:46-50 | the context block follows the base prompt exactly when a situation context is given |
| BackupDialog.AnalyzeResponse | dialog/helpers/backup_dialog.py:133-152 | a verdict exactly for English, French and Spanish; a reply containing the negative token ("no", or "non" in French) is negative whatever else it says |
| BackupDialog.YesIKnowIsNegative | dialog/helpers/backup_dialog.py:134-137 | "Yes, I know" is read as negative, because "know" contains "no" |
| BackupDialog.PlainYesIsPositive | dialog/helpers/backup_dialog.py:134-139 | an English reply with "yes" and no "no" is positive |
| BackupDialog.HasKeyCons | dialog/helpers/backup_dialog.py:26-36 | lookup in a dict with one more item at its head |
| BackupDialog.Put | dialog/helpers/backup_dialog.py:238-259 | after the assignment the key holds the value and every other key is unchanged |
| BackupDialog.SelectedNodes | dialog/helpers/backup_dialog.py:155-163 | when every marked field has a node, the scan completes and occupies exactly the nodes of the string-valued fields other than priority and consciousness; node 0 is never occupied |
| BackupDialog.SelectedStops | dialog/helpers/backup_dialog.py:157-163 | once the scan has raised on a prefix of the record, the rest of the record adds nothing |
| BackupDialog.SelectedStep | dialog/helpers/backup_dialog.py:156-163 | one field of the scan: an unmarked field adds nothing; a marked field with a node adds its one or two nodes; a marked field without one raises |
| BackupDialog.Above | dialog/helpers/backup_dialog.py:170-171 | a bound above every occupied node, so the skip loop ends |
| BackupDialog.NextFree | dialog/helpers/backup_dialog.py:167-171 | the first node from the start on that is not occupied |
| BackupDialog.SelectAdvances | dialog/helpers/backup_dialog.py:166-184 | the next node is after the last; away from the fixed jumps it is the smallest unoccupied one; mobility changes only after "yes" at node 3 or 4; node 6 leads to 8 exactly for a mobile victim |
| BackupDialog.StuckVictimWaits | dialog/helpers/backup_dialog.py:177-183 | "yes" at node 3 jumps to node 5 with mobility False, so node 6 then leads to 7 and never to the guiding node 8 |
| BackupDialog.FieldOfNodeInverts | dialog/helpers/backup_dialog.py:38-47 | a node's field is the one the field-to-node table maps to it |
| BackupDialog.WalkingDecidesAction | dialog/helpers/backup_dialog.py:249-255 | at node 4, "yes" records "Can walk" and "Guide victim"; anything else records "Cannot walk" and "Wait for responder" |
| BackupDialog.WrittenFrame | dialog/helpers/backup_dialog.py:237-259 | an answer changes no field outside its node's own |
| BackupDialog.StuckMeansWait | dialog/helpers/backup_dialog.py:242-246 | "yes" at node 3 records a stuck victim who cannot walk and must be waited for |
| BackupDialog.InjuriesKeepReply | dialog/helpers/backup_dialog.py:237-239 | node 1 stores the reply as the injuries and records the victim as conscious |
| BackupDialog.DangerAndPeopleCrossed | dialog/helpers/backup_dialog.py:256-259 | node 5 is filed under immediate danger but records people nearby, and node 6 the other way round |
| BackupDialog.MergePeopleOnly | dialog/helpers/backup_dialog.py:342-344 | a snapshot with only people nearby changes just that entry of the fresh record |
| BackupDialog.PeopleOnlyOccupiesSix | dialog/helpers/backup_dialog.py:155-163 | the fresh record with only people nearby known completes the scan and occupies node 6 alone |
| BackupDialog.PeopleOnlyDangerUnknown | dialog/helpers/backup_dialog.py:342-344 | in that record immediate danger is still unset |
| BackupDialog.SkipOccupiedSix | dialog/helpers/backup_dialog.py:167-184 | with only node 6 occupied, node 5 is followed by node 7 |
| BackupDialog.KnownPeopleSkipsDanger | dialog/helpers/backup_dialog.py:155-184 | a snapshot that knows only who is nearby occupies node 6, so the walk goes from node 5 to node 7 and immediate danger is never recorded |
| BackupDialog.Silences | dialog/helpers/backup_dialog.py:122-131 | the number of timed-out listens at the head of the reply queue |
| BackupDialog.Interact | dialog/helpers/backup_dialog.py:209-263 | something is said unless the node has no question (which raises); nodes 7 and 8 are said once, as the last message, and count as "positive" without listening; a stall means only timeouts were left; questions and occupied nodes are unchanged |
| BackupDialog.InteractHeard | dialog/helpers/backup_dialog.py:216-259 | after some timeouts the victim answers: the question and one repeat request per timeout are said, the reply is consumed with the timeouts and its verdict recorded at the node |
| BackupDialog.InteractSilent | dialog/helpers/backup_dialog.py:216-235 | a queue of nothing but timeouts is used up, with one repeat request per timeout, and the node stalls |
| BackupDialog.MergeOverwrites | dialog/helpers/backup_dialog.py:342-344 | after a merge a key of the snapshot holds its last value in the snapshot |
| BackupDialog.MergeKeepsOthers | dialog/helpers/backup_dialog.py:342-344 | a key the snapshot does not mention keeps its value and its presence |
| BackupDialog.Standby | dialog/helpers/backup_dialog.py:318-344 | standby leaves the questions, what was said and the reply queue unchanged; its outcome and new record are `StandbyOutcomes` |
| BackupDialog.Leading | dialog/helpers/backup_dialog.py:322-324 | the reports before the first one carrying "info" are all snapshots, and the one after them is a notice |
| BackupDialog.MergeConcat | dialog/helpers/backup_dialog.py:340-344 | merging one snapshot after another equals merging their items in a row |
| BackupDialog.StandbyOutcomes | dialog/helpers/backup_dialog.py:318-344 | standby waits exactly when no report is a notice, and then holds the merge of all snapshots; "fail_at_start" takes over with no message, the merged record and the occupied nodes untouched; any other notice records the victim as conscious, adds the nodes of the answered fields to the occupied ones, and takes over with the notice's data exactly when every answered field has a node, crashing otherwise |
| BackupDialog.StandbyRecords | dialog/helpers/backup_dialog.py:340-344 | after standby, a field other than consciousness holds its last value in the snapshots before the first notice, or keeps its earlier value and presence when none names it |
| BackupDialog.LoadQuestions | dialog/helpers/backup_dialog.py:285-298 | every loaded question sits at a node some field maps to; where each lands is `LoadQuestionsAt` and `LoadQuestionsKeeps` |
| BackupDialog.Scanned | dialog/helpers/backup_dialog.py:285-292 | the scan reads the items up to, not including, the first key that is not a field of the record |
| BackupDialog.Store | dialog/helpers/backup_dialog.py:294-298 | storing one item touches only the nodes of its field |
| BackupDialog.StoreAt | dialog/helpers/backup_dialog.py:294-298 | a node the item's field maps to, with a fitting shape, takes the item's text; every other node keeps its entry or its absence |
| BackupDialog.PairNodes | dialog/helpers/backup_dialog.py:38-47 | the only field with two nodes is the robot's action, at nodes 7 and 8 |
| BackupDialog.LoadQuestionsAt | dialog/helpers/backup_dialog.py:285-298 | a node takes the text of the last well-shaped item for its field read before the scan stops, so a later item overwrites an earlier one; for the action pair that is the first text at node 7 and the second at node 8, which the walk reads at :209-215 |
| BackupDialog.LoadQuestionsKeeps | dialog/helpers/backup_dialog.py:285-298 | a node that no well-shaped item read before the scan stops names keeps its earlier entry, or stays absent |
| BackupDialog.LoadPlacesQuestion | dialog/helpers/backup_dialog.py:293-295 | a field's question lands at its node, where the tree asks it |
| BackupDialog.LoadActionPair | dialog/helpers/backup_dialog.py:296-298 | the robot's action pair alone stores its first text at node 7 and its second at node 8 and nothing else |
| BackupDialog.Walk | dialog/helpers/backup_dialog.py:361-365 | the walk keeps the questions and visits at least one node |
| BackupDialog.WalkUnfold | dialog/helpers/backup_dialog.py:361-365 | one pass of the loop: the selected node lies after the last; a failure or node 7 or 8 ends the walk there; any other answer goes on from the selected node, which lies before 7 |
| BackupDialog.WalkAdvance | dialog/helpers/backup_dialog.py:361-365 | after one pass of the loop the visited nodes grow by the selected node, and the pass either ends the whole walk or leaves a rest that completes it |
| BackupDialog.WalkEnds | dialog/helpers/backup_dialog.py:361-365 | the walk visits at least one node, in increasing order after the start, and a normal end is at node 7 or 8 with a question |
| BackupDialog.WalkShape | dialog/helpers/backup_dialog.py:349-367 | visited nodes strictly increase, all after the start; the walk ends normally exactly when the last node is 7 or 8 and has a question, and no earlier node is |
| BackupDialog.ResumeWalk | dialog/helpers/backup_dialog.py:356-365 | given the answer to start from: the questions are kept; visited nodes increase after the start; a normal end is at node 7 or 8 with a question; while the first message is awaited, an empty queue stalls at once with nothing asked, and only then |
| BackupDialog.Resumption | dialog/helpers/backup_dialog.py:353-367 | with the primary's last reply analysed in place of the given last answer, the same guarantees: the questions are kept; visited nodes increase after the start; a normal end is at node 7 or 8 with a question; while the first message is awaited, an empty queue stalls at once with nothing asked, and only then |
| BackupDialog.Interaction | dialog/helpers/backup_dialog.py:349-367 | the questions are the loaded ones; the tree is walked exactly when standby hands over, and nothing is visited otherwise; visited nodes increase after the start |
| BackupDialog.MergeItems | dialog/helpers/backup_dialog.py:343-344 | the loop writes the snapshot over the record as the merge function does |
| BackupDialog.BackupInteraction.constructor | dialog/helpers/backup_dialog.py:22-65 | the fresh record, no questions, nothing occupied or said, in the background, awaiting the first message |
| BackupDialog.BackupInteraction.ReadQuestionFile | dialog/helpers/backup_dialog.py:265-316 | only the questions change, to those loaded from the file's items |
| BackupDialog.BackupInteraction.IdentifySelectedNodes | dialog/helpers/backup_dialog.py:155-163 | the selected nodes are appended to the occupied ones; the result says whether the scan completed |
| BackupDialog.BackupInteraction.SelectNode | dialog/helpers/backup_dialog.py:166-184 | the skip loop and the jumps return what `Select` specifies |
| BackupDialog.BackupInteraction.InteractNode | dialog/helpers/backup_dialog.py:209-263 | the listen loop and the recording give what `Interact` specifies |
| BackupDialog.BackupInteraction.OnStandby | dialog/helpers/backup_dialog.py:318-344 | the report loop gives what `Standby` specifies |
| BackupDialog.BackupInteraction.WalkTree | dialog/helpers/backup_dialog.py:361-365 | the loop gives what `Walk` specifies (whose shape `WalkShape` states) |
| BackupDialog.BackupInteraction.Resume | dialog/helpers/backup_dialog.py:353-367 | the new state, ending and visited nodes are those of `Resumption` from the old state; the walk always ends |
| BackupDialog.BackupInteraction.ResumeFrom | dialog/helpers/backup_dialog.py:356-365 | the new state, ending and visited nodes are those of `ResumeWalk` from the old state and the given answer |
| BackupDialog.BackupInteraction.InteractionTree | dialog/helpers/backup_dialog.py:349-367 | standby outcome, new state, ending and visited nodes are those of `Interaction` from the old state |
| PhaseControl.FromRaw | dialog/helpers/phase_controller.py:52-59 | the decision keeps its raw dict, and each missing field takes its default (continue, no alert, routine, empty reasoning, no next phase, no equipment) |
| PhaseControl.FromAgentDecision | dialog/helpers/phase_controller.py:52-59 | a decision read back from the action agent's dict carries the agent's own six fields |
| PhaseControl.EmptyDecisionDefaults | dialog/helpers/phase_controller.py:52-83 | an empty dict continues the phase, is not an emergency and raises no alert |
| PhaseControl.AbortOverride | dialog/helpers/phase_controller.py:813-848 | an abort stands unless the danger is only an unstable structure with none of the ten active-danger keywords, in which case the robot moves to phase 2 |
| PhaseControl.FireIsNeverOverridden | dialog/helpers/phase_controller.py:818-838 | "unstable walls, fire" is still an abort |
| PhaseControl.TransitionGate | dialog/helpers/phase_controller.py:861-896 | a recommended transition goes through exactly when mobility is known and at least three phase-1 turns have passed; otherwise the phase goes on |
| PhaseControl.Phase1OtherActions | dialog/helpers/phase_controller.py:851-913 | evacuation exits with no next phase; continue, complete and unknown actions keep the phase going |
| PhaseControl.Phase2Precedence | dialog/helpers/phase_controller.py:915-969 | in phase 2 an abort or emergency wins, then evacuation, then completion; a transition or any other action keeps the conversation going |
| PhaseControl.HandlersWellFormed | dialog/helpers/phase_controller.py:803-969 | both handlers give a reason exactly when they exit; only a transition names phase 2; phase 2 never names a next phase |
| PhaseControl.EntryPointRule | dialog/helpers/phase_controller.py:220-245 | phase 2 is the entry point exactly when a non-empty prior assessment has all five critical fields known; otherwise phase 1 |
| PhaseControl.StepFor | dialog/helpers/phase_controller.py:1103-1114 | for a hashable action: one outside the map gives "CONTINUE_PHASE"; otherwise the step mapped to it |
| PhaseControl.NextStepMapping | dialog/helpers/phase_controller.py:1095-1115 | there is no step (the lookup raises) exactly when the action is a list or dict; no action, or a hashable one not among the seven mapped, continues the phase; "abort_and_alert" gives "ABORT_AND_ALERT" |
| PhaseControl.ExtendsTrans | dialog/helpers/phase_controller.py:376-607 | the "only appends, counters move together, failover stays" relation composes across turns |
| PhaseControl.GetResponse | dialog/helpers/phase_controller.py:615-692 | listening changes only the log and the listening state; a reply heard while a phase runs is logged under the current phase and turn, and nothing else is logged |
| PhaseControl.EvaluateAction | dialog/helpers/phase_controller.py:743-801 | no decision exactly when the action agent fails, and then nothing changes; a decision goes on the audit trail with the current turn and phase and carries the agent's action |
| PhaseControl.RaiseAlert | dialog/helpers/phase_controller.py:1128-1145 | exactly one alert goes out when the decision asks for one, none otherwise; nothing else changes; the alert carries the current phase and turn, the decision's urgency, reasoning and equipment (with their defaults), the first-phase record in phase 1 and the comfort record in phase 2, each empty outside its phase |
| PhaseControl.HandleDecision | dialog/helpers/phase_controller.py:1084-1121 | the decision is audited first; the step is the mapped one, none when the lookup raises; an alert goes out exactly when there is a step and the decision asks for one; nothing else changes |
| PhaseControl.AgentDecisionsHaveStep | dialog/helpers/phase_controller.py:1103-1115 | a decision the action agent hands back always has a step: its primary action is never a list or dict |
| PhaseControl.AssessReply | dialog/helpers/phase_controller.py:694-719 | fails exactly when the assessment agent's analysis fails; otherwise only the assessment changes |
| PhaseControl.HandlerExit | dialog/helpers/phase_controller.py:466-471 | every exit of the phase-1 handler, with either default next phase, is one of the allowed phase-1 endings |
| PhaseControl.LoopExits | dialog/helpers/phase_controller.py:433-437 | the no-response and max-turns exits are allowed phase-1 endings, both naming phase 2 |
| PhaseControl.Final1 | dialog/helpers/phase_controller.py:481-492 | the closing decision always ends the phase, never with a model failure; it crashes exactly when the action agent fails |
| PhaseControl.NextQuestion1 | dialog/helpers/phase_controller.py:971-1004 | the backup system is called in exactly on a model failure; a question is asked only while the assessment is incomplete, is non-empty and is logged under the current turn |
| PhaseControl.Respond1 | dialog/helpers/phase_controller.py:441-485 | the backup system is called in exactly on a model failure; every exit is an allowed ending; the comfort record and counters are untouched |
| PhaseControl.Turn1Step | dialog/helpers/phase_controller.py:420-489 | a turn counts one phase-1 turn, says the question first, and its exits are allowed endings |
| PhaseControl.Run1 | dialog/helpers/phase_controller.py:420-502 | the loop never runs past its turn budget, ends in an allowed way, calls in the backup system exactly on a model failure, and ends by "max_turns_reached" only with the budget used up |
| PhaseControl.Phase1 | dialog/helpers/phase_controller.py:376-502 | phase 1 logs the greeting first, the total turn count moves with the phase-1 count, the budget holds, and the ending is an allowed one |
| PhaseControl.Handler2Exit | dialog/helpers/phase_controller.py:566-570 | every exit of the phase-2 handler is an allowed phase-2 ending |
| PhaseControl.UpdateComfort | dialog/helpers/phase_controller.py:721-741 | only the comfort record changes: the assessed set is the analysis's, the needs are the analysis merged in, and a known need stays known with its old text as a prefix |
| PhaseControl.NextMessage2 | dialog/helpers/phase_controller.py:1006-1034 | an empty message ends the phase as complete; a message is said only while the comfort record is incomplete, and is logged under the current turn |
| PhaseControl.Respond2 | dialog/helpers/phase_controller.py:561-586 | the first-phase record and the counters are untouched; every exit is an allowed ending |
| PhaseControl.Turn2Step | dialog/helpers/phase_controller.py:545-586 | a turn counts one phase-2 turn, says the message first, and its exits are allowed endings |
| PhaseControl.Run2 | dialog/helpers/phase_controller.py:545-607 | the loop never runs past its budget, ends in an allowed way, and ends by "max_turns_reached" only with the budget used up |
| PhaseControl.Phase2 | dialog/helpers/phase_controller.py:504-607 | phase 2 logs the opening message first, keeps the first-phase record, and its turn count moves with the total |
| PhaseControl.WorkflowFailover | dialog/helpers/phase_controller.py:288-292 | the backup system is called in exactly when the workflow gives no result, and that happens only when starting in phase 1 |
| PhaseControl.WorkflowCounters | dialog/helpers/phase_controller.py:247-344 | from consistent counters, the total turn count stays the sum of the phase counts and neither phase passes its budget |
| PhaseControl.PhasesCounters | dialog/helpers/phase_controller.py:276-320 | the same counter facts for the phases alone, before the rescue report |
| PhaseControl.Report | dialog/helpers/phase_controller.py:337-350 | results carrying a phase's reason keep it exactly when the report does not raise, and then unchanged; otherwise the reason becomes the error; which phases ran is kept |
| PhaseControl.WorkflowReport | dialog/helpers/phase_controller.py:337-350 | the workflow's state is that of its phases; a run with results whose audit trail breaks the report ends with the error; a run keeps a phase's reason exactly when its phases gave one and the report does not raise |
| PhaseControl.EquipmentInReport | dialog/helpers/phase_controller.py:1239-1240 | equipment given as a list holding a number breaks the report; a list of names, a single name or an empty list does not |
| PhaseControl.WorkflowPhases | dialog/helpers/phase_controller.py:267-311 | the entry phase is that of the prior assessment; entering in phase 2 takes the prior assessment over and skips phase 1; from phase 1, phase 2 runs exactly when phase 1 did not abort or evacuate |
| PhaseControl.PhaseController.constructor | dialog/helpers/phase_controller.py:124-166 | no phase, zero counters, empty logs and alerts, the agents it was given |
| PhaseControl.PhaseController.GetVictimResponse | dialog/helpers/phase_controller.py:615-692 | the retry loop gives what `GetResponse` specifies |
| PhaseControl.PhaseController.EvaluateActionDecision | dialog/helpers/phase_controller.py:743-801 | gives what `EvaluateAction` specifies |
| PhaseControl.PhaseController.AlertCommandCenter | dialog/helpers/phase_controller.py:1123-1181 | exactly one alert, with the current phase and turn and the running phase's record, is added and nothing else changes |
| PhaseControl.PhaseController.HandleActionDecision | dialog/helpers/phase_controller.py:1084-1121 | gives what `HandleDecision` specifies |
| PhaseControl.PhaseController.UpdateAssessment | dialog/helpers/phase_controller.py:694-719 | success exactly when the analysis succeeds, with the assessment updated; on failure the backup system is called in |
| PhaseControl.PhaseController.FinalDecision | dialog/helpers/phase_controller.py:481-492 | gives what `Final1` specifies |
| PhaseControl.PhaseController.NextPhase1Question | dialog/helpers/phase_controller.py:971-1004 | gives what `NextQuestion1` specifies |
| PhaseControl.PhaseController.RespondPhase1 | dialog/helpers/phase_controller.py:441-492 | gives what `Respond1` specifies |
| PhaseControl.PhaseController.Phase1Turn | dialog/helpers/phase_controller.py:420-492 | gives what `Turn1Step` specifies |
| PhaseControl.PhaseController.ExecutePhase1 | dialog/helpers/phase_controller.py:376-502 | the loop gives what `Phase1` specifies |
| PhaseControl.PhaseController.UpdateComfortAssessment | dialog/helpers/phase_controller.py:721-741 | gives what `UpdateComfort` specifies |
| PhaseControl.PhaseController.NextPhase2Message | dialog/helpers/phase_controller.py:1006-1034 | gives what `NextMessage2` specifies |
| PhaseControl.PhaseController.RespondPhase2 | dialog/helpers/phase_controller.py:561-595 | gives what `Respond2` specifies |
| PhaseControl.PhaseController.Phase2Turn | dialog/helpers/phase_controller.py:545-595 | gives what `Turn2Step` specifies |
| PhaseControl.PhaseController.ExecutePhase2 | dialog/helpers/phase_controller.py:504-607 | the loop gives what `Phase2` specifies |
| PhaseControl.PhaseController.ExecuteFullWorkflow | dialog/helpers/phase_controller.py:247-350 | gives what `Workflow` specifies: the phases, then the rescue report, whose raise turns the exit reason into the error |
| PhaseControl.PhaseController.ExecutePhases | dialog/helpers/phase_controller.py:276-320 | gives what `RunPhases` specifies |
| PhaseControl.PhaseController.GenerateRescueReport | dialog/helpers/phase_controller.py:1236-1241 | the decision log raises exactly when some audited decision carries truthy equipment that is not a string, a dict or a list of strings |
| Listening.ListenHeard | dialog/helpers/phase_controller.py:624-670 | a reply with text is the first non-empty item within the attempts; exactly the items up to it are consumed, with one retry prompt said per failed attempt before it |
| Listening.ListenSilent | dialog/helpers/phase_controller.py:624-670 | when every attempt fails, each item the attempts reach was empty and is consumed, and one retry prompt fewer than the attempts is said |
| Listening.ListenKeepsSaid | dialog/helpers/conversation_manager.py:129-165 | listening only appends retry prompts to what was said |
| Conversation.GetReply | dialog/helpers/conversation_manager.py:119-165 | the first reply with text within three attempts, with a retry prompt said after each failed attempt but the last; "" with exactly two retry prompts said when every attempt fails; nothing but the queue and the spoken lines changes |
| Conversation.ProcessResponse | dialog/helpers/conversation_manager.py:167-214 | the victim's line goes into the dialogue history; the result is `False` exactly when the analysis fails, which hands over to the backup system; otherwise the assessment is updated with the analysis and the result says complete exactly when the assessment is complete, with no next field exactly then |
| Conversation.Respond | dialog/helpers/conversation_manager.py:216-271 | no line exactly when the action decision fails or, for an incomplete assessment, the dialogue model fails, both handing over; a complete assessment gives the closing message for the decided action; otherwise the model's cleaned line, appended to the history |
| Conversation.Close | dialog/helpers/conversation_manager.py:358-407 | the line is recorded, flagged last exactly when the turn stops; in the audio-only mode the turn goes on; otherwise it stops exactly when the assessment is complete, the turn limit is reached or there is no next field |
| Conversation.Answer | dialog/helpers/conversation_manager.py:337-407 | a failed model call says nothing more and hands over; otherwise exactly one line is said, flagged last exactly when the turn stops, and outside the audio-only mode the turn stops exactly when the assessment is complete or the limit is reached; the assessment keeps its fields |
| Conversation.Turn | dialog/helpers/conversation_manager.py:306-407 | the turn count goes up by one; the conversation has handed over afterwards exactly when it had before or the model call fails; the assessment keeps its fields; what was said is kept and only grows |
| Conversation.TurnShape | dialog/helpers/conversation_manager.py:306-407 | only the last line said can be flagged last, and is exactly when the turn stops outside the audio-only mode with a line other than the no-reply closing; a turn that goes on outside the audio-only mode leaves the assessment incomplete below the turn limit; a stop is the no-reply closing, a complete assessment or the limit |
| Conversation.RunTurns | dialog/helpers/conversation_manager.py:458-463 | the count never passes the limit and grows while below it; the run hands over exactly when a turn failed; what was said before is kept |
| Conversation.FinalLabels | dialog/helpers/conversation_manager.py:467-483 | `can_walk` and `stuck_trapped` are replaced by `mobility` ("can walk" exactly when the victim can walk; otherwise "can't walk", with "- victim is stuck" when stuck) and `robot_action` (guide to safety or wait for a responder); every other field is kept |
| Conversation.Start | dialog/helpers/conversation_manager.py:416-442 | the greeting is said and becomes the last robot question exactly when the language is supported; nothing else changes |
| Conversation.ConverseOutcome | dialog/helpers/conversation_manager.py:444-483 | with the corrected action-based response: the run raises exactly for an unsupported language, ends with no result exactly when it handed over, takes at most `max_turns` turns, and otherwise returns the labelled final assessment |
| Conversation.ConversationManager.constructor | dialog/helpers/conversation_manager.py:32-82 | the manager starts at turn 0 with nothing said and no hand-over |
| Conversation.ConversationManager.GetVictimResponseWithRetry | dialog/helpers/conversation_manager.py:119-165 | the retry loop gives what `GetReply` specifies |
| Conversation.ConversationManager.ProcessVictimResponse | dialog/helpers/conversation_manager.py:167-214 | gives what `ProcessResponse` specifies |
| Conversation.ConversationManager.DecideRobotAction | dialog/helpers/conversation_manager.py:250-271 | the parsed decision; a failed one hands over and nothing else changes |
| Conversation.ConversationManager.GenerateRobotResponse | dialog/helpers/conversation_manager.py:216-248 | gives what `Respond` specifies |
| Conversation.ConversationManager.ExecuteConversationTurn | dialog/helpers/conversation_manager.py:306-407 | gives what `Turn` specifies |
| Conversation.ConversationManager.StartConversation | dialog/helpers/conversation_manager.py:416-442 | raises exactly for an unsupported language, leaving the state unchanged; otherwise gives what `Start` specifies |
| Conversation.ConversationManager.RunTurnLoop | dialog/helpers/conversation_manager.py:458-463 | the loop gives what `RunTurns` specifies |
| Conversation.ConversationManager.RunFullConversation | dialog/helpers/conversation_manager.py:444-483 | gives what `Converse` specifies |
| Mqtt.Enqueue | dialog/helpers/mqtt_manager.py:279-290 | the message goes last; a full queue drops its oldest entry; what stays of the old queue is its newest part in order, and a queue within the bound of 100 stays within it |
| Mqtt.EnqueueAllKeepsNewest | dialog/helpers/mqtt_manager.py:279-290 | queueing any messages into a queue within its bound keeps exactly the newest 100 of everything queued, in order |
| Mqtt.EnqueueKeepsNewest | dialog/helpers/mqtt_manager.py:281-283 | one message queued keeps the newest 100 |
| Mqtt.NewestAppend | dialog/helpers/mqtt_manager.py:281-290 | trimming to the newest entries before appending changes nothing once the result is trimmed again |
| Mqtt.Accepted | dialog/helpers/mqtt_manager.py:300-313 | how many queued messages are sent: every attempt before that many succeeds and the next one, if any message is left, fails |
| Mqtt.Packets | dialog/helpers/mqtt_manager.py:302-305 | one packet per queued message |
| Mqtt.MqttManager.constructor | dialog/helpers/mqtt_manager.py:49-54 | a new manager is disconnected with an empty queue |
| Mqtt.MqttManager.QueueMessage | dialog/helpers/mqtt_manager.py:279-290 | the queue becomes what `Enqueue` specifies and stays within its bound; nothing else changes |
| Mqtt.MqttManager.ProcessMessageQueue | dialog/helpers/mqtt_manager.py:292-313 | the accepted front of the queue is sent in order and removed; the first failure stays at the front |
| Mqtt.MqttManager.Publish | dialog/helpers/mqtt_manager.py:246-277 | true exactly when offline or the client accepted the packet; online the packet is sent when accepted and the queue is untouched; offline it is queued |
| Mqtt.MqttManager.OnConnect | dialog/helpers/mqtt_manager.py:56-81 | connected exactly for code 0, which drains the queue as `ProcessMessageQueue` does; any other code changes nothing else |
| Mqtt.MqttManager.OnDisconnect | dialog/helpers/mqtt_manager.py:83-91 | disconnected, whatever the code; the queue is kept |
| Config.Configure | dialog/helpers/config_manager.py:64-97 | without arguments every setting is its default; each attribute present overrides its setting, the language both the audio's and the model's; every other setting keeps its default |
| Config.ConfigureGiven | dialog/helpers/config_manager.py:64-97 | with arguments, each record is its default with every given attribute applied, the language to both the audio and the model settings |
| Config.LocalizePaths | dialog/helpers/config_manager.py:110-112 | for a language other than English the dialogue and comfort prompts come from `prompts/<language>/`; English changes nothing; no other setting changes |
| Config.LocalizePathsIdempotent | dialog/helpers/config_manager.py:110-112 | localizing the paths twice is localizing them once |
| Config.ParsedArgsValidate | dialog/helpers/config_manager.py:123-152 | arguments within the parser's choices, and the defaults, always validate |
| Config.UnknownEmpathyInvalid | dialog/helpers/config_manager.py:130-133 | an empathy level outside low, medium and high fails validation |
| Config.ConfigManager.constructor | dialog/helpers/config_manager.py:57-62 | every record at its defaults |
| Config.ConfigManager.FromArgs | dialog/helpers/config_manager.py:64-97 | the new manager holds what `Configure` specifies |
| Config.ConfigManager.AudioConfigDict | dialog/helpers/config_manager.py:99-105 | exactly the empathy level, speech model and language |
| Config.ConfigManager.ModelConfigDict | dialog/helpers/config_manager.py:107-121 | the model settings are localized in place as `LocalizePaths` specifies, nothing else changes, and every model setting is returned under its field name |
| Config.ConfigManager.ValidateConfiguration | dialog/helpers/config_manager.py:123-152 | valid exactly when the empathy level and the speech model are among the accepted values; missing prompt files only warn |

## Left out

- Every HTTP call to the language model: a `Reply` parameter stands for its outcome (status and text, or a transport failure). JSON decoding is the `parse` parameter, because both are outside calls.
- Console output and timing (`print`, `time.time`, latencies, `timing_data`, percentages). Timing never affects a decision. The phase controller's verbose prints (on by default, dialog/helpers/phase_controller.py:107) can: the equipment `', '.join` (dialog/helpers/phase_controller.py:797-798), the `"..." + decision.reasoning` prints (dialog/helpers/phase_controller.py:839, 850, 890) and the alert's colour lookup and `urgency.upper()` (dialog/helpers/phase_controller.py:1165-1174) raise `TypeError` or `AttributeError` when those decision fields are not strings. The model does not capture those raises; it models the controller with its prints off. The rescue report's equipment join (dialog/helpers/phase_controller.py:1239-1240) runs whatever the verbose flag is, and is modelled: see `PhaseControl.Report`.
- Reading prompt, empathy-instruction and question files: the file contents are outside data. The texts built from them are not modelled: `build_prompt`, `build_action_prompt`, `_build_assessment_prompt`, `_build_comfort_prompt`, `_build_needs_analysis_prompt`, `_load_empathy_instructions`, `_get_default_empathy_instructions`, `_get_default_action_prompt`. Only the prompts that carry decision rules (triage, action decision) are modelled.
- Plain getters and setters with no logic: `get_assessment`, `get_special_needs`, `get_distress_level`, `get_conversation_history`, `get_last_robot_question`, `set_situation_context`, `set_victim_agent`, `update_gps_location`, `get_assessment_status`, `get_assessment_summary`, `get_critical_needs_summary`. The status fields the drivers read (complete, next field) are modelled directly.
- `get_next_response_with_action` is a plain dispatcher. The conversation model calls the action-based response directly.
- `_get_fallback_question` is never called by the modelled code.
- The backup dialogue's MQTT traffic (`on_connect`, `on_stt_message`, the `speak` and `send_status_to_c2` payloads, `wait_for_first_message`): speech is recorded as a sequence of spoken lines, and a listen that times out is "No response" in the reply queue.
- Backup dialogue: node 5 and node 6 write the crossed fields exactly as the code does. This is modelled as written and has no corrected version, because the evidently intended mapping is not certain.
- Concurrency: the event loop, `report_queue`, the cancel event, threads and locks. `change_to_backup_system` is modelled only as the recorded hand-over flag.
- Blocking queues with timeouts (`stt_queue.get`): what is heard is a finite sequence of strings, with "" for a failed attempt. `wait_for_victim` (dialog/helpers/phase_controller.py:295, 609-613; dialog/helpers/conversation_manager.py:407-411, 455) takes one message off the queue before the modelled run starts; that message and its `victim_id` are not modelled, and the heard sequence starts after it.
- Conversation manager:
  - an action that is not a string reaches the dialogue agent as "";
  - in the audio-only mode the spoken lines are recorded with the last flag false;
  - the `send_message_to_cc` print has no effect and is left out;
  - `_build_action_prompt` and `get_conversation_summary` are not modelled;
  - the turn inputs must be at least as many as the turns: one model exchange per turn is an input, not a limit on the source.
- Phase controller:
  - the victim-agent test mode, `_robot_speak`'s MQTT payload, timing, `_perform_final_triage` and `_print_final_summary` are not modelled; the final triage catches every failure of its model call (dialog/agents/triage_agent.py) and so never changes the exit reason;
  - of `generate_rescue_report` only the raise of its decision log is modelled (`ReportRaises`): the report text is not, and a raise there sets the exit reason to the error, as the handler at dialog/helpers/phase_controller.py:345-350 does;
  - the command-center alert is recorded as an entry in an alerts sequence instead of an MQTT message; its timestamp is not modelled;
  - the dialogue and comfort agents' per-turn texts are inputs, and the speech-recognition queue is a sequence;
  - the turn sequences must cover the remaining turns; this is an input size, not a limit on the source.
- Text: `Lower`, `Strip` and `IsSpace` know only ASCII letters and ASCII white space. Python's `.lower()` and `.strip()` also fold and strip non-ASCII characters ("SÍ" becomes "sí", a no-break space is stripped). Every `.lower()` and `.strip()` test of the model is therefore exact for ASCII text only; this includes BackupDialog.AnalyzeResponse, ComfortAgent.DistressOf, the triage category match and the action prompt's factor tests.
- Analyze (`Assessment.Analyze`): uses the corrected value test of the first Findings row (a value that is "unknown" once stripped is dropped). As written, " unknown" is stored as "unknown"; `Assessment.ValidatedAsWrittenStoresUnknown` shows it.
- AnalyzeYieldsCleanUpdates (`Assessment.AnalyzeYieldsCleanUpdates`): states the corrected value test of the first Findings row, not the code as written.
- ValidateUpdates (`Assessment.AssessmentAgent.ValidateUpdates`): runs the corrected value test of the first Findings row.
- AnalyzeVictimResponse (`Assessment.AssessmentAgent.AnalyzeVictimResponse`): returns the analysis with the corrected value test of the first Findings row.
- AnalyzeNeeds (`ComfortAgent.AnalyzeNeeds`): uses the corrected value test of the second Findings row. As written, " unknown" is stored as "unknown"; `ComfortAgent.NeedsValidatedAsWrittenStoresUnknown` shows it.
- AnalyzeSpecialNeeds (`ComfortAgent.ComfortAgentObject.AnalyzeSpecialNeeds`): returns the analysis with the corrected value test of the second Findings row.
- GetActionBasedResponse (`Dialogue.DialogueAgent.GetActionBasedResponse`): follows the corrected `ActionBasedResponse` of the fourth Findings row. As written, a failed model call appends `False` to the history and then raises `TypeError`; `Dialogue.ActionBasedResponseAsWritten` models that.
- ActionBasedResponseAsWritten (`Dialogue.ActionBasedResponseAsWritten`): the `False` entry appended to the history just before the raise is not recorded, because a history entry's content is text.
- Respond (`Conversation.Respond`): uses the corrected `ActionBasedResponse`, so a failed dialogue call hands over to the backup system. As written (dialog/agents/dialog_agent.py:484-485, 715) that call raises `TypeError` instead.
- GenerateRobotResponse (`Conversation.ConversationManager.GenerateRobotResponse`): the same correction as `Conversation.Respond`.
- ConverseOutcome (`Conversation.ConverseOutcome`): the same correction; a run that would raise `TypeError` from a failed dialogue call ends by handing over instead.
- ProcessResponse (`Conversation.ProcessResponse`): the assessment analysis uses the corrected value test of the first Findings row.
- ProcessVictimResponse (`Conversation.ConversationManager.ProcessVictimResponse`): the same correction as `Conversation.ProcessResponse`.
- AssessReply (`PhaseControl.AssessReply`): the assessment analysis uses the corrected value test of the first Findings row.
- UpdateAssessment (`PhaseControl.PhaseController.UpdateAssessment`): the same correction as `PhaseControl.AssessReply`.
- AssignTriagePriority (`Triage.AssignTriagePriority`): reads the category as a whole word, the corrected reading of the third Findings row. As written, the substring match reads "Yellow, injured" as Red; `Triage.MisreadInjuredAsRed` shows it.
- MergeNeed (`ComfortAssessment.MergeNeed`): only string values are merged, because the needs record holds text. The source also stores a truthy non-string value the model returns (a number, a list, a dict), or joins it to the old text with "; " through string formatting; the model ignores such a value.
- MergeNeeds (`ComfortAssessment.MergeNeeds`): the same restriction to string values as `ComfortAssessment.MergeNeed`.
- UpdateNeeds (`ComfortAssessment.UpdateNeeds`): the same restriction to string values as `ComfortAssessment.MergeNeed`.
- UpdateSpecialNeeds (`ComfortAssessment.ComfortAssessmentAgent.UpdateSpecialNeeds`): the same restriction to string values as `ComfortAssessment.MergeNeed`.
- LoadQuestions (`BackupDialog.LoadQuestions`): a question whose shape does not fit its field is not stored. That is a single text for the closing pair, or a pair for an ordinary node. The source stores it anyway and later speaks a single character or the whole list.
- ExecuteFullWorkflow (`PhaseControl.PhaseController.ExecuteFullWorkflow`): states the comfort agent's invariant afterwards but not the assessment agent's, because entering at phase 2 loads the prior assessment, whose keys may differ from the template.
- ExecutePhases (`PhaseControl.PhaseController.ExecutePhases`): the same as ExecuteFullWorkflow: no assessment-agent invariant afterwards.
- MQTT manager:
  - `connect`, `reconnect`, `_recreate_client`, `is_broker_available`, `disconnect`, `cleanup`, `get_status`, `subscribe` and the message handlers are left out (sockets, threads and busy waits);
  - the JSON payload is a string, and exceptions from `json.dumps` are not modelled;
  - the client's answer to each publish attempt is an input, and the answers must cover the queue;
  - the queueing time is a parameter.
- Configuration:
  - the `OLLAMA_URL` environment variable is a parameter;
  - the missing-prompt-file warnings are left out; only the verdict is modelled, and the warnings never change it;
  - `setup_argument_parser` and `get_situation_context_from_user` are not modelled. The parser's choices appear only as the precondition of `ParsedArgsValidate`;
  - the location and audio-tuning values are carried as data only;
  - an attribute the namespace lacks is `None` in `Args`; an attribute present with the Python value `None` is not representable, and the argument parser never produces one.

## Findings

| source | as written | input that shows it | evidently intended | confidence | as-written member | corrected member |
|---|---|---|---|---|---|---|
| dialog/agents/assessment_agent.py:177-188 | the "unknown" test lower-cases the value before stripping it, then stores the stripped value | " unknown" for a known `breathing` field: it is stored as "unknown" and the field stays assessed | drop any value that is "unknown" once stripped, so a known field never becomes "unknown" again | not executed | Assessment.ValidatedAsWrittenStoresUnknown | Assessment.ValidateThenUpdateMonotone |
| dialog/agents/comfort_agent.py:350-357 | the same test order in the needs validation | " unknown" for a known need: it is stored as "unknown" and stays assessed | drop it, as above | not executed | ComfortAgent.NeedsValidatedAsWrittenStoresUnknown | ComfortAgent.AnalyzeThenUpdateMonotone |
| dialog/agents/triage_agent.py:165-167 | a category is found by substring match, Red first | "Yellow, injured": "red" occurs inside "injured", so the answer is read as Red | match the category as a whole word | not executed | Triage.MisreadInjuredAsRed | Triage.InjuredReadAsYellow |
| dialog/agents/dialog_agent.py:484-489 | a failed model call gives `False`, which is passed to `add_to_history`; the `'?' in text` test there raises | any reply that is not a successful answer, for an incomplete assessment | return `False` without touching the history, so the caller can hand over to the backup system | not executed | Dialogue.ActionBasedResponseAsWritten | Dialogue.ActionBasedResponse |

=== FILE: action_agent.dfy ===
/**
 * The action agent: it asks the language model for the robot's next
 * action and turns the reply into a decision record. A transport failure
 * gives `False` (None here); an unreadable reply gives the safe default
 * decision; a readable one is normalised, filling every missing field.
 */
module ActionAgent {
  import opened Wrappers
  import opened Text
  import opened Json
  import opened Llm

  /** The decision dict, with its eight keys; each value as decoded. */
  datatype Decision = Decision(
    primaryAction: Json,
    alertCommandCenter: Json,
    urgencyLevel: Json,
    reasoning: Json,
    nextPhase: Json,
    equipment: Json,
    sendMessageToCc: Json,
    action: Json)

  /** The human-readable label of a primary action; anything else passes through. */
  function ActionLabel(primary: Json): Json
  {
    if primary == JStr("continue_conversation") then JStr("Continue gathering information")
    else if primary == JStr("transition_to_phase_2") then JStr("Transition to Phase 2 (Comfort & Special Needs)")
    else if primary == JStr("evacuate_immediately") then JStr("Guide victim to evacuation immediately")
    else if primary == JStr("abort_and_alert") then JStr("Abort and alert command center for specialized rescue")
    else if primary == JStr("complete") then JStr("Assessment complete - await further instructions")
    else if primary == JStr("maintain_and_monitor") then JStr("Maintain position and monitor victim")
    else primary
  }

  /** `_get_default_decision` */
  const Default := Decision(
    JStr("continue_conversation"), JBool(false), JStr("routine"),
    JStr("Default action due to decision system error - continuing safely"),
    JNull, JArr([]), JBool(false), JStr("Continue gathering information"))

  /** A value usable as a dict key: lists and dicts are not. */
  predicate Hashable(j: Json) { !j.JArr? && !j.JObj? }

  /**
   * `_normalize_action_decision`: None when the primary action cannot be
   * looked up in the label table (an unhashable value raises `TypeError`,
   * which `decide_next_action` turns into `False`).
   */
  function Normalize(raw: seq<(string, Json)>): (r: Option<Decision>)
    ensures r.None? <==> !Hashable(GetOr(raw, "primary_action", JStr("continue_conversation")))
    ensures r.Some? ==> r.value.sendMessageToCc == r.value.alertCommandCenter
    ensures r.Some? ==> r.value.action == ActionLabel(r.value.primaryAction)
    ensures r.Some? ==>
      r.value.primaryAction == GetOr(raw, "primary_action", JStr("continue_conversation")) &&
      r.value.alertCommandCenter == GetOr(raw, "alert_command_center", JBool(false)) &&
      r.value.urgencyLevel == GetOr(raw, "urgency_level", JStr("routine")) &&
      r.value.reasoning == GetOr(raw, "reasoning", JStr("")) &&
      r.value.nextPhase == GetOr(raw, "next_phase", JNull) &&
      r.value.equipment == GetOr(raw, "specialized_equipment_needed", JArr([]))
    ensures r.Some? ==> (
      (!HasKey(raw, "primary_action") ==> r.value.primaryAction == JStr("continue_conversation")) &&
      (!HasKey(raw, "alert_command_center") ==> r.value.alertCommandCenter == JBool(false)) &&
      (!HasKey(raw, "urgency_level") ==> r.value.urgencyLevel == JStr("routine")) &&
      (!HasKey(raw, "reasoning") ==> r.value.reasoning == JStr("")) &&
      (!HasKey(raw, "next_phase") ==> r.value.nextPhase == JNull) &&
      (!HasKey(raw, "specialized_equipment_needed") ==> r.value.equipment == JArr([])))
  {
    var primary := GetOr(raw, "primary_action", JStr("continue_conversation"));
    var alert := GetOr(raw, "alert_command_center", JBool(false));
    if !Hashable(primary) then None
    else Some(Decision(
      primary, alert,
      GetOr(raw, "urgency_level", JStr("routine")),
      GetOr(raw, "reasoning", JStr("")),
      GetOr(raw, "next_phase", JNull),
      GetOr(raw, "specialized_equipment_needed", JArr([])),
      alert,
      ActionLabel(primary)))
  }

  /** The dict form of a decision, as `json.loads` would give it back. */
  function Members(d: Decision): seq<(string, Json)>
  {
    [("primary_action", d.primaryAction), ("alert_command_center", d.alertCommandCenter),
     ("urgency_level", d.urgencyLevel), ("reasoning", d.reasoning), ("next_phase", d.nextPhase),
     ("specialized_equipment_needed", d.equipment), ("send_message_to_cc", d.sendMessageToCc),
     ("action", d.action)]
  }

  /** A decision as normalisation produces it. */
  predicate Consistent(d: Decision)
  {
    Hashable(d.primaryAction) && d.sendMessageToCc == d.alertCommandCenter && d.action == ActionLabel(d.primaryAction)
  }

  /** Each field of a decision is found again under its own key. */
  lemma MembersLookup(d: Decision)
    ensures GetOr(Members(d), "primary_action", JStr("continue_conversation")) == d.primaryAction
    ensures GetOr(Members(d), "alert_command_center", JBool(false)) == d.alertCommandCenter
    ensures GetOr(Members(d), "urgency_level", JStr("routine")) == d.urgencyLevel
    ensures GetOr(Members(d), "reasoning", JStr("")) == d.reasoning
    ensures GetOr(Members(d), "next_phase", JNull) == d.nextPhase
    ensures GetOr(Members(d), "specialized_equipment_needed", JArr([])) == d.equipment
  {
    var m := Members(d);
    // the key names have different lengths
    assert |m[0].0| == 14 && |m[1].0| == 20 && |m[2].0| == 13;
    assert |m[3].0| == 9 && |m[4].0| == 10 && |m[5].0| == 28;
    GetFirstByLength(m, 0, "primary_action");
    GetFirstByLength(m, 1, "alert_command_center");
    GetFirstByLength(m, 2, "urgency_level");
    LaterLookups(m);
  }

  /** The last three of those lookups, past keys of lengths 14, 20, 13, 9 and 10. */
  lemma LaterLookups(m: seq<(string, Json)>)
    requires |m| >= 6 && m[3].0 == "reasoning" && m[4].0 == "next_phase" && m[5].0 == "specialized_equipment_needed"
    requires |m[0].0| == 14 && |m[1].0| == 20 && |m[2].0| == 13
    ensures HasKey(m, "reasoning") && Get(m, "reasoning") == m[3].1
    ensures HasKey(m, "next_phase") && Get(m, "next_phase") == m[4].1
    ensures HasKey(m, "specialized_equipment_needed") && Get(m, "specialized_equipment_needed") == m[5].1
  {
    GetFirstByLength(m, 3, "reasoning");
    GetFirstByLength(m, 4, "next_phase");
    GetFirstByLength(m, 5, "specialized_equipment_needed");
  }

  /** Normalising an already normalised decision gives it back unchanged. */
  lemma NormalizeIdempotent(d: Decision)
    requires Consistent(d)
    ensures Normalize(Members(d)) == Some(d)
  {
    MembersLookup(d);
  }

  /** In particular the default decision survives normalisation. */
  lemma NormalizeDefault()
    ensures Consistent(Default) && Normalize(Members(Default)) == Some(Default)
  {
    NormalizeIdempotent(Default);
  }

  /** `_strip_markdown_fences` */
  function StripFences(text: string): string
  {
    var nl := Find(text, '\n');
    var a := if StartsWith(text, "```") && nl != -1 then text[nl + 1..] else text;
    var b := if EndsWith(a, "```") then Strip(a[..|a| - 3]) else a;
    Strip(Replace(Replace(b, "```json", ""), "```JSON", ""))
  }

  /** A reply without back-ticks is only stripped of surrounding whitespace. */
  lemma StripFencesPlain(text: string)
    requires forall i :: 0 <= i < |text| ==> text[i] != '`'
    ensures StripFences(text) == Strip(text)
  {
    assert !StartsWith(text, "```") by { if |text| >= 3 { assert text[..3][0] == text[0]; } }
    assert !EndsWith(text, "```") by { if |text| >= 3 { assert text[|text| - 3..][0] == text[|text| - 3]; } }
    NotContainsByChar(text, "```json", 0);
    ReplaceAbsent(text, "```json", "");
    NotContainsByChar(text, "```JSON", 0);
    ReplaceAbsent(text, "```JSON", "");
  }

  /** A reply fenced as a json code block yields the block's body. */
  lemma StripFencesBlock(body: string)
    requires forall i :: 0 <= i < |body| ==> body[i] != '`'
    ensures StripFences("```json\n" + body + "\n```") == Strip(body)
  {
    var text := "```json\n" + body + "\n```";
    assert text[..3] == "```";
    assert Find(text, '\n') == 7 by {
      assert text[7] == '\n';
      assert forall j :: 0 <= j < 7 ==> text[j] != '\n';
    }
    var a := text[8..];
    assert a == body + "\n```";
    assert a[|a| - 3..] == "```";
    assert a[..|a| - 3] == body + "\n";
    StripTrailingSpace(body, '\n');
    var b := Strip(body);
    StripShape(body);
    LStripShape(body);
    RStripShape(LStrip(body));
    assert forall i :: 0 <= i < |b| ==> b[i] != '`' by {
      forall i | 0 <= i < |b| ensures b[i] != '`' {
        assert b[i] == RStrip(LStrip(body))[i] == LStrip(body)[i];
        assert LStrip(body)[i] == body[|body| - |LStrip(body)| + i];
      }
    }
    NotContainsByChar(b, "```json", 0);
    ReplaceAbsent(b, "```json", "");
    NotContainsByChar(b, "```JSON", 0);
    ReplaceAbsent(b, "```JSON", "");
    StripIdempotent(body);
  }

  /**
   * The text handed to the decoder: the span from the first `{` to the
   * last `}` when there is one, otherwise the whole cleaned reply.
   */
  function Candidate(cleaned: string): (r: string)
    ensures Find(cleaned, '{') != -1 && RFind(cleaned, '}') > Find(cleaned, '{') ==>
      |r| >= 2 && r[0] == '{' && r[|r| - 1] == '}' &&
      r == cleaned[Find(cleaned, '{')..RFind(cleaned, '}') + 1]
    ensures !(Find(cleaned, '{') != -1 && RFind(cleaned, '}') > Find(cleaned, '{')) ==> r == cleaned
  {
    var start := Find(cleaned, '{');
    var end := RFind(cleaned, '}');
    if start != -1 && end != -1 && end > start then cleaned[start..end + 1] else cleaned
  }

  /**
   * `_parse_action_json`: None for an empty reply, an undecodable one, or
   * a decoded value that is not a dict naming "primary_action" or
   * "action".
   */
  function ParseActionJson(output: string, parse: Parser): (r: Option<seq<(string, Json)>>)
    ensures output == "" ==> r.None?
    ensures r.Some? ==> HasKey(r.value, "primary_action") || HasKey(r.value, "action")
    ensures r.Some? ==> parse(Candidate(StripFences(output))) == Some(JObj(r.value))
    ensures output != "" ==> match parse(Candidate(StripFences(output)))
      case Some(JObj(m)) => (HasKey(m, "primary_action") || HasKey(m, "action")) ==> r == Some(m)
      case _ => r.None?
  {
    if output == "" then None
    else
      match parse(Candidate(StripFences(output)))
      case None => None
      case Some(j) =>
        if j.JObj? && (HasKey(j.members, "primary_action") || HasKey(j.members, "action")) then Some(j.members)
        else None
  }

  /** `raise_for_status` raises for the 4xx and 5xx status codes only. */
  predicate RaisesForStatus(status: int) { 400 <= status < 600 }

  /**
   * `decide_next_action`: None stands for the `False` of a failed call;
   * otherwise the normalised or the default decision.
   */
  function DecideNextAction(reply: Reply, parse: Parser): Option<Decision>
  {
    match reply
    case Response(status, text) =>
      if RaisesForStatus(status) then None
      else
        (match ParseActionJson(Strip(text), parse)
         case None => Some(Default)
         case Some(raw) => Normalize(raw))
    case _ => None
  }

  /**
   * The three-way result: `False` exactly on a transport failure, an
   * error status, or a primary action that cannot be looked up; the
   * default decision when a reply arrives but cannot be read; every
   * decision returned is consistent.
   */
  lemma DecideOutcomes(reply: Reply, parse: Parser)
    ensures var r := DecideNextAction(reply, parse);
      (r.None? <==> (!reply.Response? || RaisesForStatus(reply.status) ||
        (var p := ParseActionJson(Strip(reply.text), parse);
         p.Some? && !Hashable(GetOr(p.value, "primary_action", JStr("continue_conversation")))))) &&
      (reply.Response? && !RaisesForStatus(reply.status) && ParseActionJson(Strip(reply.text), parse).None? ==>
        r == Some(Default)) &&
      (r.Some? ==> Consistent(r.value))
  {
    NormalizeDefault();
  }

  /** A reply that is empty after stripping always gives the default decision. */
  lemma EmptyReplyGivesDefault(status: int, parse: Parser)
    requires !RaisesForStatus(status)
    ensures DecideNextAction(Response(status, ""), parse) == Some(Default)
  {
    StripShape("");
  }
}

=== FILE: action_decision_builder.dfy ===
/**
 * The decision prompt handed to the action agent: the base instructions,
 * the current state, both assessments, the recent conversation and the
 * phase's decision criteria, as lines joined by newlines. The criteria
 * carry the rule-based recommendations (danger and mobility, transition
 * factors, completion) that the language model is asked to follow.
 */
module ActionPrompt {
  import opened Wrappers
  import opened Text

  /** A string-valued dict, as its items in insertion order. */
  type Items = seq<(string, string)>

  predicate Has(items: Items, key: string)
  {
    exists i :: 0 <= i < |items| && items[i].0 == key
  }

  /** `d.get(key, default)` */
  function GetOr(items: Items, key: string, default: string): (r: string)
    ensures !Has(items, key) ==> r == default
    ensures Has(items, key) ==> exists i :: 0 <= i < |items| && items[i] == (key, r)
    decreases |items|
  {
    if items == [] then default
    else if items[0].0 == key then items[0].1
    else GetOr(items[1..], key, default)
  }

  // ---------------------------------------------------------------------
  // Numbers
  // ---------------------------------------------------------------------

  function DigitChar(d: nat): char
    requires d < 10
  {
    ('0' as int + d) as char
  }

  /** `str(n)` for a natural number. */
  function NatToString(n: nat): (r: string)
    ensures |r| > 0 && forall i :: 0 <= i < |r| ==> IsDigit(r[i])
    decreases n
  {
    if n < 10 then [DigitChar(n)] else NatToString(n / 10) + [DigitChar(n % 10)]
  }

  /** `str(i)` for any integer. */
  function IntToString(i: int): string
  {
    if i < 0 then "-" + NatToString(-i) else NatToString(i)
  }

  /** Reading a digit string is a left fold: one more digit shifts the value by ten. */
  lemma {:induction false} DigitsValueSnoc(s: string, acc: nat, c: char)
    requires IsDigit(c) && forall i :: 0 <= i < |s| ==> IsDigit(s[i])
    ensures DigitsValue(s + [c], acc) == DigitsValue(s, acc) * 10 + (c as int - '0' as int)
    decreases |s|
  {
    if |s| == 0 {
      assert ([c])[1..] == [];
    } else {
      assert (s + [c])[0] == s[0] && (s + [c])[1..] == s[1..] + [c];
      DigitsValueSnoc(s[1..], acc * 10 + (s[0] as int - '0' as int), c);
    }
  }

  /** Decimal rendering reads back as the number it renders. */
  lemma {:induction false} NatToStringReadsBack(n: nat)
    ensures DigitsValue(NatToString(n), 0) == n
    decreases n
  {
    if n < 10 {
      assert NatToString(n)[1..] == [];
    } else {
      NatToStringReadsBack(n / 10);
      DigitsValueSnoc(NatToString(n / 10), 0, DigitChar(n % 10));
    }
  }

  /**
   * `f"{(count / total) * 100:.0f}"`: the percentage rounded to the
   * nearest whole number (for six or four fields no tie can occur, so
   * rounding half up agrees with the rounding of the float formatting).
   */
  function Percent(count: nat, total: nat): string
    requires total > 0
  {
    NatToString((100 * count + total / 2) / total)
  }

  /**
   * The shown completion percentage reaches 100 exactly when every field
   * is counted, so the progress line agrees with the completion test.
   */
  lemma PercentFull(count: nat, total: nat)
    requires (total == 4 || total == 6) && count <= total
    ensures (100 * count + total / 2) / total == 100 <==> count == total
  {
    if count == 0 {
    } else if count == 1 {
    } else if count == 2 {
    } else if count == 3 {
    } else if count == 4 {
    } else if count == 5 {
    } else {
    }
  }

  // ---------------------------------------------------------------------
  // Lines shared by every section
  // ---------------------------------------------------------------------

  const Rule: string := "================================================================================"

  const RuleLine: string := "\n" + Rule

  const Tick := "\U{2713}"

  predicate Known(value: string) { value != "" && value != "unknown" }

  /** `f"{status_indicator} {key}: {value}"`, ticked when the value is known. */
  function ItemLine(item: (string, string)): string
  {
    (if Known(item.1) then Tick else "?") + " " + item.0 + ": " + item.1
  }

  function ItemLines(items: Items): (r: seq<string>)
    ensures |r| == |items| && forall i :: 0 <= i < |items| ==> r[i] == ItemLine(items[i])
  {
    seq(|items|, i requires 0 <= i < |items| => ItemLine(items[i]))
  }

  /** Bookkeeping fields the first-phase listing leaves out. */
  predicate Internal(key: string) { key == "priority" || key == "gps_location" }

  /** The first-phase listing: a line per item, in order, skipping the internal fields. */
  function Phase1Listing(items: Items): seq<string>
    decreases |items|
  {
    if items == [] then []
    else (if Internal(items[0].0) then [] else [ItemLine(items[0])]) + Phase1Listing(items[1..])
  }

  /**
   * Every listed line is the line of a non-internal item and every such
   * item is listed; a line starts with the tick exactly when its value is
   * known.
   */
  lemma {:induction false} ListingLines(items: Items)
    ensures forall line :: line in Phase1Listing(items) <==>
      exists i :: 0 <= i < |items| && !Internal(items[i].0) && line == ItemLine(items[i])
    ensures forall item :: (ItemLine(item)[0] == Tick[0] <==> Known(item.1))
    decreases |items|
  {
    if items != [] {
      ListingLines(items[1..]);
      forall line ensures line in Phase1Listing(items) <==>
        exists i :: 0 <= i < |items| && !Internal(items[i].0) && line == ItemLine(items[i])
      {
        if line in Phase1Listing(items[1..]) {
          var i :| 0 <= i < |items[1..]| && !Internal(items[1..][i].0) && line == ItemLine(items[1..][i]);
          assert items[i + 1] == items[1..][i];
        }
        if exists i :: 0 <= i < |items| && !Internal(items[i].0) && line == ItemLine(items[i]) {
          var i :| 0 <= i < |items| && !Internal(items[i].0) && line == ItemLine(items[i]);
          if i > 0 {
            assert items[1..][i - 1] == items[i];
          }
        }
      }
    }
  }

  // ---------------------------------------------------------------------
  // Completion counts
  // ---------------------------------------------------------------------

  const CriticalFields: seq<string> := ["injuries", "breathing", "immediate_danger", "can_walk", "stuck_trapped", "consciousness"]

  /** The fields, in order, whose value (missing counts as "unknown") is, or is not, "unknown". */
  function FieldsWhere(fields: seq<string>, items: Items, assessed: bool): (r: seq<string>)
    ensures forall f :: f in r <==> f in fields && (GetOr(items, f, "unknown") != "unknown") == assessed
    ensures |r| <= |fields|
    decreases |fields|
  {
    if fields == [] then []
    else
      var rest := FieldsWhere(fields[1..], items, assessed);
      assert fields == [fields[0]] + fields[1..];
      if (GetOr(items, fields[0], "unknown") != "unknown") == assessed then [fields[0]] + rest else rest
  }

  function AssessedFields(items: Items): seq<string> { FieldsWhere(CriticalFields, items, true) }

  function UnknownFields(items: Items): seq<string> { FieldsWhere(CriticalFields, items, false) }

  /** Assessed and unknown fields split the critical fields between them. */
  lemma {:induction false} FieldsSplit(fields: seq<string>, items: Items)
    ensures |FieldsWhere(fields, items, true)| + |FieldsWhere(fields, items, false)| == |fields|
    ensures FieldsWhere(fields, items, false) == [] <==> |FieldsWhere(fields, items, true)| == |fields|
    decreases |fields|
  {
    if fields != [] {
      FieldsSplit(fields[1..], items);
    }
  }

  // ---------------------------------------------------------------------
  // First-phase decision criteria
  // ---------------------------------------------------------------------

  predicate SaysYes(s: string) { Contains(Lower(s), "yes") }

  const EvacuateRecommendation := "   \U{2192} RECOMMENDATION: evacuate_immediately"
  const AbortRecommendation := "   \U{2192} RECOMMENDATION: abort_and_alert"
  const TransitionRecommendation := "   \U{2192} RECOMMENDATION: transition_to_phase_2"

  const EvacuateLines: seq<string> := [
    "   \U{2713} Victim CAN walk",
    EvacuateRecommendation,
    "   \U{2192} Alert command center with urgency: critical"]

  const AbortLines: seq<string> := [
    "   \U{2717} Victim CANNOT walk or mobility unknown",
    AbortRecommendation,
    "   \U{2192} Leave area, alert command center for specialized rescue",
    "   \U{2192} Equipment needed: stretcher, rescue team"]

  const EarlyEvacuationLines: seq<string> := [
    "\n\U{1F3C3} MID-ASSESSMENT EVACUATION CANDIDATE:",
    "   \U{2713} Victim can walk",
    "   \U{2713} No severe injuries",
    "   \U{2713} Breathing normally",
    "   \U{2713} Conscious",
    "   \U{2713} Not trapped",
    "   \U{2192} OPTION: evacuate_immediately (skip Phase 2)",
    "   \U{2192} RATIONALE: Ambulatory, low-severity victim - efficient evacuation"]

  const CannotWalkFactor := "Victim cannot walk (needs specialized rescue)"
  const TrappedFactor := "Victim is trapped"
  const SevereFactor := "Severe injuries present"
  const DistressFactor := "High emotional distress"

  /** The value of a field, "unknown" when missing. */
  function Field(items: Items, key: string): string { GetOr(items, key, "unknown") }

  /** A present value that mentions "yes", in any case. */
  predicate Affirms(value: string) { value != "" && SaysYes(value) }

  /** Immediate danger is reported. */
  predicate DangerReported(items: Items) { Affirms(Field(items, "immediate_danger")) }

  /** The victim is reported able to walk. */
  predicate WalkReported(items: Items) { Affirms(Field(items, "can_walk")) }

  predicate MinorInjuries(injuries: string)
  {
    injuries == "no" || (injuries != "unknown" && Contains(Lower(injuries), "minor"))
  }

  predicate Conscious(consciousness: string)
  {
    consciousness != "" && Contains(Lower(consciousness), "conscious")
  }

  predicate NotTrapped(stuck: string) { stuck == "no" || Contains(Lower(stuck), "no") }

  /** The mid-assessment evacuation test, substring by substring. */
  predicate EarlyEvacuation(items: Items)
  {
    WalkReported(items) && MinorInjuries(Field(items, "injuries")) && Affirms(Field(items, "breathing")) &&
    Conscious(Field(items, "consciousness")) && NotTrapped(Field(items, "stuck_trapped"))
  }

  predicate SevereInjuries(injuries: string)
  {
    injuries != "" && injuries != "unknown" && injuries != "no" &&
    (Contains(Lower(injuries), "severe") || Contains(Lower(injuries), "broken") || Contains(Lower(injuries), "bleeding"))
  }

  predicate CannotWalk(walk: string) { walk == "no" || Contains(Lower(walk), "no") }

  predicate Distressed(emotional: string) { emotional != "" && Contains(Lower(emotional), "stressed") }

  /** The reasons, in order, to move on to the comfort phase. */
  function TransitionFactors(items: Items): (r: seq<string>)
    ensures CannotWalkFactor in r <==> Contains(Lower(Field(items, "can_walk")), "no")
  {
    assert |CannotWalkFactor| == 45 && |TrappedFactor| == 17 && |SevereFactor| == 23 && |DistressFactor| == 23;
    assert Field(items, "can_walk") == "no" ==> Contains(Lower(Field(items, "can_walk")), "no") by {
      if Field(items, "can_walk") == "no" {
        assert Lower("no") == "no";
        ContainsSelf("no");
      }
    }
    (if CannotWalk(Field(items, "can_walk")) then [CannotWalkFactor] else []) +
    (if Affirms(Field(items, "stuck_trapped")) then [TrappedFactor] else []) +
    (if SevereInjuries(Field(items, "injuries")) then [SevereFactor] else []) +
    (if Distressed(Field(items, "emotional_state")) then [DistressFactor] else [])
  }

  /**
   * Each of the four factors is listed exactly when its condition holds:
   * the victim is trapped, has severe injuries or is in high distress; and
   * nothing else is listed.
   */
  lemma TransitionFactorsExact(items: Items)
    ensures var r := TransitionFactors(items);
      (TrappedFactor in r <==> Affirms(Field(items, "stuck_trapped"))) &&
      (SevereFactor in r <==> SevereInjuries(Field(items, "injuries"))) &&
      (DistressFactor in r <==> Distressed(Field(items, "emotional_state"))) &&
      |r| <= 4 &&
      forall f :: f in r ==> f == CannotWalkFactor || f == TrappedFactor || f == SevereFactor || f == DistressFactor
  {
    var walk := CannotWalk(Field(items, "can_walk"));
    var trapped := Affirms(Field(items, "stuck_trapped"));
    var severe := SevereInjuries(Field(items, "injuries"));
    var distress := Distressed(Field(items, "emotional_state"));
    var r := TransitionFactors(items);
    assert r == (if walk then [CannotWalkFactor] else []) + (if trapped then [TrappedFactor] else []) +
      (if severe then [SevereFactor] else []) + (if distress then [DistressFactor] else []);
    // the factors differ in length, or else in their first character
    assert |CannotWalkFactor| == 45 && |TrappedFactor| == 17 && |SevereFactor| == 23 && |DistressFactor| == 23;
    assert SevereFactor[0] == 'S' && DistressFactor[0] == 'H';
  }

  function Bullets(points: seq<string>): (r: seq<string>)
    ensures |r| == |points| && forall i :: 0 <= i < |points| ==> r[i] == "   \U{2022} " + points[i]
  {
    seq(|points|, i requires 0 <= i < |points| => "   \U{2022} " + points[i])
  }

  function FactorLines(factors: seq<string>): seq<string>
  {
    if factors == [] then []
    else (["\n\U{27A1}\U{FE0F}  PHASE 2 TRANSITION FACTORS:"] + Bullets(factors) +
          [TransitionRecommendation, "   \U{2192} Victim needs emotional support and detailed medical info gathering"])
  }

  /** The danger and mobility block of the first-phase criteria. */
  function DangerLines(items: Items): seq<string>
  {
    if DangerReported(items) then
      ["\n\U{1F6A8} IMMEDIATE DANGER DETECTED:"] + (if WalkReported(items) then EvacuateLines else AbortLines)
    else
      ["\n\U{2705} No immediate danger detected"] +
      (if EarlyEvacuation(items) then EarlyEvacuationLines else []) +
      FactorLines(TransitionFactors(items))
  }

  const CompleteLine := "   \U{2713} Assessment complete - make final decision (evacuate or transition)"

  /** The assessment-status block: progress, then the unknown fields or the completion note. */
  function StatusLines(items: Items, assessed: seq<string>): seq<string>
    requires |assessed| <= |CriticalFields|
  {
    ["\n\U{1F4CA} ASSESSMENT STATUS:", "   Progress: " + Percent(|assessed|, |CriticalFields|) + "% complete"] +
    (if |assessed| < |CriticalFields| then
       ["   Unknown fields: " + Join(UnknownFields(items), ", "),
        "   \U{2192} If no emergency: continue_conversation to gather remaining data"]
     else [CompleteLine])
  }

  /** `_get_phase_1_decision_criteria` */
  function Phase1Criteria(items: Items, assessed: seq<string>): string
    requires |assessed| <= |CriticalFields|
  {
    Join([RuleLine, "PHASE 1 DECISION CRITERIA:", Rule] + DangerLines(items) + StatusLines(items, assessed), "\n")
  }

  /**
   * With danger reported, the recommendation is evacuation when the victim
   * can walk and abort-and-alert when they cannot or it is not known.
   */
  lemma DangerRecommends(items: Items)
    requires DangerReported(items)
    ensures |DangerLines(items)| >= 3
    ensures DangerLines(items)[2] == EvacuateRecommendation <==> WalkReported(items)
    ensures DangerLines(items)[2] == AbortRecommendation <==> !WalkReported(items)
  {
    assert |EvacuateRecommendation| == 41 && |AbortRecommendation| == 36;
  }

  /**
   * Without danger, the block opens with the no-danger line, and the
   * transition recommendation comes second to last exactly when some
   * transition factor holds.
   */
  lemma TransitionRecommended(items: Items)
    requires !DangerReported(items)
    ensures DangerLines(items)[0] == "\n\U{2705} No immediate danger detected"
    ensures TransitionFactors(items) != [] <==>
      |DangerLines(items)| >= 3 && DangerLines(items)[|DangerLines(items)| - 2] == TransitionRecommendation
  {
    var factors := TransitionFactors(items);
    var early := if EarlyEvacuation(items) then EarlyEvacuationLines else [];
    assert DangerLines(items) == ["\n\U{2705} No immediate danger detected"] + early + FactorLines(factors);
    if factors == [] {
      assert |TransitionRecommendation| == 42;
      assert |EarlyEvacuationLines[6]| == 48;
    }
  }

  /** A missing or "unknown" mobility still counts as "cannot walk", since "unknown" holds "no". */
  lemma UnknownMobilityIsFactor(items: Items)
    requires Field(items, "can_walk") == "unknown"
    ensures CannotWalkFactor in TransitionFactors(items)
  {
    assert Lower("unknown") == "unknown";
    ContainsAt("unknown", "no", 3);
  }

  /**
   * The early-evacuation test passes an unconscious victim whose
   * entrapment is still unknown: "Unconscious" holds "conscious" and
   * "unknown" holds "no".
   */
  lemma UnconsciousMayEvacuateEarly(items: Items)
    requires Field(items, "can_walk") == "yes" && Field(items, "injuries") == "no" && Field(items, "breathing") == "yes"
    requires Field(items, "consciousness") == "Unconscious" && Field(items, "stuck_trapped") == "unknown"
    ensures EarlyEvacuation(items)
  {
    assert Affirms("yes") by {
      assert Lower("yes") == "yes";
      ContainsSelf("yes");
    }
    assert Conscious("Unconscious") by {
      assert Lower("Unconscious") == "unconscious";
      ContainsAt("unconscious", "conscious", 2);
    }
    assert NotTrapped("unknown") by {
      assert Lower("unknown") == "unknown";
      ContainsAt("unknown", "no", 3);
    }
  }

  /**
   * The status block ends with the completion note exactly when all six
   * critical fields are assessed; otherwise it names the unknown ones.
   */
  lemma StatusReportsCompletion(items: Items)
    ensures var lines := StatusLines(items, AssessedFields(items));
      (lines[|lines| - 1] == CompleteLine <==> |AssessedFields(items)| == |CriticalFields|) &&
      (|AssessedFields(items)| < |CriticalFields| ==> lines[2] == "   Unknown fields: " + Join(UnknownFields(items), ", ")) &&
      (forall f :: f in UnknownFields(items) <==> f in CriticalFields && Field(items, f) == "unknown")
  {
    FieldsSplit(CriticalFields, items);
    assert |CompleteLine| != |"   \U{2192} If no emergency: continue_conversation to gather remaining data"|;
  }

  // ---------------------------------------------------------------------
  // Second-phase decision criteria
  // ---------------------------------------------------------------------

  /** The comfort findings that call for alerting the command center. */
  function CriticalDiscoveries(comfort: Items): (r: seq<string>)
    ensures |r| <= 3
    ensures var med := GetOr(comfort, "emergency_medication", "unknown");
      ("Emergency medication needed: " + med in r) <==> med != "" && med != "unknown" && med != "no"
    ensures var allergies := GetOr(comfort, "allergies", "unknown");
      ("Allergies identified: " + allergies in r) <==> allergies != "" && allergies != "unknown" && allergies != "no"
    ensures var pregnant := GetOr(comfort, "pregnant", "unknown");
      ("Victim is pregnant" in r) <==> pregnant != "" && SaysYes(pregnant)
    ensures forall line :: line in r ==>
      line == "Emergency medication needed: " + GetOr(comfort, "emergency_medication", "unknown") ||
      line == "Allergies identified: " + GetOr(comfort, "allergies", "unknown") ||
      line == "Victim is pregnant"
  {
    var med := GetOr(comfort, "emergency_medication", "unknown");
    var allergies := GetOr(comfort, "allergies", "unknown");
    var pregnant := GetOr(comfort, "pregnant", "unknown");
    // the three lines differ in their first character
    assert ("Emergency medication needed: " + med)[0] == 'E';
    assert ("Allergies identified: " + allergies)[0] == 'A';
    assert "Victim is pregnant"[0] == 'V';
    (if med != "" && med != "unknown" && med != "no" then ["Emergency medication needed: " + med] else []) +
    (if allergies != "" && allergies != "unknown" && allergies != "no" then ["Allergies identified: " + allergies] else []) +
    (if pregnant != "" && SaysYes(pregnant) then ["Victim is pregnant"] else [])
  }

  function MedicalLines(comfort: Items): seq<string>
  {
    if comfort == [] then []
    else
      var found := CriticalDiscoveries(comfort);
      if found == [] then []
      else (["\n\U{26A0}\U{FE0F}  CRITICAL MEDICAL NEEDS DISCOVERED:"] + Bullets(found) +
            ["   \U{2192} RECOMMENDATION: alert_command_center = true",
             "   \U{2192} Urgency level: priority or critical",
             "   \U{2192} Action: continue_conversation (but escalate priority)"])
  }

  const EvacuateOption := "   \U{2192} OPTION: evacuate_immediately"
  const ContinueRecommendation := "   \U{2192} RECOMMENDATION: continue_conversation"

  const MedicalCritical: seq<string> := ["emergency_medication", "allergies", "age"]

  /** The mobility block: ambulatory victims may be evacuated once enough is known. */
  function MobilityLines(items: Items, comfort: Items): seq<string>
  {
    if WalkReported(items) then
      ["\n\U{1F3C3} AMBULATORY VICTIM:", "   \U{2022} Victim can walk independently"] +
      (if comfort != [] then
         (if |FieldsWhere(MedicalCritical, comfort, true)| >= 2 then
            ["   \U{2022} Sufficient medical information gathered", EvacuateOption,
             "   \U{2192} RATIONALE: Remove ambulatory victim from danger zone"]
          else ["   \U{2022} Still gathering critical medical information", ContinueRecommendation])
       else ["   \U{2192} RECOMMENDATION: continue_conversation (gather medical needs)"])
    else
      ["\n\U{1F691} NON-AMBULATORY VICTIM:",
       "   \U{2022} Victim cannot walk or is trapped",
       "   \U{2022} Must wait for specialized rescue",
       "   \U{2192} Continue gathering complete medical information",
       "   \U{2192} Provide emotional support during wait"]
  }

  const MonitorLines: seq<string> := [
    "\n\U{1F50D} MONITOR FOR DETERIORATION:",
    "   Watch recent victim responses for:",
    "   \U{2022} New difficulty breathing",
    "   \U{2022} Increasing pain",
    "   \U{2022} Growing panic/confusion",
    "   \U{2022} Reduced responsiveness",
    "   \U{2192} If detected: urgency_level = emergency"]

  const ComfortPriority: seq<string> := ["emergency_medication", "allergies", "age", "regular_medication"]

  const ComfortCompleteRecommendation := "   \U{2192} RECOMMENDATION: primary_action = complete"

  function ComfortStatusLines(comfort: Items): seq<string>
  {
    if comfort == [] then []
    else
      var n := |FieldsWhere(ComfortPriority, comfort, true)|;
      ["\n\U{1F4CA} COMFORT ASSESSMENT STATUS:", "   Progress: " + Percent(n, |ComfortPriority|) + "% complete"] +
      (if n >= |ComfortPriority| then ["   \U{2713} Phase 2 complete", ComfortCompleteRecommendation] else [])
  }

  /** `_get_phase_2_decision_criteria` */
  function Phase2Criteria(items: Items, comfort: Items): string
  {
    Join([RuleLine, "PHASE 2 DECISION CRITERIA:", Rule] + MedicalLines(comfort) + MobilityLines(items, comfort) +
      MonitorLines + ComfortStatusLines(comfort), "\n")
  }

  /**
   * An ambulatory victim with a comfort record is offered evacuation
   * exactly when at least two of emergency medication, allergies and age
   * are known.
   */
  lemma AmbulatoryEvacuationOffered(items: Items, comfort: Items)
    requires WalkReported(items) && comfort != []
    ensures |MobilityLines(items, comfort)| >= 4
    ensures MobilityLines(items, comfort)[3] == EvacuateOption <==> |FieldsWhere(MedicalCritical, comfort, true)| >= 2
  {
    assert |EvacuateOption| == 33 && |ContinueRecommendation| == 42;
  }

  /**
   * Completion is recommended exactly when all four priority comfort
   * fields are known; with no comfort record there is neither a medical
   * block nor a status block.
   */
  lemma ComfortCompletion(comfort: Items)
    ensures comfort != [] ==> (
      var lines := ComfortStatusLines(comfort);
      (|lines| == 4 && lines[3] == ComfortCompleteRecommendation) <==>
      (forall f :: f in ComfortPriority ==> GetOr(comfort, f, "unknown") != "unknown"))
    ensures comfort == [] ==> MedicalLines(comfort) == [] && ComfortStatusLines(comfort) == []
  {
    if comfort != [] {
      var known := FieldsWhere(ComfortPriority, comfort, true);
      var unknown := FieldsWhere(ComfortPriority, comfort, false);
      FieldsSplit(ComfortPriority, comfort);
      if |known| != 4 {
        assert unknown[0] in unknown;
      }
    }
  }

  // ---------------------------------------------------------------------
  // The whole prompt
  // ---------------------------------------------------------------------

  /** An entry of the recent conversation, keyed by 'type' or by 'role'. */
  datatype HistoryEntry = HistoryEntry(kind: Option<string>, role: Option<string>, content: string)

  /** `entry.get('type') or entry.get('role', 'unknown')` */
  function RoleOf(e: HistoryEntry): string
  {
    if e.kind.Some? && e.kind.value != "" then e.kind.value
    else if e.role.Some? then e.role.value
    else "unknown"
  }

  /** At most 150 characters of an entry, marked with "..." when cut. */
  function Preview(content: string): (r: string)
    ensures |content| <= 150 ==> r == content
    ensures |content| > 150 ==> |r| == 153 && r[..150] == content[..150] && r[150..] == "..."
  {
    if |content| > 150 then content[..150] + "..." else content
  }

  function HistoryLine(e: HistoryEntry): string
  {
    (if RoleOf(e) == "robot" then "\U{1F916} Robot" else "\U{1F464} Victim") + ": " + Preview(e.content)
  }

  function HistoryLines(history: seq<HistoryEntry>): (r: seq<string>)
    ensures history == [] ==> r == []
    ensures history != [] ==> (
      |r| == 3 + |history| &&
      forall i :: 0 <= i < |history| ==> r[3 + i] == HistoryLine(history[i]))
  {
    if history == [] then []
    else ([RuleLine, "RECENT CONVERSATION (Last 3 exchanges):", Rule] +
          seq(|history|, i requires 0 <= i < |history| => HistoryLine(history[i])))
  }

  function StateLines(phase: int, turnNumber: int, phaseTurnNumber: int): (r: seq<string>)
    ensures |r| == 6 && r[1] == "CURRENT STATE:"
  {
    [RuleLine, "CURRENT STATE:", Rule,
     "Phase: " + IntToString(phase) + " (" + (if phase == 1 then "Assessment" else "Comfort & Special Needs") + ")",
     "Total Turn Number: " + IntToString(turnNumber),
     "Phase Turn Number: " + IntToString(phaseTurnNumber)]
  }

  function ContextLines(context: string): seq<string>
  {
    if context == "" then [] else [RuleLine, "DISASTER SITUATION CONTEXT:", Rule, context]
  }

  function Phase1Section(items: Items): seq<string>
  {
    [RuleLine, "PHASE 1 ASSESSMENT (Safety & Injuries):", Rule] +
    (if items != [] then Phase1Listing(items) else ["(No Phase 1 data available)"])
  }

  function CompletionLine(items: Items): string
  {
    var assessed := AssessedFields(items);
    "\nPhase 1 Completion: " + (if items != [] then Percent(|assessed|, |CriticalFields|) else "0") +
    "% (" + NatToString(|assessed|) + "/" + NatToString(|CriticalFields|) + " critical fields)"
  }

  /** The comfort listing, only in the second phase and only when there is comfort data. */
  function Phase2Section(phase: int, comfort: Items): (r: seq<string>)
    ensures r != [] <==> phase == 2 && comfort != []
  {
    if phase == 2 && comfort != [] then
      [RuleLine, "PHASE 2 ASSESSMENT (Medical & Special Needs):", Rule] + ItemLines(comfort)
    else []
  }

  const FormatInstructions := "\nYou MUST respond with ONLY a valid JSON object (no markdown fences, no explanation):\n\n{\n  \"primary_action\": \"continue_conversation\" | \"transition_to_phase_2\" | \"evacuate_immediately\" | \"abort_and_alert\" | \"complete\",\n  \"alert_command_center\": true | false,\n  \"urgency_level\": \"routine\" | \"priority\" | \"critical\" | \"emergency\",\n  \"reasoning\": \"Brief justification for your decision (1-2 sentences)\",\n  \"next_phase\": 2 | null,\n  \"specialized_equipment_needed\": [] | [\"stretcher\", \"cutting_tools\", \"medical_supplies\", etc.]\n}\n\nRespond with ONLY the JSON object. Do not include any other text.\n"

  const FormatLines: seq<string> := [RuleLine, "YOUR DECISION (JSON FORMAT):", Rule, FormatInstructions]

  /** The built-in instructions used when the prompt file cannot be found. */
  const DefaultActionPrompt := "You are the Action Decision Agent for a rescue robot.\n\nYour role is to analyze the current situation and decide the robot's next action.\n\nConsider all available information:\n- Phase 1 Assessment (injuries, breathing, mobility, danger)\n- Phase 2 Assessment (medical needs, allergies, special conditions)\n- Recent conversation context\n- Victim's emotional state\n\nMake informed decisions prioritizing:\n1. Immediate life safety (danger, breathing, consciousness)\n2. Victim mobility (can they walk? are they trapped?)\n3. Information completeness (critical unknowns?)\n4. Efficiency (evacuate ambulatory victims quickly)\n\nYour decision will determine whether the robot continues conversation, evacuates\nthe victim, transitions to the next phase, or aborts to alert command center.\n"

  /** The criteria of the current phase: first-phase criteria only in phase 1. */
  function Criteria(phase: int, items: Items, comfort: Items): string
  {
    if phase == 1 then Phase1Criteria(items, AssessedFields(items)) else Phase2Criteria(items, comfort)
  }

  /** The state, both assessments and the recent conversation. */
  function MiddleLines(phase: int, items: Items, comfort: Items, history: seq<HistoryEntry>,
                       turnNumber: int, phaseTurnNumber: int): (r: seq<string>)
    ensures |r| >= 2 && r[1] == "CURRENT STATE:"
  {
    var state := StateLines(phase, turnNumber, phaseTurnNumber);
    var r := state + Phase1Section(items) + [CompletionLine(items)] + Phase2Section(phase, comfort) + HistoryLines(history);
    assert r[1] == state[1];
    r
  }

  /** Where each section of a concatenation of sections sits. */
  lemma Sections<T>(state: seq<T>, p1: seq<T>, c: T, p2: seq<T>, h: seq<T>)
    ensures var r := state + p1 + [c] + p2 + h;
      r[..|state|] == state &&
      (forall i :: 0 <= i < |p1| ==> r[|state| + i] == p1[i]) &&
      r[|state| + |p1|] == c &&
      (forall i :: 0 <= i < |p2| ==> r[|state| + |p1| + 1 + i] == p2[i]) &&
      (forall i :: 0 <= i < |h| ==> r[|r| - |h| + i] == h[i])
  {
  }

  /**
   * The middle of the prompt: the six state lines, then the phase-1
   * header and, after that section, the completion line.
   */
  lemma MiddleLinesLayout(phase: int, items: Items, comfort: Items, history: seq<HistoryEntry>,
                          turnNumber: int, phaseTurnNumber: int)
    ensures var r := MiddleLines(phase, items, comfort, history, turnNumber, phaseTurnNumber);
      |r| >= 8 && r[..6] == StateLines(phase, turnNumber, phaseTurnNumber) &&
      r[7] == "PHASE 1 ASSESSMENT (Safety & Injuries):" &&
      CompletionLine(items) in r
  {
    var state := StateLines(phase, turnNumber, phaseTurnNumber);
    var p1 := Phase1Section(items);
    Sections(state, p1, CompletionLine(items), Phase2Section(phase, comfort), HistoryLines(history));
    assert p1[1] == "PHASE 1 ASSESSMENT (Safety & Injuries):";
  }

  /** In the second phase with comfort data, the phase-2 section follows the completion line. */
  lemma MiddleLinesPhase2(phase: int, items: Items, comfort: Items, history: seq<HistoryEntry>,
                          turnNumber: int, phaseTurnNumber: int)
    requires phase == 2 && comfort != []
    ensures "PHASE 2 ASSESSMENT (Medical & Special Needs):" in
      MiddleLines(phase, items, comfort, history, turnNumber, phaseTurnNumber)
  {
    var state := StateLines(phase, turnNumber, phaseTurnNumber);
    var p1 := Phase1Section(items);
    var p2 := Phase2Section(phase, comfort);
    Sections(state, p1, CompletionLine(items), p2, HistoryLines(history));
    assert p2[1] == "PHASE 2 ASSESSMENT (Medical & Special Needs):";
  }

  /**
   * The recent exchanges close the middle of the prompt: it ends with the
   * history section, whose lines are the exchanges in order.
   */
  lemma MiddleLinesHistory(phase: int, items: Items, comfort: Items, history: seq<HistoryEntry>,
                           turnNumber: int, phaseTurnNumber: int)
    ensures var r := MiddleLines(phase, items, comfort, history, turnNumber, phaseTurnNumber);
      |HistoryLines(history)| <= |r| && r[|r| - |HistoryLines(history)|..] == HistoryLines(history)
  {
    var p := StateLines(phase, turnNumber, phaseTurnNumber) + Phase1Section(items) + [CompletionLine(items)] +
      Phase2Section(phase, comfort);
    assert (p + HistoryLines(history))[|p|..] == HistoryLines(history);
  }

  /**
   * `build_action_decision_prompt`'s parts; `promptFile` is the text of
   * the prompt file, None when it cannot be found. A missing comfort
   * assessment and an empty one are both the empty list.
   */
  function PromptParts(promptFile: Option<string>, phase: int, items: Items, comfort: Items,
                       history: seq<HistoryEntry>, turnNumber: int, phaseTurnNumber: int, context: string): seq<string>
  {
    [if promptFile.Some? then promptFile.value else DefaultActionPrompt] + ContextLines(context) +
    MiddleLines(phase, items, comfort, history, turnNumber, phaseTurnNumber) +
    [Criteria(phase, items, comfort)] + FormatLines
  }

  function BuildActionDecisionPrompt(promptFile: Option<string>, phase: int, items: Items, comfort: Items,
                                     history: seq<HistoryEntry>, turnNumber: int, phaseTurnNumber: int, context: string): string
  {
    Join(PromptParts(promptFile, phase, items, comfort, history, turnNumber, phaseTurnNumber, context), "\n")
  }

  /** Where the pieces of a prompt sit in its list of parts. */
  lemma PartsLayout(base: string, context: seq<string>, middle: seq<string>, criteria: string)
    ensures var parts := [base] + context + middle + [criteria] + FormatLines;
      |parts| >= 5 && parts[0] == base && parts[|parts| - 4..] == FormatLines && parts[|parts| - 5] == criteria &&
      (|context| == 4 ==> parts[1..5] == context && parts[2] == context[1]) &&
      (context == [] && |middle| >= 2 ==> parts[2] == middle[1])
  {
    var parts := [base] + context + middle + [criteria] + FormatLines;
    assert parts == [base] + (context + middle) + ([criteria] + FormatLines);
  }

  /**
   * The prompt opens with the base instructions (the built-in ones when the
   * file is missing) and closes with the criteria of the phase followed by
   * the output format.
   */
  lemma PromptShape(promptFile: Option<string>, phase: int, items: Items, comfort: Items,
                    history: seq<HistoryEntry>, turnNumber: int, phaseTurnNumber: int, context: string)
    ensures var parts := PromptParts(promptFile, phase, items, comfort, history, turnNumber, phaseTurnNumber, context);
      |parts| >= 5 &&
      parts[0] == (if promptFile.Some? then promptFile.value else DefaultActionPrompt) &&
      parts[|parts| - 4..] == FormatLines &&
      parts[|parts| - 5] == Criteria(phase, items, comfort)
  {
    var base := if promptFile.Some? then promptFile.value else DefaultActionPrompt;
    var middle := MiddleLines(phase, items, comfort, history, turnNumber, phaseTurnNumber);
    PartsLayout(base, ContextLines(context), middle, Criteria(phase, items, comfort));
  }

  /**
   * The situation context section follows the base instructions exactly
   * when a context is given; otherwise the state section does.
   */
  lemma PromptContext(promptFile: Option<string>, phase: int, items: Items, comfort: Items,
                      history: seq<HistoryEntry>, turnNumber: int, phaseTurnNumber: int, context: string)
    ensures var parts := PromptParts(promptFile, phase, items, comfort, history, turnNumber, phaseTurnNumber, context);
      |parts| >= 5 &&
      (context != "" ==> parts[1..5] == ContextLines(context)) &&
      (parts[2] == "DISASTER SITUATION CONTEXT:" <==> context != "")
  {
    var base := if promptFile.Some? then promptFile.value else DefaultActionPrompt;
    var middle := MiddleLines(phase, items, comfort, history, turnNumber, phaseTurnNumber);
    var ctx := ContextLines(context);
    PartsLayout(base, ctx, middle, Criteria(phase, items, comfort));
    if context == "" {
      assert ctx == [];
      assert |"CURRENT STATE:"| != |"DISASTER SITUATION CONTEXT:"|;
    } else {
      assert |ctx| == 4 && ctx[1] == "DISASTER SITUATION CONTEXT:";
    }
  }
}

=== FILE: assessment_agent.dfy ===
/**
 * The Phase-1 assessment agent: a field-to-text record that starts from a
 * fixed template, the set of fields explicitly assessed, and the rules that
 * filter and merge what the language model extracts from each victim reply.
 */
module Assessment {
  import opened Wrappers
  import opened Text
  import opened Json
  import opened Llm

  const Unknown := "unknown"

  /** The record every agent starts from; `consciousness` is presumed. */
  const Template: map<string, string> := map[
    "injuries" := Unknown,
    "people_in_surroundings" := Unknown,
    "can_walk" := Unknown,
    "stuck_trapped" := Unknown,
    "breathing" := Unknown,
    "consciousness" := "Conscious",
    "immediate_danger" := Unknown
  ]

  /** The order in which the interview asks about the fields. */
  const Priority: seq<string> :=
    ["injuries", "breathing", "immediate_danger", "stuck_trapped", "can_walk", "people_in_surroundings"]

  const StuckWalkValue := "No - victim is stuck/trapped"

  type Entries = seq<(string, string)>

  /** The agent's state: the record and the assessed set. */
  datatype State = State(assessment: map<string, string>, assessed: set<string>)

  /** The record has exactly the template's fields, and only those can be assessed. */
  predicate WellFormed(st: State)
  {
    st.assessment.Keys == Template.Keys && st.assessed <= Template.Keys
  }

  function GetOr(m: map<string, string>, key: string, default: string): string
  {
    if key in m then m[key] else default
  }

  // ---------------------------------------------------------------------
  // Extraction of the JSON object from the model's text
  // ---------------------------------------------------------------------

  /** The markdown-fence removal at the start of `_extract_json`. */
  function Unfence(text: string): string
  {
    if Contains(text, "```json") then
      SplitContains(text, "```json");
      Split(Split(text, "```json")[1], "```")[0]
    else if Contains(text, "```") then
      var parts := Split(text, "```");
      if |parts| >= 2 then parts[1] else text
    else text
  }

  /**
   * `_extract_json`: the decoded fence content, else the decoded slice
   * from the first '{' to the last '}', else the empty object.
   */
  function ExtractJson(text: string, parse: Parser): Json
  {
    var t := Strip(Unfence(text));
    match parse(t)
    case Some(j) => j
    case None =>
      var start := Find(t, '{');
      var end := RFind(t, '}') + 1;
      if start >= 0 && end > start then
        match parse(t[start..end])
        case Some(j) => j
        case None => JObj([])
      else JObj([])
  }

  /** A reply with no back-tick that decodes as it stands is taken whole. */
  lemma ExtractJsonPlain(text: string, parse: Parser, j: Json)
    requires forall i :: 0 <= i < |text| ==> text[i] != '`'
    requires parse(Strip(text)) == Some(j)
    ensures ExtractJson(text, parse) == j
  {
    NotContainsByChar(text, "```json", 0);
    NotContainsByChar(text, "```", 0);
  }

  /**
   * A reply with no back-tick and no '{' that does not decode as it stands
   * yields the empty object: nothing is invented.
   */
  lemma ExtractJsonNoObject(text: string, parse: Parser)
    requires forall i :: 0 <= i < |text| ==> text[i] != '`' && text[i] != '{'
    requires parse(Strip(text)).None?
    ensures ExtractJson(text, parse) == JObj([])
  {
    NotContainsByChar(text, "```json", 0);
    NotContainsByChar(text, "```", 0);
    assert Unfence(text) == text;
    StripAbsent(text, '{');
    assert Find(Strip(text), '{') == -1;
  }

  // ---------------------------------------------------------------------
  // Validation of the extracted updates
  // ---------------------------------------------------------------------

  /**
   * The value test of `_validate_updates` as the code has it: the
   * "unknown" comparison is made on the unstripped value.
   */
  predicate KeepAsWritten(current: string, value: string)
  {
    Strip(value) != "" && Lower(value) != Unknown && current != value
  }

  /** The value test with the "unknown" comparison made on the stripped value. */
  predicate Keep(current: string, value: string)
  {
    Strip(value) != "" && Lower(Strip(value)) != Unknown && current != value
  }

  function Prepend(acc: Entries, rest: Option<Entries>): Option<Entries>
  {
    match rest
    case None => None
    case Some(t) => Some(acc + t)
  }

  /** A field in the record whose value is truthy but not a string: `strip` raises. */
  predicate Raises(assessment: map<string, string>, entry: (string, Json))
  {
    entry.0 in assessment && Truthy(entry.1) && !entry.1.JStr?
  }

  /** An entry the validation keeps: a record field with a string value that passes the value test. */
  predicate Accepted(assessment: map<string, string>, entry: (string, Json), asWritten: bool)
  {
    entry.0 in assessment && entry.1.JStr? && entry.1.s != "" &&
    (if asWritten then KeepAsWritten(assessment[entry.0], entry.1.s) else Keep(assessment[entry.0], entry.1.s))
  }

  /**
   * The loop of `_validate_updates` over the members of the decoded
   * object: None when it raises, otherwise the kept entries, stripped, in
   * order. `asWritten` selects the code's value test; the model uses the
   * corrected one.
   */
  function Validated(assessment: map<string, string>, members: seq<(string, Json)>, asWritten: bool): (r: Option<Entries>)
    ensures r.None? <==> exists i :: 0 <= i < |members| && Raises(assessment, members[i])
    ensures r.Some? ==> forall e :: e in r.value ==>
      e.0 in assessment && e.1 != "" && Strip(e.1) == e.1 && (!asWritten ==> Lower(e.1) != Unknown)
    ensures r.Some? ==> forall i :: 0 <= i < |members| && Accepted(assessment, members[i], asWritten) ==>
      (members[i].0, Strip(members[i].1.s)) in r.value
    ensures r.Some? ==> forall e :: e in r.value ==>
      exists i :: 0 <= i < |members| && Accepted(assessment, members[i], asWritten) &&
        e == (members[i].0, Strip(members[i].1.s))
    decreases |members|
  {
    if members == [] then Some([])
    else
      var (k, v) := members[0];
      var rest := Validated(assessment, members[1..], asWritten);
      assert forall i :: 1 <= i < |members| ==> members[i] == members[1..][i - 1];
      if k !in assessment || !Truthy(v) then rest
      else if !v.JStr? then None
      else if !(if asWritten then KeepAsWritten(assessment[k], v.s) else Keep(assessment[k], v.s)) then rest
      else
        StripIdempotent(v.s);
        StripShape(v.s);
        Prepend([(k, Strip(v.s))], rest)
  }

  /** One entry of the validation loop, with the entries kept so far in front. */
  lemma ValidatedStep(assessment: map<string, string>, members: seq<(string, Json)>, i: nat, acc: Entries)
    requires i < |members|
    ensures var (k, v) := members[i];
      var rest := Validated(assessment, members[i + 1..], false);
      Prepend(acc, Validated(assessment, members[i..], false)) ==
        if k !in assessment || !Truthy(v) then Prepend(acc, rest)
        else if !v.JStr? then None
        else if !Keep(assessment[k], v.s) then Prepend(acc, rest)
        else Prepend(acc + [(k, Strip(v.s))], rest)
  {
    var (k, v) := members[i];
    assert members[i..][0] == members[i] && members[i..][1..] == members[i + 1..];
    if k in assessment && Truthy(v) && v.JStr? && Keep(assessment[k], v.s) {
      match Validated(assessment, members[i + 1..], false) {
        case None =>
        case Some(t) => assert acc + ([(k, Strip(v.s))] + t) == (acc + [(k, Strip(v.s))]) + t;
      }
    }
  }

  /** `_validate_updates` applied to whatever the decoder produced: only an object has `items`. */
  function ValidatedJson(assessment: map<string, string>, updates: Json): Option<Entries>
  {
    if updates.JObj? then Validated(assessment, updates.members, false) else None
  }

  /** What `analyze_victim_response` hands back: `False`, or a (possibly empty) dict. */
  datatype Analysis = Failed | Updates(entries: Entries)

  function Analyze(assessment: map<string, string>, reply: Reply, parse: Parser): Analysis
  {
    match reply
    case Response(status, text) =>
      if status == 200 then
        match ValidatedJson(assessment, ExtractJson(Strip(text), parse))
        case None => Failed
        case Some(u) => Updates(u)
      else Updates([])
    case _ => Failed
  }

  /**
   * Only a transport failure or an exception inside decoding and
   * validation yields `False`; a non-200 status yields the empty dict and
   * therefore never triggers the switch to the backup dialogue.
   */
  lemma AnalyzeFailsOnlyOnException(assessment: map<string, string>, reply: Reply, parse: Parser)
    ensures Analyze(assessment, reply, parse).Failed? <==>
      !reply.Response? ||
      (reply.status == 200 && ValidatedJson(assessment, ExtractJson(Strip(reply.text), parse)).None?)
    ensures reply.Response? && reply.status != 200 ==> Analyze(assessment, reply, parse) == Updates([])
  {
  }

  /** Every update handed to the merge names a record field and carries a stripped, known value. */
  lemma AnalyzeYieldsCleanUpdates(assessment: map<string, string>, reply: Reply, parse: Parser)
    ensures var a := Analyze(assessment, reply, parse);
      a.Updates? ==> forall e :: e in a.entries ==>
        e.0 in assessment && e.1 != "" && Strip(e.1) == e.1 && Lower(e.1) != Unknown
  {
  }

  // ---------------------------------------------------------------------
  // Merging validated updates into the record
  // ---------------------------------------------------------------------

  /** `_is_duplicate_info`: substring either way, ignoring case and the yes/no prefixes of the new text. */
  predicate IsDuplicateInfo(existing: string, new_: string)
  {
    var e := Lower(existing);
    var n := Replace(Replace(Lower(new_), "yes - ", ""), "no - ", "");
    Contains(e, n) || Contains(n, e)
  }

  /** The value a field takes when `update_assessment` meets `value` for it. */
  function MergedValue(key: string, current: string, value: string): string
  {
    if current == Unknown then value
    else if value == current then current
    else if key == "injuries" && StartsWith(current, "yes") then
      if IsDuplicateInfo(current, value) then current
      else current + "; " + Replace(value, "yes - ", "")
    else value
  }

  /** One iteration of the loop in `update_assessment`. */
  function Merge(st: State, key: string, value: string): State
  {
    if key !in st.assessment then st
    else State(st.assessment[key := MergedValue(key, st.assessment[key], value)], st.assessed + {key})
  }

  function MergeAll(st: State, updates: Entries): (r: State)
    ensures r.assessment.Keys == st.assessment.Keys
    decreases |updates|
  {
    if updates == [] then st
    else
      var last := updates[|updates| - 1];
      Merge(MergeAll(st, updates[..|updates| - 1]), last.0, last.1)
  }

  /** The merge of one more update. */
  lemma MergeAllStep(st: State, updates: Entries, i: nat)
    requires i < |updates|
    ensures MergeAll(st, updates[..i + 1]) == Merge(MergeAll(st, updates[..i]), updates[i].0, updates[i].1)
  {
    assert updates[..i + 1][..i] == updates[..i];
  }

  /** `updates["stuck_trapped"]`, if present. */
  function Lookup(updates: Entries, key: string): Option<string>
  {
    if updates == [] then None
    else if updates[0].0 == key then Some(updates[0].1)
    else Lookup(updates[1..], key)
  }

  /** The automatic inference at the end of `update_assessment`: a trapped victim cannot walk. */
  function InferMobility(st: State, updates: Entries): State
  {
    match Lookup(updates, "stuck_trapped")
    case Some(s) =>
      if Contains(Lower(s), "yes") && GetOr(st.assessment, "can_walk", "") == Unknown then
        State(st.assessment["can_walk" := StuckWalkValue], st.assessed + {"can_walk"})
      else st
    case None => st
  }

  /** `update_assessment` as a function of the state before it. */
  function Update(st: State, updates: Entries): (r: State)
    ensures r.assessment.Keys == st.assessment.Keys
  {
    InferMobility(MergeAll(st, updates), updates)
  }

  predicate DistinctKeys(updates: Entries)
  {
    forall i, j :: 0 <= i < j < |updates| ==> updates[i].0 != updates[j].0
  }

  function KeysOf(updates: Entries): set<string>
  {
    set i | 0 <= i < |updates| :: updates[i].0
  }

  lemma {:induction false} MergeAllKeys(st: State, updates: Entries)
    ensures MergeAll(st, updates).assessed == st.assessed + (KeysOf(updates) * st.assessment.Keys)
    decreases |updates|
  {
    if updates != [] {
      var init := updates[..|updates| - 1];
      MergeAllKeys(st, init);
      assert KeysOf(updates) == KeysOf(init) + {updates[|updates| - 1].0} by {
        forall k | k in KeysOf(updates) ensures k in KeysOf(init) + {updates[|updates| - 1].0} {
          var i :| 0 <= i < |updates| && updates[i].0 == k;
          if i < |updates| - 1 { assert init[i] == updates[i]; }
        }
      }
    }
  }

  /**
   * The record keeps exactly the template's fields, and the assessed set
   * grows by exactly the in-template keys of the updates, plus `can_walk`
   * when the trapped-victim inference fires.
   */
  lemma UpdateKeepsShape(st: State, updates: Entries)
    requires WellFormed(st)
    ensures WellFormed(Update(st, updates))
    ensures st.assessed + (KeysOf(updates) * Template.Keys) <= Update(st, updates).assessed
    ensures Update(st, updates).assessed <= st.assessed + (KeysOf(updates) * Template.Keys) + {"can_walk"}
  {
    MergeAllKeys(st, updates);
  }

  /** A field the updates do not mention keeps its value through the merge. */
  lemma {:induction false} MergeAllFrame(st: State, updates: Entries, key: string)
    requires key !in KeysOf(updates)
    ensures GetOr(MergeAll(st, updates).assessment, key, "") == GetOr(st.assessment, key, "")
    decreases |updates|
  {
    if updates != [] {
      var init := updates[..|updates| - 1];
      assert KeysOf(init) <= KeysOf(updates) by {
        forall k | k in KeysOf(init) ensures k in KeysOf(updates) {
          var i :| 0 <= i < |init| && init[i].0 == k;
          assert updates[i] == init[i];
        }
      }
      assert updates[|updates| - 1].0 in KeysOf(updates);
      MergeAllFrame(st, init, key);
    }
  }

  /**
   * With distinct keys (as in a dict), each field is merged exactly once,
   * from its value before the call, independently of the other fields.
   */
  lemma {:induction false} MergeAllAt(st: State, updates: Entries, i: nat)
    requires DistinctKeys(updates) && i < |updates| && updates[i].0 in st.assessment
    ensures var k := updates[i].0;
      k in MergeAll(st, updates).assessment &&
      MergeAll(st, updates).assessment[k] == MergedValue(k, st.assessment[k], updates[i].1)
    decreases |updates|
  {
    var init := updates[..|updates| - 1];
    MergeAllKeys(st, updates);
    MergeAllKeys(st, init);
    if i == |updates| - 1 {
      assert forall j :: 0 <= j < |init| ==> init[j] == updates[j];
      assert updates[i].0 !in KeysOf(init);
      MergeAllFrame(st, init, updates[i].0);
    } else {
      assert init[i] == updates[i];
      assert DistinctKeys(init) by {
        forall a, b | 0 <= a < b < |init| ensures init[a].0 != init[b].0 {
          assert init[a] == updates[a] && init[b] == updates[b];
        }
      }
      MergeAllAt(st, init, i);
    }
  }

  /** `Lookup` finds the entry of a key, which is unique when keys are distinct. */
  lemma {:induction false} LookupAt(updates: Entries, i: nat)
    requires DistinctKeys(updates) && i < |updates|
    ensures Lookup(updates, updates[i].0) == Some(updates[i].1)
    decreases |updates|
  {
    if i > 0 {
      assert updates[1..][i - 1] == updates[i];
      assert DistinctKeys(updates[1..]) by {
        forall a, b | 0 <= a < b < |updates| - 1 ensures updates[1..][a].0 != updates[1..][b].0 {
          assert updates[1..][a] == updates[a + 1] && updates[1..][b] == updates[b + 1];
        }
      }
      LookupAt(updates[1..], i - 1);
    }
  }

  lemma {:induction false} LookupAbsent(updates: Entries, key: string)
    requires key !in KeysOf(updates)
    ensures Lookup(updates, key) == None
    decreases |updates|
  {
    if updates != [] {
      assert updates[0].0 in KeysOf(updates);
      assert KeysOf(updates[1..]) <= KeysOf(updates) by {
        forall k | k in KeysOf(updates[1..]) ensures k in KeysOf(updates) {
          var j :| 0 <= j < |updates[1..]| && updates[1..][j].0 == k;
          assert updates[j + 1] == updates[1..][j];
        }
      }
      LookupAbsent(updates[1..], key);
    }
  }

  /** A field still "unknown" takes the update's value and becomes assessed. */
  lemma UnknownTakesValue(st: State, updates: Entries, i: nat)
    requires WellFormed(st) && DistinctKeys(updates) && i < |updates|
    requires updates[i].0 in Template && st.assessment[updates[i].0] == Unknown
    requires updates[i].1 != Unknown
    ensures var r := Update(st, updates);
      r.assessment[updates[i].0] == updates[i].1 && updates[i].0 in r.assessed
  {
    MergeAllAt(st, updates, i);
    MergeAllKeys(st, updates);
  }

  /**
   * Injury merging: a new, non-duplicate description is appended to an
   * injury record that starts with "yes" (its own "yes - " removed); a
   * duplicate leaves the record unchanged; injuries are assessed either way.
   */
  lemma InjuryMerge(st: State, updates: Entries, i: nat)
    requires WellFormed(st) && DistinctKeys(updates) && i < |updates| && updates[i].0 == "injuries"
    requires StartsWith(st.assessment["injuries"], "yes") && updates[i].1 != st.assessment["injuries"]
    ensures var cur, v, r := st.assessment["injuries"], updates[i].1, Update(st, updates);
      "injuries" in r.assessed &&
      r.assessment["injuries"] == (if IsDuplicateInfo(cur, v) then cur else cur + "; " + Replace(v, "yes - ", ""))
  {
    MergeAllAt(st, updates, i);
    MergeAllKeys(st, updates);
    var cur := st.assessment["injuries"];
    assert cur[..3][0] == cur[0] && cur[0] == 'y';
    assert cur != Unknown by {
      assert Unknown[0] == 'u';
    }
  }

  /**
   * A "yes" in the reported stuck/trapped status, with mobility still
   * unknown after the merge, sets `can_walk` to "No - victim is
   * stuck/trapped" and marks it assessed.
   */
  lemma StuckImpliesCannotWalk(st: State, updates: Entries, i: nat)
    requires WellFormed(st) && DistinctKeys(updates) && i < |updates|
    requires updates[i].0 == "stuck_trapped" && Contains(Lower(updates[i].1), "yes")
    requires MergeAll(st, updates).assessment["can_walk"] == Unknown
    ensures var r := Update(st, updates);
      r.assessment["can_walk"] == StuckWalkValue && "can_walk" in r.assessed
  {
    MergeAllKeys(st, updates);
    LookupAt(updates, i);
  }

  /** Without a stuck/trapped update, the merge alone decides `can_walk`. */
  lemma NoStuckNoInference(st: State, updates: Entries)
    requires "stuck_trapped" !in KeysOf(updates)
    ensures Update(st, updates) == MergeAll(st, updates)
  {
    LookupAbsent(updates, "stuck_trapped");
  }

  lemma UnknownLiteral()
    ensures Lower(Unknown) == Unknown && Strip(Unknown) == Unknown
    ensures forall i :: 0 <= i < |Unknown| ==> Unknown[i] != ';'
  {
    LowerOfLower(Unknown);
    StripShape(Unknown);
    assert !IsSpace(Unknown[0]) && !IsSpace(Unknown[|Unknown| - 1]);
    LStripNoSpace(Unknown);
    RStripNoSpace(Unknown);
  }

  lemma MergedValueKnown(key: string, current: string, value: string)
    requires current != Unknown && value != Unknown
    ensures MergedValue(key, current, value) != Unknown
  {
    var r := MergedValue(key, current, value);
    if r == current + "; " + Replace(value, "yes - ", "") {
      UnknownLiteral();
      assert r[|current|] == ';';
    }
  }

  /** A merge whose values are never "unknown" never turns a known field back into "unknown". */
  lemma {:induction false} MergeAllMonotone(st: State, updates: Entries, key: string)
    requires forall e :: e in updates ==> e.1 != Unknown
    requires key in st.assessment && st.assessment[key] != Unknown
    ensures key in MergeAll(st, updates).assessment && MergeAll(st, updates).assessment[key] != Unknown
    decreases |updates|
  {
    if updates != [] {
      var init := updates[..|updates| - 1];
      assert forall e :: e in init ==> e in updates;
      MergeAllMonotone(st, init, key);
      var mid := MergeAll(st, init);
      var last := updates[|updates| - 1];
      assert last in updates;
      if last.0 == key {
        MergedValueKnown(key, mid.assessment[key], last.1);
      }
    }
  }

  /**
   * Monotonicity of validate-then-update: once a field is known, no
   * analysed reply can make it "unknown" again.
   */
  lemma ValidateThenUpdateMonotone(st: State, reply: Reply, parse: Parser, key: string)
    requires WellFormed(st) && key in Template && st.assessment[key] != Unknown
    ensures var a := Analyze(st.assessment, reply, parse);
      a.Updates? ==> Update(st, a.entries).assessment[key] != Unknown
  {
    var a := Analyze(st.assessment, reply, parse);
    if a.Updates? {
      AnalyzeYieldsCleanUpdates(st.assessment, reply, parse);
      UnknownLiteral();
      assert forall e :: e in a.entries ==> e.1 != Unknown;
      MergeAllMonotone(st, a.entries, key);
      MergeAllKeys(st, a.entries);
      assert StuckWalkValue != Unknown by { assert StuckWalkValue[0] != Unknown[0]; }
    }
  }

  /**
   * The code as written lets " unknown" through validation (it lower-cases
   * before stripping) and stores "unknown": a known breathing status is
   * overwritten with "unknown" and the field stays marked assessed.
   */
  lemma ValidatedAsWrittenStoresUnknown()
    ensures var st := State(Template["breathing" := "normal"], {"breathing"});
      var members := [("breathing", JStr(" unknown"))];
      Validated(st.assessment, members, true) == Some([("breathing", Unknown)]) &&
      Validated(st.assessment, members, false) == Some([]) &&
      Update(st, [("breathing", Unknown)]).assessment["breathing"] == Unknown &&
      "breathing" in Update(st, [("breathing", Unknown)]).assessed
  {
    var st := State(Template["breathing" := "normal"], {"breathing"});
    var members := [("breathing", JStr(" unknown"))];
    var v := " unknown";
    assert v[1..] == Unknown;
    UnknownLiteral();
    assert LStrip(v) == Unknown by {
      LStripNoSpace(Unknown);
    }
    RStripNoSpace(Unknown);
    assert Strip(v) == Unknown;
    assert |Lower(v)| != |Unknown|;
    assert KeepAsWritten("normal", v);
    assert !Keep("normal", v);
    assert Validated(st.assessment, members[1..], true) == Some([]);
    assert st.assessment["breathing"] == "normal";
    assert members[0] == ("breathing", JStr(v));
    assert Validated(st.assessment, members, true) == Prepend([("breathing", Strip(v))], Some([]));
    assert Validated(st.assessment, members[1..], false) == Some([]);
    var updates := [("breathing", Unknown)];
    assert Lookup(updates, "stuck_trapped") == None;
    assert updates[..0] == [];
    assert MergeAll(st, updates) == Merge(st, "breathing", Unknown);
    assert [("breathing", Unknown)] + [] == [("breathing", Unknown)];
  }

  // ---------------------------------------------------------------------
  // Completion and next question
  // ---------------------------------------------------------------------

  /** `get_incomplete_categories`: the priority list without the assessed fields, in order. */
  function Incomplete(fields: seq<string>, assessed: set<string>): (r: seq<string>)
    ensures forall f :: f in r <==> f in fields && f !in assessed
    ensures |r| <= |fields|
    decreases |fields|
  {
    if fields == [] then []
    else (if fields[0] in assessed then [] else [fields[0]]) + Incomplete(fields[1..], assessed)
  }

  function IncompleteCategories(st: State): seq<string>
  {
    Incomplete(Priority, st.assessed)
  }

  /** `is_assessment_complete`: every priority field assessed. */
  predicate IsComplete(st: State)
  {
    forall i :: 0 <= i < |Priority| ==> Priority[i] in st.assessed
  }

  /** The first of `fields` not yet assessed, or "". */
  function FirstUnassessed(fields: seq<string>, assessed: set<string>): (r: string)
    requires forall i :: 0 <= i < |fields| ==> fields[i] != ""
    ensures r == "" <==> forall i :: 0 <= i < |fields| ==> fields[i] in assessed
    ensures r != "" ==> exists j :: (0 <= j < |fields| && fields[j] == r && r !in assessed &&
      forall i :: 0 <= i < j ==> fields[i] in assessed)
    decreases |fields|
  {
    if fields == [] then ""
    else if fields[0] !in assessed then fields[0]
    else
      var r := FirstUnassessed(fields[1..], assessed);
      assert forall i :: 1 <= i < |fields| ==> fields[i] == fields[1..][i - 1];
      r
  }

  /** `get_next_priority_field`. */
  function NextPriorityField(st: State): string
  {
    FirstUnassessed(Priority, st.assessed)
  }

  /**
   * The three completion queries agree: the next field is "" exactly when
   * the assessment is complete, exactly when nothing is incomplete, and
   * otherwise it is the head of the incomplete list.
   */
  lemma CompletionQueriesAgree(st: State)
    ensures NextPriorityField(st) == "" <==> IsComplete(st)
    ensures IsComplete(st) <==> IncompleteCategories(st) == []
    ensures !IsComplete(st) ==> NextPriorityField(st) == IncompleteCategories(st)[0]
  {
    var fields := Priority;
    assert forall i :: 0 <= i < |fields| ==> fields[i] != "";
    FirstIsHead(fields, st.assessed);
    EmptyIncomplete(fields, st.assessed);
  }

  lemma EmptyIncomplete(fields: seq<string>, assessed: set<string>)
    ensures Incomplete(fields, assessed) == [] <==> forall i :: 0 <= i < |fields| ==> fields[i] in assessed
  {
    var r := Incomplete(fields, assessed);
    if r != [] {
      assert r[0] in r;
    }
    if exists i :: 0 <= i < |fields| && fields[i] !in assessed {
      var i :| 0 <= i < |fields| && fields[i] !in assessed;
      assert fields[i] in r;
    }
  }

  lemma {:induction false} FirstIsHead(fields: seq<string>, assessed: set<string>)
    requires forall i :: 0 <= i < |fields| ==> fields[i] != ""
    ensures Incomplete(fields, assessed) != [] ==> FirstUnassessed(fields, assessed) == Incomplete(fields, assessed)[0]
    decreases |fields|
  {
    if fields != [] && fields[0] in assessed {
      assert forall i :: 1 <= i < |fields| ==> fields[i] == fields[1..][i - 1];
      FirstIsHead(fields[1..], assessed);
    }
  }

  // ---------------------------------------------------------------------
  // Status predicates
  // ---------------------------------------------------------------------

  /** `can_victim_walk` */
  predicate CanVictimWalk(st: State)
  {
    "can_walk" in st.assessed &&
    var v := Lower(GetOr(st.assessment, "can_walk", ""));
    Contains(v, "yes") || Contains(v, "can walk")
  }

  /** `is_victim_stuck` */
  predicate IsVictimStuck(st: State)
  {
    "stuck_trapped" in st.assessed &&
    var v := Lower(GetOr(st.assessment, "stuck_trapped", ""));
    Contains(v, "yes") || Contains(v, "stuck") || Contains(v, "trapped")
  }

  const CriticalInjuryWords: seq<string> := ["bleeding", "blood", "fracture", "broken", "head injury",
    "chest pain", "severe", "unconscious", "trapped", "crushed", "hemorrhage", "laceration", "compound"]

  /** `has_critical_injuries` */
  predicate HasCriticalInjuries(st: State)
  {
    "injuries" in st.assessed &&
    var v := Lower(GetOr(st.assessment, "injuries", Unknown));
    v !in [Unknown, "no injuries", "none", ""] && ContainsAny(v, CriticalInjuryWords)
  }

  const BreathingProblemWords: seq<string> := ["difficult", "labored", "struggling", "gasping",
    "shallow", "rapid", "not breathing", "trouble", "wheezing", "choking", "coughing blood"]

  /** `has_breathing_issues` */
  predicate HasBreathingIssues(st: State)
  {
    "breathing" in st.assessed && ContainsAny(Lower(GetOr(st.assessment, "breathing", Unknown)), BreathingProblemWords)
  }

  const DangerWords: seq<string> := ["fire", "smoke", "gas", "unstable", "collapse", "flood",
    "electrical", "chemical", "debris falling", "structural"]

  /** `is_in_immediate_danger`: it consults a "danger" field, which the record does not have. */
  predicate IsInImmediateDanger(st: State)
  {
    "danger" in st.assessed &&
    var v := Lower(GetOr(st.assessment, "danger", Unknown));
    v !in [Unknown, "no", "safe", "none", ""] && (Contains(v, "yes") || ContainsAny(v, DangerWords))
  }

  const ConcerningStates: seq<string> := ["unconscious", "unresponsive", "confused", "disoriented",
    "drowsy", "fading", "losing consciousness", "semi-conscious", "dazed", "altered", "incoherent"]

  /** `is_consciousness_concerning` */
  predicate IsConsciousnessConcerning(st: State)
  {
    "consciousness" in st.assessed && ContainsAny(Lower(GetOr(st.assessment, "consciousness", Unknown)), ConcerningStates)
  }

  /** `needs_immediate_evacuation` */
  predicate NeedsImmediateEvacuation(st: State)
  {
    HasCriticalInjuries(st) || HasBreathingIssues(st) || IsInImmediateDanger(st) || IsConsciousnessConcerning(st)
  }

  /**
   * `is_in_immediate_danger` can never hold: "danger" is not a field of
   * the record, so it never enters the assessed set, whatever the updates.
   */
  lemma ImmediateDangerNeverHolds(st: State, updates: Entries)
    requires WellFormed(st)
    ensures !IsInImmediateDanger(st) && !IsInImmediateDanger(Update(st, updates))
  {
    UpdateKeepsShape(st, updates);
  }

  /**
   * After a stuck/trapped report that says "yes" while mobility was
   * unknown, the victim counts as stuck and as unable to walk.
   */
  lemma StuckVictimCannotWalk(st: State, updates: Entries, i: nat)
    requires WellFormed(st) && DistinctKeys(updates) && i < |updates|
    requires updates[i].0 == "stuck_trapped" && Contains(Lower(updates[i].1), "yes")
    requires MergeAll(st, updates).assessment["can_walk"] == Unknown
    requires st.assessment["stuck_trapped"] == Unknown
    ensures IsVictimStuck(Update(st, updates)) && !CanVictimWalk(Update(st, updates))
  {
    var m := MergeAll(st, updates);
    var r := Update(st, updates);
    StuckImpliesCannotWalk(st, updates, i);
    MergeAllAt(st, updates, i);
    assert m.assessment["stuck_trapped"] == updates[i].1;
    assert r.assessment["stuck_trapped"] == updates[i].1;
    assert "stuck_trapped" in KeysOf(updates);
    UpdateKeepsShape(st, updates);
    StuckWalkValueSaysNo();
    assert GetOr(r.assessment, "can_walk", "") == StuckWalkValue;
  }

  lemma StuckWalkValueSaysNo()
    ensures !Contains(Lower(StuckWalkValue), "yes") && !Contains(Lower(StuckWalkValue), "can walk")
  {
    var v := StuckWalkValue;
    var w := Lower(v);
    assert forall j :: 0 <= j < |v| ==> v[j] !in "yYwW";
    assert forall j :: 0 <= j < |w| ==> w[j] == LowerChar(v[j]);
    NotContainsByChar(w, "yes", 0);
    NotContainsByChar(w, "can walk", 4);
  }

  /** Evacuation is only ever advised on the strength of an assessed field. */
  lemma EvacuationNeedsEvidence(st: State)
    requires WellFormed(st)
    ensures NeedsImmediateEvacuation(st) ==>
      "injuries" in st.assessed || "breathing" in st.assessed || "consciousness" in st.assessed
  {
  }

  // ---------------------------------------------------------------------
  // The agent object
  // ---------------------------------------------------------------------

  class AssessmentAgent {
    var assessment: map<string, string>
    var assessedCategories: set<string>

    function Snapshot(): State
      reads this
    {
      State(assessment, assessedCategories)
    }

    ghost predicate Valid()
      reads this
    {
      WellFormed(Snapshot())
    }

    constructor ()
      ensures Valid() && Snapshot() == State(Template, {})
    {
      assessment := Template;
      assessedCategories := {};
    }

    /** `_validate_updates`, over the decoded reply. */
    method ValidateUpdates(updates: Json) returns (r: Option<Entries>)
      ensures r == ValidatedJson(assessment, updates)
    {
      if !updates.JObj? {
        return None;
      }
      var members := updates.members;
      var acc: Entries := [];
      var i := 0;
      assert members[0..] == members;
      match Validated(assessment, members, false) {
        case None =>
        case Some(t) => assert [] + t == t;
      }
      while i < |members|
        invariant 0 <= i <= |members|
        invariant Validated(assessment, members, false) == Prepend(acc, Validated(assessment, members[i..], false))
      {
        var (k, v) := members[i];
        ValidatedStep(assessment, members, i, acc);
        if k in assessment && Truthy(v) {
          if !v.JStr? {
            return None;
          }
          if Keep(assessment[k], v.s) {
            acc := acc + [(k, Strip(v.s))];
          }
        }
        i := i + 1;
      }
      assert members[i..] == [];
      assert acc + [] == acc;
      r := Some(acc);
    }

    /** `analyze_victim_response`, with the model's reply given. */
    method AnalyzeVictimResponse(reply: Reply, parse: Parser) returns (r: Analysis)
      ensures r == Analyze(assessment, reply, parse)
    {
      if !reply.Response? {
        return Failed;
      }
      if reply.status != 200 {
        return Updates([]);
      }
      var v := ValidateUpdates(ExtractJson(Strip(reply.text), parse));
      r := if v.None? then Failed else Updates(v.value);
    }

    /** One pass of the loop in `update_assessment`: merge the value for one field. */
    method MergeUpdate(key: string, value: string)
      modifies this
      ensures Snapshot() == Merge(old(Snapshot()), key, value)
    {
      if key in assessment {
        var current := assessment[key];
        ghost var merged := MergedValue(key, current, value);
        // a value left as it is, is the value written back
        assert old(assessment)[key := current] == old(assessment);
        if current == Unknown {
          assessment := assessment[key := value];
        } else if value != current {
          if key == "injuries" && StartsWith(current, "yes") {
            if !IsDuplicateInfo(current, value) {
              assessment := assessment[key := current + "; " + Replace(value, "yes - ", "")];
            } else {
              assert merged == current;
            }
          } else {
            assessment := assessment[key := value];
          }
        } else {
          assert merged == current;
        }
        assessedCategories := assessedCategories + {key};
      }
    }

    /** `update_assessment` */
    method UpdateAssessment(updates: Entries)
      requires Valid()
      modifies this
      ensures Valid()
      ensures Snapshot() == Update(old(Snapshot()), updates)
    {
      ghost var st0 := Snapshot();
      var i := 0;
      while i < |updates|
        invariant 0 <= i <= |updates|
        invariant Snapshot() == MergeAll(st0, updates[..i])
      {
        var (key, value) := updates[i];
        MergeAllStep(st0, updates, i);
        MergeUpdate(key, value);
        i := i + 1;
      }
      assert updates[..|updates|] == updates;
      ghost var merged := Snapshot();
      assert "can_walk" in Template;
      var stuck := Lookup(updates, "stuck_trapped");
      if stuck.Some? && Contains(Lower(stuck.value), "yes") && assessment["can_walk"] == Unknown {
        assessment := assessment["can_walk" := StuckWalkValue];
        assessedCategories := assessedCategories + {"can_walk"};
      }
      assert Snapshot() == InferMobility(merged, updates);
      UpdateKeepsShape(st0, updates);
    }
  }
}

=== FILE: backup_dialog.dfy ===
/**
 * The backup interaction: a fixed decision tree of yes/no questions that
 * takes over when the primary dialogue manager fails. While on standby it
 * mirrors the primary's assessment snapshots; once it takes over it skips
 * the questions already answered, walks the tree node by node, and ends
 * after telling the victim what the robot will do (node 7 or 8).
 */
module BackupDialog {
  import opened Wrappers
  import opened Text
  import opened Json

  // ---------------------------------------------------------------------
  // Classifying a reply
  // ---------------------------------------------------------------------

  datatype Answer = Positive | Negative | Unclear

  /**
   * `analyze_response`: the negative token is looked for first, as a
   * substring of the lower-cased reply; None for a language the tree has
   * no tokens for.
   */
  function AnalyzeResponse(language: string, response: string): (r: Option<Answer>)
    ensures r.Some? <==> language in ["en", "fr", "es"]
    ensures (language == "en" || language == "es") && Contains(Lower(response), "no") ==> r == Some(Negative)
    ensures language == "fr" && Contains(Lower(response), "non") ==> r == Some(Negative)
  {
    var s := Lower(response);
    if language == "en" then
      Some(if Contains(s, "no") then Negative
           else if Contains(s, "yes") || Contains(s, "i can") then Positive
           else Unclear)
    else if language == "fr" then
      Some(if Contains(s, "non") then Negative
           else if Contains(s, "oui") || Contains(s, "je peux") then Positive
           else Unclear)
    else if language == "es" then
      Some(if Contains(s, "no") then Negative
           else if Contains(s, "sí") || Contains(s, "si") || Contains(s, "puedo") then Positive
           else Unclear)
    else None
  }

  /**
   * Because the negative token is a bare substring checked first, an
   * English "Yes, I know" is classified as negative ("know" holds "no").
   */
  lemma YesIKnowIsNegative()
    ensures AnalyzeResponse("en", "Yes, I know") == Some(Negative)
  {
    var s := Lower("Yes, I know");
    assert s[8] == 'n' && s[9] == 'o';
    ContainsAt(s, "no", 8);
  }

  /** An English reply with "yes" and no "no" anywhere is positive. */
  lemma PlainYesIsPositive(response: string)
    requires Contains(Lower(response), "yes") && !Contains(Lower(response), "no")
    ensures AnalyzeResponse("en", response) == Some(Positive)
  {
  }

  // ---------------------------------------------------------------------
  // The situation record and the node table
  // ---------------------------------------------------------------------

  /** `victim_situation`, as its items in insertion order; None is JNull. */
  type Situation = seq<(string, Json)>

  const InitialSituation: Situation := [
    ("injuries", JNull), ("people_in_surroundings", JNull), ("robot_action", JNull),
    ("can_walk", JNull), ("breathing", JNull), ("consciousness", JNull),
    ("stuck_trapped", JNull), ("immediate_danger", JNull), ("priority", JStr("Yellow"))]

  /** Looking up a key in a dict with one more item at its head. */
  lemma HasKeyCons(e: (string, Json), rest: Situation, k: string)
    ensures HasKey([e] + rest, k) <==> e.0 == k || HasKey(rest, k)
    ensures Get([e] + rest, k) == if e.0 == k then e.1 else Get(rest, k)
  {
    var s := [e] + rest;
    assert s[1..] == rest;
    if HasKey(rest, k) {
      var i :| 0 <= i < |rest| && rest[i].0 == k;
      assert s[i + 1] == rest[i];
    }
    if HasKey(s, k) && e.0 != k {
      var i :| 0 <= i < |s| && s[i].0 == k;
      assert s[0] == e;
      assert rest[i - 1] == s[i];
    }
  }

  /** `d[key] = value` on an insertion-ordered dict: replace in place, or append. */
  function Put(d: Situation, key: string, value: Json): (r: Situation)
    ensures HasKey(r, key) && Get(r, key) == value
    ensures forall k :: k != key ==> (HasKey(r, k) <==> HasKey(d, k)) && Get(r, k) == Get(d, k)
    decreases |d|
  {
    if d == [] then
      var r := [(key, value)];
      assert r[0].0 == key;
      r
    else
      var head := if d[0].0 == key then (key, value) else d[0];
      var rest := if d[0].0 == key then d[1..] else Put(d[1..], key, value);
      assert d == [d[0]] + d[1..];
      assert forall k :: ((HasKey([head] + rest, k) <==> head.0 == k || HasKey(rest, k)) &&
        Get([head] + rest, k) == (if head.0 == k then head.1 else Get(rest, k))) by {
        forall k ensures (HasKey([head] + rest, k) <==> head.0 == k || HasKey(rest, k)) &&
          Get([head] + rest, k) == (if head.0 == k then head.1 else Get(rest, k)) {
          HasKeyCons(head, rest, k);
        }
      }
      assert forall k :: ((HasKey(d, k) <==> d[0].0 == k || HasKey(d[1..], k)) &&
        Get(d, k) == (if d[0].0 == k then d[0].1 else Get(d[1..], k))) by {
        forall k ensures (HasKey(d, k) <==> d[0].0 == k || HasKey(d[1..], k)) &&
          Get(d, k) == (if d[0].0 == k then d[0].1 else Get(d[1..], k)) {
          HasKeyCons(d[0], d[1..], k);
        }
      }
      [head] + rest
  }

  /** `question_to_field`: the node (or, for the robot's action, the two nodes) of each field. */
  const QuestionToField: map<string, seq<int>> := map[
    "consciousness" := [0],
    "injuries" := [1],
    "breathing" := [2],
    "stuck_trapped" := [3],
    "immediate_danger" := [5],
    "can_walk" := [4],
    "people_in_surroundings" := [6],
    "robot_action" := [7, 8]
  ]

  /**
   * `identify_selected_nodes`: the nodes of every string-valued field
   * other than priority and consciousness, in the dict's order, and
   * whether the scan completed; a string-valued field with no node raises
   * `KeyError` after the nodes of the fields before it were added.
   */
  function Selected(sit: Situation): (r: (seq<int>, bool))
    decreases |sit|
  {
    if sit == [] then ([], true)
    else
      var (ns, ok) := Selected(sit[..|sit| - 1]);
      var (f, v) := sit[|sit| - 1];
      if !ok || !v.JStr? || f == "priority" || f == "consciousness" then (ns, ok)
      else if f in QuestionToField then (ns + QuestionToField[f], true)
      else (ns, false)
  }

  /** Node `n` belongs to some field the scan marks. */
  ghost predicate MarksNode(sit: Situation, n: int)
  {
    exists i :: 0 <= i < |sit| && Marked(sit[i]) && sit[i].0 in QuestionToField && n in QuestionToField[sit[i].0]
  }

  /** A field the scan marks: string-valued, neither priority nor consciousness. */
  predicate Marked(entry: (string, Json))
  {
    entry.1.JStr? && entry.0 != "priority" && entry.0 != "consciousness"
  }

  /**
   * When every marked field has a node, the scan completes and occupies
   * exactly the nodes of the marked fields (both 7 and 8 for the robot's
   * action); node 0 is never occupied.
   */
  lemma {:induction false} SelectedNodes(sit: Situation)
    requires forall i :: 0 <= i < |sit| && Marked(sit[i]) ==> sit[i].0 in QuestionToField
    ensures Selected(sit).1
    ensures forall n :: n in Selected(sit).0 <==> MarksNode(sit, n)
    ensures 0 !in Selected(sit).0
    decreases |sit|
  {
    if sit != [] {
      var init := sit[..|sit| - 1];
      var last := sit[|sit| - 1];
      assert forall i :: 0 <= i < |init| ==> init[i] == sit[i];
      SelectedNodes(init);
      var extra := if Marked(last) then QuestionToField[last.0] else [];
      assert Selected(sit).0 == Selected(init).0 + extra;
      forall n ensures n in Selected(sit).0 <==> MarksNode(sit, n) {
        if n in Selected(init).0 {
          assert MarksNode(init, n);
          var i :| 0 <= i < |init| && Marked(init[i]) && n in QuestionToField[init[i].0];
          assert sit[i] == init[i];
        } else if n in extra {
          assert Marked(sit[|sit| - 1]);
        }
        if MarksNode(sit, n) {
          var i :| 0 <= i < |sit| && Marked(sit[i]) && n in QuestionToField[sit[i].0];
          if i < |init| {
            assert init[i] == sit[i];
            assert MarksNode(init, n);
          }
        }
      }
      if Marked(last) {
        assert last.0 in QuestionToField;
        assert 0 !in QuestionToField[last.0] by {
          var f := last.0;
          if f == "injuries" {} else if f == "breathing" {} else if f == "stuck_trapped" {}
          else if f == "immediate_danger" {} else if f == "can_walk" {}
          else if f == "people_in_surroundings" {} else if f == "robot_action" {}
        }
      }
    }
  }

  // ---------------------------------------------------------------------
  // Choosing the next node
  // ---------------------------------------------------------------------

  /** A number above every occupied node. */
  function Above(occ: seq<int>): (b: int)
    ensures forall x :: x in occ ==> x < b
  {
    if occ == [] then 0
    else
      var b := Above(occ[1..]);
      assert forall x :: x in occ ==> x == occ[0] || x in occ[1..];
      if occ[0] >= b then occ[0] + 1 else b
  }

  /** The first node from `n` on that is not occupied. */
  function NextFree(occ: seq<int>, n: int): (r: int)
    ensures n <= r && r !in occ
    ensures forall k :: n <= k < r ==> k in occ
    decreases Above(occ) - n
  {
    if n in occ then NextFree(occ, n + 1) else n
  }

  /** Mobility as the code tests it: only a recorded `True` is truthy. */
  predicate Mobile(mobility: Option<bool>) { mobility == Some(true) }

  /**
   * `select_node`: the fixed jumps (0 on "no" to 2, 3 on "yes" to 5 with
   * mobility False, 6 to 8 or 7 by mobility), node 4 on "yes" recording
   * mobility True, and otherwise the first unoccupied node after the last.
   */
  function Select(occ: seq<int>, last: int, answer: Option<Answer>, mobility: Option<bool>): (int, Option<bool>)
  {
    var next := NextFree(occ, last + 1);
    if last == 0 && answer == Some(Negative) then (2, mobility)
    else if last == 3 && answer == Some(Positive) then (5, Some(false))
    else
      var m := if last == 4 && answer == Some(Positive) then Some(true) else mobility;
      if last == 6 then (if Mobile(m) then 8 else 7, m)
      else (next, m)
  }

  /**
   * The tree always moves forward; away from the fixed jumps it takes the
   * smallest unoccupied node after the last one; mobility changes only
   * after a "yes" at node 3 (False) or node 4 (True).
   */
  lemma SelectAdvances(occ: seq<int>, last: int, answer: Option<Answer>, mobility: Option<bool>)
    ensures var (n, m) := Select(occ, last, answer, mobility);
      n > last &&
      (!(last == 0 && answer == Some(Negative)) && !(last == 3 && answer == Some(Positive)) && last != 6 ==>
        n !in occ && forall k :: last < k < n ==> k in occ) &&
      (m != mobility ==> (last == 3 || last == 4) && answer == Some(Positive)) &&
      (last == 6 ==> (n == 8 <==> Mobile(mobility)))
  {
  }

  /** A victim who says "yes" to being stuck (node 3) is never guided out: node 6 leads to 7. */
  lemma StuckVictimWaits(occ: seq<int>, answer5: Option<Answer>, answer6: Option<Answer>, mobility: Option<bool>)
    ensures var (n5, m5) := Select(occ, 3, Some(Positive), mobility);
      n5 == 5 && m5 == Some(false) &&
      Select(occ, 6, answer6, Select(occ, 5, answer5, m5).1) == (7, Some(false))
  {
  }

  // ---------------------------------------------------------------------
  // Asking a node and recording the answer
  // ---------------------------------------------------------------------

  /** The field whose question a node asks, as `read_question_file` places it. */
  function FieldOfNode(node: int): Option<string>
  {
    if node == 0 then Some("consciousness")
    else if node == 1 then Some("injuries")
    else if node == 2 then Some("breathing")
    else if node == 3 then Some("stuck_trapped")
    else if node == 4 then Some("can_walk")
    else if node == 5 then Some("immediate_danger")
    else if node == 6 then Some("people_in_surroundings")
    else if node == 7 || node == 8 then Some("robot_action")
    else None
  }

  /** `FieldOfNode` inverts the node table. */
  lemma FieldOfNodeInverts(f: string, node: int)
    ensures f in QuestionToField && node in QuestionToField[f] <==> FieldOfNode(node) == Some(f)
  {
  }

  /** What `interact` records for the answer to a node. */
  function Written(sit: Situation, node: int, response: string, status: Option<Answer>): Situation
  {
    var yes := status == Some(Positive);
    if node == 1 then Put(Put(sit, "injuries", JStr(response)), "consciousness", JStr("Conscious"))
    else if node == 2 then Put(sit, "breathing", JStr(if yes then "Trouble Breathing" else "No trouble"))
    else if node == 3 then
      if yes then Put(Put(Put(sit, "stuck_trapped", JStr("Possibly stuck")), "robot_action", JStr("Wait for responder")), "can_walk", JStr("Cannot walk"))
      else Put(sit, "stuck_trapped", JStr("Possibly not stuck"))
    else if node == 4 then
      if yes then Put(Put(sit, "can_walk", JStr("Can walk")), "robot_action", JStr("Guide victim"))
      else Put(Put(sit, "can_walk", JStr("Cannot walk")), "robot_action", JStr("Wait for responder"))
    else if node == 5 then Put(sit, "people_in_surroundings", JStr(if yes then "Others present" else "None nearby"))
    else if node == 6 then Put(sit, "immediate_danger", JStr(if yes then "Danger nearby" else "Not clear"))
    else sit
  }

  /**
   * Node 4 sets walking and the robot's action together: a victim who can
   * walk is guided, one who cannot is waited for.
   */
  lemma WalkingDecidesAction(sit: Situation, response: string, status: Option<Answer>)
    ensures var r := Written(sit, 4, response, status);
      (status == Some(Positive) ==> Get(r, "can_walk") == JStr("Can walk") && Get(r, "robot_action") == JStr("Guide victim")) &&
      (status != Some(Positive) ==> Get(r, "can_walk") == JStr("Cannot walk") && Get(r, "robot_action") == JStr("Wait for responder"))
  {
    WrittenAtFour(sit, response, status);
    assert |"can_walk"| != |"robot_action"|;
    if status == Some(Positive) {
      PutTwice(sit, "can_walk", JStr("Can walk"), "robot_action", JStr("Guide victim"));
    } else {
      PutTwice(sit, "can_walk", JStr("Cannot walk"), "robot_action", JStr("Wait for responder"));
    }
  }

  /** Node 1's record, written out. */
  lemma WrittenAtOne(sit: Situation, response: string, status: Option<Answer>)
    ensures Written(sit, 1, response, status) == Put(Put(sit, "injuries", JStr(response)), "consciousness", JStr("Conscious"))
  {
  }

  /** Node 4's record, written out. */
  lemma WrittenAtFour(sit: Situation, response: string, status: Option<Answer>)
    ensures status == Some(Positive) ==>
      Written(sit, 4, response, status) == Put(Put(sit, "can_walk", JStr("Can walk")), "robot_action", JStr("Guide victim"))
    ensures status != Some(Positive) ==>
      Written(sit, 4, response, status) == Put(Put(sit, "can_walk", JStr("Cannot walk")), "robot_action", JStr("Wait for responder"))
  {
  }

  /** Two writes to different keys: a read of either finds its own write. */
  lemma PutTwice(sit: Situation, k1: string, v1: Json, k2: string, v2: Json)
    requires k1 != k2
    ensures Get(Put(Put(sit, k1, v1), k2, v2), k1) == v1 && Get(Put(Put(sit, k1, v1), k2, v2), k2) == v2
  {
    var s1 := Put(sit, k1, v1);
    assert Get(s1, k1) == v1;
  }

  /** The fields each node's answer is recorded in. */
  function FieldsWritten(node: int): set<string>
  {
    if node == 1 then {"injuries", "consciousness"}
    else if node == 2 then {"breathing"}
    else if node == 3 then {"stuck_trapped", "robot_action", "can_walk"}
    else if node == 4 then {"can_walk", "robot_action"}
    else if node == 5 then {"people_in_surroundings"}
    else if node == 6 then {"immediate_danger"}
    else {}
  }

  /** An answer changes no field outside its node's own; nodes 0, 7 and 8 change nothing. */
  lemma WrittenFrame(sit: Situation, node: int, response: string, status: Option<Answer>, k: string)
    requires k !in FieldsWritten(node)
    ensures Get(Written(sit, node, response, status), k) == Get(sit, k)
    ensures HasKey(Written(sit, node, response, status), k) <==> HasKey(sit, k)
  {
    var w := Written(sit, node, response, status);
    var yes := status == Some(Positive);
    if node == 1 {
      WrittenAtOne(sit, response, status);
    } else if node == 2 {
      assert w == Put(sit, "breathing", JStr(if yes then "Trouble Breathing" else "No trouble"));
    } else if node == 3 && yes {
      assert w == Put(Put(Put(sit, "stuck_trapped", JStr("Possibly stuck")), "robot_action", JStr("Wait for responder")),
                      "can_walk", JStr("Cannot walk"));
    } else if node == 3 {
      assert w == Put(sit, "stuck_trapped", JStr("Possibly not stuck"));
    } else if node == 4 {
      WrittenAtFour(sit, response, status);
    } else if node == 5 {
      assert w == Put(sit, "people_in_surroundings", JStr(if yes then "Others present" else "None nearby"));
    } else if node == 6 {
      assert w == Put(sit, "immediate_danger", JStr(if yes then "Danger nearby" else "Not clear"));
    } else {
      assert w == sit;
    }
  }

  /** A "yes" at node 3 records a stuck victim who cannot walk and must be waited for. */
  lemma StuckMeansWait(sit: Situation, response: string)
    ensures var r := Written(sit, 3, response, Some(Positive));
      Get(r, "stuck_trapped") == JStr("Possibly stuck") && Get(r, "can_walk") == JStr("Cannot walk") &&
      Get(r, "robot_action") == JStr("Wait for responder")
  {
    var s1 := Put(sit, "stuck_trapped", JStr("Possibly stuck"));
    var s2 := Put(s1, "robot_action", JStr("Wait for responder"));
    var s3 := Put(s2, "can_walk", JStr("Cannot walk"));
    assert Written(sit, 3, response, Some(Positive)) == s3;
    assert |"can_walk"| != |"robot_action"| && |"can_walk"| != |"stuck_trapped"| && |"robot_action"| != |"stuck_trapped"|;
  }

  /** Node 1 keeps the victim's own words as the injuries and records them as conscious. */
  lemma InjuriesKeepReply(sit: Situation, response: string, status: Option<Answer>)
    ensures var r := Written(sit, 1, response, status);
      Get(r, "injuries") == JStr(response) && Get(r, "consciousness") == JStr("Conscious")
  {
    var s1 := Put(sit, "injuries", JStr(response));
    WrittenAtOne(sit, response, status);
    assert |"injuries"| != |"consciousness"|;
  }

  /**
   * The crossed wiring of nodes 5 and 6: node 5 asks the question filed
   * under immediate_danger but records its answer as
   * people_in_surroundings, and node 6 the other way round. So a snapshot
   * that already knows who is nearby occupies node 6, and the tree then
   * never records immediate danger.
   */
  lemma DangerAndPeopleCrossed(sit: Situation, response: string, status: Option<Answer>)
    ensures FieldOfNode(5) == Some("immediate_danger") && QuestionToField["immediate_danger"] == [5]
    ensures Get(Written(sit, 5, response, status), "immediate_danger") == Get(sit, "immediate_danger")
    ensures Get(Written(sit, 5, response, status), "people_in_surroundings") != Get(sit, "people_in_surroundings") ||
      Get(sit, "people_in_surroundings").JStr?
    ensures FieldOfNode(6) == Some("people_in_surroundings") && QuestionToField["people_in_surroundings"] == [6]
    ensures Get(Written(sit, 6, response, status), "people_in_surroundings") == Get(sit, "people_in_surroundings")
  {
  }

  /** A snapshot that reports only who is nearby, merged into the fresh record. */
  lemma MergePeopleOnly(item: (string, Json))
    requires item == ("people_in_surroundings", JStr("Alone"))
    ensures Merge(InitialSituation, [item]) == InitialSituation[1 := item]
  {
    var items: seq<(string, Json)> := [item];
    assert items[..|items| - 1] == [];
    assert Merge(InitialSituation, items) == Put(InitialSituation, item.0, item.1);
    var tail := InitialSituation[1..];
    assert |InitialSituation[0].0| != |item.0| && tail[0].0 == item.0;
    PutPast(InitialSituation, item.0, item.1);
    PutHere(tail, item.0, item.1);
    assert [InitialSituation[0]] + ([item] + tail[1..]) == InitialSituation[1 := item];
  }

  /** Writing the key of the first item replaces that item. */
  lemma PutHere(d: Situation, key: string, value: Json)
    requires d != [] && d[0].0 == key
    ensures Put(d, key, value) == [(key, value)] + d[1..]
  {
  }

  /** Writing another key keeps the first item and writes into the rest. */
  lemma PutPast(d: Situation, key: string, value: Json)
    requires d != [] && d[0].0 != key
    ensures Put(d, key, value) == [d[0]] + Put(d[1..], key, value)
  {
  }

  /** With node 6 the only one occupied, node 5 is followed by node 7. */
  lemma SkipOccupiedSix(occ: seq<int>, answer: Option<Answer>, mobility: Option<bool>)
    requires forall n :: n in occ <==> n == 6
    ensures Select(occ, 5, answer, mobility) == (7, mobility)
  {
    var r := NextFree(occ, 6);
    assert r != 6 && (r > 7 ==> 7 in occ);
  }

  /**
   * With only people_in_surroundings known from a snapshot, node 6 is the
   * only one occupied, and the tree goes from node 5 straight to node 7,
   * although immediate danger was never recorded.
   */
  lemma KnownPeopleSkipsDanger(answer: Option<Answer>, mobility: Option<bool>)
    ensures var sit := Merge(InitialSituation, [("people_in_surroundings", JStr("Alone"))]);
      var occ := Selected(sit).0;
      Selected(sit).1 && (forall n :: n in occ <==> n == 6) &&
      Select(occ, 5, answer, mobility) == (7, mobility) &&
      Get(sit, "immediate_danger") == JNull
  {
    var item := ("people_in_surroundings", JStr("Alone"));
    MergePeopleOnly(item);
    var sit := InitialSituation[1 := item];
    PeopleOnlyOccupiesSix(sit);
    SkipOccupiedSix(Selected(sit).0, answer, mobility);
    PeopleOnlyDangerUnknown(sit);
  }

  /** The fresh record with only who is nearby known occupies node 6 alone. */
  lemma PeopleOnlyOccupiesSix(sit: Situation)
    requires sit == InitialSituation[1 := ("people_in_surroundings", JStr("Alone"))]
    ensures Selected(sit).1 && forall n :: n in Selected(sit).0 <==> n == 6
  {
    assert forall i :: 0 <= i < |sit| && Marked(sit[i]) ==> i == 1;
    SelectedNodes(sit);
    assert Marked(sit[1]) && QuestionToField[sit[1].0] == [6];
    forall n ensures n in Selected(sit).0 <==> n == 6 {
      if n == 6 {
        assert n in QuestionToField[sit[1].0];
        assert MarksNode(sit, n);
      }
      if MarksNode(sit, n) {
        var i :| 0 <= i < |sit| && Marked(sit[i]) && n in QuestionToField[sit[i].0];
        assert i == 1;
      }
    }
  }

  /** In that record immediate danger is still unset. */
  lemma PeopleOnlyDangerUnknown(sit: Situation)
    requires sit == InitialSituation[1 := ("people_in_surroundings", JStr("Alone"))]
    ensures Get(sit, "immediate_danger") == JNull
  {
    forall j | 0 <= j < 7 ensures |sit[j].0| != |"immediate_danger"| {
    }
    GetFirstByLength(sit, 7, "immediate_danger");
  }

  /** One utterance of the robot: its text and whether it is the closing one. */
  datatype Utterance = Utterance(text: string, last: bool)

  const NoResponse := "No response"

  const RepeatRequest := "I didn't catch that. Could you please repeat?"

  function Repeats(n: nat): (r: seq<Utterance>)
    ensures |r| == n && forall i :: 0 <= i < n ==> r[i] == Utterance(RepeatRequest, false)
  {
    seq(n, _ => Utterance(RepeatRequest, false))
  }

  /** The number of timed-out listens at the head of the reply queue. */
  function Silences(queue: seq<string>): (k: nat)
    ensures k <= |queue|
    ensures forall j :: 0 <= j < k ==> queue[j] == NoResponse
    ensures k < |queue| ==> queue[k] != NoResponse
  {
    if queue == [] || queue[0] != NoResponse then 0
    else
      var k := Silences(queue[1..]);
      assert forall j :: 1 <= j <= k ==> queue[j] == queue[1..][j - 1];
      1 + k
  }

  /** The agent's state. */
  datatype State = State(
    situation: Situation,
    occupied: seq<int>,
    questions: map<int, string>,
    spoken: seq<Utterance>,
    sttQueue: seq<string>,
    inBackground: bool,
    firstMessage: bool)

  /** How one node's interaction ends. */
  datatype Outcome =
    | Answered(status: Option<Answer>)
    | Stalled    // the replies ran out while the robot was still asking
    | NoQuestion // no question loaded for the node: `KeyError`

  /**
   * `interact`: a node with no loaded question raises; nodes 7 and 8 are
   * spoken once as the closing message and count as "positive" without
   * listening; the others re-prompt after every "No response" and record
   * the first real reply.
   */
  function Interact(language: string, st: State, node: int): (r: (State, Outcome))
    ensures r.1 != NoQuestion ==> |r.0.spoken| > |st.spoken|
    ensures node >= 7 && node in st.questions ==>
      r.0.spoken == st.spoken + [Utterance(st.questions[node], true)] && r.1 == Answered(Some(Positive)) &&
      r.0.sttQueue == st.sttQueue && r.0.situation == st.situation
    ensures r.1 == Stalled ==> r.0.sttQueue == [] && forall j :: 0 <= j < |st.sttQueue| ==> st.sttQueue[j] == NoResponse
    ensures r.0.occupied == st.occupied && r.0.questions == st.questions
    ensures r.1 == NoQuestion <==> node !in st.questions
  {
    if node !in st.questions then (st, NoQuestion)
    else if node >= 7 then
      (st.(spoken := st.spoken + [Utterance(st.questions[node], true)]), Answered(Some(Positive)))
    else
      var k := Silences(st.sttQueue);
      var said := st.spoken + [Utterance(st.questions[node], false)] + Repeats(k);
      if k == |st.sttQueue| then (st.(spoken := said, sttQueue := []), Stalled)
      else
        var response := st.sttQueue[k];
        var status := AnalyzeResponse(language, response);
        (st.(spoken := said, sttQueue := st.sttQueue[k + 1..], situation := Written(st.situation, node, response, status)),
         Answered(status))
  }

  /** After `heard` silences the victim answers: the answer is recorded and the rest of the queue stays. */
  lemma InteractHeard(language: string, st: State, node: int, heard: nat)
    requires node in st.questions && node < 7
    requires heard < |st.sttQueue| && st.sttQueue[heard] != NoResponse
    requires forall j :: 0 <= j < heard ==> st.sttQueue[j] == NoResponse
    ensures var status := AnalyzeResponse(language, st.sttQueue[heard]);
      Interact(language, st, node) ==
        (st.(spoken := st.spoken + [Utterance(st.questions[node], false)] + Repeats(heard),
             sttQueue := st.sttQueue[heard + 1..],
             situation := Written(st.situation, node, st.sttQueue[heard], status)),
         Answered(status))
  {
    assert Silences(st.sttQueue) == heard;
  }

  /** Nothing but silences: the node stalls with the queue used up. */
  lemma InteractSilent(language: string, st: State, node: int)
    requires node in st.questions && node < 7
    requires forall j :: 0 <= j < |st.sttQueue| ==> st.sttQueue[j] == NoResponse
    ensures Interact(language, st, node) ==
      (st.(spoken := st.spoken + [Utterance(st.questions[node], false)] + Repeats(|st.sttQueue|), sttQueue := []), Stalled)
  {
    assert Silences(st.sttQueue) == |st.sttQueue|;
  }

  // ---------------------------------------------------------------------
  // Standby
  // ---------------------------------------------------------------------

  /** A message from the primary dialogue manager: a snapshot of updates, or a failure notice. */
  datatype Report =
    | Snapshot(items: seq<(string, Json)>)
    | Info(info: string, data: Option<string>)

  /** The snapshot's items written over the record, key by key, in order. */
  function Merge(sit: Situation, items: seq<(string, Json)>): Situation
    decreases |items|
  {
    if items == [] then sit
    else
      var last := items[|items| - 1];
      Put(Merge(sit, items[..|items| - 1]), last.0, last.1)
  }

  /** Item `i` is the last one in `items` with the key. */
  predicate LastFor(items: seq<(string, Json)>, i: int, key: string)
  {
    0 <= i < |items| && items[i].0 == key && forall j :: i < j < |items| ==> items[j].0 != key
  }

  /** A key the snapshot does not mention keeps its value and its presence through a merge. */
  lemma {:induction false} MergeKeepsOthers(sit: Situation, items: seq<(string, Json)>, key: string)
    requires !HasKey(items, key)
    ensures Get(Merge(sit, items), key) == Get(sit, key)
    ensures HasKey(Merge(sit, items), key) <==> HasKey(sit, key)
    decreases |items|
  {
    if items != [] {
      var init := items[..|items| - 1];
      var last := items[|items| - 1];
      assert Merge(sit, items) == Put(Merge(sit, init), last.0, last.1);
      assert !HasKey(init, key) && last.0 != key;
      MergeKeepsOthers(sit, init, key);
    }
  }

  /** After a merge, a key takes its last value in the snapshot. */
  lemma {:induction false} MergeOverwrites(sit: Situation, items: seq<(string, Json)>, key: string)
    ensures forall i :: LastFor(items, i, key) ==>
      HasKey(Merge(sit, items), key) && Get(Merge(sit, items), key) == items[i].1
    decreases |items|
  {
    if items != [] {
      var init := items[..|items| - 1];
      var last := items[|items| - 1];
      var m := Merge(sit, init);
      assert Merge(sit, items) == Put(m, last.0, last.1);
      MergeOverwrites(sit, init, key);
      forall i | LastFor(items, i, key)
        ensures HasKey(Merge(sit, items), key) && Get(Merge(sit, items), key) == items[i].1
      {
        if i < |items| - 1 {
          assert last.0 != key;
          assert init[i] == items[i];
          assert LastFor(init, i, key);
        }
      }
    }
  }

  /** How standby ends. */
  datatype StandbyOutcome =
    | Resumed(lastMessage: Option<string>)  // take over, with the primary's last reply if any
    | Crashed                                // a string field with no node: `KeyError`
    | Waiting                                // the report queue ran out

  /**
   * `on_standby`: snapshots are merged into the record; "fail_at_start"
   * takes over with nothing known; any other notice records the victim
   * as conscious, occupies the nodes already answered and takes over with
   * the primary's last reply.
   */
  function Standby(st: State, reports: seq<Report>): (r: (State, StandbyOutcome))
    ensures r.0.questions == st.questions && r.0.spoken == st.spoken && r.0.sttQueue == st.sttQueue
    decreases |reports|
  {
    if reports == [] then (st, Waiting)
    else
      match reports[0]
      case Snapshot(items) => Standby(st.(situation := Merge(st.situation, items)), reports[1..])
      case Info(info, data) =>
        if info == "fail_at_start" then (st.(inBackground := false), Resumed(None))
        else
          var sit := Put(st.situation, "consciousness", JStr("Conscious"));
          var (ns, ok) := Selected(sit);
          (st.(situation := sit, inBackground := false, firstMessage := false, occupied := st.occupied + ns),
           if ok then Resumed(data) else Crashed)
  }

  /** How many reports come before the first notice. */
  function Leading(reports: seq<Report>): (k: nat)
    ensures k <= |reports|
    ensures forall i :: 0 <= i < k ==> reports[i].Snapshot?
    ensures k < |reports| ==> reports[k].Info?
    decreases |reports|
  {
    if reports == [] || reports[0].Info? then 0 else 1 + Leading(reports[1..])
  }

  /** The items of the snapshots before the first notice, in the order they arrive. */
  function Updates(reports: seq<Report>): seq<(string, Json)>
    decreases |reports|
  {
    if reports == [] || reports[0].Info? then [] else reports[0].items + Updates(reports[1..])
  }

  /** Merging two snapshots one after the other is merging their items in a row. */
  lemma {:induction false} MergeConcat(sit: Situation, a: seq<(string, Json)>, b: seq<(string, Json)>)
    ensures Merge(sit, a + b) == Merge(Merge(sit, a), b)
    decreases |b|
  {
    if b != [] {
      var ab, init, last := a + b, b[..|b| - 1], b[|b| - 1];
      var abInit := ab[..|ab| - 1];
      assert Merge(sit, ab) == Put(Merge(sit, abInit), ab[|ab| - 1].0, ab[|ab| - 1].1);
      assert abInit == a + init && ab[|ab| - 1] == last;
      assert Merge(Merge(sit, a), b) == Put(Merge(Merge(sit, a), init), last.0, last.1);
      MergeConcat(sit, a, init);
    } else {
      assert a + b == a;
    }
  }

  /**
   * What standby leaves behind: the record is the merge of every snapshot
   * before the first notice; with no notice it keeps waiting; on
   * "fail_at_start" it takes over with nothing known and no node occupied;
   * on any other notice the victim is recorded as conscious, the nodes of
   * the answered fields are occupied, and it takes over with the notice's
   * data exactly when every answered field has a node.
   */
  lemma {:induction false} StandbyOutcomes(st: State, reports: seq<Report>)
    ensures var r, k, merged := Standby(st, reports), Leading(reports), Merge(st.situation, Updates(reports));
      && (r.1 == Waiting <==> forall i :: 0 <= i < |reports| ==> reports[i].Snapshot?)
      && (k == |reports| ==> r.0 == st.(situation := merged))
      && (k < |reports| && reports[k].info == "fail_at_start" ==>
            r == (st.(situation := merged, inBackground := false), Resumed(None)))
      && (k < |reports| && reports[k].info != "fail_at_start" ==>
            var sit := Put(merged, "consciousness", JStr("Conscious"));
            r == (st.(situation := sit, inBackground := false, firstMessage := false,
                      occupied := st.occupied + Selected(sit).0),
                  if Selected(sit).1 then Resumed(reports[k].data) else Crashed))
    decreases |reports|
  {
    if reports != [] && reports[0].Snapshot? {
      var items := reports[0].items;
      var rest := reports[1..];
      var st' := st.(situation := Merge(st.situation, items));
      assert Standby(st, reports) == Standby(st', rest);
      assert Leading(reports) == 1 + Leading(rest);
      assert Updates(reports) == items + Updates(rest);
      assert forall i :: 0 <= i < |rest| ==> rest[i] == reports[i + 1];
      MergeConcat(st.situation, items, Updates(rest));
      StandbyOutcomes(st', rest);
    }
  }

  /**
   * A field other than consciousness holds, after standby, its last value
   * in the snapshots before the first notice, or the value it had before
   * when none of them names it.
   */
  lemma StandbyRecords(st: State, reports: seq<Report>, key: string)
    requires key != "consciousness"
    ensures var sit, u := Standby(st, reports).0.situation, Updates(reports);
      && (forall i :: LastFor(u, i, key) ==> HasKey(sit, key) && Get(sit, key) == u[i].1)
      && (!HasKey(u, key) ==> (HasKey(sit, key) <==> HasKey(st.situation, key)) && Get(sit, key) == Get(st.situation, key))
  {
    StandbyOutcomes(st, reports);
    MergeOverwrites(st.situation, Updates(reports), key);
    if !HasKey(Updates(reports), key) {
      MergeKeepsOthers(st.situation, Updates(reports), key);
    }
  }

  // ---------------------------------------------------------------------
  // The question file
  // ---------------------------------------------------------------------

  /** A question of the file: one text, or the pair of closing messages of the robot's action. */
  datatype Question = One(text: string) | Pair(first: string, second: string)

  /**
   * `read_question_file` over the file's "questions" items: each field's
   * question is placed at its node (the action pair at 7 and 8); the scan
   * stops at a key that is not a field of the record or has no node.
   */
  function LoadQuestions(loaded: map<int, string>, items: seq<(string, Question)>): (r: map<int, string>)
    ensures forall n :: n in r ==> n in loaded || FieldOfNode(n).Some?
    decreases |items|
  {
    if items == [] then loaded
    else
      var f := items[0].0;
      if f !in QuestionToField then loaded
      else
        assert forall n :: n in QuestionToField[f] ==> FieldOfNode(n).Some? by {
          forall n | n in QuestionToField[f] ensures FieldOfNode(n).Some? {
            FieldOfNodeInverts(f, n);
          }
        }
        LoadQuestions(Store(loaded, items[0]), items[1..])
  }

  /** One item of the file stored at its field's nodes, when its shape fits the field. */
  function Store(loaded: map<int, string>, item: (string, Question)): (r: map<int, string>)
    requires item.0 in QuestionToField
    ensures forall n :: n in r ==> n in loaded || n in QuestionToField[item.0]
  {
    var nodes := QuestionToField[item.0];
    var q := item.1;
    if |nodes| == 1 && q.One? then loaded[nodes[0] := q.text]
    else if |nodes| == 2 && q.Pair? then loaded[nodes[0] := q.first][nodes[1] := q.second]
    else loaded
  }

  /** A field's question lands at the node the table gives it, where the tree asks it. */
  lemma LoadPlacesQuestion(f: string, text: string)
    requires f in QuestionToField && |QuestionToField[f]| == 1
    ensures var n := QuestionToField[f][0];
      LoadQuestions(map[], [(f, One(text))]) == map[n := text] && FieldOfNode(n) == Some(f)
  {
    FieldOfNodeInverts(f, QuestionToField[f][0]);
  }

  /** How many items the scan reads: it stops at the first key with no node (the caught `KeyError`). */
  function Scanned(items: seq<(string, Question)>): (k: nat)
    ensures k <= |items|
    ensures forall i :: 0 <= i < k ==> items[i].0 in QuestionToField
    ensures k < |items| ==> items[k].0 !in QuestionToField
    decreases |items|
  {
    if items == [] || items[0].0 !in QuestionToField then 0 else 1 + Scanned(items[1..])
  }

  /** The item is a field's question of the right shape, and `n` is one of the field's nodes. */
  predicate Places(item: (string, Question), n: int)
  {
    item.0 in QuestionToField && n in QuestionToField[item.0] &&
    (if |QuestionToField[item.0]| == 1 then item.1.One? else |QuestionToField[item.0]| == 2 && item.1.Pair?)
  }

  /** The text the item stores at node `n`: its one text, or the first or second closing message. */
  function Placed(item: (string, Question), n: int): string
  {
    match item.1
    case One(text) => text
    case Pair(first, second) => if n == 7 then first else second
  }

  /** Only the robot's action has two nodes, 7 and 8. */
  lemma PairNodes(f: string)
    requires f in QuestionToField && |QuestionToField[f]| == 2
    ensures f == "robot_action" && QuestionToField[f] == [7, 8]
  {
  }

  /** What storing one item does at node `n`. */
  lemma StoreAt(loaded: map<int, string>, item: (string, Question), n: int)
    requires item.0 in QuestionToField
    ensures Places(item, n) ==> n in Store(loaded, item) && Store(loaded, item)[n] == Placed(item, n)
    ensures !Places(item, n) ==>
      (n in Store(loaded, item) <==> n in loaded) && (n in loaded ==> Store(loaded, item)[n] == loaded[n])
  {
    if |QuestionToField[item.0]| == 2 {
      PairNodes(item.0);
    }
  }

  /**
   * A node no well-shaped item read before the scan stops names keeps what
   * was loaded before, or stays empty.
   */
  lemma {:induction false} LoadQuestionsKeeps(loaded: map<int, string>, items: seq<(string, Question)>, n: int)
    requires forall i :: 0 <= i < Scanned(items) ==> !Places(items[i], n)
    ensures (n in LoadQuestions(loaded, items) <==> n in loaded) &&
      (n in loaded ==> LoadQuestions(loaded, items)[n] == loaded[n])
    decreases |items|
  {
    if items != [] && items[0].0 in QuestionToField {
      var rest := items[1..];
      assert forall i :: 0 <= i < Scanned(rest) ==> rest[i] == items[i + 1];
      StoreAt(loaded, items[0], n);
      LoadQuestionsKeeps(Store(loaded, items[0]), rest, n);
    }
  }

  /**
   * Where every question of the file lands: a node takes the text of the
   * last well-shaped item for its field read before the scan stops, so a
   * later item overwrites an earlier one and the pair goes to nodes 7 and 8.
   */
  lemma {:induction false} LoadQuestionsAt(loaded: map<int, string>, items: seq<(string, Question)>, i: nat, n: int)
    requires i < Scanned(items) && Places(items[i], n)
    requires forall j :: i < j < Scanned(items) ==> !Places(items[j], n)
    ensures n in LoadQuestions(loaded, items) && LoadQuestions(loaded, items)[n] == Placed(items[i], n)
    decreases |items|
  {
    var rest := items[1..];
    var next := Store(loaded, items[0]);
    assert forall j :: 0 <= j < Scanned(rest) ==> rest[j] == items[j + 1];
    if i == 0 {
      StoreAt(loaded, items[0], n);
      LoadQuestionsKeeps(next, rest, n);
    } else {
      LoadQuestionsAt(next, rest, i - 1, n);
    }
  }

  /** The closing pair of the robot's action lands at nodes 7 and 8. */
  lemma LoadActionPair(loaded: map<int, string>, first: string, second: string)
    ensures LoadQuestions(loaded, [("robot_action", Pair(first, second))]) == loaded[7 := first][8 := second]
  {
    assert [("robot_action", Pair(first, second))][1..] == [];
  }

  // ---------------------------------------------------------------------
  // Walking the tree
  // ---------------------------------------------------------------------

  /** How a walk of the tree ends. */
  datatype WalkEnd = Finished | EndStalled | EndNoQuestion

  predicate QuestionsInTree(questions: map<int, string>)
  {
    forall n :: n in questions ==> 0 <= n <= 8
  }

  /**
   * The loop of `interaction_tree` from a given node: select, interact,
   * and stop after node 7 or 8; the nodes visited are returned with the
   * final state.
   */
  function Walk(language: string, st: State, last: int, answer: Option<Answer>, mobility: Option<bool>): (r: (State, WalkEnd, seq<int>))
    requires QuestionsInTree(st.questions)
    ensures r.0.questions == st.questions && |r.2| > 0
    decreases 9 - last
  {
    var sel := Select(st.occupied, last, answer, mobility);
    SelectAdvances(st.occupied, last, answer, mobility);
    var next := Interact(language, st, sel.0);
    if next.1 == Stalled then (next.0, EndStalled, [sel.0])
    else if next.1 == NoQuestion then (next.0, EndNoQuestion, [sel.0])
    else if sel.0 == 7 || sel.0 == 8 then (next.0, Finished, [sel.0])
    else
      var rest := Walk(language, next.0, sel.0, next.1.status, sel.1);
      (rest.0, rest.1, [sel.0] + rest.2)
  }

  /**
   * Nodes visited in strictly increasing order, all after `last`, and none
   * but the final one a closing node (7 or 8).
   */
  ghost predicate Ascending(nodes: seq<int>, last: int)
  {
    (forall i :: 0 <= i < |nodes| ==> nodes[i] > last) &&
    (forall i :: 0 < i < |nodes| ==> nodes[i - 1] < nodes[i]) &&
    (forall i :: 0 <= i < |nodes| - 1 ==> nodes[i] != 7 && nodes[i] != 8)
  }

  /** A non-closing node after `last` and before an ascending rest keeps the nodes ascending. */
  lemma AscendingCons(x: int, rest: seq<int>, last: int)
    requires last < x && x != 7 && x != 8 && |rest| > 0 && Ascending(rest, x)
    ensures Ascending([x] + rest, last)
    ensures ([x] + rest)[|rest|] == rest[|rest| - 1]
  {
    var s := [x] + rest;
    assert forall i :: 0 < i < |s| ==> s[i] == rest[i - 1];
  }

  /**
   * The walk visits nodes in strictly increasing order, all after the
   * starting one, and ends normally exactly when the last node visited is
   * 7 or 8 and has a question, which no earlier visit is.
   */
  lemma {:induction false} WalkShape(language: string, st: State, last: int, answer: Option<Answer>, mobility: Option<bool>)
    requires QuestionsInTree(st.questions)
    ensures var w := Walk(language, st, last, answer, mobility);
      Ascending(w.2, last) &&
      (w.1 == Finished <==> w.2[|w.2| - 1] in {7, 8} && w.2[|w.2| - 1] in st.questions)
    decreases 9 - last
  {
    var sel := Select(st.occupied, last, answer, mobility);
    var next := Interact(language, st, sel.0);
    WalkUnfold(language, st, last, answer, mobility, next.0, next.1, sel.0, sel.1);
    if next.1.Answered? && sel.0 != 7 && sel.0 != 8 {
      WalkShape(language, next.0, sel.0, next.1.status, sel.1);
      var rest := Walk(language, next.0, sel.0, next.1.status, sel.1);
      AscendingCons(sel.0, rest.2, last);
    }
  }

  /** `WalkShape`, read off the walk's own result. */
  lemma WalkEnds(language: string, st: State, last: int, answer: Option<Answer>, mobility: Option<bool>,
                 post: State, end: WalkEnd, visited: seq<int>)
    requires QuestionsInTree(st.questions)
    requires (post, end, visited) == Walk(language, st, last, answer, mobility)
    ensures |visited| > 0 && Ascending(visited, last)
    ensures end == Finished ==> visited[|visited| - 1] in {7, 8} && visited[|visited| - 1] in post.questions
  {
    WalkShape(language, st, last, answer, mobility);
  }

  /**
   * One unfolding of the walk, given the node selected and the outcome of
   * its interaction: a failure or node 7 or 8 ends it there; any other
   * answer goes on from the selected node, which lies before 7.
   */
  lemma WalkUnfold(language: string, pre: State, last: int, answer: Option<Answer>, mobility: Option<bool>,
                   post: State, outcome: Outcome, next: int, mobility': Option<bool>)
    requires QuestionsInTree(pre.questions)
    requires (next, mobility') == Select(pre.occupied, last, answer, mobility)
    requires (post, outcome) == Interact(language, pre, next)
    ensures last < next && QuestionsInTree(post.questions)
    ensures !outcome.Answered? ==>
      Walk(language, pre, last, answer, mobility) == (post, if outcome == Stalled then EndStalled else EndNoQuestion, [next])
    ensures outcome.Answered? && (next == 7 || next == 8) ==>
      Walk(language, pre, last, answer, mobility) == (post, Finished, [next])
    ensures outcome.Answered? && next != 7 && next != 8 ==>
      next < 7 &&
      (var after := Walk(language, post, next, outcome.status, mobility');
       Walk(language, pre, last, answer, mobility) == (after.0, after.1, [next] + after.2))
  {
    SelectAdvances(pre.occupied, last, answer, mobility);
  }

  /** The rest `w` of a walk, after the nodes `visited`, completes the whole walk `walk`. */
  ghost predicate Continues(w: (State, WalkEnd, seq<int>), visited: seq<int>, walk: (State, WalkEnd, seq<int>))
  {
    w.0 == walk.0 && w.1 == walk.1 && visited + w.2 == walk.2
  }

  /**
   * One step of the walk, seen from a walk already under way: the selected
   * node lies after the last one, and the step either ends the whole walk
   * or leaves a rest that still completes it.
   */
  lemma WalkAdvance(language: string, pre: State, last: int, answer: Option<Answer>, mobility: Option<bool>,
                    visited: seq<int>, walk: (State, WalkEnd, seq<int>),
                    post: State, outcome: Outcome, next: int, mobility': Option<bool>)
    requires QuestionsInTree(pre.questions)
    requires Continues(Walk(language, pre, last, answer, mobility), visited, walk)
    requires (next, mobility') == Select(pre.occupied, last, answer, mobility)
    requires (post, outcome) == Interact(language, pre, next)
    ensures last < next
    ensures !outcome.Answered? ==>
      (post, if outcome == Stalled then EndStalled else EndNoQuestion, visited + [next]) == walk
    ensures outcome.Answered? && (next == 7 || next == 8) ==> (post, Finished, visited + [next]) == walk
    ensures outcome.Answered? && next != 7 && next != 8 ==>
      next < 8 && QuestionsInTree(post.questions) &&
      Continues(Walk(language, post, next, outcome.status, mobility'), visited + [next], walk)
  {
    WalkUnfold(language, pre, last, answer, mobility, post, outcome, next, mobility');
    var w := Walk(language, pre, last, answer, mobility);
    if outcome.Answered? && next != 7 && next != 8 {
      var after := Walk(language, post, next, outcome.status, mobility');
      ContinuesAfter(w, after, next, visited, walk);
    } else {
      assert w.2 == [next];
    }
  }

  /** A walk that continues with `next` and then `after` continues with `after` once `next` is visited. */
  lemma ContinuesAfter(w: (State, WalkEnd, seq<int>), after: (State, WalkEnd, seq<int>), next: int,
                       visited: seq<int>, walk: (State, WalkEnd, seq<int>))
    requires Continues(w, visited, walk)
    requires w == (after.0, after.1, [next] + after.2)
    ensures Continues(after, visited + [next], walk)
  {
    assert visited + ([next] + after.2) == (visited + [next]) + after.2;
  }

  /**
   * The walk once the answer to start from is known: while the victim has
   * not spoken yet, their first message is taken off the queue (and the
   * walk stalls at once when none comes); then the tree is walked from the
   * start node with nothing known of the victim's mobility.
   */
  function ResumeWalk(language: string, st: State, startNode: int, answer: Option<Answer>): (r: (State, WalkEnd, seq<int>))
    requires QuestionsInTree(st.questions)
    ensures r.0.questions == st.questions
    ensures Ascending(r.2, startNode)
    ensures r.1 == Finished ==> |r.2| > 0 && r.2[|r.2| - 1] in {7, 8} && r.2[|r.2| - 1] in r.0.questions
    ensures st.firstMessage ==> (st.sttQueue == [] <==> r == (st, EndStalled, []))
  {
    if st.firstMessage && st.sttQueue == [] then (st, EndStalled, [])
    else
      var pre := if st.firstMessage then st.(sttQueue := st.sttQueue[1..]) else st;
      WalkShape(language, pre, startNode, answer, None);
      Walk(language, pre, startNode, answer, None)
  }

  /**
   * The rest of `interaction_tree` once standby hands over: the primary's
   * last reply, when there is one, replaces the given last answer, and the
   * walk resumes from there.
   */
  function Resumption(language: string, st: State, lastMessage: Option<string>, startNode: int,
                      lastAnswer: Option<Answer>): (r: (State, WalkEnd, seq<int>))
    requires QuestionsInTree(st.questions)
    ensures r.0.questions == st.questions
    ensures Ascending(r.2, startNode)
    ensures r.1 == Finished ==> |r.2| > 0 && r.2[|r.2| - 1] in {7, 8} && r.2[|r.2| - 1] in r.0.questions
    ensures st.firstMessage ==> (st.sttQueue == [] <==> r == (st, EndStalled, []))
  {
    ResumeWalk(language, st, startNode, if lastMessage.Some? then AnalyzeResponse(language, lastMessage.value) else lastAnswer)
  }

  /**
   * `interaction_tree` as a whole: the questions are loaded, standby runs
   * over the primary's reports, and the tree is walked exactly when standby
   * hands over; the result is the standby outcome, the final state, how the
   * walk ended and the nodes it visited.
   */
  function Interaction(language: string, st: State, items: seq<(string, Question)>, reports: seq<Report>,
                       startNode: int, lastAnswer: Option<Answer>): (r: (StandbyOutcome, State, Option<WalkEnd>, seq<int>))
    requires QuestionsInTree(st.questions)
    ensures r.1.questions == LoadQuestions(st.questions, items)
    ensures r.2.Some? <==> r.0.Resumed?
    ensures r.2.None? ==> r.3 == []
    ensures Ascending(r.3, startNode)
  {
    var loaded := st.(questions := LoadQuestions(st.questions, items));
    var (waited, outcome) := Standby(loaded, reports);
    if !outcome.Resumed? then (outcome, waited, None, [])
    else
      var (post, end, visited) := Resumption(language, waited, outcome.lastMessage, startNode, lastAnswer);
      (outcome, post, Some(end), visited)
  }

  // ---------------------------------------------------------------------
  // The agent object
  // ---------------------------------------------------------------------

  class BackupInteraction {
    const language: string
    var situation: Situation
    var occupiedNodes: seq<int>
    var alternativeQuestions: map<int, string>
    var spoken: seq<Utterance>
    var sttQueue: seq<string>
    var inBackground: bool
    var firstMessage: bool

    function Snapshot(): State
      reads this
    {
      State(situation, occupiedNodes, alternativeQuestions, spoken, sttQueue, inBackground, firstMessage)
    }

    ghost predicate Valid()
      reads this
    {
      QuestionsInTree(alternativeQuestions)
    }

    /** The replies the speech module will deliver are given up front. */
    constructor (language: string, replies: seq<string>)
      ensures Valid() && this.language == language
      ensures Snapshot() == State(InitialSituation, [], map[], [], replies, true, true)
    {
      this.language := language;
      situation := InitialSituation;
      occupiedNodes := [];
      alternativeQuestions := map[];
      spoken := [];
      sttQueue := replies;
      inBackground := true;
      firstMessage := true;
    }

    /** `read_question_file`, over the decoded file's items. */
    method ReadQuestionFile(items: seq<(string, Question)>)
      requires Valid()
      modifies this
      ensures Valid()
      ensures Snapshot() == old(Snapshot()).(questions := LoadQuestions(old(alternativeQuestions), items))
    {
      var i := 0;
      while i < |items|
        invariant 0 <= i <= |items| && Valid()
        invariant LoadQuestions(alternativeQuestions, items[i..]) == LoadQuestions(old(alternativeQuestions), items)
        invariant Snapshot() == old(Snapshot()).(questions := alternativeQuestions)
      {
        assert items[i..][1..] == items[i + 1..];
        var (f, q) := items[i];
        if f !in QuestionToField {
          return;
        }
        var nodes := QuestionToField[f];
        assert forall n :: n in nodes ==> FieldOfNode(n).Some? by {
          forall n | n in nodes ensures FieldOfNode(n).Some? {
            FieldOfNodeInverts(f, n);
          }
        }
        if |nodes| == 1 && q.One? {
          alternativeQuestions := alternativeQuestions[nodes[0] := q.text];
        } else if |nodes| == 2 && q.Pair? {
          alternativeQuestions := alternativeQuestions[nodes[0] := q.first][nodes[1] := q.second];
        }
        i := i + 1;
      }
    }

    /** `identify_selected_nodes` */
    method IdentifySelectedNodes() returns (ok: bool)
      modifies this
      ensures Snapshot() == old(Snapshot()).(occupied := old(occupiedNodes) + Selected(situation).0)
      ensures ok == Selected(situation).1
    {
      ghost var occ0 := occupiedNodes;
      ghost var found: seq<int> := [];
      var i := 0;
      assert situation[..0] == [] && occupiedNodes == occ0 + found;
      while i < |situation|
        invariant 0 <= i <= |situation|
        invariant occupiedNodes == occ0 + found
        invariant Selected(situation[..i]) == (found, true)
        invariant Snapshot() == old(Snapshot()).(occupied := occupiedNodes)
      {
        SelectedStep(situation, i, found);
        var (field, value) := situation[i];
        if value.JStr? && field != "priority" && field != "consciousness" {
          if field !in QuestionToField {
            SelectedStops(situation, i + 1);
            return false;
          }
          occupiedNodes := occupiedNodes + QuestionToField[field];
          found := found + QuestionToField[field];
          assert occupiedNodes == occ0 + found;
        }
        i := i + 1;
      }
      assert situation[..i] == situation;
      return true;
    }

    /** `select_node` */
    method SelectNode(lastNode: int, lastAnswer: Option<Answer>, mobility: Option<bool>) returns (node: int, newMobility: Option<bool>)
      ensures (node, newMobility) == Select(occupiedNodes, lastNode, lastAnswer, mobility)
    {
      var nextNode := lastNode + 1;
      while nextNode in occupiedNodes
        invariant lastNode < nextNode
        invariant NextFree(occupiedNodes, nextNode) == NextFree(occupiedNodes, lastNode + 1)
        decreases Above(occupiedNodes) - nextNode
      {
        nextNode := nextNode + 1;
      }
      newMobility := mobility;
      if lastNode == 0 && lastAnswer == Some(Negative) {
        return 2, newMobility;
      }
      if lastNode == 3 && lastAnswer == Some(Positive) {
        newMobility := Some(false);
        return 5, newMobility;
      }
      if lastNode == 4 && lastAnswer == Some(Positive) {
        newMobility := Some(true);
      }
      if lastNode == 6 {
        return (if Mobile(newMobility) then 8 else 7), newMobility;
      }
      return nextNode, newMobility;
    }

    /** `interact` */
    method InteractNode(node: int) returns (outcome: Outcome)
      requires Valid()
      modifies this
      ensures Valid()
      ensures (Snapshot(), outcome) == Interact(language, old(Snapshot()), node)
    {
      if node !in alternativeQuestions {
        return NoQuestion;
      }
      var question := alternativeQuestions[node];
      if node >= 7 {
        spoken := spoken + [Utterance(question, true)];
        return Answered(Some(Positive));
      }
      ghost var st := Snapshot();
      ghost var q0 := sttQueue;
      ghost var s0 := spoken;
      spoken := spoken + [Utterance(question, false)];
      var heard := 0;
      while true
        invariant 0 <= heard <= |q0| && sttQueue == q0[heard..]
        invariant forall j :: 0 <= j < heard ==> q0[j] == NoResponse
        invariant spoken == s0 + [Utterance(question, false)] + Repeats(heard)
        invariant Snapshot() == st.(spoken := spoken, sttQueue := sttQueue)
        decreases |sttQueue|
      {
        if sttQueue == [] {
          InteractSilent(language, st, node);
          return Stalled;
        }
        var response := sttQueue[0];
        sttQueue := sttQueue[1..];
        var status := AnalyzeResponse(language, response);
        if response != NoResponse {
          InteractHeard(language, st, node, heard);
          situation := Written(situation, node, response, status);
          return Answered(status);
        }
        spoken := spoken + [Utterance(RepeatRequest, false)];
        heard := heard + 1;
        assert Repeats(heard) == Repeats(heard - 1) + [Utterance(RepeatRequest, false)];
      }
    }

    /** `on_standby`, over the reports the primary manager will send. */
    method OnStandby(reports: seq<Report>) returns (outcome: StandbyOutcome)
      requires Valid()
      modifies this
      ensures Valid()
      ensures (Snapshot(), outcome) == Standby(old(Snapshot()), reports)
    {
      var i := 0;
      while i < |reports|
        invariant 0 <= i <= |reports| && Valid()
        invariant Standby(Snapshot(), reports[i..]) == Standby(old(Snapshot()), reports)
        decreases |reports| - i
      {
        assert reports[i..][1..] == reports[i + 1..];
        match reports[i] {
          case Snapshot(items) =>
            situation := MergeItems(situation, items);
          case Info(info, data) =>
            if info == "fail_at_start" {
              inBackground := false;
              return Resumed(None);
            }
            situation := Put(situation, "consciousness", JStr("Conscious"));
            inBackground := false;
            firstMessage := false;
            var ok := IdentifySelectedNodes();
            return if ok then Resumed(data) else Crashed;
        }
        i := i + 1;
      }
      return Waiting;
    }

    /**
     * `interaction_tree`: load the questions, wait on standby, take the
     * primary's last reply as the last answer, wait for the victim's first
     * message if none was heard, then walk the tree.
     */
    method InteractionTree(items: seq<(string, Question)>, reports: seq<Report>, startNode: int, lastAnswer: Option<Answer>)
      returns (standby: StandbyOutcome, end: Option<WalkEnd>, visited: seq<int>)
      requires Valid()
      modifies this
      ensures Valid()
      ensures end == Some(Finished) ==> (|visited| > 0 && visited[|visited| - 1] in {7, 8} &&
        visited[|visited| - 1] in alternativeQuestions)
      ensures Ascending(visited, startNode)
      ensures end.Some? <==> standby.Resumed?
      ensures standby == Standby(old(Snapshot()).(questions := LoadQuestions(old(alternativeQuestions), items)), reports).1
      ensures (standby, Snapshot(), end, visited) == Interaction(language, old(Snapshot()), items, reports, startNode, lastAnswer)
    {
      ReadQuestionFile(items);
      standby := OnStandby(reports);
      end := None;
      visited := [];
      if !standby.Resumed? {
        return;
      }
      end, visited := Resume(standby.lastMessage, startNode, lastAnswer);
    }

    /**
     * The rest of `interaction_tree` once standby ends: the primary's last
     * reply replaces the given last answer, then the walk resumes.
     */
    method Resume(lastMessage: Option<string>, startNode: int, lastAnswer: Option<Answer>)
      returns (end: Option<WalkEnd>, visited: seq<int>)
      requires Valid()
      modifies this
      ensures Valid() && end.Some?
      ensures end == Some(Finished) ==> (|visited| > 0 && visited[|visited| - 1] in {7, 8} &&
        visited[|visited| - 1] in alternativeQuestions)
      ensures Ascending(visited, startNode)
      ensures (Snapshot(), end.value, visited) == Resumption(language, old(Snapshot()), lastMessage, startNode, lastAnswer)
    {
      var answer := lastAnswer;
      if lastMessage.Some? {
        answer := AnalyzeResponse(language, lastMessage.value);
      }
      var ending;
      ending, visited := ResumeFrom(startNode, answer);
      end := Some(ending);
    }

    /**
     * The victim's first message is awaited if none was heard (stalling at
     * once when none comes), then the tree is walked from the start node.
     */
    method ResumeFrom(startNode: int, answer: Option<Answer>) returns (end: WalkEnd, visited: seq<int>)
      requires Valid()
      modifies this
      ensures Valid()
      ensures end == Finished ==> (|visited| > 0 && visited[|visited| - 1] in {7, 8} &&
        visited[|visited| - 1] in alternativeQuestions)
      ensures Ascending(visited, startNode)
      ensures (Snapshot(), end, visited) == ResumeWalk(language, old(Snapshot()), startNode, answer)
    {
      visited := [];
      var mobility: Option<bool> := None;
      var node := startNode;
      if firstMessage {
        if sttQueue == [] {
          end := EndStalled;
          return;
        }
        sttQueue := sttQueue[1..];
      }
      ghost var st := Snapshot();
      end, visited := WalkTree(node, answer, mobility);
      WalkEnds(language, st, node, answer, mobility, Snapshot(), end, visited);
    }

    /** The loop of `interaction_tree`: select a node, interact, stop after node 7 or 8. */
    method WalkTree(node: int, answer: Option<Answer>, mobility: Option<bool>) returns (end: WalkEnd, visited: seq<int>)
      requires Valid()
      modifies this
      ensures Valid()
      ensures (Snapshot(), end, visited) == Walk(language, old(Snapshot()), node, answer, mobility)
    {
      ghost var start := Snapshot();
      ghost var walk := Walk(language, start, node, answer, mobility);
      var last, lastAnswer, mob := node, answer, mobility;
      visited := [];
      end := EndStalled;
      var done := false;
      while !done
        invariant Valid()
        invariant done ==> (Snapshot(), end, visited) == walk
        invariant !done ==> Continues(Walk(language, Snapshot(), last, lastAnswer, mob), visited, walk)
        decreases !done, 9 - last
      {
        ghost var pre := Snapshot();
        ghost var preLast, preAnswer, preMob := last, lastAnswer, mob;
        var next;
        next, mob := SelectNode(last, lastAnswer, mob);
        var outcome := InteractNode(next);
        WalkAdvance(language, pre, preLast, preAnswer, preMob, visited, walk, Snapshot(), outcome, next, mob);
        visited := visited + [next];
        if !outcome.Answered? {
          end := if outcome == Stalled then EndStalled else EndNoQuestion;
          done := true;
        } else if next == 7 || next == 8 {
          end := Finished;
          done := true;
        } else {
          last, lastAnswer := next, outcome.status;
        }
      }
    }
  }

  /** One more field of a scan that has not failed. */
  lemma SelectedStep(sit: Situation, i: nat, ns: seq<int>)
    requires i < |sit| && Selected(sit[..i]) == (ns, true)
    ensures !Marked(sit[i]) ==> Selected(sit[..i + 1]) == (ns, true)
    ensures Marked(sit[i]) && sit[i].0 in QuestionToField ==>
      Selected(sit[..i + 1]) == (ns + QuestionToField[sit[i].0], true)
    ensures Marked(sit[i]) && sit[i].0 !in QuestionToField ==> Selected(sit[..i + 1]) == (ns, false)
  {
    assert sit[..i + 1][..i] == sit[..i];
  }

  /** A failed scan stays failed: the nodes found before the failing field are kept. */
  lemma {:induction false} SelectedStops(sit: Situation, i: nat)
    requires i <= |sit| && !Selected(sit[..i]).1
    ensures Selected(sit) == Selected(sit[..i])
    decreases |sit| - i
  {
    if i < |sit| {
      assert sit[..i + 1][..i] == sit[..i];
      SelectedStops(sit, i + 1);
    } else {
      assert sit[..i] == sit;
    }
  }

  /** The merge as a loop over the snapshot's items. */
  method MergeItems(sit: Situation, items: seq<(string, Json)>) returns (r: Situation)
    ensures r == Merge(sit, items)
  {
    r := sit;
    var i := 0;
    while i < |items|
      invariant 0 <= i <= |items| && r == Merge(sit, items[..i])
    {
      assert items[..i + 1][..i] == items[..i];
      r := Put(r, items[i].0, items[i].1);
      i := i + 1;
    }
    assert items[..i] == items;
  }
}

=== FILE: comfort_agent.dfy ===
/**
 * The comfort agent of Phase 2: it keeps its own record of special and
 * medical needs, watches the victim's words for distress, and chooses the
 * comforting questions and fallback messages of the phase.
 */
module ComfortAgent {
  import opened Wrappers
  import opened Text
  import opened Json
  import opened Llm
  import Assessment
  import Dialogue

  const Unknown := "unknown"

  /** The needs record every conversation starts from. */
  const NeedsTemplate: map<string, string> := map[
    "elderly" := Unknown,
    "pregnant" := Unknown,
    "mobility_impairment" := Unknown,
    "allergies" := Unknown,
    "mental_health_conditions" := Unknown,
    "regular_medication" := Unknown,
    "emergency_medication" := Unknown,
    "other_conditions" := Unknown
  ]

  /** The order in which the needs are asked about. */
  const NeedsPriority: seq<string> := [
    "emergency_medication", "pregnant", "elderly", "mobility_impairment",
    "regular_medication", "allergies", "mental_health_conditions", "other_conditions"]

  type Entries = seq<(string, string)>

  /** The four distress flags. */
  datatype Distress = Distress(highDistress: bool, anxiety: bool, panic: bool, calm: bool)

  const Calm := Distress(false, false, false, true)

  /** High distress is panic or anxiety, and calm is its absence. */
  predicate Coherent(d: Distress)
  {
    d.highDistress == (d.panic || d.anxiety) && d.calm == !d.highDistress
  }

  /** The agent's state. */
  datatype State = State(
    specialNeeds: map<string, string>,
    assessedNeeds: set<string>,
    history: seq<Dialogue.Entry>,
    distress: Distress)

  predicate WellFormed(st: State)
  {
    st.specialNeeds.Keys == NeedsTemplate.Keys && st.assessedNeeds <= NeedsTemplate.Keys && Coherent(st.distress)
  }

  const Initial := State(NeedsTemplate, {}, [], Calm)

  /** The priority list names exactly the needs of the record, each once. */
  lemma PriorityCoversNeeds()
    ensures forall k :: k in NeedsTemplate <==> k in NeedsPriority
    ensures forall i, j :: 0 <= i < j < |NeedsPriority| ==> NeedsPriority[i] != NeedsPriority[j]
    ensures WellFormed(Initial)
  {
  }

  // ---------------------------------------------------------------------
  // Distress
  // ---------------------------------------------------------------------

  const PanicWords: seq<string> := ["help", "please", "scared", "terrified", "panic", "can't breathe", "dying"]

  const AnxietyWords: seq<string> := ["worried", "anxious", "nervous", "afraid", "concerned", "don't know"]

  /** `_analyze_distress`: the flags a reply sets, ignoring case. */
  function DistressOf(response: string): (d: Distress)
    ensures Coherent(d)
    ensures d.calm <==> !ContainsAny(Lower(response), PanicWords) && !ContainsAny(Lower(response), AnxietyWords)
  {
    var lower := Lower(response);
    var panic := ContainsAny(lower, PanicWords);
    var anxiety := ContainsAny(lower, AnxietyWords);
    Distress(panic || anxiety, anxiety, panic, !(panic || anxiety))
  }

  /** A shouted call for help is panic, and so high distress. */
  lemma ShoutedHelpIsPanic()
    ensures DistressOf("HELP").panic && DistressOf("HELP").highDistress && !DistressOf("HELP").calm
  {
    var l := Lower("HELP");
    assert l[0] == 'h' && l[1] == 'e' && l[2] == 'l' && l[3] == 'p';
    assert l == "help";
    ContainsSelf("help");
    assert Contains(l, PanicWords[0]);
  }

  /** Silence carries no distress word: the victim counts as calm. */
  lemma SilenceIsCalm()
    ensures DistressOf("") == Calm
  {
    assert Lower("") == "";
    forall i | 0 <= i < |PanicWords| ensures !Contains("", PanicWords[i]) {
      NotContainsByChar("", PanicWords[i], 0);
    }
    forall i | 0 <= i < |AnxietyWords| ensures !Contains("", AnxietyWords[i]) {
      NotContainsByChar("", AnxietyWords[i], 0);
    }
  }

  // ---------------------------------------------------------------------
  // Needs analysis and validation
  // ---------------------------------------------------------------------

  /**
   * `analyze_special_needs`: the extracted object, validated against the
   * needs record, on a 200 reply; the empty dict on any other status, on a
   * transport failure, and on any exception in extraction or validation.
   * Validation is `_validate_needs_updates`, the same test as the
   * Phase-1 agent's, with the "unknown" comparison made on the stripped
   * value.
   */
  function AnalyzeNeeds(needs: map<string, string>, reply: Reply, parse: Parser): (r: Entries)
    ensures !IsOk(reply) ==> r == []
    ensures forall e :: e in r ==>
      e.0 in needs && e.1 != "" && Strip(e.1) == e.1 && Lower(e.1) != Unknown
  {
    if !IsOk(reply) then []
    else
      var j := Assessment.ExtractJson(Strip(reply.text), parse);
      if !j.JObj? then []
      else
        match Assessment.Validated(needs, j.members, false)
        case None => []
        case Some(u) => u
  }

  /**
   * Every string member of the decoded object that names a need and
   * passes the value test reaches the update, stripped.
   */
  lemma AnalyzeNeedsKeepsAccepted(needs: map<string, string>, reply: Reply, parse: Parser, members: seq<(string, Json)>, i: nat)
    requires IsOk(reply) && Assessment.ExtractJson(Strip(reply.text), parse) == JObj(members)
    requires forall k :: 0 <= k < |members| ==> !Assessment.Raises(needs, members[k])
    requires i < |members| && Assessment.Accepted(needs, members[i], false)
    ensures (members[i].0, Strip(members[i].1.s)) in AnalyzeNeeds(needs, reply, parse)
  {
  }

  /**
   * The code as written lets " unknown" through (it lower-cases before it
   * strips) and stores "unknown" over a known need, which then stays
   * marked assessed.
   */
  lemma NeedsValidatedAsWrittenStoresUnknown()
    ensures var needs := NeedsTemplate["elderly" := "yes"];
      var members := [("elderly", JStr(" unknown"))];
      Assessment.Validated(needs, members, true) == Some([("elderly", Unknown)]) &&
      Assessment.Validated(needs, members, false) == Some([]) &&
      var st := State(needs, {"elderly"}, [], Calm);
      Update(st, [("elderly", Unknown)]).specialNeeds["elderly"] == Unknown &&
      "elderly" in Update(st, [("elderly", Unknown)]).assessedNeeds
  {
    var needs := NeedsTemplate["elderly" := "yes"];
    var members := [("elderly", JStr(" unknown"))];
    var v := " unknown";
    assert v[1..] == Unknown;
    Assessment.UnknownLiteral();
    assert LStrip(v) == Unknown by {
      LStripNoSpace(Unknown);
    }
    RStripNoSpace(Unknown);
    assert Strip(v) == Unknown;
    assert |Lower(v)| != |Unknown|;
    assert Assessment.KeepAsWritten("yes", v);
    assert !Assessment.Keep("yes", v);
    assert members[0] == ("elderly", JStr(v));
    assert Assessment.Validated(needs, members[1..], true) == Some([]);
    assert Assessment.Validated(needs, members, true) == Assessment.Prepend([("elderly", Strip(v))], Some([]));
    assert Assessment.Validated(needs, members[1..], false) == Some([]);
    assert [("elderly", Unknown)] + [] == [("elderly", Unknown)];
    var updates := [("elderly", Unknown)];
    assert updates[..0] == [];
  }

  // ---------------------------------------------------------------------
  // Updating the needs record
  // ---------------------------------------------------------------------

  /** Whether meeting `value` changes a need whose value is `current`. */
  predicate Marks(current: string, value: string)
  {
    current == Unknown || value != current
  }

  /** One iteration of `update_special_needs`: set, or replace, and mark assessed. */
  function UpdateOne(st: State, key: string, value: string): State
  {
    if key in st.specialNeeds && Marks(st.specialNeeds[key], value) then
      st.(specialNeeds := st.specialNeeds[key := value], assessedNeeds := st.assessedNeeds + {key})
    else st
  }

  /** `update_special_needs` as a function of the state before it. */
  function Update(st: State, updates: Entries): (r: State)
    ensures r.specialNeeds.Keys == st.specialNeeds.Keys
    ensures st.assessedNeeds <= r.assessedNeeds
    ensures r.history == st.history && r.distress == st.distress
    decreases |updates|
  {
    if updates == [] then st
    else
      var last := updates[|updates| - 1];
      UpdateOne(Update(st, updates[..|updates| - 1]), last.0, last.1)
  }

  /** Only needs named by the updates can join the assessed set. */
  lemma {:induction false} UpdateAssessedWithin(st: State, updates: Entries)
    ensures Update(st, updates).assessedNeeds <= st.assessedNeeds + (Assessment.KeysOf(updates) * st.specialNeeds.Keys)
    decreases |updates|
  {
    if updates != [] {
      var init := updates[..|updates| - 1];
      UpdateAssessedWithin(st, init);
      assert Assessment.KeysOf(init) <= Assessment.KeysOf(updates) by {
        forall k | k in Assessment.KeysOf(init) ensures k in Assessment.KeysOf(updates) {
          var i :| 0 <= i < |init| && init[i].0 == k;
          assert updates[i] == init[i];
        }
      }
      assert updates[|updates| - 1].0 in Assessment.KeysOf(updates);
    }
  }

  /** A need the updates do not name keeps its value and its assessed mark. */
  lemma {:induction false} UpdateFrame(st: State, updates: Entries, key: string)
    requires key in st.specialNeeds && key !in Assessment.KeysOf(updates)
    ensures Update(st, updates).specialNeeds[key] == st.specialNeeds[key]
    ensures key in Update(st, updates).assessedNeeds <==> key in st.assessedNeeds
    decreases |updates|
  {
    if updates != [] {
      var init := updates[..|updates| - 1];
      assert Assessment.KeysOf(init) <= Assessment.KeysOf(updates) by {
        forall k | k in Assessment.KeysOf(init) ensures k in Assessment.KeysOf(updates) {
          var i :| 0 <= i < |init| && init[i].0 == k;
          assert updates[i] == init[i];
        }
      }
      assert updates[|updates| - 1].0 in Assessment.KeysOf(updates);
      UpdateFrame(st, init, key);
    }
  }

  /**
   * With distinct keys (as in a dict), a need named by the updates ends
   * with exactly the update's value (a replacement, never an append), and
   * it is assessed afterwards unless the value only repeated a known one.
   */
  lemma {:induction false} UpdateAt(st: State, updates: Entries, i: nat)
    requires Assessment.DistinctKeys(updates) && i < |updates| && updates[i].0 in st.specialNeeds
    ensures var k, r := updates[i].0, Update(st, updates);
      r.specialNeeds[k] == updates[i].1 &&
      (k in r.assessedNeeds <==> k in st.assessedNeeds || Marks(st.specialNeeds[k], updates[i].1))
    decreases |updates|
  {
    var init := updates[..|updates| - 1];
    if i == |updates| - 1 {
      assert forall j :: 0 <= j < |init| ==> init[j] == updates[j];
      assert updates[i].0 !in Assessment.KeysOf(init);
      UpdateFrame(st, init, updates[i].0);
    } else {
      assert init[i] == updates[i];
      assert Assessment.DistinctKeys(init) by {
        forall a, b | 0 <= a < b < |init| ensures init[a].0 != init[b].0 {
          assert init[a] == updates[a] && init[b] == updates[b];
        }
      }
      UpdateAt(st, init, i);
    }
  }

  /** A need that is still "unknown" takes the update's value and is assessed. */
  lemma UnknownNeedTakesValue(st: State, updates: Entries, i: nat)
    requires WellFormed(st) && Assessment.DistinctKeys(updates) && i < |updates|
    requires updates[i].0 in NeedsTemplate && st.specialNeeds[updates[i].0] == Unknown
    ensures var r := Update(st, updates);
      r.specialNeeds[updates[i].0] == updates[i].1 && updates[i].0 in r.assessedNeeds
  {
    UpdateAt(st, updates, i);
  }

  /** The update keeps the record's shape and leaves history and distress alone. */
  lemma UpdateKeepsShape(st: State, updates: Entries)
    requires WellFormed(st)
    ensures WellFormed(Update(st, updates))
  {
    UpdateAssessedWithin(st, updates);
  }

  /** Applying the same dict of updates twice is the same as applying it once. */
  lemma UpdateIdempotent(st: State, updates: Entries)
    requires Assessment.DistinctKeys(updates)
    ensures Update(Update(st, updates), updates) == Update(st, updates)
  {
    var r1 := Update(st, updates);
    var r2 := Update(r1, updates);
    forall k | k in r1.specialNeeds ensures r2.specialNeeds[k] == r1.specialNeeds[k] {
      if k in Assessment.KeysOf(updates) {
        var i :| 0 <= i < |updates| && updates[i].0 == k;
        UpdateAt(st, updates, i);
        UpdateAt(r1, updates, i);
      } else {
        UpdateFrame(r1, updates, k);
      }
    }
    assert r2.specialNeeds == r1.specialNeeds;
    UpdateAssessedWithin(r1, updates);
    forall k | k in r2.assessedNeeds ensures k in r1.assessedNeeds {
      if k !in r1.assessedNeeds {
        assert k in Assessment.KeysOf(updates) && k in r1.specialNeeds;
        var i :| 0 <= i < |updates| && updates[i].0 == k;
        UpdateAt(st, updates, i);
        UpdateAt(r1, updates, i);
      }
    }
  }

  /** Updates whose values are never "unknown" never make a known need unknown again. */
  lemma {:induction false} UpdateKeepsKnown(st: State, updates: Entries, key: string)
    requires forall e :: e in updates ==> e.1 != Unknown
    requires key in st.specialNeeds && st.specialNeeds[key] != Unknown
    ensures Update(st, updates).specialNeeds[key] != Unknown
    decreases |updates|
  {
    if updates != [] {
      var init := updates[..|updates| - 1];
      assert forall e :: e in init ==> e in updates;
      UpdateKeepsKnown(st, init, key);
      assert updates[|updates| - 1] in updates;
    }
  }

  /**
   * Monotonicity of analyse-then-update: once a need is known, no
   * analysed reply turns it back into "unknown".
   */
  lemma AnalyzeThenUpdateMonotone(st: State, reply: Reply, parse: Parser, key: string)
    requires WellFormed(st) && key in NeedsTemplate && st.specialNeeds[key] != Unknown
    ensures Update(st, AnalyzeNeeds(st.specialNeeds, reply, parse)).specialNeeds[key] != Unknown
  {
    var u := AnalyzeNeeds(st.specialNeeds, reply, parse);
    Assessment.UnknownLiteral();
    assert forall e :: e in u ==> e.1 != Unknown;
    UpdateKeepsKnown(st, u, key);
  }

  // ---------------------------------------------------------------------
  // Progress through the needs
  // ---------------------------------------------------------------------

  /** `get_next_priority_need`: the first need not yet assessed, or "". */
  function NextPriorityNeed(st: State): string
  {
    Assessment.FirstUnassessed(NeedsPriority, st.assessedNeeds)
  }

  /** `is_comfort_phase_complete`: every need assessed. */
  predicate IsPhaseComplete(st: State)
  {
    forall i :: 0 <= i < |NeedsPriority| ==> NeedsPriority[i] in st.assessedNeeds
  }

  /**
   * The phase is complete exactly when no need is left to ask about; an
   * incomplete phase asks about the first unassessed need in priority
   * order.
   */
  lemma NextNeedAgrees(st: State)
    ensures NextPriorityNeed(st) == "" <==> IsPhaseComplete(st)
    ensures NextPriorityNeed(st) != "" ==> exists j :: (0 <= j < |NeedsPriority| &&
      NeedsPriority[j] == NextPriorityNeed(st) && NextPriorityNeed(st) !in st.assessedNeeds &&
      forall i :: 0 <= i < j ==> NeedsPriority[i] in st.assessedNeeds)
    ensures IsPhaseComplete(st) <==> NeedsTemplate.Keys <= st.assessedNeeds
  {
    PriorityCoversNeeds();
    assert forall i :: 0 <= i < |NeedsPriority| ==> NeedsPriority[i] != "";
  }

  // ---------------------------------------------------------------------
  // Messages
  // ---------------------------------------------------------------------

  /** The fallback messages of one language, for a distressed and for a calm victim. */
  datatype ByDistress = ByDistress(high: string, calm: string)

  const FallbackEs := ByDistress(
    "Entiendo que estás pasando por un momento difícil. La ayuda está en camino. ¿Tienes alguna condición médica o necesidad que deba saber?",
    "Gracias por mantener la calma. Su información ha sido enviada al equipo de rescate. ¿Tiene alguna necesidad médica especial, como medicamentos o afecciones que deba tener en cuenta?")

  const FallbackFr := ByDistress(
    "Je comprends que vous traversez une période difficile. De l'aide arrive. Avez-vous des problèmes de santé ou des besoins particuliers dont je devrais être informé(e)\U{00A0}?",
    "Merci de garder votre calme. Vos informations ont été transmises à l'équipe de secours. Avez-vous des besoins médicaux particuliers, comme des médicaments ou des problèmes de santé dont je devrais être informé(e)\U{00A0}?")

  const FallbackEn := ByDistress(
    "I understand you're going through a difficult time. Help is on the way. Do you have any medical conditions or needs I should know about?",
    "Thank you for staying calm. Your information has been sent to the rescue team. Do you have any special medical needs, such as medications or conditions I should be aware of?")

  /** `_get_fallback_comfort_message`: by language (Spanish, French, else English) and high distress. */
  function FallbackMessage(language: string, highDistress: bool): string
  {
    var t := if language == "es" then FallbackEs else if language == "fr" then FallbackFr else FallbackEn;
    if highDistress then t.high else t.calm
  }

  /**
   * In every language the distressed and the calm victim get different
   * messages, and a language other than Spanish or French gets English.
   */
  lemma FallbackMessagesDiffer(language: string)
    ensures FallbackMessage(language, true) != FallbackMessage(language, false)
    ensures language != "es" && language != "fr" ==>
      FallbackMessage(language, true) == FallbackMessage("en", true) &&
      FallbackMessage(language, false) == FallbackMessage("en", false)
  {
    assert |FallbackEs.high| != |FallbackEs.calm|;
    assert |FallbackFr.high| != |FallbackFr.calm|;
    assert |FallbackEn.high| != |FallbackEn.calm|;
  }

  /** `get_initial_message` */
  function InitialMessage(language: string): string
  {
    if language == "fr" then "Je suis là avec vous. Comment vous sentez-vous ? Y a-t-il quelque chose que je devrais savoir pour que vous soyez plus à l'aise ?"
    else if language == "es" then "Estoy aquí contigo ahora. Cómo te sientes? Hay algo que deba saber para que estés cómoda?"
    else "I'm here with you now. How are you feeling? Is there anything I should know to help keep you comfortable?"
  }

  const QuestionsEn: map<string, string> := map[
    "emergency_medication" := "Do you need any medications right now? Like insulin, an inhaler, or anything else?",
    "pregnant" := "I need to know - are you pregnant? This helps me know how best to help you.",
    "elderly" := "Can you tell me your age? This helps us plan the best way to get you out.",
    "mobility_impairment" := "Are you able to walk on your own, or do you have any mobility issues?",
    "regular_medication" := "Are you on any regular medications I should know about?",
    "allergies" := "Do you have any allergies I should be aware of?",
    "mental_health_conditions" := "Is there anything about your health or any conditions that might affect how you're feeling right now?",
    "other_conditions" := "Is there anything else about your health or situation I should know?"
  ]

  const QuestionsFr: map<string, string> := map[
    "emergency_medication" := "Avez-vous besoin de médicaments tout de suite ? Comme de l'insuline, un inhalateur, ou autre chose ?",
    "pregnant" := "J'ai besoin de savoir : êtes-vous enceinte ? Cela m'aide à savoir comment vous aider au mieux.",
    "elderly" := "Pouvez-vous me dire votre âge ? Cela nous aide à planifier la meilleure façon de vous faire sortir.",
    "mobility_impairment" := "Êtes-vous capable de marcher seule, ou avez-vous des problèmes de mobilité ?",
    "regular_medication" := "Prenez-vous des médicaments réguliers dont je devrais être au courant ?",
    "allergies" := "Avez-vous des allergies dont je devrais être informé(e) ?",
    "mental_health_conditions" := "Y a-t-il quelque chose concernant votre santé ou toute condition qui pourrait affecter votre état actuel ?",
    "other_conditions" := "Y a-t-il autre chose concernant votre santé ou votre situation que je devrais savoir ?"
  ]

  const QuestionsEs: map<string, string> := map[
    "emergency_medication" := "¿Necesita algún medicamento ahora mismo? ¿Como insulina, un inhalador o algo más?",
    "pregnant" := "Necesito saber: ¿está embarazada? Esto me ayuda a saber cómo asistirla mejor.",
    "elderly" := "¿Puede decirme su edad? Esto nos ayuda a planificar la mejor manera de sacarla.",
    "mobility_impairment" := "¿Puede caminar por sí misma o tiene algún problema de movilidad?",
    "regular_medication" := "¿Toma algún medicamento regular que deba saber?",
    "allergies" := "¿Tiene alguna alergia que deba tener en cuenta?",
    "mental_health_conditions" := "¿Hay algo sobre su salud o alguna condición que pueda afectar cómo se siente en este momento?",
    "other_conditions" := "¿Hay algo más sobre su salud o situación que deba saber?"
  ]

  /** The question table of a language (French, Spanish, else English) and its default. */
  function Questions(language: string): (map<string, string>, string)
  {
    if language == "fr" then (QuestionsFr, "Y a-t-il autre chose que je devrais savoir ?")
    else if language == "es" then (QuestionsEs, "¿Hay algo más que debería saber?")
    else (QuestionsEn, "Is there anything else I should know?")
  }

  /** `_generate_targeted_comfort_question`: the table's question, or the language's default. */
  function TargetedQuestion(language: string, field: string): string
  {
    var (table, default) := Questions(language);
    if field in table then table[field] else default
  }

  /** The closing question when no field is named. */
  function GenericQuestion(language: string): string
  {
    if language == "es" then "¿Hay algo más que debería saber para ayudarle a sentirse cómodo?"
    else if language == "fr" then "Y a-t-il autre chose que je devrais savoir pour contribuer à votre confort ?"
    else "Is there anything else I should know to help keep you comfortable?"
  }

  /** `get_next_response`: "" when complete, else the targeted or the generic question. */
  function NextResponse(language: string, isComplete: bool, nextField: Option<string>): string
  {
    if isComplete then ""
    else if nextField.Some? && nextField.value != "" then TargetedQuestion(language, nextField.value)
    else GenericQuestion(language)
  }

  /** Each need has a question of its own in every language, and no question is empty. */
  lemma QuestionsCoverNeeds(language: string)
    ensures forall f :: f in NeedsTemplate ==> f in Questions(language).0
    ensures forall f :: f in Questions(language).0 ==> Questions(language).0[f] != ""
    ensures Questions(language).1 != "" && GenericQuestion(language) != ""
  {
    if language == "fr" {
      FrenchCoversNeeds();
    } else if language == "es" {
      SpanishCoversNeeds();
    } else {
      EnglishCoversNeeds();
    }
  }

  /** The English table covers every need, with no empty question. */
  lemma EnglishCoversNeeds()
    ensures NeedsTemplate.Keys <= QuestionsEn.Keys
    ensures forall f :: f in QuestionsEn ==> QuestionsEn[f] != ""
  {
  }

  /** The French table covers every need, with no empty question. */
  lemma FrenchCoversNeeds()
    ensures NeedsTemplate.Keys <= QuestionsFr.Keys
    ensures forall f :: f in QuestionsFr ==> QuestionsFr[f] != ""
  {
  }

  /** The Spanish table covers every need, with no empty question. */
  lemma SpanishCoversNeeds()
    ensures NeedsTemplate.Keys <= QuestionsEs.Keys
    ensures forall f :: f in QuestionsEs ==> QuestionsEs[f] != ""
  {
  }

  /** The comfort phase falls silent exactly when it is complete. */
  lemma NextResponseSilentIffComplete(language: string, isComplete: bool, nextField: Option<string>)
    ensures NextResponse(language, isComplete, nextField) == "" <==> isComplete
  {
    QuestionsCoverNeeds(language);
  }

  // ---------------------------------------------------------------------
  // The comforting reply
  // ---------------------------------------------------------------------

  /** The reply text, stripped and without a leading "Robot:" label. */
  function CleanedReply(text: string): (r: string)
    ensures Strip(r) == r
    ensures StartsWith(Strip(text), "Robot:") ==> r == Strip(Strip(text)[|"Robot:"|..])
    ensures !StartsWith(Strip(text), "Robot:") ==> r == Strip(text)
  {
    StripIdempotent(text);
    var t := Strip(text);
    if StartsWith(t, "Robot:") then
      StripIdempotent(t[6..]);
      Strip(t[6..])
    else t
  }

  /**
   * `generate_comfort_response`: the distress flags follow the victim's
   * reply; a 200 reply is cleaned and both turns join the history; any
   * other outcome gives the fallback message and leaves the history.
   */
  function ComfortResponse(language: string, st: State, victimResponse: string, reply: Reply): (r: (string, State))
    ensures r.1.distress == DistressOf(victimResponse)
    ensures r.1.specialNeeds == st.specialNeeds && r.1.assessedNeeds == st.assessedNeeds
    ensures IsOk(reply) ==> r.1.history == st.history + [Dialogue.Entry("victim", victimResponse), Dialogue.Entry("robot", r.0)]
    ensures !IsOk(reply) ==> r.1.history == st.history && r.0 == FallbackMessage(language, r.1.distress.highDistress)
  {
    var d := DistressOf(victimResponse);
    if IsOk(reply) then
      var text := CleanedReply(reply.text);
      (text, st.(distress := d, history := st.history + [Dialogue.Entry("victim", victimResponse), Dialogue.Entry("robot", text)]))
    else (FallbackMessage(language, d.highDistress), st.(distress := d))
  }

  // ---------------------------------------------------------------------
  // The agent object
  // ---------------------------------------------------------------------

  class ComfortAgentObject {
    const language: string
    var specialNeeds: map<string, string>
    var assessedNeeds: set<string>
    var conversationHistory: seq<Dialogue.Entry>
    var distressIndicators: Distress

    function Snapshot(): State
      reads this
    {
      State(specialNeeds, assessedNeeds, conversationHistory, distressIndicators)
    }

    ghost predicate Valid()
      reads this
    {
      WellFormed(Snapshot())
    }

    constructor (language: string)
      ensures Valid() && Snapshot() == Initial && this.language == language
    {
      this.language := language;
      specialNeeds := NeedsTemplate;
      assessedNeeds := {};
      conversationHistory := [];
      distressIndicators := Calm;
    }

    /** `_analyze_distress` */
    method AnalyzeDistress(victimResponse: string)
      requires Valid()
      modifies this
      ensures Valid()
      ensures Snapshot() == old(Snapshot()).(distress := DistressOf(victimResponse))
    {
      var lower := Lower(victimResponse);
      var panic := ContainsAny(lower, PanicWords);
      var anxiety := ContainsAny(lower, AnxietyWords);
      distressIndicators := Distress(panic || anxiety, anxiety, panic, !(panic || anxiety));
    }

    /** `analyze_special_needs`, with the model's reply given. */
    method AnalyzeSpecialNeeds(reply: Reply, parse: Parser) returns (updates: Entries)
      ensures updates == AnalyzeNeeds(specialNeeds, reply, parse)
    {
      if !IsOk(reply) {
        return [];
      }
      var j := Assessment.ExtractJson(Strip(reply.text), parse);
      updates := [];
      if j.JObj? {
        var v := Assessment.Validated(specialNeeds, j.members, false);
        if v.Some? {
          updates := v.value;
        }
      }
    }

    /** `update_special_needs` */
    method UpdateSpecialNeeds(updates: Entries)
      requires Valid()
      modifies this
      ensures Valid()
      ensures Snapshot() == Update(old(Snapshot()), updates)
    {
      ghost var st0 := Snapshot();
      var i := 0;
      while i < |updates|
        invariant 0 <= i <= |updates|
        invariant Snapshot() == Update(st0, updates[..i])
      {
        var (key, value) := updates[i];
        assert updates[..i + 1][..i] == updates[..i];
        if key in specialNeeds {
          var current := specialNeeds[key];
          if current == Unknown {
            specialNeeds := specialNeeds[key := value];
            assessedNeeds := assessedNeeds + {key};
          } else if value != current {
            specialNeeds := specialNeeds[key := value];
            assessedNeeds := assessedNeeds + {key};
          }
        }
        i := i + 1;
      }
      assert updates[..|updates|] == updates;
      UpdateKeepsShape(st0, updates);
    }

    /** `get_next_priority_need` */
    method GetNextPriorityNeed() returns (need: string)
      ensures need == NextPriorityNeed(Snapshot())
    {
      var i := 0;
      while i < |NeedsPriority|
        invariant 0 <= i <= |NeedsPriority|
        invariant forall j :: 0 <= j < i ==> NeedsPriority[j] in assessedNeeds
      {
        if NeedsPriority[i] !in assessedNeeds {
          FirstUnassessedAt(NeedsPriority, assessedNeeds, i);
          return NeedsPriority[i];
        }
        i := i + 1;
      }
      return "";
    }

    /** `is_comfort_phase_complete` */
    method IsComfortPhaseComplete() returns (complete: bool)
      ensures complete == IsPhaseComplete(Snapshot())
    {
      var i := 0;
      while i < |NeedsPriority|
        invariant 0 <= i <= |NeedsPriority|
        invariant forall j :: 0 <= j < i ==> NeedsPriority[j] in assessedNeeds
      {
        if NeedsPriority[i] !in assessedNeeds {
          return false;
        }
        i := i + 1;
      }
      return true;
    }

    /** `reset`: every need back to "unknown", nothing assessed, no history, calm. */
    method Reset()
      requires Valid()
      modifies this
      ensures Valid() && Snapshot() == Initial
    {
      specialNeeds := map k | k in specialNeeds :: Unknown;
      assessedNeeds := {};
      conversationHistory := [];
      distressIndicators := Calm;
    }

    /** `add_to_history` */
    method AddToHistory(role: string, message: string)
      requires Valid()
      modifies this
      ensures Valid()
      ensures Snapshot() == old(Snapshot()).(history := old(conversationHistory) + [Dialogue.Entry(role, message)])
    {
      conversationHistory := conversationHistory + [Dialogue.Entry(role, message)];
    }

    /** `generate_comfort_response`, with the model's reply given. */
    method GenerateComfortResponse(victimResponse: string, reply: Reply) returns (text: string)
      requires Valid()
      modifies this
      ensures Valid()
      ensures (text, Snapshot()) == ComfortResponse(language, old(Snapshot()), victimResponse, reply)
    {
      AnalyzeDistress(victimResponse);
      if IsOk(reply) {
        text := CleanedReply(reply.text);
        conversationHistory := conversationHistory + [Dialogue.Entry("victim", victimResponse), Dialogue.Entry("robot", text)];
      } else {
        text := FallbackMessage(language, distressIndicators.highDistress);
      }
    }
  }

  /** The first unassessed entry found by scanning in order is the one `FirstUnassessed` names. */
  lemma {:induction false} FirstUnassessedAt(fields: seq<string>, assessed: set<string>, i: nat)
    requires forall j :: 0 <= j < |fields| ==> fields[j] != ""
    requires i < |fields| && fields[i] !in assessed
    requires forall j :: 0 <= j < i ==> fields[j] in assessed
    ensures Assessment.FirstUnassessed(fields, assessed) == fields[i]
    decreases i
  {
    if i > 0 {
      assert forall j :: 1 <= j < |fields| ==> fields[j] == fields[1..][j - 1];
      FirstUnassessedAt(fields[1..], assessed, i - 1);
    }
  }
}

=== FILE: comfort_assessment_agent.dfy ===
/**
 * The Phase-2 special-needs assessment agent: a record of nine medical and
 * personal fields that start at "unknown", the set of fields the model has
 * reported on, the brace-matching extraction of its JSON, the append-style
 * merge and the completion and need queries.
 */
module ComfortAssessment {
  import opened Wrappers
  import opened Text
  import opened Json
  import opened Llm

  const Unknown := "unknown"

  const Fields: map<string, string> := map[
    "emergency_medication" := Unknown,
    "regular_medication" := Unknown,
    "allergies" := Unknown,
    "medical_conditions" := Unknown,
    "age" := Unknown,
    "elderly" := Unknown,
    "pregnant" := Unknown,
    "mobility_impairment" := Unknown,
    "mental_health_conditions" := Unknown
  ]

  const PriorityFields: seq<string> := [
    "emergency_medication", "medical_conditions", "allergies", "regular_medication", "age",
    "elderly", "mobility_impairment", "pregnant", "mental_health_conditions"
  ]

  datatype State = State(specialNeeds: map<string, string>, assessedFields: set<string>)

  predicate WellFormed(st: State)
  {
    st.specialNeeds.Keys == Fields.Keys && st.assessedFields <= Fields.Keys
  }

  function GetOr(m: map<string, string>, key: string, default: string): string
  {
    if key in m then m[key] else default
  }

  // ---------------------------------------------------------------------
  // `re.findall(r'\{[^{}]*(?:\{[^{}]*\}[^{}]*)*\}', text)`
  // ---------------------------------------------------------------------

  predicate IsBrace(c: char) { c == '{' || c == '}' }

  /** The end of the run of non-brace characters starting at `i`. */
  function SkipPlain(s: string, i: nat): (j: nat)
    requires i <= |s|
    ensures i <= j <= |s| && (j < |s| ==> IsBrace(s[j]))
    ensures forall k :: i <= k < j ==> !IsBrace(s[k])
    decreases |s| - i
  {
    if i < |s| && !IsBrace(s[i]) then SkipPlain(s, i + 1) else i
  }

  /**
   * After the opening brace and its plain run, position `j`: either the
   * closing brace, or one nested `{...}` group and another plain run.
   */
  function MatchRest(s: string, j: nat): (r: Option<nat>)
    requires j <= |s|
    ensures r.Some? ==> j < r.value <= |s| && s[r.value - 1] == '}'
    decreases |s| - j
  {
    if j == |s| then None
    else if s[j] == '}' then Some(j + 1)
    else if s[j] != '{' then None
    else
      var k := SkipPlain(s, j + 1);
      if k < |s| && s[k] == '}' then MatchRest(s, SkipPlain(s, k + 1)) else None
  }

  /** The end of the regex match that starts at `i`, if one does. */
  function MatchAt(s: string, i: nat): (r: Option<nat>)
    requires i < |s|
    ensures r.Some? ==> i < r.value <= |s| && s[i] == '{' && s[r.value - 1] == '}'
  {
    if s[i] != '{' then None else MatchRest(s, SkipPlain(s, i + 1))
  }

  /** `re.findall` for the pattern: non-overlapping matches, left to right. */
  function FindObjects(s: string, i: nat): (r: seq<string>)
    requires i <= |s|
    ensures forall m :: m in r ==> |m| >= 2 && m[0] == '{' && m[|m| - 1] == '}'
    decreases |s| - i
  {
    if i == |s| then []
    else
      match MatchAt(s, i)
      case Some(e) => [s[i..e]] + FindObjects(s, e)
      case None => FindObjects(s, i + 1)
  }

  /** A text without '{' offers no candidate object. */
  lemma {:induction false} NoBraceNoObjects(s: string, i: nat)
    requires i <= |s| && forall k :: i <= k < |s| ==> s[k] != '{'
    ensures FindObjects(s, i) == []
    decreases |s| - i
  {
    if i < |s| {
      NoBraceNoObjects(s, i + 1);
    }
  }

  /** A text that is one flat object is its own only candidate. */
  lemma FlatObjectMatches(s: string)
    requires |s| >= 2 && s[0] == '{' && s[|s| - 1] == '}'
    requires forall k :: 0 < k < |s| - 1 ==> !IsBrace(s[k])
    ensures FindObjects(s, 0) == [s]
  {
    assert SkipPlain(s, 1) == |s| - 1 by {
      var j := SkipPlain(s, 1);
      assert j < |s| ==> IsBrace(s[j]);
      assert forall k :: 1 <= k < j ==> !IsBrace(s[k]);
    }
    assert s[0..|s|] == s;
  }

  // ---------------------------------------------------------------------
  // Extraction and analysis
  // ---------------------------------------------------------------------

  /** `{k: v for k, v in data.items() if k in special_needs}` */
  function KeepFields(members: seq<(string, Json)>): (r: seq<(string, Json)>)
    ensures forall e :: e in r ==> e.0 in Fields && e in members
    ensures forall e :: e in members && e.0 in Fields ==> e in r
    decreases |members|
  {
    if members == [] then []
    else (if members[0].0 in Fields then [members[0]] else []) + KeepFields(members[1..])
  }

  /**
   * `_extract_json`: the first candidate that decodes, filtered to the
   * record's fields; None when the decoded value has no `items` (the
   * exception reaches `analyze_victim_response`).
   */
  function ExtractFrom(candidates: seq<string>, parse: Parser): Option<seq<(string, Json)>>
    decreases |candidates|
  {
    if candidates == [] then Some([])
    else
      match parse(candidates[0])
      case None => ExtractFrom(candidates[1..], parse)
      case Some(j) => if j.JObj? then Some(KeepFields(j.members)) else None
  }

  function ExtractJson(text: string, parse: Parser): Option<seq<(string, Json)>>
  {
    ExtractFrom(FindObjects(text, 0), parse)
  }

  /** The returned dict and the assessed set after `analyze_victim_response`. */
  datatype Analysis = Analysis(updates: seq<(string, Json)>, assessedFields: set<string>)

  function KeysOf(updates: seq<(string, Json)>): set<string>
  {
    set i | 0 <= i < |updates| :: updates[i].0
  }

  function Analyze(st: State, reply: Reply, parse: Parser): Analysis
  {
    if IsOk(reply) then
      match ExtractJson(Strip(reply.text), parse)
      case Some(u) => Analysis(u, st.assessedFields + (KeysOf(u) * st.specialNeeds.Keys))
      case None => Analysis([], st.assessedFields)
    else Analysis([], st.assessedFields)
  }

  /**
   * Analysis marks as assessed exactly the returned keys that are record
   * fields, returns only record fields, and on any failure returns the
   * empty dict (never `False`) and marks nothing.
   */
  lemma AnalyzeMarksReturnedKeys(st: State, reply: Reply, parse: Parser)
    requires WellFormed(st)
    ensures var a := Analyze(st, reply, parse);
      a.assessedFields == st.assessedFields + KeysOf(a.updates) &&
      (forall e :: e in a.updates ==> e.0 in Fields) &&
      (!IsOk(reply) ==> a == Analysis([], st.assessedFields))
  {
    if IsOk(reply) {
      var x := ExtractJson(Strip(reply.text), parse);
      if x.Some? {
        ExtractOnlyFields(FindObjects(Strip(reply.text), 0), parse);
        KeysOfWithin(x.value);
      }
    }
  }

  lemma KeysOfWithin(u: seq<(string, Json)>)
    requires forall e :: e in u ==> e.0 in Fields
    ensures KeysOf(u) <= Fields.Keys
  {
    forall k | k in KeysOf(u) ensures k in Fields {
      var i :| 0 <= i < |u| && u[i].0 == k;
      assert u[i] in u;
    }
  }

  lemma KeysOfPrefix(u: seq<(string, Json)>, i: nat)
    requires i < |u|
    ensures KeysOf(u[..i + 1]) == KeysOf(u[..i]) + {u[i].0}
  {
    assert forall k :: 0 <= k < i ==> u[..i + 1][k] == u[..i][k];
    assert u[..i + 1][i] == u[i];
  }

  lemma {:induction false} ExtractOnlyFields(candidates: seq<string>, parse: Parser)
    ensures var r := ExtractFrom(candidates, parse);
      r.Some? ==> forall e :: e in r.value ==> e.0 in Fields
    decreases |candidates|
  {
    if candidates != [] && parse(candidates[0]).None? {
      ExtractOnlyFields(candidates[1..], parse);
    }
  }

  // ---------------------------------------------------------------------
  // Merging
  // ---------------------------------------------------------------------

  /**
   * One iteration of `update_special_needs`: a non-empty string other than
   * "unknown" for a field of the record is appended to what is known, or
   * replaces "unknown"; any other entry is ignored.
   */
  function MergeNeed(needs: map<string, string>, key: string, value: Json): (r: map<string, string>)
    ensures r.Keys == needs.Keys
  {
    if key in needs && value.JStr? && value.s != "" && value.s != Unknown then
      var current := needs[key];
      if current != Unknown && current != value.s then needs[key := current + "; " + value.s]
      else needs[key := value.s]
    else needs
  }

  /** The loop of `update_special_needs`. */
  function MergeNeeds(needs: map<string, string>, updates: seq<(string, Json)>): (r: map<string, string>)
    ensures r.Keys == needs.Keys
    decreases |updates|
  {
    if updates == [] then needs
    else
      var last := updates[|updates| - 1];
      MergeNeed(MergeNeeds(needs, updates[..|updates| - 1]), last.0, last.1)
  }

  /**
   * A field no update names keeps its value, and what is known of a field
   * is only ever extended: it keeps its old text as a prefix and never turns
   * back into "unknown".
   */
  lemma {:induction false} MergeNeedsExtends(needs: map<string, string>, updates: seq<(string, Json)>)
    ensures var r := MergeNeeds(needs, updates);
      (forall k :: k in needs && (forall i :: 0 <= i < |updates| ==> updates[i].0 != k) ==> r[k] == needs[k]) &&
      (forall k :: k in needs && needs[k] != Unknown ==> r[k] != Unknown && needs[k] <= r[k])
    decreases |updates|
  {
    if updates != [] {
      var (key, value) := updates[|updates| - 1];
      var init := updates[..|updates| - 1];
      assert forall i :: 0 <= i < |init| ==> init[i] == updates[i];
      MergeNeedsExtends(needs, init);
      var m := MergeNeeds(needs, init);
      if key in m && value.JStr? && value.s != "" && value.s != Unknown {
        var current := m[key];
        if current != Unknown && current != value.s {
          var joined := current + "; " + value.s;
          assert joined[|current|] == ';' && joined[..|current|] == current;
          assert joined != Unknown by {
            if |joined| == |Unknown| {
              assert Unknown[|current|] != ';';
            }
          }
        }
      }
    }
  }

  /** `update_special_needs`: the assessed set is left alone. */
  function UpdateNeeds(st: State, updates: seq<(string, Json)>): (r: State)
    ensures r.assessedFields == st.assessedFields && r.specialNeeds.Keys == st.specialNeeds.Keys
    ensures forall k :: k in st.specialNeeds && st.specialNeeds[k] != Unknown ==>
      r.specialNeeds[k] != Unknown && st.specialNeeds[k] <= r.specialNeeds[k]
  {
    MergeNeedsExtends(st.specialNeeds, updates);
    State(MergeNeeds(st.specialNeeds, updates), st.assessedFields)
  }

  /**
   * Ignored entries: keys outside the record, empty values and the exact
   * string "unknown" leave the record as it was.
   */
  lemma IgnoredUpdates(st: State, key: string, value: string)
    requires key !in st.specialNeeds || value == "" || value == Unknown
    ensures UpdateNeeds(st, [(key, JStr(value))]) == st
  {
    assert [(key, JStr(value))][..0] == [];
    assert MergeNeeds(st.specialNeeds, []) == st.specialNeeds;
  }

  /**
   * A field reported again with a different value keeps both, joined with
   * "; "; a field still "unknown" (or equal to the value) simply takes it.
   */
  lemma MergeOne(st: State, key: string, value: string)
    requires key in st.specialNeeds && value != "" && value != Unknown
    ensures var cur, r := st.specialNeeds[key], UpdateNeeds(st, [(key, JStr(value))]).specialNeeds;
      r == st.specialNeeds[key := if cur != Unknown && cur != value then cur + "; " + value else value]
  {
    assert [(key, JStr(value))][..0] == [];
    assert MergeNeeds(st.specialNeeds, []) == st.specialNeeds;
  }

  /**
   * Re-applying an update is a no-op exactly when the field was "unknown"
   * or already held the value before the first application.
   */
  lemma ReapplyIsNoOp(st: State, key: string, value: string)
    requires key in st.specialNeeds && value != "" && value != Unknown
    requires st.specialNeeds[key] == Unknown || st.specialNeeds[key] == value
    ensures var once := UpdateNeeds(st, [(key, JStr(value))]);
      UpdateNeeds(once, [(key, JStr(value))]) == once
  {
    MergeOne(st, key, value);
    var once := UpdateNeeds(st, [(key, JStr(value))]);
    MergeOne(once, key, value);
  }

  /** With a different earlier value, a repeated report is appended a second time. */
  lemma ReapplyAppendsAgain()
    ensures var st := State(Fields["allergies" := "pollen"], {"allergies"});
      var once := UpdateNeeds(st, [("allergies", JStr("penicillin"))]);
      once.specialNeeds["allergies"] == "pollen; penicillin" &&
      UpdateNeeds(once, [("allergies", JStr("penicillin"))]).specialNeeds["allergies"] == "pollen; penicillin; penicillin"
  {
    var st := State(Fields["allergies" := "pollen"], {"allergies"});
    var v := "penicillin";
    var once := UpdateNeeds(st, [("allergies", JStr(v))]);
    assert once.specialNeeds["allergies"] == "pollen; penicillin" by {
      assert st.specialNeeds["allergies"] == "pollen";
      assert |v| == 10 && |"pollen"| == 6 && |Unknown| == 7;
      MergeOne(st, "allergies", v);
    }
    assert UpdateNeeds(once, [("allergies", JStr(v))]).specialNeeds["allergies"] == "pollen; penicillin; penicillin" by {
      assert |"pollen; penicillin"| == 18;
      MergeOne(once, "allergies", v);
    }
  }

  // ---------------------------------------------------------------------
  // Queries
  // ---------------------------------------------------------------------

  /** The positions of `fields` that hold an assessed field. */
  function AssessedAt(fields: seq<string>, assessed: set<string>): set<nat>
  {
    set i: nat | i < |fields| && fields[i] in assessed
  }

  /** How many of `fields` are assessed: the number of assessed positions. */
  function CountAssessed(fields: seq<string>, assessed: set<string>): (n: nat)
    ensures n == |AssessedAt(fields, assessed)|
    ensures n <= |fields|
    decreases |fields|
  {
    if fields == [] then 0
    else
      var init := fields[..|fields| - 1];
      var last := |fields| - 1;
      assert AssessedAt(fields, assessed) ==
        AssessedAt(init, assessed) + (if fields[last] in assessed then {last} else {}) by {
        assert forall i :: 0 <= i < last ==> init[i] == fields[i];
      }
      CountAssessed(init, assessed) + (if fields[last] in assessed then 1 else 0)
  }

  /** `is_assessment_complete`: at least four of the five top priority fields assessed. */
  predicate IsComplete(st: State)
  {
    CountAssessed(PriorityFields[..5], st.assessedFields) >= 4
  }

  lemma {:induction false} CountMissing(fields: seq<string>, assessed: set<string>, i: nat)
    requires i < |fields| && fields[i] !in assessed
    ensures CountAssessed(fields, assessed) <= |fields| - 1
    decreases |fields|
  {
    var init := fields[..|fields| - 1];
    if i < |fields| - 1 {
      assert init[i] == fields[i];
      CountMissing(init, assessed, i);
    }
  }

  lemma {:induction false} CountAll(fields: seq<string>, assessed: set<string>)
    requires forall i :: 0 <= i < |fields| ==> fields[i] in assessed
    ensures CountAssessed(fields, assessed) == |fields|
    decreases |fields|
  {
    if fields != [] {
      CountAll(fields[..|fields| - 1], assessed);
    }
  }

  /** With every field but one assessed, the count falls short of the total by at most one. */
  lemma {:induction false} CountAllBut(fields: seq<string>, assessed: set<string>, i: nat)
    requires forall j :: 0 <= j < |fields| && j != i ==> fields[j] in assessed
    ensures CountAssessed(fields, assessed) >= |fields| - 1
    decreases |fields|
  {
    if fields != [] {
      var init := fields[..|fields| - 1];
      if i == |fields| - 1 {
        CountAll(init, assessed);
      } else {
        CountAllBut(init, assessed, i);
      }
    }
  }

  lemma {:induction false} CountTwoMissing(fields: seq<string>, assessed: set<string>, i: nat, j: nat)
    requires i < j < |fields| && fields[i] !in assessed && fields[j] !in assessed
    ensures CountAssessed(fields, assessed) <= |fields| - 2
    decreases |fields|
  {
    var init := fields[..|fields| - 1];
    assert init[i] == fields[i];
    if j < |fields| - 1 {
      assert init[j] == fields[j];
      CountTwoMissing(init, assessed, i, j);
    } else {
      CountMissing(init, assessed, i);
    }
  }

  /** Two unassessed fields among the top five rule completion out. */
  lemma CompletionThreshold(st: State, i: nat, j: nat)
    requires i < j < 5 && PriorityFields[i] !in st.assessedFields && PriorityFields[j] !in st.assessedFields
    ensures !IsComplete(st)
  {
    CountTwoMissing(PriorityFields[..5], st.assessedFields, i, j);
  }

  lemma AllTopAssessedIsComplete(st: State)
    requires forall i :: 0 <= i < 5 ==> PriorityFields[i] in st.assessedFields
    ensures IsComplete(st)
  {
    CountAll(PriorityFields[..5], st.assessedFields);
  }

  /** One unassessed field among the top five still leaves the assessment complete. */
  lemma OneMissingIsComplete(st: State, i: nat)
    requires forall j :: 0 <= j < 5 && j != i ==> PriorityFields[j] in st.assessedFields
    ensures IsComplete(st)
  {
    CountAllBut(PriorityFields[..5], st.assessedFields, i);
  }

  /** Complete exactly when at most one of the top five priority fields is unassessed. */
  lemma CompleteIffAtMostOneMissing(st: State)
    ensures IsComplete(st) <==> forall i, j :: 0 <= i < j < 5 ==>
      PriorityFields[i] in st.assessedFields || PriorityFields[j] in st.assessedFields
  {
    if forall i, j :: 0 <= i < j < 5 ==> PriorityFields[i] in st.assessedFields || PriorityFields[j] in st.assessedFields {
      if i :| 0 <= i < 5 && PriorityFields[i] !in st.assessedFields {
        OneMissingIsComplete(st, i);
      } else {
        AllTopAssessedIsComplete(st);
      }
    } else {
      var i, j :| 0 <= i < j < 5 && PriorityFields[i] !in st.assessedFields && PriorityFields[j] !in st.assessedFields;
      CompletionThreshold(st, i, j);
    }
  }

  /**
   * `get_next_priority_field`: the first priority field that is neither
   * assessed nor filled in, or None.
   */
  function NextField(fields: seq<string>, st: State): (r: Option<string>)
    ensures r.Some? ==> r.value in fields && r.value !in st.assessedFields && GetOr(st.specialNeeds, r.value, "") == Unknown
    ensures r.Some? ==>
      exists i :: 0 <= i < |fields| && fields[i] == r.value &&
        forall j :: 0 <= j < i ==> fields[j] in st.assessedFields || GetOr(st.specialNeeds, fields[j], "") != Unknown
    ensures r.None? ==> forall i :: 0 <= i < |fields| ==>
      fields[i] in st.assessedFields || GetOr(st.specialNeeds, fields[i], "") != Unknown
    decreases |fields|
  {
    if fields == [] then None
    else if fields[0] !in st.assessedFields && GetOr(st.specialNeeds, fields[0], "") == Unknown then Some(fields[0])
    else
      assert forall i :: 1 <= i < |fields| ==> fields[i] == fields[1..][i - 1];
      NextField(fields[1..], st)
  }

  function NextPriorityField(st: State): Option<string>
  {
    NextField(PriorityFields, st)
  }

  /** The need predicates' test: known, and not a plain negative. */
  predicate Indicates(value: string)
  {
    value != Unknown && Lower(value) !in ["no", "none", "n/a"]
  }

  predicate NeedsEmergencyMedication(st: State) { Indicates(GetOr(st.specialNeeds, "emergency_medication", Unknown)) }

  predicate HasCriticalAllergies(st: State) { Indicates(GetOr(st.specialNeeds, "allergies", Unknown)) }

  predicate HasMobilityLimitations(st: State) { Indicates(GetOr(st.specialNeeds, "mobility_impairment", Unknown)) }

  /** `is_elderly`: an explicit yes/true, else the first number in the age. */
  predicate IsElderly(st: State)
  {
    var elderly := GetOr(st.specialNeeds, "elderly", Unknown);
    var age := GetOr(st.specialNeeds, "age", Unknown);
    if elderly != Unknown && Lower(elderly) in ["yes", "true"] then true
    else if age != Unknown then
      match FirstNumber(age)
      case Some(n) => n >= 65
      case None => false
    else false
  }

  /** A fresh record signals no need at all. */
  lemma FreshRecordSignalsNothing()
    ensures var st := State(Fields, {});
      !NeedsEmergencyMedication(st) && !HasCriticalAllergies(st) && !HasMobilityLimitations(st) && !IsElderly(st)
  {
  }

  /** An age reading "67 years old" makes the victim elderly; "40" does not. */
  lemma ElderlyByAge()
    ensures IsElderly(State(Fields["age" := "67 years old"], {"age"}))
    ensures !IsElderly(State(Fields["age" := "40"], {"age"}))
  {
    var a := "67 years old";
    assert DigitsValue(a, 0) == DigitsValue(a[1..], 6);
    assert DigitsValue(a[1..], 6) == DigitsValue(a[2..], 67);
    assert FirstNumber(a) == Some(DigitsValue(a, 0));
    var b := "40";
    assert DigitsValue(b, 0) == DigitsValue(b[1..], 4);
    assert DigitsValue(b[1..], 4) == DigitsValue(b[2..], 40);
    assert FirstNumber(b) == Some(DigitsValue(b, 0));
  }

  /** Stating a need in plain words after it was unknown switches the predicate on. */
  lemma ReportedAllergyIsCritical(st: State, value: string)
    requires WellFormed(st) && st.specialNeeds["allergies"] == Unknown
    requires value != "" && value != Unknown && Lower(value) !in ["no", "none", "n/a"]
    ensures HasCriticalAllergies(UpdateNeeds(st, [("allergies", JStr(value))]))
  {
    MergeOne(st, "allergies", value);
  }

  // ---------------------------------------------------------------------
  // The agent object
  // ---------------------------------------------------------------------

  class ComfortAssessmentAgent {
    var specialNeeds: map<string, string>
    var assessedFields: set<string>

    function Snapshot(): State
      reads this
    {
      State(specialNeeds, assessedFields)
    }

    ghost predicate Valid()
      reads this
    {
      WellFormed(Snapshot())
    }

    constructor ()
      ensures Valid() && Snapshot() == State(Fields, {})
    {
      specialNeeds := Fields;
      assessedFields := {};
    }

    /** `analyze_victim_response`: returns the filtered dict and marks its keys assessed. */
    method AnalyzeVictimResponse(reply: Reply, parse: Parser) returns (updates: seq<(string, Json)>)
      requires Valid()
      modifies this
      ensures Valid() && specialNeeds == old(specialNeeds)
      ensures Analysis(updates, assessedFields) == Analyze(old(Snapshot()), reply, parse)
    {
      updates := [];
      if !IsOk(reply) {
        return;
      }
      var extracted := ExtractJson(Strip(reply.text), parse);
      if extracted.None? {
        return;
      }
      updates := extracted.value;
      ExtractOnlyFields(FindObjects(Strip(reply.text), 0), parse);
      KeysOfWithin(updates);
      MarkAssessed(updates);
    }

    /** The marking loop of `analyze_victim_response`. */
    method MarkAssessed(updates: seq<(string, Json)>)
      requires Valid() && KeysOf(updates) <= Fields.Keys
      modifies this
      ensures Valid() && specialNeeds == old(specialNeeds)
      ensures assessedFields == old(assessedFields) + (KeysOf(updates) * specialNeeds.Keys)
    {
      var i := 0;
      assert KeysOf(updates[..0]) == {};
      while i < |updates|
        invariant 0 <= i <= |updates| && specialNeeds == old(specialNeeds)
        invariant assessedFields == old(assessedFields) + (KeysOf(updates[..i]) * specialNeeds.Keys)
      {
        if updates[i].0 in specialNeeds {
          assessedFields := assessedFields + {updates[i].0};
        }
        KeysOfPrefix(updates, i);
        i := i + 1;
      }
      assert updates[..i] == updates;
    }

    /** `update_special_needs` (and its alias `update_assessment`). */
    method UpdateSpecialNeeds(updates: seq<(string, Json)>)
      requires Valid()
      modifies this
      ensures Valid()
      ensures Snapshot() == UpdateNeeds(old(Snapshot()), updates)
    {
      var i := 0;
      while i < |updates|
        invariant 0 <= i <= |updates| && assessedFields == old(assessedFields)
        invariant specialNeeds == MergeNeeds(old(specialNeeds), updates[..i])
      {
        var (key, value) := updates[i];
        assert updates[..i + 1][..i] == updates[..i];
        if key in specialNeeds && value.JStr? && value.s != "" && value.s != Unknown {
          var current := specialNeeds[key];
          if current != Unknown && current != value.s {
            specialNeeds := specialNeeds[key := current + "; " + value.s];
          } else {
            specialNeeds := specialNeeds[key := value.s];
          }
        }
        i := i + 1;
      }
      assert updates[..i] == updates;
    }
  }
}

=== FILE: config_manager.dfy ===
/**
 * The system configuration: audio, model, location and conversation
 * settings with their defaults, the command-line arguments that override
 * them, the dictionaries handed to the agents (with the prompt paths moved
 * under `prompts/<language>/` for languages other than English), and the
 * validation of the empathy level and the speech-recognition model.
 * The `OLLAMA_URL` environment variable is a parameter.
 */
module Config {
  import opened Wrappers

  datatype AudioConfig = AudioConfig(
    empathyLevel: string, whisperModel: string, language: string,
    sampleRate: int, chunkSize: int, maxRecordingDuration: int,
    silenceThreshold: real, silenceDuration: real, ttsVolume: real)

  datatype ModelConfig = ModelConfig(
    modelName: string, ollamaBaseUrl: string,
    dialoguePromptPath: string, assessmentPromptPath: string,
    triagePromptPath: string, confortPromptPath: string, language: string)

  datatype LocationConfig = LocationConfig(latitude: real, longitude: real, description: string)

  datatype ConversationConfig = ConversationConfig(maxTurns: int, maxRetries: int, testAudioOnStart: bool)

  /** All four parts of a configuration. */
  datatype Settings = Settings(audio: AudioConfig, model: ModelConfig, location: LocationConfig,
                               conversation: ConversationConfig)

  /** The parsed command line; an attribute the namespace lacks is `None`. */
  datatype Args = Args(
    empathy: Option<string>, whisperModel: Option<string>, testAudio: Option<bool>,
    model: Option<string>, ollamaUrl: Option<string>, language: Option<string>,
    maxTurns: Option<int>)

  const DefaultAudio := AudioConfig("medium", "base", "en", 16000, 1024, 10, 0.01, 2.0, 0.9)

  function DefaultModel(ollamaUrl: string): ModelConfig
  {
    ModelConfig("gemma3:12b", ollamaUrl, "prompts/dialogue_prompt.txt", "prompts/assessment_prompt.txt",
                "prompts/triage_prompt.txt", "prompts/confort_prompt.txt", "en")
  }

  const DefaultLocation := LocationConfig(38.7223, -9.1393, "Oeiras, Lisbon, Portugal")

  const DefaultConversation := ConversationConfig(10, 3, false)

  function Defaults(ollamaUrl: string): Settings
  {
    Settings(DefaultAudio, DefaultModel(ollamaUrl), DefaultLocation, DefaultConversation)
  }

  const EmpathyLevels := ["low", "medium", "high"]

  const WhisperModels := ["tiny", "base", "small", "medium", "large"]

  /** The value given on the command line, or the default. */
  function Given<T>(o: Option<T>, default: T): (r: T)
    ensures o.Some? ==> r == o.value
    ensures o.None? ==> r == default
  {
    if o.Some? then o.value else default
  }

  /**
   * `from_args`: every attribute present overrides its setting, the
   * language overriding both the model's and the audio's, and every other
   * setting keeps its default; without arguments everything is default.
   */
  function Configure(args: Option<Args>, ollamaUrl: string): (r: Settings)
    ensures args.None? ==> r == Defaults(ollamaUrl)
    ensures r.audio.language == r.model.language
    ensures args.Some? ==>
      var a := args.value;
      r.audio.empathyLevel == Given(a.empathy, "medium") &&
      r.audio.whisperModel == Given(a.whisperModel, "base") &&
      r.audio.language == Given(a.language, "en") &&
      r.conversation.testAudioOnStart == Given(a.testAudio, false) &&
      r.model.modelName == Given(a.model, "gemma3:12b") &&
      r.model.ollamaBaseUrl == Given(a.ollamaUrl, ollamaUrl) &&
      r.conversation.maxTurns == Given(a.maxTurns, 10)
    ensures r.audio.(empathyLevel := "medium", whisperModel := "base", language := "en") == DefaultAudio
    ensures r.model.(modelName := "gemma3:12b", ollamaBaseUrl := ollamaUrl, language := "en") == DefaultModel(ollamaUrl)
    ensures r.location == DefaultLocation
    ensures r.conversation.(maxTurns := 10, testAudioOnStart := false) == DefaultConversation
  {
    var d := Defaults(ollamaUrl);
    if args.None? then d
    else
      var a := args.value;
      var audio := d.audio.(empathyLevel := Given(a.empathy, d.audio.empathyLevel),
                            whisperModel := Given(a.whisperModel, d.audio.whisperModel),
                            language := Given(a.language, d.audio.language));
      var model := d.model.(modelName := Given(a.model, d.model.modelName),
                            ollamaBaseUrl := Given(a.ollamaUrl, d.model.ollamaBaseUrl),
                            language := Given(a.language, d.model.language));
      var conversation := d.conversation.(testAudioOnStart := Given(a.testAudio, d.conversation.testAudioOnStart),
                                          maxTurns := Given(a.maxTurns, d.conversation.maxTurns));
      Settings(audio, model, d.location, conversation)
  }

  /** The configuration from a command line, record by record. */
  lemma ConfigureGiven(a: Args, ollamaUrl: string)
    ensures Configure(Some(a), ollamaUrl) == Settings(
      DefaultAudio.(empathyLevel := Given(a.empathy, "medium"), whisperModel := Given(a.whisperModel, "base"),
                    language := Given(a.language, "en")),
      DefaultModel(ollamaUrl).(modelName := Given(a.model, "gemma3:12b"), ollamaBaseUrl := Given(a.ollamaUrl, ollamaUrl),
                               language := Given(a.language, "en")),
      DefaultLocation,
      DefaultConversation.(testAudioOnStart := Given(a.testAudio, false), maxTurns := Given(a.maxTurns, 10)))
  {
  }

  /**
   * The prompt paths `get_model_config_dict` uses: for a language other than
   * English the dialogue and comfort prompts come from `prompts/<language>/`;
   * nothing else changes.
   */
  function LocalizePaths(m: ModelConfig): (r: ModelConfig)
    ensures m.language == "en" ==> r == m
    ensures m.language != "en" ==>
      r.dialoguePromptPath == "prompts/" + m.language + "/dialogue_prompt.txt" &&
      r.confortPromptPath == "prompts/" + m.language + "/confort_prompt.txt"
    ensures r.(dialoguePromptPath := m.dialoguePromptPath, confortPromptPath := m.confortPromptPath) == m
  {
    if m.language != "en" then
      m.(dialoguePromptPath := "prompts/" + m.language + "/dialogue_prompt.txt",
         confortPromptPath := "prompts/" + m.language + "/confort_prompt.txt")
    else m
  }

  /** Localizing the prompt paths twice is localizing them once. */
  lemma LocalizePathsIdempotent(m: ModelConfig)
    ensures LocalizePaths(LocalizePaths(m)) == LocalizePaths(m)
  {
  }

  /** `validate_configuration`'s verdict; missing prompt files only warn. */
  predicate Validates(audio: AudioConfig)
  {
    audio.empathyLevel in EmpathyLevels && audio.whisperModel in WhisperModels
  }

  /**
   * A command line the argument parser accepted (its empathy and
   * speech-recognition model come from the parser's choices) always gives a
   * valid configuration, and so do the defaults.
   */
  lemma ParsedArgsValidate(args: Option<Args>, ollamaUrl: string)
    requires args.Some? ==> args.value.empathy.Some? ==> args.value.empathy.value in EmpathyLevels
    requires args.Some? ==> args.value.whisperModel.Some? ==> args.value.whisperModel.value in WhisperModels
    ensures Validates(Configure(args, ollamaUrl).audio)
  {
    assert "medium" == EmpathyLevels[1] && "base" == WhisperModels[1];
  }

  /** A level or model outside the lists makes the configuration invalid. */
  lemma UnknownEmpathyInvalid(args: Args, ollamaUrl: string)
    requires args.empathy.Some? && args.empathy.value !in EmpathyLevels
    ensures !Validates(Configure(Some(args), ollamaUrl).audio)
  {
  }

  /** `ConfigManager`: the four configuration records, updated in place. */
  class ConfigManager {
    var audioConfig: AudioConfig
    var modelConfig: ModelConfig
    var locationConfig: LocationConfig
    var conversationConfig: ConversationConfig

    function Snapshot(): Settings
      reads this
    {
      Settings(audioConfig, modelConfig, locationConfig, conversationConfig)
    }

    /** `__init__`: every record at its defaults. */
    constructor (ollamaUrl: string)
      ensures Snapshot() == Defaults(ollamaUrl)
    {
      audioConfig := DefaultAudio;
      modelConfig := DefaultModel(ollamaUrl);
      locationConfig := DefaultLocation;
      conversationConfig := DefaultConversation;
    }

    /** `from_args`. */
    static method FromArgs(args: Option<Args>, ollamaUrl: string) returns (c: ConfigManager)
      ensures fresh(c)
      ensures c.Snapshot() == Configure(args, ollamaUrl)
    {
      c := new ConfigManager(ollamaUrl);
      if args.Some? {
        var a := args.value;
        var audio, model, conversation := c.audioConfig, c.modelConfig, c.conversationConfig;
        ghost var empathy, whisper, language := Given(a.empathy, "medium"), Given(a.whisperModel, "base"), Given(a.language, "en");
        // after each attribute, a record is its default with the attributes seen so far applied
        if a.empathy.Some? {
          audio := audio.(empathyLevel := a.empathy.value);
        }
        assert audio == DefaultAudio.(empathyLevel := empathy);
        if a.whisperModel.Some? {
          audio := audio.(whisperModel := a.whisperModel.value);
        }
        assert audio == DefaultAudio.(empathyLevel := empathy, whisperModel := whisper);
        if a.testAudio.Some? {
          conversation := conversation.(testAudioOnStart := a.testAudio.value);
        }
        if a.model.Some? {
          model := model.(modelName := a.model.value);
        }
        if a.ollamaUrl.Some? {
          model := model.(ollamaBaseUrl := a.ollamaUrl.value);
        }
        assert model == DefaultModel(ollamaUrl).(modelName := Given(a.model, "gemma3:12b"), ollamaBaseUrl := Given(a.ollamaUrl, ollamaUrl));
        if a.language.Some? {
          model := model.(language := a.language.value);
          audio := audio.(language := a.language.value);
        }
        assert audio == DefaultAudio.(empathyLevel := empathy, whisperModel := whisper, language := language);
        if a.maxTurns.Some? {
          conversation := conversation.(maxTurns := a.maxTurns.value);
        }
        assert model == DefaultModel(ollamaUrl).(modelName := Given(a.model, "gemma3:12b"),
          ollamaBaseUrl := Given(a.ollamaUrl, ollamaUrl), language := language);
        assert conversation == DefaultConversation.(testAudioOnStart := Given(a.testAudio, false),
          maxTurns := Given(a.maxTurns, 10));
        ConfigureGiven(a, ollamaUrl);
        assert args == Some(a);
        ghost var target := Configure(args, ollamaUrl);
        assert target == Settings(audio, model, DefaultLocation, conversation);
        c.audioConfig, c.modelConfig, c.conversationConfig := audio, model, conversation;
        assert c.Snapshot() == target;
      } else {
        assert c.Snapshot() == Configure(args, ollamaUrl);
      }
    }

    /** `get_audio_config_dict`: exactly the level, the model and the language. */
    function AudioConfigDict(): (r: map<string, string>)
      reads this
      ensures r.Keys == {"empathy_level", "whisper_model", "language"}
      ensures r["empathy_level"] == audioConfig.empathyLevel
      ensures r["whisper_model"] == audioConfig.whisperModel
      ensures r["language"] == audioConfig.language
    {
      map["empathy_level" := audioConfig.empathyLevel,
          "whisper_model" := audioConfig.whisperModel,
          "language" := audioConfig.language]
    }

    /**
     * `get_model_config_dict`: localizes the prompt paths in place, then
     * returns every model setting under its field name.
     */
    method ModelConfigDict() returns (r: map<string, string>)
      modifies this
      ensures modelConfig == LocalizePaths(old(modelConfig))
      ensures audioConfig == old(audioConfig) && locationConfig == old(locationConfig) &&
        conversationConfig == old(conversationConfig)
      ensures r.Keys == {"model_name", "ollama_base_url", "dialogue_prompt_path", "assessment_prompt_path",
                         "triage_prompt_path", "confort_prompt_path", "language"}
      ensures r["model_name"] == modelConfig.modelName && r["ollama_base_url"] == modelConfig.ollamaBaseUrl
      ensures r["dialogue_prompt_path"] == modelConfig.dialoguePromptPath
      ensures r["assessment_prompt_path"] == modelConfig.assessmentPromptPath
      ensures r["triage_prompt_path"] == modelConfig.triagePromptPath
      ensures r["confort_prompt_path"] == modelConfig.confortPromptPath
      ensures r["language"] == modelConfig.language
    {
      if modelConfig.language != "en" {
        modelConfig := modelConfig.(dialoguePromptPath := "prompts/" + modelConfig.language + "/dialogue_prompt.txt");
        modelConfig := modelConfig.(confortPromptPath := "prompts/" + modelConfig.language + "/confort_prompt.txt");
      }
      r := map["model_name" := modelConfig.modelName,
               "ollama_base_url" := modelConfig.ollamaBaseUrl,
               "dialogue_prompt_path" := modelConfig.dialoguePromptPath,
               "assessment_prompt_path" := modelConfig.assessmentPromptPath,
               "triage_prompt_path" := modelConfig.triagePromptPath,
               "confort_prompt_path" := modelConfig.confortPromptPath,
               "language" := modelConfig.language];
    }

    /** `validate_configuration`. */
    function ValidateConfiguration(): (ok: bool)
      reads this
      ensures ok <==> Validates(audioConfig)
    {
      if audioConfig.empathyLevel !in ["low", "medium", "high"] then false
      else audioConfig.whisperModel in ["tiny", "base", "small", "medium", "large"]
    }
  }
}

=== FILE: conversation_manager.dfy ===
/**
 * The conversation manager: the simpler, single-phase interview. Each turn
 * listens for the victim's reply (with retries), updates the assessment
 * from it, asks the action model what to do next and speaks the dialogue
 * model's line for that action; the run greets the victim, loops over the
 * turns and labels the victim's mobility at the end.
 *
 * The three model replies of a turn are inputs (`Exchange`); what the
 * speech-to-text side delivers is a queue of strings, "" for a failed
 * attempt. A failed model call hands over to the backup system (the
 * `failover` flag) and ends the run without a result.
 */
module Conversation {
  import opened Wrappers
  import opened Json
  import opened Llm
  import Assessment
  import Dialogue
  import ActionAgent
  import Listening

  /** Something the robot said, with the `last_message` flag it went out with. */
  datatype Utterance = Utterance(text: string, last: bool)

  /** What the robot says when no reply came after all attempts. */
  const NoReplyClosing := "I'm having trouble hearing you. Help is on the way. Please stay where you are."

  /** Outside the audio-only mode a turn at or past this count closes the conversation. */
  const TurnLimit := 10

  /** `get_victim_response_with_retry`'s default number of attempts. */
  const MaxRetries := 3

  /** The manager's state together with the two agents it drives. */
  datatype Conv = Conv(turnCount: int, assessment: Assessment.State, dialogue: Dialogue.State,
                       stt: seq<string>, said: seq<Utterance>, failover: bool)

  /** The model's replies to the analysis, decision and speech prompts of one turn. */
  datatype Exchange = Exchange(analysis: Reply, decision: Reply, speech: Reply)

  /** The part of `process_victim_response`'s dict the turn reads. */
  datatype Info = Info(complete: bool, nextField: string)

  /** `execute_conversation_turn`'s result: `True`, `False` or "LLM FAIL". */
  datatype TurnResult = KeepGoing | Stop | LlmFail

  // ---------------------------------------------------------------------
  // One turn, step by step
  // ---------------------------------------------------------------------

  /** The retry prompt said after a failed attempt. */
  function RetryPrompt(lang: string, empathy: string): Utterance
  {
    Utterance(Dialogue.NoResponseMessage(lang, empathy), false)
  }

  /**
   * `get_victim_response_with_retry` with its default three attempts: the
   * first reply with text, or "" once every attempt failed, in which case
   * two retry prompts were said.
   */
  function GetReply(c: Conv, lang: string, empathy: string): (r: (Conv, string))
    ensures r.0 == c.(stt := r.0.stt, said := r.0.said)
    ensures r.1 == "" ==> r.0.said == c.said + [RetryPrompt(lang, empathy), RetryPrompt(lang, empathy)]
    ensures r.1 != "" ==> (c.said <= r.0.said && |r.0.said| - |c.said| < MaxRetries &&
      forall i :: |c.said| <= i < |r.0.said| ==> r.0.said[i] == RetryPrompt(lang, empathy))
  {
    var retry := RetryPrompt(lang, empathy);
    var heard := Listening.Listen(c.stt, 0, MaxRetries, c.said, retry);
    Listening.ListenHeard(c.stt, 0, MaxRetries, c.said, retry);
    Listening.ListenSilent(c.stt, 0, MaxRetries, c.said, retry);
    assert heard.0 == "" ==> seq(MaxRetries - 1, _ => retry) == [retry, retry];
    (c.(stt := heard.1, said := heard.2), heard.0)
  }

  /**
   * `process_victim_response`: the reply goes into the dialogue history;
   * None stands for `False` (the analysis failed and the backup system
   * took over); otherwise the assessment is updated and the result says
   * whether it is complete and which field comes next.
   */
  function ProcessResponse(c: Conv, heard: string, reply: Reply, parse: Parser): (r: (Conv, Option<Info>))
    ensures r.0.dialogue == Dialogue.Added(c.dialogue, "victim", heard)
    ensures r.1.None? <==> Assessment.Analyze(c.assessment.assessment, reply, parse).Failed?
    ensures r.1.None? ==> r.0 == c.(dialogue := r.0.dialogue, failover := true)
    ensures r.1.Some? ==> r.0 == c.(dialogue := r.0.dialogue, assessment := r.0.assessment)
    ensures r.1.Some? ==> (r.0.assessment ==
      Assessment.Update(c.assessment, Assessment.Analyze(c.assessment.assessment, reply, parse).entries))
    ensures r.1.Some? ==> (r.1.value.complete <==> Assessment.IsComplete(r.0.assessment))
    ensures r.1.Some? ==> (r.1.value.nextField == "" <==> r.1.value.complete)
  {
    var c1 := c.(dialogue := Dialogue.Added(c.dialogue, "victim", heard));
    match Assessment.Analyze(c.assessment.assessment, reply, parse)
    case Failed => (c1.(failover := true), None)
    case Updates(u) =>
      var st := Assessment.Update(c.assessment, u);
      Assessment.CompletionQueriesAgree(st);
      (c1.(assessment := st), Some(Info(Assessment.IsComplete(st), Assessment.NextPriorityField(st))))
  }

  /**
   * The action text the dialogue model is given: the decision's `action`
   * when it is a string; a decision always carries one.
   */
  function ActionText(d: ActionAgent.Decision): string
  {
    if d.action.JStr? then d.action.s else ""
  }

  /**
   * `generate_robot_response` with `decide_robot_action`: the line to
   * speak, or None after handing over to the backup system because the
   * decision call or the dialogue model failed.
   */
  function Respond(c: Conv, info: Info, decision: Reply, speech: Reply, lang: string, empathy: string,
                   parse: Parser): (r: (Conv, Option<string>))
    ensures r.1.None? <==> (ActionAgent.DecideNextAction(decision, parse).None? ||
      (!info.complete && Dialogue.LlmResponse(speech, empathy).None?))
    ensures r.1.None? ==> r.0 == c.(failover := true)
    ensures r.1.Some? ==> r.0 == c.(dialogue := r.0.dialogue) && r.1.value != ""
    ensures r.1.Some? && info.complete ==> (r.0.dialogue == c.dialogue &&
      r.1.value == Dialogue.ActionBasedFinalMessage(ActionText(ActionAgent.DecideNextAction(decision, parse).value), lang, empathy))
    ensures r.1.Some? && !info.complete ==> (r.1.value == Dialogue.LlmResponse(speech, empathy).value &&
      r.0.dialogue.history == c.dialogue.history + [Dialogue.Entry("robot", r.1.value)])
  {
    match ActionAgent.DecideNextAction(decision, parse)
    case None => (c.(failover := true), None)
    case Some(d) =>
      var said := Dialogue.ActionBasedResponse(c.dialogue, lang, empathy, ActionText(d), info.complete, speech);
      Dialogue.ClosingMessageNonEmpty(ActionText(d), lang, empathy);
      if said.1.Spoken? && said.1.text != "" then (c.(dialogue := said.0), Some(said.1.text))
      else (c.(dialogue := said.0, failover := true), None)
  }

  /**
   * What a turn that got a reply and a line says, and how it ends: in the
   * audio-only mode it always goes on; otherwise the line is the last one
   * exactly when the assessment is complete, the turn limit is reached or
   * there is no next field.
   */
  function Close(c: Conv, info: Info, text: string, local: bool): (r: (Conv, TurnResult))
    ensures r.1 != LlmFail
    ensures r.0 == c.(said := c.said + [Utterance(text, r.1 == Stop)])
    ensures local ==> r.1 == KeepGoing
    ensures !local ==> (r.1 == Stop <==> info.complete || c.turnCount >= TurnLimit || info.nextField == "")
  {
    if local then (c.(said := c.said + [Utterance(text, false)]), KeepGoing)
    else if info.complete || c.turnCount >= TurnLimit || info.nextField == "" then
      (c.(said := c.said + [Utterance(text, true)]), Stop)
    else (c.(said := c.said + [Utterance(text, false)]), KeepGoing)
  }

  /**
   * The rest of a turn once a reply was heard: process it, decide and
   * speak. A failed model call says nothing more; otherwise one line is
   * said, flagged last exactly when the turn stops, and outside the
   * audio-only mode the turn stops exactly when the assessment is complete
   * or the turn limit is reached.
   */
  function Answer(c: Conv, heard: string, x: Exchange, lang: string, empathy: string, local: bool,
                  parse: Parser): (r: (Conv, TurnResult))
    ensures r.0.turnCount == c.turnCount
    ensures r.0.failover <==> c.failover || r.1 == LlmFail
    ensures r.0.assessment.assessment.Keys == c.assessment.assessment.Keys
    ensures r.1 == LlmFail ==> r.0.said == c.said
    ensures r.1 != LlmFail ==> (|r.0.said| == |c.said| + 1 && r.0.said[..|c.said|] == c.said &&
      r.0.said[|c.said|].last == (r.1 == Stop))
    ensures local ==> r.1 != Stop
    ensures !local && r.1 != LlmFail ==>
      (r.1 == Stop <==> Assessment.IsComplete(r.0.assessment) || r.0.turnCount >= TurnLimit)
  {
    var (c3, info) := ProcessResponse(c, heard, x.analysis, parse);
    if info.None? then (c3, LlmFail)
    else
      var (c4, text) := Respond(c3, info.value, x.decision, x.speech, lang, empathy, parse);
      if text.None? then (c4, LlmFail)
      else Close(c4, info.value, text.value, local)
  }

  /**
   * `execute_conversation_turn`: the count goes up by one, no reply ends
   * the conversation with the no-reply closing line, a failed model call
   * is "LLM FAIL" and hands over, and otherwise the line is spoken. What
   * is said only grows, and only a failed model call hands over.
   */
  function Turn(c: Conv, x: Exchange, lang: string, empathy: string, local: bool, parse: Parser): (r: (Conv, TurnResult))
    ensures r.0.turnCount == c.turnCount + 1
    ensures r.0.failover <==> c.failover || r.1 == LlmFail
    ensures r.0.assessment.assessment.Keys == c.assessment.assessment.Keys
    ensures c.said <= r.0.said
  {
    var c1 := c.(turnCount := c.turnCount + 1);
    var (c2, heard) := GetReply(c1, lang, empathy);
    if heard == "" then (c2.(said := c2.said + [Utterance(NoReplyClosing, false)]), Stop)
    else Answer(c2, heard, x, lang, empathy, local, parse)
  }

  /**
   * How a turn ends: a line is said unless the model call failed; only
   * the last line said can be flagged last, and it is exactly when the
   * turn stops outside the audio-only mode with a line other than the
   * no-reply closing; outside the audio-only mode a turn that goes on
   * leaves the assessment incomplete below the turn limit, and a stop is
   * the no-reply closing, a complete assessment or the limit.
   */
  lemma TurnShape(c: Conv, x: Exchange, lang: string, empathy: string, local: bool, parse: Parser)
    ensures var r := Turn(c, x, lang, empathy, local, parse);
      (r.1 != LlmFail ==> |r.0.said| > |c.said|) &&
      (forall i :: |c.said| <= i < |r.0.said| - 1 ==> !r.0.said[i].last) &&
      (r.1 != LlmFail ==> (r.0.said[|r.0.said| - 1].last <==> (r.1 == Stop && !local &&
        r.0.said[|r.0.said| - 1] != Utterance(NoReplyClosing, false)))) &&
      (r.1 == KeepGoing && !local ==> r.0.turnCount < TurnLimit && !Assessment.IsComplete(r.0.assessment)) &&
      (r.1 == Stop ==> (r.0.said[|r.0.said| - 1] == Utterance(NoReplyClosing, false) ||
        (!local && (Assessment.IsComplete(r.0.assessment) || r.0.turnCount >= TurnLimit))))
  {
    var c1 := c.(turnCount := c.turnCount + 1);
    var (c2, heard) := GetReply(c1, lang, empathy);
    assert forall i :: |c.said| <= i < |c2.said| ==> !c2.said[i].last;
  }

  // ---------------------------------------------------------------------
  // The whole conversation
  // ---------------------------------------------------------------------

  /**
   * The turn loop of `run_full_conversation` until the count reaches
   * `limit` (every turn adds one to it): the final state, and whether a
   * turn came back "LLM FAIL".
   */
  function RunTurns(c: Conv, xs: seq<Exchange>, limit: int, lang: string, empathy: string,
                    local: bool, parse: Parser): (r: (Conv, bool))
    requires |xs| >= limit - c.turnCount
    ensures c.turnCount <= r.0.turnCount && (c.turnCount <= limit ==> r.0.turnCount <= limit)
    ensures c.turnCount < limit ==> r.0.turnCount > c.turnCount
    ensures r.0.failover <==> c.failover || r.1
    ensures r.0.assessment.assessment.Keys == c.assessment.assessment.Keys
    ensures c.said <= r.0.said
    decreases limit - c.turnCount
  {
    if c.turnCount >= limit then (c, false)
    else
      var step := Turn(c, xs[0], lang, empathy, local, parse);
      if step.1 == LlmFail then (step.0, true)
      else if step.1 == Stop then (step.0, false)
      else RunTurns(step.0, xs[1..], limit, lang, empathy, local, parse)
  }

  /** The turn count at which a loop of `maxTurns` turns from `c` ends. */
  function EndTurn(c: Conv, maxTurns: nat): int
  {
    c.turnCount + maxTurns
  }

  /** `run_full_conversation`'s result: the labelled assessment, `(None, None)`, or an exception. */
  datatype Outcome = Final(assessment: map<string, string>) | NoResult | Raised

  /**
   * The final labels: `mobility` and `robot_action` from whether the victim
   * can walk and is stuck, with `can_walk` and `stuck_trapped` removed.
   */
  function FinalLabels(st: Assessment.State): (r: map<string, string>)
    requires "can_walk" in st.assessment && "stuck_trapped" in st.assessment
    ensures "can_walk" !in r && "stuck_trapped" !in r
    ensures "mobility" in r && "robot_action" in r
    ensures r["mobility"] == "can walk" <==> Assessment.CanVictimWalk(st)
    ensures r["robot_action"] == (if Assessment.CanVictimWalk(st) then "guide victim to safety" else "wait for responder")
    ensures !Assessment.CanVictimWalk(st) ==>
      r["mobility"] == (if Assessment.IsVictimStuck(st) then "can't walk - victim is stuck" else "can't walk")
    ensures forall k :: k in st.assessment && k !in {"can_walk", "stuck_trapped", "mobility", "robot_action"} ==>
      k in r && r[k] == st.assessment[k]
    ensures r.Keys == st.assessment.Keys - {"can_walk", "stuck_trapped"} + {"mobility", "robot_action"}
  {
    var labels :=
      if !Assessment.CanVictimWalk(st) then
        if Assessment.IsVictimStuck(st) then ("can't walk - victim is stuck", "wait for responder")
        else ("can't walk", "wait for responder")
      else ("can walk", "guide victim to safety");
    st.assessment["mobility" := labels.0]["robot_action" := labels.1] - {"can_walk", "stuck_trapped"}
  }

  /**
   * `start_conversation`: the greeting is said and recorded as the last
   * question; None where there is no greeting for the language (the call
   * raises).
   */
  function Start(c: Conv, lang: string, empathy: string): (r: Option<Conv>)
    ensures r.Some? <==> Dialogue.Supported(lang)
    ensures r.Some? ==> (r.value == c.(dialogue := r.value.dialogue, said := r.value.said) &&
      r.value.said == c.said + [Utterance(Dialogue.Greeting(lang, empathy).value, false)] &&
      r.value.dialogue.lastRobotQuestion == Dialogue.Greeting(lang, empathy).value)
  {
    match Dialogue.Greeting(lang, empathy)
    case None => None
    case Some(g) =>
      Some(c.(dialogue := Dialogue.Added(c.dialogue, "robot", g).(lastRobotQuestion := g),
              said := c.said + [Utterance(g, false)]))
  }

  /** `run_full_conversation` over `maxTurns` turns. */
  function Converse(c: Conv, xs: seq<Exchange>, maxTurns: nat, lang: string, empathy: string,
                    local: bool, parse: Parser): (r: (Conv, Outcome))
    requires |xs| >= maxTurns
    requires "can_walk" in c.assessment.assessment && "stuck_trapped" in c.assessment.assessment
  {
    match Start(c, lang, empathy)
    case None => (c, Raised)
    case Some(c1) =>
      var (c2, failed) := RunTurns(c1, xs, EndTurn(c1, maxTurns), lang, empathy, local, parse);
      if failed then (c2, NoResult) else (c2, Final(FinalLabels(c2.assessment)))
  }

  /**
   * The run raises exactly for an unsupported language, ends without a
   * result exactly when it handed over to the backup system, takes at most
   * `maxTurns` turns, and otherwise returns the labelled final assessment.
   */
  lemma ConverseOutcome(c: Conv, xs: seq<Exchange>, maxTurns: nat, lang: string, empathy: string,
                        local: bool, parse: Parser)
    requires |xs| >= maxTurns && !c.failover
    requires "can_walk" in c.assessment.assessment && "stuck_trapped" in c.assessment.assessment
    ensures var r := Converse(c, xs, maxTurns, lang, empathy, local, parse);
      (r.1.Raised? <==> !Dialogue.Supported(lang)) &&
      (!r.1.Raised? ==> (r.1.NoResult? <==> r.0.failover)) &&
      c.turnCount <= r.0.turnCount <= c.turnCount + maxTurns &&
      (r.1.Final? ==> r.1.assessment == FinalLabels(r.0.assessment))
  {
  }

  // ---------------------------------------------------------------------
  // The manager object
  // ---------------------------------------------------------------------

  class ConversationManager {
    var turnCount: int
    var sttQueue: seq<string>
    var said: seq<Utterance>
    var failover: bool
    const assessor: Assessment.AssessmentAgent
    const dialogue: Dialogue.DialogueAgent
    const local: bool
    const parse: Parser

    function Snapshot(): Conv
      reads this, assessor, dialogue
    {
      Conv(turnCount, assessor.Snapshot(), dialogue.Snapshot(), sttQueue, said, failover)
    }

    ghost predicate Valid()
      reads this, assessor, dialogue
    {
      assessor.Valid() && dialogue.Valid()
    }

    constructor (assessor: Assessment.AssessmentAgent, dialogue: Dialogue.DialogueAgent, local: bool,
                 sttQueue: seq<string>, parse: Parser)
      ensures this.assessor == assessor && this.dialogue == dialogue && this.local == local && this.parse == parse
      ensures turnCount == 0 && this.sttQueue == sttQueue && said == [] && !failover
    {
      this.assessor := assessor;
      this.dialogue := dialogue;
      this.local := local;
      this.parse := parse;
      turnCount := 0;
      this.sttQueue := sttQueue;
      said := [];
      failover := false;
    }

    /** `get_victim_response_with_retry` */
    method GetVictimResponseWithRetry() returns (r: string)
      modifies this
      ensures (Snapshot(), r) == GetReply(old(Snapshot()), dialogue.language, dialogue.empathyLevel)
    {
      var retry := RetryPrompt(dialogue.language, dialogue.empathyLevel);
      ghost var target := Listening.Listen(sttQueue, 0, MaxRetries, said, retry);
      var attempt := 0;
      while attempt < MaxRetries
        invariant 0 <= attempt <= MaxRetries
        invariant Listening.Listen(sttQueue, attempt, MaxRetries, said, retry) == target
        invariant turnCount == old(turnCount) && failover == old(failover)
      {
        var heard := if sttQueue == [] then "" else sttQueue[0];
        sttQueue := if sttQueue == [] then [] else sttQueue[1..];
        if heard != "" {
          return heard;
        }
        if attempt < MaxRetries - 1 {
          said := said + [retry];
        }
        attempt := attempt + 1;
      }
      r := "";
    }

    /** `process_victim_response` */
    method ProcessVictimResponse(heard: string, reply: Reply) returns (info: Option<Info>)
      requires Valid()
      modifies this, assessor, dialogue
      ensures Valid()
      ensures (Snapshot(), info) == ProcessResponse(old(Snapshot()), heard, reply, parse)
    {
      dialogue.AddToHistory("victim", heard);
      var a := assessor.AnalyzeVictimResponse(reply, parse);
      if a.Failed? {
        failover := true;
        return None;
      }
      assessor.UpdateAssessment(a.entries);
      var st := assessor.Snapshot();
      info := Some(Info(Assessment.IsComplete(st), Assessment.NextPriorityField(st)));
    }

    /** `decide_robot_action`: a failed decision call hands over to the backup system. */
    method DecideRobotAction(reply: Reply) returns (d: Option<ActionAgent.Decision>)
      modifies this
      ensures d == ActionAgent.DecideNextAction(reply, parse)
      ensures Snapshot() == old(Snapshot()).(failover := old(failover) || d.None?)
    {
      d := ActionAgent.DecideNextAction(reply, parse);
      if d.None? {
        failover := true;
      }
    }

    /** `generate_robot_response` */
    method GenerateRobotResponse(info: Info, decision: Reply, speech: Reply) returns (text: Option<string>)
      requires Valid()
      modifies this, dialogue
      ensures Valid()
      ensures (Snapshot(), text) ==
        Respond(old(Snapshot()), info, decision, speech, dialogue.language, dialogue.empathyLevel, parse)
    {
      var d := DecideRobotAction(decision);
      if d.None? {
        return None;
      }
      var out := dialogue.GetActionBasedResponse(ActionText(d.value), info.complete, speech);
      if out.Spoken? && out.text != "" {
        text := Some(out.text);
      } else {
        failover := true;
        text := None;
      }
    }

    /** `execute_conversation_turn`, with the turn's model replies given. */
    method ExecuteConversationTurn(x: Exchange) returns (r: TurnResult)
      requires Valid()
      modifies this, assessor, dialogue
      ensures Valid()
      ensures (Snapshot(), r) == Turn(old(Snapshot()), x, dialogue.language, dialogue.empathyLevel, local, parse)
    {
      ghost var c := Snapshot();
      turnCount := turnCount + 1;
      ghost var c1 := Snapshot();
      assert c1 == c.(turnCount := c.turnCount + 1);
      var heard := GetVictimResponseWithRetry();
      if heard == "" {
        said := said + [Utterance(NoReplyClosing, false)];
        return Stop;
      }
      ghost var c2 := Snapshot();
      assert Turn(c, x, dialogue.language, dialogue.empathyLevel, local, parse) ==
        Answer(c2, heard, x, dialogue.language, dialogue.empathyLevel, local, parse);
      var info := ProcessVictimResponse(heard, x.analysis);
      if info.None? {
        return LlmFail;
      }
      ghost var c3 := Snapshot();
      var text := GenerateRobotResponse(info.value, x.decision, x.speech);
      if text.None? {
        return LlmFail;
      }
      ghost var c4 := Snapshot();
      assert Answer(c2, heard, x, dialogue.language, dialogue.empathyLevel, local, parse) ==
        Close(c4, info.value, text.value, local);
      if local {
        said := said + [Utterance(text.value, false)];
        r := KeepGoing;
      } else if info.value.complete || turnCount >= TurnLimit || info.value.nextField == "" {
        said := said + [Utterance(text.value, true)];
        r := Stop;
      } else {
        said := said + [Utterance(text.value, false)];
        r := KeepGoing;
      }
    }

    /** `start_conversation`; `raised` stands for the exception of an unsupported language. */
    method StartConversation() returns (raised: bool)
      requires Valid()
      modifies this, dialogue
      ensures Valid()
      ensures raised <==> Start(old(Snapshot()), dialogue.language, dialogue.empathyLevel).None?
      ensures !raised ==> Snapshot() == Start(old(Snapshot()), dialogue.language, dialogue.empathyLevel).value
      ensures raised ==> Snapshot() == old(Snapshot())
    {
      var g := dialogue.GetInitialResponse();
      if g.None? {
        return true;
      }
      said := said + [Utterance(g.value, false)];
      raised := false;
    }

    /** The turn loop of `run_full_conversation`; `failed` stands for "LLM FAIL". */
    method RunTurnLoop(xs: seq<Exchange>, limit: int) returns (failed: bool)
      requires Valid() && |xs| >= limit - turnCount
      modifies this, assessor, dialogue
      ensures Valid()
      ensures (Snapshot(), failed) == RunTurns(old(Snapshot()), xs, limit, dialogue.language, dialogue.empathyLevel, local, parse)
    {
      ghost var target := RunTurns(Snapshot(), xs, limit, dialogue.language, dialogue.empathyLevel, local, parse);
      var rest := xs;
      while turnCount < limit
        invariant Valid() && |rest| >= limit - turnCount
        invariant RunTurns(Snapshot(), rest, limit, dialogue.language, dialogue.empathyLevel, local, parse) == target
        decreases limit - turnCount
      {
        var t := ExecuteConversationTurn(rest[0]);
        if t != KeepGoing {
          return t == LlmFail;
        }
        rest := rest[1..];
      }
      failed := false;
    }

    /** `run_full_conversation`, with every turn's model replies given. */
    method RunFullConversation(xs: seq<Exchange>, maxTurns: nat) returns (result: Outcome)
      requires Valid() && |xs| >= maxTurns
      requires "can_walk" in assessor.assessment && "stuck_trapped" in assessor.assessment
      modifies this, assessor, dialogue
      ensures Valid()
      ensures (Snapshot(), result) ==
        Converse(old(Snapshot()), xs, maxTurns, dialogue.language, dialogue.empathyLevel, local, parse)
    {
      ghost var c0 := Snapshot();
      var raised := StartConversation();
      if raised {
        return Raised;
      }
      ghost var c1 := Snapshot();
      assert c1 == Start(c0, dialogue.language, dialogue.empathyLevel).value;
      var limit := turnCount + maxTurns;
      assert limit == EndTurn(c1, maxTurns);
      var failed := RunTurnLoop(xs, limit);
      if failed {
        return NoResult;
      }
      result := Final(FinalLabels(assessor.Snapshot()));
    }
  }
}

=== FILE: dialog_agent.dfy ===
/**
 * The dialogue agent of the first interview phase: canned greetings and
 * closing messages chosen by language and empathy level, the cleaning
 * and shortening of the model's questions, and the conversation history
 * with the set of questions already asked.
 */
module Dialogue {
  import opened Wrappers
  import opened Text
  import opened Llm

  /** One message in the three empathy styles. */
  datatype ByEmpathy = ByEmpathy(low: string, medium: string, high: string)

  /** `table.get(level, table["medium"])` */
  function ForLevel(t: ByEmpathy, level: string): string
  {
    if level == "low" then t.low else if level == "high" then t.high else t.medium
  }

  /** One message table per supported language. */
  datatype ByLanguage = ByLanguage(en: ByEmpathy, es: ByEmpathy, fr: ByEmpathy)

  predicate Supported(lang: string) { lang == "en" || lang == "es" || lang == "fr" }

  /** The table of a supported language; there is none for any other. */
  function InLanguage(t: ByLanguage, lang: string): Option<ByEmpathy>
  {
    if lang == "en" then Some(t.en)
    else if lang == "es" then Some(t.es)
    else if lang == "fr" then Some(t.fr)
    else None
  }

  /** The lookups that fall back to English. */
  function InLanguageOrEnglish(t: ByLanguage, lang: string): ByEmpathy
  {
    if lang == "es" then t.es else if lang == "fr" then t.fr else t.en
  }

  // ---------------------------------------------------------------------
  // The message tables
  // ---------------------------------------------------------------------

  /** `get_initial_response`'s greetings. */
  const Greetings := ByLanguage(
      ByEmpathy(
        "Hello. Are you injured?",
        "Hello. I am a rescue robot here to help you. Are you injured?",
        "Hello, I'm a rescue robot and I'm here to help you. Are you injured or in pain? Please tell me what happened."),
      ByEmpathy(
        "Hola. Está herido?",
        "Hola. Soy un robot de rescate y estoy aquí para ayudarle. Está herido?",
        "Hola, soy un robot de rescate y estoy aquí para ayudarle. Está herido o siente dolor? Por favor, dígame qué pasó."),
      ByEmpathy(
        "Bonjour. Êtes-vous blessé?",
        "Bonjour. Je suis un robot de sauvetage et je suis là pour vous aider. Êtes-vous blessé ?",
        "Bonjour, je suis un robot de sauvetage et je suis là pour vous aider. Êtes-vous blessé ou souffrez-vous? Veuillez me dire ce qui s'est passé."))

  /** Evacuation: the victim can walk to the safe zone. */
  const GuideMessages := ByLanguage(
      ByEmpathy(
        "Assessment complete. Follow me to safety.",
        "Assessment complete. You can walk, so please follow me to safety.",
        "You've been very brave. I've completed my assessment and you can walk safely. Please follow me to the evacuation point. I'll help you the entire way."),
      ByEmpathy(
        "Evaluación completa. Sígame a un lugar seguro.",
        "Evaluación completa. Puede caminar, por favor, sígame a un lugar seguro.",
        "Ha sido muy valiente. He completado mi evaluación y puede caminar sin peligro. Por favor, sígame hasta el punto de evacuación. Le ayudaré durante todo el camino."),
      ByEmpathy(
        "Évaluation terminée. Suivez-moi vers la sécurité.",
        "Évaluation terminée. Vous pouvez marcher, veuillez donc me suivre vers la sécurité.",
        "Vous avez été très courageux(se). J'ai terminé mon évaluation et vous pouvez marcher en toute sécurité. Veuillez me suivre jusqu'au point d'évacuation. Je vais vous aider tout le long du chemin."))

  /** Immediate danger: stay in place. */
  const AbandonMessages := ByLanguage(
      ByEmpathy(
        "Immediate danger detected. Stay where you are. Emergency services coming.",
        "There's immediate danger. Please stay in place. Help is coming.",
        "I need to prioritize our safety right now. Please stay exactly where you are. Emergency responders are on their way to help us both."),
      ByEmpathy(
        "Peligro inmediato detectado. Quédese donde está. Servicios de emergencia en camino.",
        "Hay peligro inmediato. Por favor, permanezca en su sitio. La ayuda viene en camino.",
        "Debo priorizar nuestra seguridad en este momento. Por favor, quédese exactamente donde está. Los equipos de emergencia están en camino para ayudarnos a ambos."),
      ByEmpathy(
        "Danger immédiat détecté. Restez où vous êtes. Les services d'urgence arrivent.",
        "Il y a un danger immédiat. Veuillez rester sur place. L'aide arrive.",
        "Je dois donner la priorité à notre sécurité pour le moment. Veuillez rester exactement où vous êtes. Les équipes d'urgence sont en route pour nous aider tous les deux."))

  /** Calming an anxious victim. */
  const CalmMessages := ByLanguage(
      ByEmpathy(
        "Stay calm. Help is on the way.",
        "Please try to stay calm. Help is on the way and you're safe.",
        "I know this is frightening, but you're doing great. Help is coming and you're safe with me. Just stay calm and breathe slowly."),
      ByEmpathy(
        "Mantenga la calma. La ayuda está en camino.",
        "Por favor, intente mantener la calma. La ayuda está en camino y está seguro(a).",
        "Sé que esto da miedo, pero lo está haciendo muy bien. La ayuda viene en camino y está seguro(a) conmigo. Simplemente mantenga la calma y respire lentamente."),
      ByEmpathy(
        "Restez calme. L'aide est en route.",
        "Veuillez essayer de rester calme. L'aide est en route et vous êtes en sécurité.",
        "Je sais que c'est effrayant, mais vous vous en sortez très bien. L'aide arrive et vous êtes en sécurité avec moi. Restez juste calme et respirez lentement."))

  /** Specialised help: the victim cannot walk. */
  const DefaultMessages := ByLanguage(
      ByEmpathy(
        "Assessment complete. Emergency services dispatched. Stay where you are.",
        "Assessment complete. Emergency services are on the way. Please remain in place.",
        "You've been very brave. My assessment is complete, and I've called for specialized help. Please stay where you are. A rescue team is on the way to your location."),
      ByEmpathy(
        "Evaluación completa. Servicios de emergencia enviados. Quédese donde está.",
        "Evaluación completa. Los servicios de emergencia están en camino. Por favor, permanezca en su sitio.",
        "Ha sido muy valiente. Mi evaluación ha finalizado, y he llamado a ayuda especializada. Por favor, quédese donde está. Un equipo de rescate ya está en camino hacia su ubicación."),
      ByEmpathy(
        "Évaluation terminée. Services d'urgence dépêchés. Restez où vous êtes.",
        "Évaluation terminée. Les services d'urgence sont en route. Veuillez rester sur place.",
        "Vous avez été très courageux(se). Mon évaluation est terminée et j'ai appelé de l'aide spécialisée. Veuillez rester où vous êtes. Une équipe de sauvetage est en route vers votre emplacement."))

  /** Asking a silent victim to speak again. */
  const NoResponseMessages := ByLanguage(
      ByEmpathy(
        "Please respond to my question.",
        "I didn't catch that. Could you please speak again?",
        "I didn't catch what you said. Please don't worry, I'm here to help. Could you speak again?"),
      ByEmpathy(
        "Por favor, responda a mi pregunta.",
        "No le he entendido. ¿Podría hablar de nuevo, por favor?",
        "No he captado lo que ha dicho. Por favor, no se preocupe, estoy aquí para ayudar. ¿Podría hablar de nuevo?"),
      ByEmpathy(
        "Veuillez répondre à ma question.",
        "Je n'ai pas compris cela. Pourriez-vous répéter s'il vous plaît?",
        "Je n'ai pas entendu ce que vous avez dit. Ne vous inquiétez pas, je suis là pour vous aider. Pourriez-vous parler à nouveau ?"))

  const GuideAction := "Guide the victim to walk to the safe zone"
  const AbandonAction := "Abandon immediate evacuation and maintain safety"
  const CalmAction := "Talk to the victim to calm them down"

  /** `_define_messages`, keys in their insertion order. */
  const FinalMessages: seq<(string, ByLanguage)> := [
    (GuideAction, GuideMessages),
    (AbandonAction, AbandonMessages),
    (CalmAction, CalmMessages),
    ("default", DefaultMessages),
    ("no_response", NoResponseMessages)]

  // ---------------------------------------------------------------------
  // Canned messages
  // ---------------------------------------------------------------------

  /** `get_initial_response`'s text: None where no greeting table is bound (the call raises). */
  function Greeting(lang: string, empathy: string): (r: Option<string>)
    ensures r.Some? <==> Supported(lang)
  {
    match InLanguage(Greetings, lang)
    case None => None
    case Some(t) => Some(ForLevel(t, empathy))
  }

  /**
   * `get_final_message`: the evacuation message for a victim who can walk
   * and is not stuck, the specialised-help message otherwise; None where
   * no table is bound for the language (the call raises).
   */
  function FinalMessage(lang: string, empathy: string, canWalk: bool, isStuck: bool): Option<string>
  {
    var table := if canWalk && !isStuck then GuideMessages else DefaultMessages;
    match InLanguage(table, lang)
    case None => None
    case Some(t) => Some(ForLevel(t, empathy))
  }

  /** The key of entry `i` is not "default" and occurs in the action. */
  predicate Selects(table: seq<(string, ByLanguage)>, action: string, i: int)
    requires 0 <= i < |table|
  {
    table[i].0 != "default" && Contains(action, table[i].0)
  }

  /** Entry `i` is the first one selected. */
  predicate FirstSelected(table: seq<(string, ByLanguage)>, action: string, i: int)
    requires 0 <= i < |table|
  {
    Selects(table, action, i) && forall j :: 0 <= j < i ==> !Selects(table, action, j)
  }

  /** The first table whose key is not "default" and occurs in the action. */
  function MatchingTemplates(table: seq<(string, ByLanguage)>, action: string): (r: Option<ByLanguage>)
    ensures r.None? <==> forall i :: 0 <= i < |table| ==> !Selects(table, action, i)
    ensures r.Some? ==> exists i :: 0 <= i < |table| && r.value == table[i].1 && FirstSelected(table, action, i)
  {
    if |table| == 0 then None
    else if Selects(table, action, 0) then Some(table[0].1)
    else
      var r := MatchingTemplates(table[1..], action);
      assert forall i :: 1 <= i < |table| ==> table[i] == table[1..][i - 1] && (Selects(table, action, i) <==> Selects(table[1..], action, i - 1));
      r
  }

  /** `get_action_based_final_message` */
  function ActionBasedFinalMessage(action: string, lang: string, empathy: string): string
  {
    var templates := match MatchingTemplates(FinalMessages, action)
      case None => DefaultMessages
      case Some(t) => t;
    ForLevel(InLanguageOrEnglish(templates, lang), empathy)
  }

  /** `get_no_response_message` */
  function NoResponseMessage(lang: string, empathy: string): string
  {
    ForLevel(InLanguageOrEnglish(NoResponseMessages, lang), empathy)
  }

  /** An action naming none of the table's keys gets the specialised-help message. */
  lemma UnmatchedActionGetsDefault(action: string, lang: string, empathy: string)
    requires forall i :: 0 <= i < |FinalMessages| ==> !Contains(action, FinalMessages[i].0)
    ensures ActionBasedFinalMessage(action, lang, empathy) == ForLevel(InLanguageOrEnglish(DefaultMessages, lang), empathy)
  {
  }

  /** The guide action gets the evacuation message. */
  lemma GuideActionGetsGuide(lang: string, empathy: string)
    ensures ActionBasedFinalMessage(GuideAction, lang, empathy) == ForLevel(InLanguageOrEnglish(GuideMessages, lang), empathy)
  {
    ContainsSelf(GuideAction);
  }

  /**
   * The two closing-message tables agree: in a supported language the
   * final message is the action table's guide message for a walking,
   * free victim and its default message otherwise.
   */
  lemma FinalMessagesAgree(lang: string, empathy: string, canWalk: bool, isStuck: bool)
    requires Supported(lang)
    ensures FinalMessage(lang, empathy, canWalk, isStuck) ==
      Some(ActionBasedFinalMessage(if canWalk && !isStuck then GuideAction else "", lang, empathy))
  {
    if canWalk && !isStuck {
      GuideActionGetsGuide(lang, empathy);
    } else {
      forall i | 0 <= i < |FinalMessages| ensures !Contains("", FinalMessages[i].0) {
        assert |FinalMessages[i].0| > 0;
        if Contains("", FinalMessages[i].0) {
          ContainsLonger("", FinalMessages[i].0);
        }
      }
      UnmatchedActionGetsDefault("", lang, empathy);
    }
  }

  /** The no-response prompt only depends on the language after the English fallback. */
  lemma NoResponseFallsBack(lang: string, empathy: string)
    ensures !Supported(lang) ==> NoResponseMessage(lang, empathy) == NoResponseMessage("en", empathy)
    ensures empathy != "low" && empathy != "high" ==> NoResponseMessage(lang, empathy) == NoResponseMessage(lang, "medium")
  {
  }

  /** Every message of a table has text. */
  predicate Filled(t: ByLanguage)
  {
    t.en.low != "" && t.en.medium != "" && t.en.high != "" &&
    t.es.low != "" && t.es.medium != "" && t.es.high != "" &&
    t.fr.low != "" && t.fr.medium != "" && t.fr.high != ""
  }

  /** A closing message always has text, whatever the action, language and level. */
  lemma ClosingMessageNonEmpty(action: string, lang: string, empathy: string)
    ensures ActionBasedFinalMessage(action, lang, empathy) != ""
  {
    assert Filled(DefaultMessages);
    forall i | 0 <= i < |FinalMessages| ensures Filled(FinalMessages[i].1) {
      assert Filled(GuideMessages) && Filled(AbandonMessages) && Filled(CalmMessages) && Filled(NoResponseMessages);
    }
  }

  // ---------------------------------------------------------------------
  // Cleaning and shortening the model's text
  // ---------------------------------------------------------------------

  const RobotPrefixes: seq<string> := ["Robot:", "Robot ", "ROBOT:", "robot:"]

  /** One step of `_clean_response`: drop the prefix and strip, if the text starts with it. */
  function DropPrefix(text: string, prefix: string): string
  {
    if StartsWith(text, prefix) then Strip(text[|prefix|..]) else text
  }

  /** The prefixes tried in order, each on the text the previous one left. */
  function DropPrefixes(text: string, prefixes: seq<string>): string
    decreases |prefixes|
  {
    if |prefixes| == 0 then text else DropPrefixes(DropPrefix(text, prefixes[0]), prefixes[1..])
  }

  /** `s` is a contiguous piece of `t`. */
  predicate Slice(s: string, t: string)
  {
    exists i, j :: 0 <= i <= j <= |t| && s == t[i..j]
  }

  lemma {:induction false} StripSlice(s: string)
    ensures Slice(Strip(s), s)
  {
    StripShape(s);
    LStripShape(s);
    RStripShape(LStrip(s));
    var l := LStrip(s);
    var a := |s| - |l|;
    assert l == s[a..];
    assert Strip(s) == l[..|Strip(s)|] == s[a..a + |Strip(s)|];
  }

  lemma SliceTrans(r: string, s: string, t: string)
    requires Slice(r, s) && Slice(s, t)
    ensures Slice(r, t)
  {
    var i, j :| 0 <= i <= j <= |s| && r == s[i..j];
    var k, l :| 0 <= k <= l <= |t| && s == t[k..l];
    assert forall x :: 0 <= x < |r| ==> r[x] == s[i + x] == t[k + i + x];
    assert r == t[k + i..k + j];
  }

  /** Cleaning only ever keeps a piece of the text, and leaves text without a prefix alone. */
  lemma {:induction false} DropPrefixesSlice(text: string, prefixes: seq<string>)
    ensures Slice(DropPrefixes(text, prefixes), text)
    ensures (forall i :: 0 <= i < |prefixes| ==> !StartsWith(text, prefixes[i])) ==> DropPrefixes(text, prefixes) == text
    decreases |prefixes|
  {
    if |prefixes| == 0 {
      assert text == text[0..|text|];
    } else {
      var d := DropPrefix(text, prefixes[0]);
      DropPrefixesSlice(d, prefixes[1..]);
      if StartsWith(text, prefixes[0]) {
        StripSlice(text[|prefixes[0]|..]);
        assert text[|prefixes[0]|..] == text[|prefixes[0]|..|text|];
        SliceTrans(d, text[|prefixes[0]|..], text);
      } else {
        assert text == text[0..|text|];
      }
      SliceTrans(DropPrefixes(text, prefixes), d, text);
    }
  }

  /** `_clean_response`, the loop as the source writes it. */
  method CleanResponse(text: string) returns (r: string)
    ensures r == DropPrefixes(text, RobotPrefixes)
  {
    r := text;
    var i := 0;
    while i < |RobotPrefixes|
      invariant 0 <= i <= |RobotPrefixes|
      invariant DropPrefixes(r, RobotPrefixes[i..]) == DropPrefixes(text, RobotPrefixes)
    {
      assert RobotPrefixes[i..][1..] == RobotPrefixes[i + 1..];
      if StartsWith(r, RobotPrefixes[i]) {
        r := Strip(r[|RobotPrefixes[i]|..]);
      }
      i := i + 1;
    }
  }

  /** "Robot: " in front of a clean answer is removed and nothing else is. */
  lemma CleanRobotLabel(body: string)
    requires body == Strip(body)
    requires forall i :: 0 <= i < |RobotPrefixes| ==> !StartsWith(body, RobotPrefixes[i])
    ensures DropPrefixes("Robot: " + body, RobotPrefixes) == body
  {
    var t := "Robot: " + body;
    assert t[..6] == "Robot:";
    assert t[6..] == [' '] + body;
    assert LStrip([' '] + body) == LStrip(body);
    StripIdempotent(body);
    assert Strip(t[6..]) == Strip(body) == body;
    assert DropPrefix(t, RobotPrefixes[0]) == body;
    DropPrefixesSlice(body, RobotPrefixes[1..]);
    assert forall i :: 0 <= i < |RobotPrefixes[1..]| ==> RobotPrefixes[1..][i] == RobotPrefixes[i + 1];
  }

  /** `max_sentences.get(level, 2)` */
  function SentenceLimit(empathy: string): nat
  {
    if empathy == "high" then 4 else 2
  }

  /** `_apply_length_constraints` */
  function ApplyLengthConstraints(text: string, empathy: string): string
  {
    var sentences := Split(text, ". ");
    var limit := SentenceLimit(empathy);
    if |sentences| > limit then
      var t := Join(sentences[..limit], ". ");
      if EndsWith(t, ".") then t else t + "."
    else text
  }

  /**
   * Text within the limit is left alone; longer text is cut to its first
   * `limit` sentences, which are a prefix of it, and ends in a full stop.
   */
  lemma LengthConstraintShape(text: string, empathy: string)
    ensures var r := ApplyLengthConstraints(text, empathy);
      var limit := SentenceLimit(empathy);
      (|Split(text, ". ")| <= limit ==> r == text) &&
      (|Split(text, ". ")| > limit ==>
        EndsWith(r, ".") &&
        var kept := Join(Split(text, ". ")[..limit], ". ");
        StartsWith(text, kept + ". ") && (r == kept || r == kept + "."))
  {
    var sentences := Split(text, ". ");
    var limit := SentenceLimit(empathy);
    if |sentences| > limit {
      var kept := Join(sentences[..limit], ". ");
      JoinSplit(text, ". ");
      assert sentences == sentences[..limit] + sentences[limit..];
      JoinAppend(sentences[..limit], sentences[limit..], ". ");
      assert text == kept + ". " + Join(sentences[limit..], ". ");
      assert (kept + ". " + Join(sentences[limit..], ". "))[..|kept + ". "|] == kept + ". ";
      var r := ApplyLengthConstraints(text, empathy);
      if !EndsWith(kept, ".") {
        assert (kept + ".")[|kept + "."| - 1..] == ".";
      }
    }
  }

  /**
   * `get_llm_response`'s result: None for `False` (a non-200 status, a
   * transport failure, or nothing left after cleaning), else the text.
   */
  function LlmResponse(reply: Reply, empathy: string): (r: Option<string>)
    ensures r.Some? ==> IsOk(reply) && r.value != ""
    ensures !IsOk(reply) ==> r.None?
  {
    if !IsOk(reply) then None
    else
      var t := ApplyLengthConstraints(DropPrefixes(Strip(reply.text), RobotPrefixes), empathy);
      if t == "" then None else Some(t)
  }

  // ---------------------------------------------------------------------
  // History
  // ---------------------------------------------------------------------

  datatype Entry = Entry(role: string, content: string)

  /** The dialogue state the agent updates. */
  datatype State = State(history: seq<Entry>, lastRobotQuestion: string, askedQuestions: set<string>)

  /** A question worth remembering: lower-case, stripped, longer than five characters. */
  predicate IsQuestionKey(q: string)
  {
    |q| > 5 && q == Strip(q) && forall i :: 0 <= i < |q| ==> !('A' <= q[i] <= 'Z')
  }

  predicate WellFormed(st: State)
  {
    forall q :: q in st.askedQuestions ==> IsQuestionKey(q)
  }

  /**
   * The question a robot line asks: the last '.'-sentence before the
   * first '?', stripped and lower-cased, when it is long enough.
   */
  function QuestionOf(content: string): (r: Option<string>)
    ensures r.Some? ==> IsQuestionKey(r.value)
  {
    if !Contains(content, "?") then None
    else
      var before := Split(content, "?")[0];
      var sentences := Split(before, ".");
      var q := Lower(Strip(sentences[|sentences| - 1]));
      if |q| > 5 then
        StripIdempotent(sentences[|sentences| - 1]);
        StripOfLower(Strip(sentences[|sentences| - 1]));
        Some(q)
      else None
  }

  /** Lower-casing a stripped text keeps it stripped. */
  lemma StripOfLower(s: string)
    requires s == Strip(s)
    ensures Lower(s) == Strip(Lower(s))
  {
    StripShape(s);
    var l := Lower(s);
    assert forall i :: 0 <= i < |s| ==> l[i] == LowerChar(s[i]);
    assert forall i :: 0 <= i < |s| ==> (IsSpace(l[i]) <==> IsSpace(s[i]));
    if |s| > 0 {
      assert !IsSpace(l[0]) && !IsSpace(l[|l| - 1]);
    }
    LStripNoSpace(l);
    RStripNoSpace(l);
  }

  /** `add_to_history` as a function of the state before it. */
  function Added(st: State, role: string, content: string): (r: State)
    ensures WellFormed(st) ==> WellFormed(r)
  {
    var asked := if role == "robot" && QuestionOf(content).Some? then st.askedQuestions + {QuestionOf(content).value}
      else st.askedQuestions;
    State(st.history + [Entry(role, content)], st.lastRobotQuestion, asked)
  }

  /**
   * Every call appends exactly that one entry; only a robot question adds
   * to the asked set, and then only its own question.
   */
  lemma AddedShape(st: State, role: string, content: string)
    ensures var r := Added(st, role, content);
      |r.history| == |st.history| + 1 && r.history[..|st.history|] == st.history &&
      r.history[|st.history|] == Entry(role, content) &&
      st.askedQuestions <= r.askedQuestions &&
      r.askedQuestions - st.askedQuestions <= (if role == "robot" && QuestionOf(content).Some? then {QuestionOf(content).value} else {}) &&
      (role != "robot" || !Contains(content, "?") ==> r.askedQuestions == st.askedQuestions)
  {
  }

  /** `_check_if_stuck` */
  predicate CheckIfStuck(assessment: map<string, string>)
  {
    var s := Lower(if "stuck_trapped" in assessment then assessment["stuck_trapped"] else "");
    Contains(s, "yes") || Contains(s, "stuck") || Contains(s, "trapped")
  }

  /** `"yes" in assessment.get("can_walk", "").lower()` */
  predicate SaysCanWalk(assessment: map<string, string>)
  {
    Contains(Lower(if "can_walk" in assessment then assessment["can_walk"] else ""), "yes")
  }

  /** What a response call hands back: text, `False`, or an exception. */
  datatype Outcome = Spoken(text: string) | Failed | Raised

  /** `get_next_response` as a function of the state before it. */
  function NextResponse(st: State, lang: string, empathy: string, assessment: map<string, string>,
                        complete: bool, reply: Reply): (State, Outcome)
  {
    if complete then
      match FinalMessage(lang, empathy, SaysCanWalk(assessment), CheckIfStuck(assessment))
      case None => (st, Raised)
      case Some(m) => (st, Spoken(m))
    else
      match LlmResponse(reply, empathy)
      case None => (st, Failed)
      case Some(q) => (Added(st, "robot", q).(lastRobotQuestion := q), Spoken(q))
  }

  /**
   * A complete assessment is closed with a canned message and no change of
   * state; a failed model call changes nothing; a question is recorded as
   * the last robot question and as the last history entry.
   */
  lemma NextResponseShape(st: State, lang: string, empathy: string, assessment: map<string, string>,
                          complete: bool, reply: Reply)
    ensures var (r, out) := NextResponse(st, lang, empathy, assessment, complete, reply);
      (complete ==> (r == st && (Supported(lang) <==> out.Spoken?) &&
        (out.Spoken? ==> out.text == ActionBasedFinalMessage(
          if SaysCanWalk(assessment) && !CheckIfStuck(assessment) then GuideAction else "", lang, empathy)))) &&
      (!complete && out.Failed? ==> r == st) &&
      (!complete ==> (out.Failed? <==> LlmResponse(reply, empathy).None?)) &&
      (out.Spoken? && !complete ==>
        r.lastRobotQuestion == out.text && r.history == st.history + [Entry("robot", out.text)])
  {
    if complete && Supported(lang) {
      FinalMessagesAgree(lang, empathy, SaysCanWalk(assessment), CheckIfStuck(assessment));
    }
  }

  /**
   * `get_action_based_response` as written: when the model call fails it
   * still records the `False` in the history, whose question tracking then
   * raises `TypeError` (`'?' in False`). It never returns `False`.
   */
  function ActionBasedResponseAsWritten(st: State, lang: string, empathy: string, action: string,
                                        complete: bool, reply: Reply): (r: (State, Outcome))
    ensures !r.1.Failed?
  {
    if complete then (st, Spoken(ActionBasedFinalMessage(action, lang, empathy)))
    else
      match LlmResponse(reply, empathy)
      case None => (st, Raised)
      case Some(q) => (Added(st, "robot", q).(lastRobotQuestion := q), Spoken(q))
  }

  /**
   * `get_action_based_response` as evidently intended: a failed model call
   * returns `False` and leaves the history alone, like `get_next_response`.
   */
  function ActionBasedResponse(st: State, lang: string, empathy: string, action: string,
                               complete: bool, reply: Reply): (r: (State, Outcome))
    ensures !r.1.Raised?
    ensures r.1.Failed? <==> !complete && LlmResponse(reply, empathy).None?
    ensures r.1.Failed? ==> r.0 == st
    ensures r.1.Spoken? && !complete ==> r.0.lastRobotQuestion == r.1.text && r.0.history == st.history + [Entry("robot", r.1.text)]
  {
    if complete then (st, Spoken(ActionBasedFinalMessage(action, lang, empathy)))
    else
      match LlmResponse(reply, empathy)
      case None => (st, Failed)
      case Some(q) => (Added(st, "robot", q).(lastRobotQuestion := q), Spoken(q))
  }

  /** The two agree except where the source raises. */
  lemma ActionBasedResponseDiffers(st: State, lang: string, empathy: string, action: string, reply: Reply)
    requires !IsOk(reply)
    ensures ActionBasedResponseAsWritten(st, lang, empathy, action, false, reply).1 == Raised
    ensures ActionBasedResponse(st, lang, empathy, action, false, reply) == (st, Failed)
  {
  }

  // ---------------------------------------------------------------------
  // The agent object
  // ---------------------------------------------------------------------

  class DialogueAgent {
    const language: string
    const empathyLevel: string
    var history: seq<Entry>
    var lastRobotQuestion: string
    var askedQuestions: set<string>

    function Snapshot(): State
      reads this
    {
      State(history, lastRobotQuestion, askedQuestions)
    }

    ghost predicate Valid()
      reads this
    {
      WellFormed(Snapshot())
    }

    constructor (language: string, empathyLevel: string)
      ensures Valid() && Snapshot() == State([], "", {})
      ensures this.language == language && this.empathyLevel == empathyLevel
    {
      this.language := language;
      this.empathyLevel := empathyLevel;
      history := [];
      lastRobotQuestion := "";
      askedQuestions := {};
    }

    /** `add_to_history` */
    method AddToHistory(role: string, content: string)
      requires Valid()
      modifies this
      ensures Valid() && Snapshot() == Added(old(Snapshot()), role, content)
    {
      history := history + [Entry(role, content)];
      if role == "robot" && Contains(content, "?") {
        var q := QuestionOf(content);
        if q.Some? {
          askedQuestions := askedQuestions + {q.value};
        }
      }
    }

    /** `get_initial_response`: greet, and record the greeting as the last question. */
    method GetInitialResponse() returns (r: Option<string>)
      requires Valid()
      modifies this
      ensures Valid()
      ensures r == Greeting(language, empathyLevel)
      ensures r.None? ==> Snapshot() == old(Snapshot())
      ensures r.Some? ==> Snapshot() == Added(old(Snapshot()), "robot", r.value).(lastRobotQuestion := r.value)
    {
      r := Greeting(language, empathyLevel);
      if r.Some? {
        AddToHistory("robot", r.value);
        lastRobotQuestion := r.value;
      }
    }

    /** `get_next_response`; `reply` is the model's answer to the question prompt. */
    method GetNextResponse(assessment: map<string, string>, complete: bool, reply: Reply) returns (r: Outcome)
      requires Valid()
      modifies this
      ensures Valid()
      ensures (Snapshot(), r) == NextResponse(old(Snapshot()), language, empathyLevel, assessment, complete, reply)
    {
      if complete {
        var m := FinalMessage(language, empathyLevel, SaysCanWalk(assessment), CheckIfStuck(assessment));
        r := if m.Some? then Spoken(m.value) else Raised;
        return;
      }
      var q := LlmResponse(reply, empathyLevel);
      if q.None? {
        return Failed;
      }
      AddToHistory("robot", q.value);
      lastRobotQuestion := q.value;
      r := Spoken(q.value);
    }

    /** `get_action_based_response`, with a failed model call returning `False`. */
    method GetActionBasedResponse(action: string, complete: bool, reply: Reply) returns (r: Outcome)
      requires Valid()
      modifies this
      ensures Valid()
      ensures (Snapshot(), r) == ActionBasedResponse(old(Snapshot()), language, empathyLevel, action, complete, reply)
    {
      if complete {
        return Spoken(ActionBasedFinalMessage(action, language, empathyLevel));
      }
      var q := LlmResponse(reply, empathyLevel);
      if q.None? {
        return Failed;
      }
      AddToHistory("robot", q.value);
      lastRobotQuestion := q.value;
      r := Spoken(q.value);
    }
  }
}

=== FILE: listening.dfy ===
/**
 * Listening for the victim's reply. Both conversation drivers try a fixed
 * number of times, take the first reply that has text, and say a retry
 * prompt after every failed attempt except the last. What each attempt
 * hears is the next item of a queue: an empty string stands for a timeout
 * or a message without text, and an exhausted queue times out.
 */
module Listening {
  /**
   * The retry loop from attempt `attempt` on: the reply (empty when every
   * attempt failed), what is left of the queue, and what was said, with a
   * retry prompt after every failed attempt but the last.
   */
  function Listen<T>(stt: seq<string>, attempt: nat, maxRetries: nat, said: seq<T>, retry: T): (r: (string, seq<string>, seq<T>))
    decreases maxRetries - attempt
  {
    if attempt >= maxRetries then ("", stt, said)
    else
      var heard := if stt == [] then "" else stt[0];
      var rest := if stt == [] then [] else stt[1..];
      if heard != "" then (heard, rest, said)
      else Listen(rest, attempt + 1, maxRetries, if attempt < maxRetries - 1 then said + [retry] else said, retry)
  }

  /** The number of items the attempts from `attempt` on can hear. */
  function Reach(stt: seq<string>, attempt: nat, maxRetries: nat): nat
    requires attempt <= maxRetries
  {
    if |stt| < maxRetries - attempt then |stt| else maxRetries - attempt
  }

  /**
   * `r` is what hearing item `k` of `stt` gives: that item, the queue after
   * it, and one retry prompt per empty item before it.
   */
  ghost predicate HeardAt<T>(stt: seq<string>, k: nat, r: (string, seq<string>, seq<T>), said: seq<T>, retry: T)
  {
    k < |stt| && r.0 == stt[k] && r.1 == stt[k + 1..] &&
    (forall j :: 0 <= j < k ==> stt[j] == "") && r.2 == said + seq(k, _ => retry)
  }

  /** Hearing item `k` after an empty first item is hearing item `k + 1` of the whole queue. */
  lemma HeardShift<T>(stt: seq<string>, k: nat, r: (string, seq<string>, seq<T>), said: seq<T>, retry: T)
    requires stt != [] && stt[0] == "" && HeardAt(stt[1..], k, r, said + [retry], retry)
    ensures HeardAt(stt, k + 1, r, said, retry)
  {
    var rest := stt[1..];
    assert stt[k + 1] == rest[k] && stt[k + 2..] == rest[k + 1..];
    assert said + [retry] + seq(k, _ => retry) == said + seq(k + 1, _ => retry);
    forall j | 0 <= j < k + 1 ensures stt[j] == "" {
      if j > 0 { assert stt[j] == rest[j - 1]; }
    }
  }

  /**
   * A reply with text is the first non-empty item among those the attempts
   * reach: exactly the items up to it are consumed, and one retry prompt is
   * said per failed attempt before it.
   */
  lemma {:induction false} ListenHeard<T>(stt: seq<string>, attempt: nat, maxRetries: nat, said: seq<T>, retry: T)
    requires attempt <= maxRetries
    ensures var r := Listen(stt, attempt, maxRetries, said, retry);
      r.0 != "" ==> exists k: nat :: k < Reach(stt, attempt, maxRetries) && HeardAt(stt, k, r, said, retry)
    decreases maxRetries - attempt
  {
    if attempt < maxRetries {
      var r := Listen(stt, attempt, maxRetries, said, retry);
      if stt == [] || stt[0] == "" {
        var rest := if stt == [] then [] else stt[1..];
        var said' := if attempt < maxRetries - 1 then said + [retry] else said;
        assert r == Listen(rest, attempt + 1, maxRetries, said', retry);
        ListenHeard(rest, attempt + 1, maxRetries, said', retry);
        if r.0 != "" {
          var k: nat :| k < Reach(rest, attempt + 1, maxRetries) && HeardAt(rest, k, r, said', retry);
          HeardShift(stt, k, r, said, retry);
          assert k + 1 < Reach(stt, attempt, maxRetries);
        }
      } else {
        assert seq(0, _ => retry) == [];
        assert HeardAt(stt, 0, r, said, retry);
      }
    }
  }

  /**
   * When every attempt fails, each item the attempts reach was empty, those
   * items are consumed, and one retry prompt fewer than the attempts is
   * said.
   */
  lemma {:induction false} ListenSilent<T>(stt: seq<string>, attempt: nat, maxRetries: nat, said: seq<T>, retry: T)
    requires attempt <= maxRetries
    ensures var r := Listen(stt, attempt, maxRetries, said, retry);
      var n := Reach(stt, attempt, maxRetries);
      r.0 == "" ==> ((forall j :: 0 <= j < n ==> stt[j] == "") && r.1 == stt[n..] &&
        r.2 == said + seq(if attempt < maxRetries then maxRetries - 1 - attempt else 0, _ => retry))
    decreases maxRetries - attempt
  {
    if attempt < maxRetries {
      var heard := if stt == [] then "" else stt[0];
      var rest := if stt == [] then [] else stt[1..];
      var said' := if attempt < maxRetries - 1 then said + [retry] else said;
      if heard == "" {
        var r := Listen(stt, attempt, maxRetries, said, retry);
        assert r == Listen(rest, attempt + 1, maxRetries, said', retry);
        ListenSilent(rest, attempt + 1, maxRetries, said', retry);
        if stt != [] {
          assert forall j :: 1 <= j < |stt| ==> stt[j] == rest[j - 1];
          assert stt[1..] == rest;
        }
        if attempt < maxRetries - 1 {
          assert said + seq(maxRetries - 1 - attempt, _ => retry) == said' + seq(maxRetries - 1 - (attempt + 1), _ => retry);
        }
      }
    }
  }

  /** Listening only ever adds to what was said. */
  lemma {:induction false} ListenKeepsSaid<T>(stt: seq<string>, attempt: nat, maxRetries: nat, said: seq<T>, retry: T)
    ensures said <= Listen(stt, attempt, maxRetries, said, retry).2
    decreases maxRetries - attempt
  {
    if attempt < maxRetries {
      var heard := if stt == [] then "" else stt[0];
      var rest := if stt == [] then [] else stt[1..];
      if heard == "" {
        var said' := if attempt < maxRetries - 1 then said + [retry] else said;
        ListenKeepsSaid(rest, attempt + 1, maxRetries, said', retry);
      }
    }
  }
}

=== FILE: mqtt_manager.dfy ===
/**
 * The MQTT manager's offline message queue. While the client is
 * disconnected, `publish` keeps each message in a bounded FIFO queue that
 * drops its oldest entry when full; once the connection is back, the queue
 * is drained from the front until the first message the client fails to
 * publish. The MQTT client itself is an outside call: each publish attempt
 * is given as a success flag, and the messages it accepted are recorded in
 * `sent`, in order.
 */
module Mqtt {
  /** What is handed to the MQTT client: a topic, a JSON payload and a QoS level. */
  datatype Packet = Packet(topic: string, payload: string, qos: int)

  /** A queued message, with the time it was queued. */
  datatype Queued = Queued(packet: Packet, timestamp: real)

  /** `max_queue_size`. */
  const MaxQueueSize: nat := 100

  /**
   * `_queue_message`: the new message goes last; when the queue already
   * holds `MaxQueueSize` messages the oldest is dropped first, so what stays
   * is the newest part of the old queue, in order.
   */
  function Enqueue(q: seq<Queued>, m: Queued): (r: seq<Queued>)
    ensures |r| == (if |q| >= MaxQueueSize then |q| else |q| + 1)
    ensures |q| <= MaxQueueSize ==> |r| <= MaxQueueSize
    ensures r[|r| - 1] == m
    ensures r[..|r| - 1] == q[|q| + 1 - |r|..]
  {
    if |q| >= MaxQueueSize then q[1..] + [m] else q + [m]
  }

  /** Queueing the messages `ms` one after another, oldest first. */
  function EnqueueAll(q: seq<Queued>, ms: seq<Queued>): seq<Queued>
    decreases |ms|
  {
    if ms == [] then q else EnqueueAll(Enqueue(q, ms[0]), ms[1..])
  }

  /** The last `n` items of `s` (all of them when there are fewer). */
  function Newest<T>(s: seq<T>, n: nat): seq<T>
  {
    if |s| <= n then s else s[|s| - n..]
  }

  /**
   * A bounded queue that starts within its bound keeps exactly the newest
   * `MaxQueueSize` of everything queued, in the order it was queued.
   */
  lemma {:induction false} EnqueueAllKeepsNewest(q: seq<Queued>, ms: seq<Queued>)
    requires |q| <= MaxQueueSize
    ensures EnqueueAll(q, ms) == Newest(q + ms, MaxQueueSize)
    decreases |ms|
  {
    if ms == [] {
      assert q + ms == q;
    } else {
      var q' := Enqueue(q, ms[0]);
      assert EnqueueAll(q, ms) == EnqueueAll(q', ms[1..]);
      EnqueueAllKeepsNewest(q', ms[1..]);
      EnqueueKeepsNewest(q, ms[0]);
      NewestAppend(q + [ms[0]], ms[1..], MaxQueueSize);
      assert (q + [ms[0]]) + ms[1..] == q + ms;
    }
  }

  /** One message queued within the bound keeps the newest `MaxQueueSize`. */
  lemma EnqueueKeepsNewest(q: seq<Queued>, m: Queued)
    requires |q| <= MaxQueueSize
    ensures Enqueue(q, m) == Newest(q + [m], MaxQueueSize)
  {
    if |q| == MaxQueueSize {
      assert (q + [m])[1..] == q[1..] + [m];
    }
  }

  /** Keeping the newest `n` before appending more changes nothing once `n` are kept again. */
  lemma NewestAppend<T>(s: seq<T>, t: seq<T>, n: nat)
    ensures Newest(Newest(s, n) + t, n) == Newest(s + t, n)
  {
    if |s| > n {
      var s' := s[|s| - n..];
      assert s' + t == (s + t)[|s| - n..];
    }
  }

  /**
   * How many messages at the front of `q` are sent before the first failed
   * publish, when `acks[i]` says whether the `i`-th attempt succeeds: every
   * attempt before that many succeeds, and the one at that index (if there
   * is a message left) fails.
   */
  function Accepted(q: seq<Queued>, acks: seq<bool>): (k: nat)
    requires |acks| >= |q|
    ensures k <= |q|
    ensures forall i :: 0 <= i < k ==> acks[i]
    ensures k < |q| ==> !acks[k]
  {
    if q == [] || !acks[0] then 0 else 1 + Accepted(q[1..], acks[1..])
  }

  /** The packets of queued messages, in order. */
  function Packets(q: seq<Queued>): (r: seq<Packet>)
    ensures |r| == |q|
  {
    seq(|q|, i requires 0 <= i < |q| => q[i].packet)
  }

  /** The message connection of `MQTTManager`, as far as the offline queue goes. */
  class MqttManager {
    var isConnected: bool
    var messageQueue: seq<Queued>
    /** What the MQTT client accepted, in order. */
    var sent: seq<Packet>

    ghost predicate Valid()
      reads this
    {
      |messageQueue| <= MaxQueueSize
    }

    /** A new manager is offline with nothing queued. */
    constructor ()
      ensures Valid() && !isConnected && messageQueue == [] && sent == []
    {
      isConnected := false;
      messageQueue := [];
      sent := [];
    }

    /** `_queue_message`. */
    method QueueMessage(p: Packet, now: real)
      requires Valid()
      modifies this
      ensures Valid()
      ensures messageQueue == Enqueue(old(messageQueue), Queued(p, now))
      ensures isConnected == old(isConnected) && sent == old(sent)
    {
      if |messageQueue| >= MaxQueueSize {
        messageQueue := messageQueue[1..];
      }
      messageQueue := messageQueue + [Queued(p, now)];
    }

    /**
     * `_process_message_queue`: the queue is published from the front and
     * each sent message is removed; the first failure stops the drain and
     * leaves that message at the front. `acks[i]` is the outcome of the
     * `i`-th attempt.
     */
    method ProcessMessageQueue(acks: seq<bool>)
      requires Valid() && |acks| >= |messageQueue|
      modifies this
      ensures Valid()
      ensures var k := Accepted(old(messageQueue), acks);
        messageQueue == old(messageQueue)[k..] &&
        sent == old(sent) + Packets(old(messageQueue)[..k])
      ensures isConnected == old(isConnected)
    {
      ghost var q := messageQueue;
      var i := 0;
      while messageQueue != []
        invariant 0 <= i <= |q| && messageQueue == q[i..]
        invariant sent == old(sent) + Packets(q[..i])
        invariant forall j :: 0 <= j < i ==> acks[j]
        invariant isConnected == old(isConnected)
        decreases |messageQueue|
      {
        var msg := messageQueue[0];
        if acks[i] {
          assert q[..i + 1] == q[..i] + [msg];
          assert Packets(q[..i + 1]) == Packets(q[..i]) + [msg.packet];
          messageQueue := messageQueue[1..];
          sent := sent + [msg.packet];
          i := i + 1;
        } else {
          break;
        }
      }
    }

    /**
     * `publish`: online, the packet goes to the client and the result is
     * whether it accepted it; offline, it is queued and the result is true.
     */
    method Publish(p: Packet, now: real, ok: bool) returns (r: bool)
      requires Valid()
      modifies this
      ensures Valid()
      ensures r <==> !isConnected || ok
      ensures isConnected == old(isConnected)
      ensures isConnected ==> (messageQueue == old(messageQueue) &&
        sent == (if ok then old(sent) + [p] else old(sent)))
      ensures !isConnected ==> (messageQueue == Enqueue(old(messageQueue), Queued(p, now)) &&
        sent == old(sent))
    {
      if isConnected {
        if ok {
          sent := sent + [p];
          r := true;
        } else {
          r := false;
        }
      } else {
        QueueMessage(p, now);
        r := true;
      }
    }

    /**
     * `_on_connect`: a successful connection (code 0) marks the manager
     * connected and drains the queue; any other code marks it disconnected.
     */
    method OnConnect(rc: int, acks: seq<bool>)
      requires Valid() && |acks| >= |messageQueue|
      modifies this
      ensures Valid()
      ensures isConnected <==> rc == 0
      ensures rc != 0 ==> messageQueue == old(messageQueue) && sent == old(sent)
      ensures rc == 0 ==> var k := Accepted(old(messageQueue), acks);
        messageQueue == old(messageQueue)[k..] &&
        sent == old(sent) + Packets(old(messageQueue)[..k])
    {
      if rc == 0 {
        isConnected := true;
        ProcessMessageQueue(acks);
      } else {
        isConnected := false;
      }
    }

    /** `_on_disconnect`: whatever the code, the manager is disconnected. */
    method OnDisconnect()
      modifies this
      ensures !isConnected
      ensures messageQueue == old(messageQueue) && sent == old(sent)
    {
      isConnected := false;
    }
  }
}

=== FILE: oracles.dfy ===
/**
 * What the JSON decoder can hand back. Numbers are abstracted to integers:
 * the dialogue code only ever asks whether a number is zero (falsy) or
 * not. An object is the decoded dict's items, in order, keys distinct.
 */
module Json {
  import opened Wrappers

  datatype Json =
    | JNull
    | JBool(b: bool)
    | JNum(n: int)
    | JStr(s: string)
    | JArr(items: seq<Json>)
    | JObj(members: seq<(string, Json)>)

  /** Python truthiness of a decoded value. */
  predicate Truthy(j: Json)
  {
    match j
    case JNull => false
    case JBool(b) => b
    case JNum(n) => n != 0
    case JStr(s) => s != ""
    case JArr(items) => items != []
    case JObj(members) => members != []
  }

  /** `key in obj`. */
  predicate HasKey(members: seq<(string, Json)>, key: string)
  {
    exists i :: 0 <= i < |members| && members[i].0 == key
  }

  /** `obj.get(key)`: the value of the first member with that key. */
  function Get(members: seq<(string, Json)>, key: string): (r: Json)
    ensures HasKey(members, key) ==> exists i :: 0 <= i < |members| && members[i] == (key, r)
    ensures !HasKey(members, key) ==> r == JNull
  {
    if |members| == 0 then JNull
    else if members[0].0 == key then members[0].1
    else Get(members[1..], key)
  }

  /** The first member with the key is the one `get` finds. */
  lemma {:induction false} GetFirst(members: seq<(string, Json)>, i: nat, key: string)
    requires i < |members| && members[i].0 == key
    requires forall j :: 0 <= j < i ==> members[j].0 != key
    ensures HasKey(members, key) && Get(members, key) == members[i].1
  {
    if i > 0 {
      GetFirst(members[1..], i - 1, key);
    }
  }

  /** The same, when the earlier keys differ from it in length. */
  lemma GetFirstByLength(members: seq<(string, Json)>, i: nat, key: string)
    requires i < |members| && members[i].0 == key
    requires forall j :: 0 <= j < i ==> |members[j].0| != |key|
    ensures HasKey(members, key) && Get(members, key) == members[i].1
  {
    GetFirst(members, i, key);
  }

  /** `obj.get(key, default)` */
  function GetOr(members: seq<(string, Json)>, key: string, default: Json): (r: Json)
    ensures !HasKey(members, key) ==> r == default
    ensures HasKey(members, key) ==> r == Get(members, key)
  {
    if HasKey(members, key) then Get(members, key) else default
  }

  /** The decoder: `json.loads`, as an abstract partial function of the text. */
  type Parser = string -> Option<Json>
}

/**
 * One call to the language-model server: either an HTTP response (status
 * code and the body's "response" text) or one of the three exception
 * families the agents catch separately.
 */
module Llm {
  datatype Reply =
    | Response(status: int, text: string)
    | Timeout
    | ConnectionError
    | OtherError

  predicate IsOk(r: Reply) { r.Response? && r.status == 200 }
}

=== FILE: phase_controller.dfy ===
/**
 * The phase controller: it runs the first-phase assessment and the
 * second-phase comfort conversation turn by turn, asks the action agent
 * for a decision after every reply, and applies deterministic overrides
 * on top of that decision. The language-model replies and the victim's
 * utterances are inputs: one record of replies per turn, and the queue of
 * what each listening attempt hears.
 */
module PhaseControl {
  import opened Wrappers
  import opened Text
  import opened Json
  import opened Llm
  import ActionAgent
  import Assessment
  import ComfortAssessment
  import Listening

  // ---------------------------------------------------------------------
  // Decisions
  // ---------------------------------------------------------------------

  /** `ActionDecision`: the raw dict and its six fields, each defaulted when missing. */
  datatype ActionDecision = ActionDecision(
    raw: seq<(string, Json)>,
    primaryAction: Json,
    alertCommandCenter: Json,
    urgencyLevel: Json,
    reasoning: Json,
    nextPhase: Json,
    specializedEquipment: Json)

  function FromRaw(raw: seq<(string, Json)>): (d: ActionDecision)
    ensures d.raw == raw
    ensures !HasKey(raw, "primary_action") ==> d.primaryAction == JStr("continue_conversation")
    ensures !HasKey(raw, "alert_command_center") ==> d.alertCommandCenter == JBool(false)
    ensures !HasKey(raw, "urgency_level") ==> d.urgencyLevel == JStr("routine")
    ensures !HasKey(raw, "reasoning") ==> d.reasoning == JStr("")
    ensures !HasKey(raw, "next_phase") ==> d.nextPhase == JNull
    ensures !HasKey(raw, "specialized_equipment_needed") ==> d.specializedEquipment == JArr([])
  {
    ActionDecision(raw,
      GetOr(raw, "primary_action", JStr("continue_conversation")),
      GetOr(raw, "alert_command_center", JBool(false)),
      GetOr(raw, "urgency_level", JStr("routine")),
      GetOr(raw, "reasoning", JStr("")),
      GetOr(raw, "next_phase", JNull),
      GetOr(raw, "specialized_equipment_needed", JArr([])))
  }

  /**
   * A decision read back from the action agent's dict carries the agent's
   * own fields: nothing is lost or defaulted on the way.
   */
  lemma FromAgentDecision(d: ActionAgent.Decision)
    ensures var a := FromRaw(ActionAgent.Members(d));
      a.primaryAction == d.primaryAction && a.alertCommandCenter == d.alertCommandCenter &&
      a.urgencyLevel == d.urgencyLevel && a.reasoning == d.reasoning &&
      a.nextPhase == d.nextPhase && a.specializedEquipment == d.equipment
  {
    ActionAgent.MembersLookup(d);
  }

  predicate ShouldContinue(d: ActionDecision) { d.primaryAction == JStr("continue_conversation") }
  predicate ShouldTransition(d: ActionDecision) { d.primaryAction == JStr("transition_to_phase_2") }
  predicate ShouldEvacuate(d: ActionDecision) { d.primaryAction == JStr("evacuate_immediately") }
  predicate ShouldAbort(d: ActionDecision) { d.primaryAction == JStr("abort_and_alert") }
  predicate ShouldComplete(d: ActionDecision) { d.primaryAction == JStr("complete") }

  /** `is_emergency` */
  predicate IsEmergency(d: ActionDecision) { d.urgencyLevel in [JStr("critical"), JStr("emergency")] }

  /** A dict without any of the keys is the safe default: continue, routine, no alert. */
  lemma EmptyDecisionDefaults()
    ensures var d := FromRaw([]);
      ShouldContinue(d) && !IsEmergency(d) && !Truthy(d.alertCommandCenter) && d.nextPhase == JNull &&
      d.specializedEquipment == JArr([])
  {
  }

  // ---------------------------------------------------------------------
  // The per-phase handlers
  // ---------------------------------------------------------------------

  /** Whether the handler's dict has a "next_phase" entry, and which. */
  datatype NextPhase = Unset | NoPhase | Phase(n: int)

  /** The handler's dict: should_exit, exit_reason and the optional next_phase. */
  datatype Handling = Handling(shouldExit: bool, exitReason: Option<string>, nextPhase: NextPhase)

  const Stay := Handling(false, None, Unset)

  /** `result.get("next_phase", default)` */
  function NextPhaseOr(n: NextPhase, default: Option<int>): Option<int>
  {
    match n
    case Unset => default
    case NoPhase => None
    case Phase(p) => Some(p)
  }

  const ActiveDangerWords: seq<string> := ["fire", "burning", "collapsing", "collapse now", "smoke filling",
    "gas leak", "flooding", "rising water", "electrical", "sparks"]

  function Field(assessment: map<string, string>, key: string): string
  {
    Assessment.GetOr(assessment, key, "unknown")
  }

  /** The reported danger is active: one of the ten keywords appears. */
  predicate ActiveDanger(danger: string) { ContainsAny(Lower(danger), ActiveDangerWords) }

  /** The danger is only an unstable structure, which does not force the robot to leave. */
  predicate MerelyUnstable(danger: string) { !ActiveDanger(danger) && Contains(Lower(danger), "unstable") }

  predicate MobilityKnown(assessment: map<string, string>)
  {
    Field(assessment, "can_walk") != "unknown" || Field(assessment, "stuck_trapped") != "unknown"
  }

  /** `_handle_phase_1_action_decision` */
  function HandlePhase1(d: ActionDecision, assessment: map<string, string>, phase1Turns: int): Handling
  {
    if ShouldAbort(d) then
      if MerelyUnstable(Field(assessment, "immediate_danger")) then Handling(true, Some("transition_to_phase_2"), Phase(2))
      else Handling(true, Some("abort_and_alert"), NoPhase)
    else if ShouldEvacuate(d) then Handling(true, Some("immediate_evacuation"), NoPhase)
    else if ShouldTransition(d) then
      if MobilityKnown(assessment) && phase1Turns >= 3 then Handling(true, Some("transition_to_phase_2"), Phase(2))
      else Stay
    else Stay
  }

  /**
   * An abort stands unless the danger is merely an unstable structure, in
   * which case the robot moves on to the second phase instead.
   */
  lemma AbortOverride(d: ActionDecision, assessment: map<string, string>, phase1Turns: int)
    requires ShouldAbort(d)
    ensures var h := HandlePhase1(d, assessment, phase1Turns);
      h.shouldExit &&
      (h == Handling(true, Some("transition_to_phase_2"), Phase(2)) <==> MerelyUnstable(Field(assessment, "immediate_danger"))) &&
      (h == Handling(true, Some("abort_and_alert"), NoPhase) <==> !MerelyUnstable(Field(assessment, "immediate_danger")))
  {
  }

  /** A fire report is never overridden, even when the structure is also unstable. */
  lemma FireIsNeverOverridden(d: ActionDecision, assessment: map<string, string>, phase1Turns: int)
    requires ShouldAbort(d) && Field(assessment, "immediate_danger") == "unstable walls, fire"
    ensures HandlePhase1(d, assessment, phase1Turns) == Handling(true, Some("abort_and_alert"), NoPhase)
  {
    var danger := "unstable walls, fire";
    assert Lower(danger) == danger;
    ContainsAt(danger, "fire", 16);
    assert ContainsAny(Lower(danger), ActiveDangerWords) by {
      assert ActiveDangerWords[0] == "fire";
    }
  }

  /**
   * The transition gate: a recommended transition goes through only when
   * mobility is known and at least three turns have passed; otherwise the
   * phase goes on.
   */
  lemma TransitionGate(d: ActionDecision, assessment: map<string, string>, phase1Turns: int)
    requires ShouldTransition(d)
    ensures var h := HandlePhase1(d, assessment, phase1Turns);
      (h.shouldExit <==> MobilityKnown(assessment) && phase1Turns >= 3) &&
      (h.shouldExit ==> h == Handling(true, Some("transition_to_phase_2"), Phase(2))) &&
      (!h.shouldExit ==> h == Stay)
  {
  }

  /**
   * Evacuation always exits without a next phase; continue, complete and
   * any action the controller does not know keep the phase going.
   */
  lemma Phase1OtherActions(d: ActionDecision, assessment: map<string, string>, phase1Turns: int)
    ensures ShouldEvacuate(d) ==> HandlePhase1(d, assessment, phase1Turns) == Handling(true, Some("immediate_evacuation"), NoPhase)
    ensures !ShouldAbort(d) && !ShouldEvacuate(d) && !ShouldTransition(d) ==> HandlePhase1(d, assessment, phase1Turns) == Stay
  {
  }

  /** `_handle_phase_2_action_decision` */
  function HandlePhase2(d: ActionDecision): Handling
  {
    if ShouldAbort(d) || IsEmergency(d) then Handling(true, Some("emergency_detected"), Unset)
    else if ShouldEvacuate(d) then Handling(true, Some("evacuation_ready"), Unset)
    else if ShouldComplete(d) then Handling(true, Some("phase_2_complete"), Unset)
    else Stay
  }

  /**
   * In the second phase an abort or an emergency urgency wins over
   * everything, then evacuation, then completion; every other action,
   * a transition included, keeps the conversation going.
   */
  lemma Phase2Precedence(d: ActionDecision)
    ensures HandlePhase2(d).shouldExit <==> ShouldAbort(d) || IsEmergency(d) || ShouldEvacuate(d) || ShouldComplete(d)
    ensures IsEmergency(d) ==> HandlePhase2(d).exitReason == Some("emergency_detected")
    ensures ShouldEvacuate(d) && !IsEmergency(d) ==> HandlePhase2(d).exitReason == Some("evacuation_ready")
    ensures ShouldComplete(d) && !IsEmergency(d) ==> HandlePhase2(d).exitReason == Some("phase_2_complete")
    ensures ShouldTransition(d) && !IsEmergency(d) ==> HandlePhase2(d) == Stay
  {
  }

  /** Both handlers name a reason exactly when they exit, and never set a next phase while staying. */
  lemma HandlersWellFormed(d: ActionDecision, assessment: map<string, string>, phase1Turns: int)
    ensures var h := HandlePhase1(d, assessment, phase1Turns);
      (h.shouldExit <==> h.exitReason.Some?) && (!h.shouldExit ==> h.nextPhase == Unset) &&
      (h.nextPhase == Phase(2) <==> h.exitReason == Some("transition_to_phase_2"))
    ensures var h := HandlePhase2(d);
      (h.shouldExit <==> h.exitReason.Some?) && h.nextPhase == Unset
  {
    assert |"transition_to_phase_2"| != |"abort_and_alert"| && |"transition_to_phase_2"| != |"immediate_evacuation"|;
  }

  // ---------------------------------------------------------------------
  // Entry point and next-step mapping
  // ---------------------------------------------------------------------

  const SufficientFields: seq<string> := ["injuries", "breathing", "can_walk", "immediate_danger", "consciousness"]

  /** `_is_assessment_sufficient` */
  predicate Sufficient(assessment: map<string, string>)
  {
    forall i :: 0 <= i < |SufficientFields| ==> Field(assessment, SufficientFields[i]) != "unknown"
  }

  /** `determine_entry_point`; None is a missing prior assessment. */
  function EntryPoint(prior: Option<map<string, string>>): int
  {
    if prior.Some? && prior.value != map[] && Sufficient(prior.value) then 2 else 1
  }

  /**
   * The second phase is the entry point exactly when a non-empty prior
   * assessment has every one of the five fields present and known.
   */
  lemma EntryPointRule(prior: Option<map<string, string>>)
    ensures EntryPoint(prior) == 2 <==> (
      prior.Some? && prior.value != map[] &&
      forall f :: f in SufficientFields ==> f in prior.value && prior.value[f] != "unknown")
    ensures EntryPoint(prior) == 1 || EntryPoint(prior) == 2
  {
    if prior.Some? && prior.value != map[] {
      var m := prior.value;
      if Sufficient(m) {
        forall f | f in SufficientFields ensures f in m && m[f] != "unknown" {
          var i :| 0 <= i < |SufficientFields| && SufficientFields[i] == f;
          assert Field(m, SufficientFields[i]) != "unknown";
        }
      }
      if forall f :: f in SufficientFields ==> f in m && m[f] != "unknown" {
        forall i | 0 <= i < |SufficientFields| ensures Field(m, SufficientFields[i]) != "unknown" {
          assert SufficientFields[i] in SufficientFields;
        }
      }
    }
  }

  /** The step names of `handle_action_decision`'s action map. */
  const ActionSteps: seq<(string, string)> := [
    ("continue_conversation", "CONTINUE_PHASE"),
    ("transition_to_phase_2", "TRANSITION_PHASE_2"),
    ("evacuate_immediately", "EVACUATE_NOW"),
    ("abort_and_alert", "ABORT_AND_ALERT"),
    ("maintain_and_monitor", "MAINTAIN_MONITOR"),
    ("emergency_alert", "EMERGENCY_ALERT"),
    ("complete", "COMPLETE")]

  /** `action_map.get(action, "CONTINUE_PHASE")` */
  function StepFor(steps: seq<(string, string)>, action: Json): (r: string)
    requires ActionAgent.Hashable(action)
    ensures (forall i :: 0 <= i < |steps| ==> JStr(steps[i].0) != action) ==> r == "CONTINUE_PHASE"
    ensures r == "CONTINUE_PHASE" || exists i :: 0 <= i < |steps| && JStr(steps[i].0) == action && r == steps[i].1
  {
    if steps == [] then "CONTINUE_PHASE"
    else if JStr(steps[0].0) == action then steps[0].1
    else
      var r := StepFor(steps[1..], action);
      assert forall i :: 1 <= i < |steps| ==> steps[i] == steps[1..][i - 1];
      r
  }

  /**
   * The next step for a decision dict: its primary action looked up in the
   * action map. None when the action is a list or a dict, whose lookup
   * raises `TypeError`.
   */
  function NextStep(raw: seq<(string, Json)>): Option<string>
  {
    var action := GetOr(raw, "primary_action", JStr("continue_conversation"));
    if ActionAgent.Hashable(action) then Some(StepFor(ActionSteps, action)) else None
  }

  /**
   * A list or dict action raises; any other action outside the map
   * continues the phase; a dict without an action continues it too; the
   * seven mapped actions get their own step.
   */
  lemma NextStepMapping(raw: seq<(string, Json)>)
    ensures var a := GetOr(raw, "primary_action", JStr("continue_conversation"));
      NextStep(raw).None? <==> a.JArr? || a.JObj?
    ensures !HasKey(raw, "primary_action") ==> NextStep(raw) == Some("CONTINUE_PHASE")
    ensures var a := GetOr(raw, "primary_action", JStr("continue_conversation"));
      (!a.JArr? && !a.JObj? && (!a.JStr? || a.s !in ["continue_conversation", "transition_to_phase_2", "evacuate_immediately",
        "abort_and_alert", "maintain_and_monitor", "emergency_alert", "complete"])) ==> NextStep(raw) == Some("CONTINUE_PHASE")
    ensures GetOr(raw, "primary_action", JStr("continue_conversation")) == JStr("abort_and_alert") ==>
      NextStep(raw) == Some("ABORT_AND_ALERT")
  {
    var a := GetOr(raw, "primary_action", JStr("continue_conversation"));
    if !a.JArr? && !a.JObj? && (!a.JStr? || a.s !in ["continue_conversation", "transition_to_phase_2", "evacuate_immediately",
        "abort_and_alert", "maintain_and_monitor", "emergency_alert", "complete"]) {
      forall i | 0 <= i < |ActionSteps| ensures JStr(ActionSteps[i].0) != a {
        assert ActionSteps[i].0 in ["continue_conversation", "transition_to_phase_2", "evacuate_immediately", "abort_and_alert",
          "maintain_and_monitor", "emergency_alert", "complete"];
      }
    }
    if a == JStr("abort_and_alert") {
      assert |"abort_and_alert"| == 15;
      assert |ActionSteps[0].0| == 21 && |ActionSteps[1].0| == 21 && |ActionSteps[2].0| == 20;
    }
  }

  // ---------------------------------------------------------------------
  // The controller's state
  // ---------------------------------------------------------------------

  /** An entry of `conversation_history`. */
  datatype LogEntry = LogEntry(phase: int, turn: int, role: string, content: string)

  /** An entry of the decision audit trail `action_decisions`. */
  datatype AuditEntry = AuditEntry(turn: int, phase: int, decision: seq<(string, Json)>)

  /**
   * A command-center alert: phase, turn, urgency, reason, equipment, and
   * the snapshots of the first-phase record (empty outside phase 1) and of
   * the comfort record (empty outside phase 2).
   */
  datatype Alert = Alert(phase: int, turn: int, urgency: Json, reason: Json, equipment: Json,
                         assessment: map<string, string>, comfort: map<string, string>)

  /**
   * The controller's state: the current phase (0 while none is running),
   * the three turn counters, the conversation log, the audit trail, the
   * alerts sent to the command center, the records of the two
   * extraction agents, what the listening attempts will hear (an empty
   * string is a timeout or a message without text, and an exhausted queue
   * times out), what the robot has said, and whether the backup system was
   * called in.
   */
  datatype Ctl = Ctl(
    phase: int,
    turnCount: int,
    phase1Turns: int,
    phase2Turns: int,
    log: seq<LogEntry>,
    audit: seq<AuditEntry>,
    alerts: seq<Alert>,
    assessment: Assessment.State,
    comfort: ComfortAssessment.State,
    stt: seq<string>,
    spoken: seq<string>,
    failover: bool)

  /** The listening attempts per victim reply. */
  const MaxRetries := 3

  /** The phase's own turn counter, as the log records it. */
  function PhaseTurn(c: Ctl): int
  {
    if c.phase == 1 then c.phase1Turns else c.phase2Turns
  }

  /** `_add_to_conversation_log` for the current phase and turn. */
  function Record(c: Ctl, role: string, content: string): Ctl
  {
    c.(log := c.log + [LogEntry(c.phase, PhaseTurn(c), role, content)])
  }

  /**
   * Nothing that a turn only appends to is lost, everything it appends
   * belongs to the current phase, the total turn count moves with the two
   * phase counters, and a failover once called in stays.
   */
  predicate Extends(c: Ctl, c2: Ctl)
  {
    c2.phase == c.phase &&
    c2.turnCount - c.turnCount == (c2.phase1Turns - c.phase1Turns) + (c2.phase2Turns - c.phase2Turns) &&
    c.log <= c2.log && c.audit <= c2.audit && c.alerts <= c2.alerts && c.spoken <= c2.spoken &&
    (forall i :: |c.audit| <= i < |c2.audit| ==> c2.audit[i].phase == c.phase) &&
    (forall i :: |c.alerts| <= i < |c2.alerts| ==> c2.alerts[i].phase == c.phase) &&
    (c.failover ==> c2.failover)
  }

  lemma ExtendsTrans(c1: Ctl, c2: Ctl, c3: Ctl)
    requires Extends(c1, c2) && Extends(c2, c3)
    ensures Extends(c1, c3)
  {
    forall i | |c1.audit| <= i < |c3.audit| ensures c3.audit[i].phase == c1.phase {
      if i < |c2.audit| { assert c3.audit[i] == c2.audit[i]; }
    }
    forall i | |c1.alerts| <= i < |c3.alerts| ensures c3.alerts[i].phase == c1.phase {
      if i < |c2.alerts| { assert c3.alerts[i] == c2.alerts[i]; }
    }
  }

  /**
   * `_get_victim_response`: listen, and log a reply that was heard while a
   * phase is running.
   */
  function GetResponse(c: Ctl, retry: string): (r: (Ctl, string))
    ensures Extends(c, r.0) && r.0.failover == c.failover
    ensures r.0.phase1Turns == c.phase1Turns && r.0.phase2Turns == c.phase2Turns
    ensures r.0.assessment == c.assessment && r.0.comfort == c.comfort
    ensures r.0.audit == c.audit && r.0.alerts == c.alerts
    ensures r.1 != "" && c.phase != 0 ==> r.0.log == c.log + [LogEntry(c.phase, PhaseTurn(c), "victim", r.1)]
    ensures r.1 == "" || c.phase == 0 ==> r.0.log == c.log
  {
    var l := Listening.Listen(c.stt, 0, MaxRetries, c.spoken, retry);
    var c' := c.(stt := l.1, spoken := l.2);
    if l.0 != "" && c.phase != 0 then (Record(c', "victim", l.0), l.0) else (c', l.0)
  }

  /**
   * `_evaluate_action_decision`: a decision the agent could not make
   * leaves no trace; one it made goes on the audit trail under the current
   * turn and phase.
   */
  function EvaluateAction(c: Ctl, reply: Reply, parse: Parser): (r: (Ctl, Option<ActionDecision>))
    requires c.phase == 1 || c.phase == 2
    ensures Extends(c, r.0) && r.0.failover == c.failover
    ensures r.0.phase1Turns == c.phase1Turns && r.0.phase2Turns == c.phase2Turns
    ensures r.0.assessment == c.assessment && r.0.comfort == c.comfort && r.0.log == c.log && r.0.alerts == c.alerts
    ensures r.1.None? <==> ActionAgent.DecideNextAction(reply, parse).None?
    ensures r.1.None? ==> r.0 == c
    ensures r.1.Some? ==> (r.0.audit == c.audit + [AuditEntry(c.turnCount, c.phase, r.1.value.raw)] &&
      r.1.value.primaryAction == ActionAgent.DecideNextAction(reply, parse).value.primaryAction)
  {
    match ActionAgent.DecideNextAction(reply, parse)
    case None => (c, None)
    case Some(d) =>
      var raw := ActionAgent.Members(d);
      FromAgentDecision(d);
      (c.(audit := c.audit + [AuditEntry(c.turnCount, c.phase, raw)]), Some(FromRaw(raw)))
  }

  /** The alert `_alert_command_center` sends for a decision dict. */
  function AlertFor(c: Ctl, raw: seq<(string, Json)>): Alert
  {
    Alert(c.phase, c.turnCount,
      GetOr(raw, "urgency_level", JStr("routine")),
      GetOr(raw, "reasoning", JStr("No reason provided")),
      GetOr(raw, "specialized_equipment_needed", JArr([])),
      if c.phase == 1 then c.assessment.assessment else map[],
      if c.phase == 2 then c.comfort.specialNeeds else map[])
  }

  /** The command center is alerted exactly when the decision asks for it. */
  function RaiseAlert(c: Ctl, d: ActionDecision): (r: Ctl)
    ensures Extends(c, r) && r.failover == c.failover
    ensures r.phase1Turns == c.phase1Turns && r.phase2Turns == c.phase2Turns
    ensures r.assessment == c.assessment && r.comfort == c.comfort && r.log == c.log && r.audit == c.audit
    ensures |r.alerts| == |c.alerts| + (if Truthy(d.alertCommandCenter) then 1 else 0)
    ensures Truthy(d.alertCommandCenter) ==> var a := r.alerts[|c.alerts|];
      a.phase == c.phase && a.turn == c.turnCount &&
      a.urgency == GetOr(d.raw, "urgency_level", JStr("routine")) &&
      a.reason == GetOr(d.raw, "reasoning", JStr("No reason provided")) &&
      a.equipment == GetOr(d.raw, "specialized_equipment_needed", JArr([])) &&
      (c.phase == 1 ==> a.assessment == c.assessment.assessment && a.comfort == map[]) &&
      (c.phase == 2 ==> a.comfort == c.comfort.specialNeeds && a.assessment == map[])
  {
    if Truthy(d.alertCommandCenter) then c.(alerts := c.alerts + [AlertFor(c, d.raw)]) else c
  }

  /** `change_to_backup_system` */
  function Fail(c: Ctl): Ctl
  {
    c.(failover := true)
  }

  /**
   * `handle_action_decision`: the decision goes on the audit trail, an
   * alert goes out when it asks for one, and its action names the next step.
   */
  function HandleDecision(c: Ctl, raw: seq<(string, Json)>): (r: (Ctl, Option<string>))
    ensures Extends(c, r.0) && r.0.failover == c.failover && r.1 == NextStep(raw)
    ensures r.0.audit == c.audit + [AuditEntry(c.turnCount, c.phase, raw)]
    ensures r.0.log == c.log && r.0.assessment == c.assessment && r.0.comfort == c.comfort
    ensures |r.0.alerts| ==
      |c.alerts| + (if r.1.Some? && Truthy(GetOr(raw, "alert_command_center", JBool(false))) then 1 else 0)
  {
    var audited := c.(audit := c.audit + [AuditEntry(c.turnCount, c.phase, raw)]);
    match NextStep(raw)
    case None => (audited, None)
    case Some(step) => (RaiseAlert(audited, FromRaw(raw)), Some(step))
  }

  /** A decision the action agent hands over never makes the step lookup raise. */
  lemma AgentDecisionsHaveStep(reply: Reply, parse: Parser)
    requires ActionAgent.DecideNextAction(reply, parse).Some?
    ensures NextStep(ActionAgent.Members(ActionAgent.DecideNextAction(reply, parse).value)).Some?
  {
    var d := ActionAgent.DecideNextAction(reply, parse).value;
    ActionAgent.MembersLookup(d);
  }

  // ---------------------------------------------------------------------
  // Phase 1 as a function of its inputs
  // ---------------------------------------------------------------------

  /** What the language model answers during one first-phase turn. */
  datatype Turn1 = Turn1(analysis: Reply, decision: Reply, question: Option<string>, finalDecision: Reply)

  /** How the first phase ends: a language-model failure, an exit, or an exception. */
  datatype Outcome1 = LlmFail | Exited(reason: Option<string>, nextPhase: Option<int>) | Crashed

  /** A turn either asks the next question or ends the phase. */
  datatype Step1 = Ask(question: string) | End1(outcome: Outcome1)

  /** `_update_assessment`: None when the assessment agent failed. */
  function AssessReply(c: Ctl, reply: Reply, parse: Parser): (r: Option<Ctl>)
    ensures r.None? <==> Assessment.Analyze(c.assessment.assessment, reply, parse).Failed?
    ensures r.Some? ==> r.value == c.(assessment := r.value.assessment)
  {
    match Assessment.Analyze(c.assessment.assessment, reply, parse)
    case Failed => None
    case Updates(e) => Some(if e != [] then c.(assessment := Assessment.Update(c.assessment, e)) else c)
  }

  /**
   * The ways the first phase can end with a result: its reason, if any, is
   * one of five, it names the second phase next unless the robot aborted or
   * ordered an evacuation, and it never names another phase.
   */
  predicate Phase1Exit(o: Outcome1)
  {
    o.Exited? ==>
      (o.reason.None? || o.reason == Some("transition_to_phase_2") || o.reason == Some("abort_and_alert") ||
        o.reason == Some("immediate_evacuation") || o.reason == Some("no_victim_response") ||
        o.reason == Some("max_turns_reached")) &&
      (o.nextPhase.None? <==> o.reason == Some("abort_and_alert") || o.reason == Some("immediate_evacuation")) &&
      (o.nextPhase.Some? ==> o.nextPhase.value == 2)
  }

  /** An exit taken within a turn: the turn budget is not what ended it. */
  predicate TurnExit1(o: Outcome1)
  {
    Phase1Exit(o) && !(o.Exited? && o.reason == Some("max_turns_reached"))
  }

  /** Every exit the first-phase handler takes, with either default for the next phase, is one of those. */
  lemma HandlerExit(d: ActionDecision, assessment: map<string, string>, phase1Turns: int, default: Option<int>)
    requires default == None || default == Some(2)
    ensures var h := HandlePhase1(d, assessment, phase1Turns);
      h.shouldExit || default == Some(2) ==> TurnExit1(Exited(h.exitReason, NextPhaseOr(h.nextPhase, default)))
  {
    HandlersWellFormed(d, assessment, phase1Turns);
    assert |"transition_to_phase_2"| == 21 && |"abort_and_alert"| == 15 && |"immediate_evacuation"| == 20;
    assert |"max_turns_reached"| == 17;
  }

  /** The two exits the loop itself takes are of that shape too. */
  lemma LoopExits()
    ensures TurnExit1(Exited(Some("no_victim_response"), Some(2)))
    ensures Phase1Exit(Exited(Some("max_turns_reached"), Some(2)))
  {
    assert |"abort_and_alert"| == 15 && |"no_victim_response"| == 18 && |"max_turns_reached"| == 17;
    assert |"immediate_evacuation"| == 20;
  }

  /**
   * The closing decision once no question is left: a missing decision is
   * an exception in the source, and a decision that does not exit still
   * ends the phase with no reason and the second phase next.
   */
  function Final1(c: Ctl, reply: Reply, parse: Parser): (r: (Ctl, Step1))
    requires c.phase == 1
    ensures Extends(c, r.0) && r.0.failover == c.failover
    ensures r.0.phase1Turns == c.phase1Turns && r.0.phase2Turns == c.phase2Turns
    ensures r.0.assessment == c.assessment && r.0.comfort == c.comfort && r.0.alerts == c.alerts
    ensures r.1.End1? && !r.1.outcome.LlmFail? && TurnExit1(r.1.outcome)
    ensures r.1.outcome.Crashed? <==> ActionAgent.DecideNextAction(reply, parse).None?
  {
    var (c', d) := EvaluateAction(c, reply, parse);
    match d
    case None => (c', End1(Crashed))
    case Some(d) =>
      var h := HandlePhase1(d, c'.assessment.assessment, c'.phase1Turns);
      HandlerExit(d, c'.assessment.assessment, c'.phase1Turns, Some(2));
      (c', End1(Exited(h.exitReason, NextPhaseOr(h.nextPhase, Some(2)))))
  }

  /** `_generate_next_phase_1_question` and what the loop does with its answer. */
  function NextQuestion1(c: Ctl, t: Turn1, parse: Parser): (r: (Ctl, Step1))
    requires c.phase == 1
    ensures Extends(c, r.0) && (r.0.failover <==> c.failover || r.1 == End1(LlmFail))
    ensures r.0.phase1Turns == c.phase1Turns && r.0.phase2Turns == c.phase2Turns
    ensures r.0.assessment == c.assessment && r.0.comfort == c.comfort && r.0.alerts == c.alerts
    ensures r.1.End1? ==> TurnExit1(r.1.outcome)
    ensures r.1.Ask? ==> (r.1.question != "" && !Assessment.IsComplete(c.assessment) &&
      r.0.log == c.log + [LogEntry(1, c.phase1Turns, "robot", r.1.question)])
  {
    if Assessment.NextPriorityField(c.assessment) == "" || Assessment.IsComplete(c.assessment) then
      Final1(c, t.finalDecision, parse)
    else
      match t.question
      case None => (Fail(c), End1(LlmFail))
      case Some(q) =>
        var c' := Record(c, "robot", q);
        if q == "" then Final1(c', t.finalDecision, parse) else (c', Ask(q))
  }

  /** After a reply was heard: assess it, decide, alert, apply the overrides, ask on. */
  function Respond1(c: Ctl, t: Turn1, parse: Parser): (r: (Ctl, Step1))
    requires c.phase == 1
    ensures Extends(c, r.0) && (r.0.failover <==> c.failover || r.1 == End1(LlmFail))
    ensures r.0.phase1Turns == c.phase1Turns && r.0.phase2Turns == c.phase2Turns && r.0.comfort == c.comfort
    ensures r.1.End1? ==> TurnExit1(r.1.outcome)
  {
    match AssessReply(c, t.analysis, parse)
    case None => (Fail(c), End1(LlmFail))
    case Some(c1) =>
      var (c2, d) := EvaluateAction(c1, t.decision, parse);
      match d
      case None => (Fail(c2), End1(LlmFail))
      case Some(d) =>
        var c3 := RaiseAlert(c2, d);
        var h := HandlePhase1(d, c3.assessment.assessment, c3.phase1Turns);
        HandlerExit(d, c3.assessment.assessment, c3.phase1Turns, None);
        if h.shouldExit then (c3, End1(Exited(h.exitReason, NextPhaseOr(h.nextPhase, None))))
        else
          var r := NextQuestion1(c3, t, parse);
          ExtendsTrans(c, c3, r.0);
          r
  }

  /** One pass of `execute_phase_1`'s loop body, asking question `q`. */
  function Turn1Step(c: Ctl, q: string, t: Turn1, retry: string, parse: Parser): (r: (Ctl, Step1))
    requires c.phase == 1
    ensures Extends(c, r.0) && (r.0.failover <==> c.failover || r.1 == End1(LlmFail))
    ensures r.0.phase1Turns == c.phase1Turns + 1 && r.0.phase2Turns == c.phase2Turns && r.0.comfort == c.comfort
    ensures |r.0.spoken| > |c.spoken| && r.0.spoken[|c.spoken|] == q
    ensures r.1.End1? ==> TurnExit1(r.1.outcome)
  {
    LoopExits();
    var c0 := c.(phase1Turns := c.phase1Turns + 1, turnCount := c.turnCount + 1, spoken := c.spoken + [q]);
    var (c1, reply) := GetResponse(c0, retry);
    Listening.ListenKeepsSaid(c0.stt, 0, MaxRetries, c0.spoken, retry);
    if reply == "" then (c1, End1(Exited(Some("no_victim_response"), Some(2))))
    else
      var r := Respond1(c1, t, parse);
      ExtendsTrans(c0, c1, r.0);
      r
  }

  /** The `execute_phase_1` loop from the current turn on, asking `q` next. */
  function Run1(c: Ctl, q: string, turns: seq<Turn1>, maxTurns: int, retry: string, parse: Parser): (r: (Ctl, Outcome1))
    requires c.phase == 1 && |turns| >= maxTurns - c.phase1Turns
    ensures Extends(c, r.0) && (r.0.failover <==> c.failover || r.1 == LlmFail)
    ensures r.0.phase2Turns == c.phase2Turns && r.0.comfort == c.comfort
    ensures c.phase1Turns <= r.0.phase1Turns && (c.phase1Turns < maxTurns ==> r.0.phase1Turns <= maxTurns)
    ensures c.phase1Turns >= maxTurns ==> r.0.phase1Turns == c.phase1Turns
    ensures Phase1Exit(r.1) && (r.1 == Exited(Some("max_turns_reached"), Some(2)) ==> r.0.phase1Turns >= maxTurns)
    decreases maxTurns - c.phase1Turns
  {
    LoopExits();
    if c.phase1Turns >= maxTurns then (c, Exited(Some("max_turns_reached"), Some(2)))
    else
      var (c', s) := Turn1Step(c, q, turns[0], retry, parse);
      match s
      case End1(o) => (c', o)
      case Ask(q') =>
        var r := Run1(c', q', turns[1..], maxTurns, retry, parse);
        ExtendsTrans(c, c', r.0);
        r
  }

  /** `execute_phase_1`: enter the phase, log the greeting, run the loop. */
  function Phase1(c: Ctl, greeting: string, turns: seq<Turn1>, maxTurns: int, retry: string, parse: Parser): (r: (Ctl, Outcome1))
    requires |turns| >= maxTurns - c.phase1Turns
    ensures r.0.phase == 1 && r.0.phase2Turns == c.phase2Turns && r.0.comfort == c.comfort
    ensures (r.0.failover <==> c.failover || r.1 == LlmFail)
    ensures |r.0.log| > |c.log| && r.0.log[..|c.log| + 1] == c.log + [LogEntry(1, 0, "robot", greeting)]
    ensures r.0.turnCount - c.turnCount == r.0.phase1Turns - c.phase1Turns
    ensures c.phase1Turns <= r.0.phase1Turns && (c.phase1Turns < maxTurns ==> r.0.phase1Turns <= maxTurns)
    ensures c.phase1Turns >= maxTurns ==> r.0.phase1Turns == c.phase1Turns
    ensures Phase1Exit(r.1)
  {
    var c1 := c.(phase := 1, log := c.log + [LogEntry(1, 0, "robot", greeting)]);
    var r := Run1(c1, greeting, turns, maxTurns, retry, parse);
    assert c1.log <= r.0.log;
    r
  }

  // ---------------------------------------------------------------------
  // Phase 2 as a function of its inputs
  // ---------------------------------------------------------------------

  /** What the language model answers during one second-phase turn. */
  datatype Turn2 = Turn2(analysis: Reply, decision: Reply, message: string)

  /** How the second phase ends: with a reason, or with the exception a missing decision raises. */
  datatype Outcome2 = Ended(reason: Option<string>) | DecisionMissing

  /** A turn either says the next comfort message or ends the phase. */
  datatype Step2 = Say(message: string) | End2(outcome: Outcome2)

  /** The reasons the second phase can end with. */
  predicate Phase2Exit(o: Outcome2)
  {
    o.Ended? ==>
      o.reason == Some("no_victim_response") || o.reason == Some("emergency_detected") ||
      o.reason == Some("evacuation_ready") || o.reason == Some("phase_2_complete") ||
      o.reason == Some("max_turns_reached")
  }

  /** An exit taken within a turn: the turn budget is not what ended it. */
  predicate TurnExit2(o: Outcome2)
  {
    Phase2Exit(o) && o != Ended(Some("max_turns_reached"))
  }

  /** Every exit the second-phase handler takes is of that shape. */
  lemma Handler2Exit(d: ActionDecision)
    ensures HandlePhase2(d).shouldExit ==> TurnExit2(Ended(HandlePhase2(d).exitReason))
  {
    assert |"max_turns_reached"| == 17 && |"emergency_detected"| == 18 && |"evacuation_ready"| == 16;
    assert "phase_2_complete"[0] != "max_turns_reached"[0];
  }

  /** `_update_comfort_assessment`: analyse the reply, then merge what it found. */
  function UpdateComfort(c: Ctl, reply: Reply, parse: Parser): (r: Ctl)
    ensures r == c.(comfort := r.comfort)
    ensures r.comfort.assessedFields == ComfortAssessment.Analyze(c.comfort, reply, parse).assessedFields
    ensures r.comfort.specialNeeds ==
      ComfortAssessment.MergeNeeds(c.comfort.specialNeeds, ComfortAssessment.Analyze(c.comfort, reply, parse).updates)
    ensures forall k :: k in c.comfort.specialNeeds && c.comfort.specialNeeds[k] != ComfortAssessment.Unknown ==>
      k in r.comfort.specialNeeds && r.comfort.specialNeeds[k] != ComfortAssessment.Unknown &&
      c.comfort.specialNeeds[k] <= r.comfort.specialNeeds[k]
  {
    var a := ComfortAssessment.Analyze(c.comfort, reply, parse);
    var st := c.comfort.(assessedFields := a.assessedFields);
    c.(comfort := if a.updates != [] then ComfortAssessment.UpdateNeeds(st, a.updates) else st)
  }

  /** `_generate_next_phase_2_message` and what the loop does with its answer. */
  function NextMessage2(c: Ctl, t: Turn2): (r: (Ctl, Step2))
    requires c.phase == 2
    ensures Extends(c, r.0) && r.0 == c.(log := r.0.log)
    ensures r.1.End2? ==> r.1.outcome == Ended(Some("phase_2_complete"))
    ensures r.1.Say? ==> (r.1.message != "" && !ComfortAssessment.IsComplete(c.comfort) &&
      r.0.log == c.log + [LogEntry(2, c.phase2Turns, "robot", r.1.message)])
  {
    if ComfortAssessment.NextPriorityField(c.comfort).None? || ComfortAssessment.IsComplete(c.comfort) then
      (c, End2(Ended(Some("phase_2_complete"))))
    else
      var c' := Record(c, "robot", t.message);
      if t.message == "" then (c', End2(Ended(Some("phase_2_complete")))) else (c', Say(t.message))
  }

  /** After a reply was heard: assess it, decide, alert, apply the overrides, comfort on. */
  function Respond2(c: Ctl, t: Turn2, parse: Parser): (r: (Ctl, Step2))
    requires c.phase == 2
    ensures Extends(c, r.0) && r.0.failover == c.failover
    ensures r.0.phase1Turns == c.phase1Turns && r.0.phase2Turns == c.phase2Turns && r.0.assessment == c.assessment
    ensures r.1.End2? ==> TurnExit2(r.1.outcome)
  {
    var c1 := UpdateComfort(c, t.analysis, parse);
    var (c2, d) := EvaluateAction(c1, t.decision, parse);
    match d
    case None => (c2, End2(DecisionMissing))
    case Some(d) =>
      var c3 := RaiseAlert(c2, d);
      var h := HandlePhase2(d);
      Handler2Exit(d);
      if h.shouldExit then (c3, End2(Ended(h.exitReason)))
      else
        var r := NextMessage2(c3, t);
        assert "phase_2_complete"[0] != "max_turns_reached"[0];
        ExtendsTrans(c, c3, r.0);
        r
  }

  /** One pass of `execute_phase_2`'s loop body, saying message `m`. */
  function Turn2Step(c: Ctl, m: string, t: Turn2, retry: string, parse: Parser): (r: (Ctl, Step2))
    requires c.phase == 2
    ensures Extends(c, r.0) && r.0.failover == c.failover
    ensures r.0.phase2Turns == c.phase2Turns + 1 && r.0.phase1Turns == c.phase1Turns && r.0.assessment == c.assessment
    ensures |r.0.spoken| > |c.spoken| && r.0.spoken[|c.spoken|] == m
    ensures r.1.End2? ==> TurnExit2(r.1.outcome)
  {
    var c0 := c.(phase2Turns := c.phase2Turns + 1, turnCount := c.turnCount + 1, spoken := c.spoken + [m]);
    var (c1, reply) := GetResponse(c0, retry);
    assert |"max_turns_reached"| == 17 && |"no_victim_response"| == 18;
    if reply == "" then (c1, End2(Ended(Some("no_victim_response"))))
    else
      var r := Respond2(c1, t, parse);
      ExtendsTrans(c0, c1, r.0);
      r
  }

  /** The `execute_phase_2` loop from the current turn on, saying `m` next. */
  function Run2(c: Ctl, m: string, turns: seq<Turn2>, maxTurns: int, retry: string, parse: Parser): (r: (Ctl, Outcome2))
    requires c.phase == 2 && |turns| >= maxTurns - c.phase2Turns
    ensures Extends(c, r.0) && r.0.failover == c.failover
    ensures r.0.phase1Turns == c.phase1Turns && r.0.assessment == c.assessment
    ensures c.phase2Turns <= r.0.phase2Turns && (c.phase2Turns < maxTurns ==> r.0.phase2Turns <= maxTurns)
    ensures c.phase2Turns >= maxTurns ==> r.0.phase2Turns == c.phase2Turns
    ensures Phase2Exit(r.1) && (r.1 == Ended(Some("max_turns_reached")) ==> r.0.phase2Turns >= maxTurns)
    decreases maxTurns - c.phase2Turns
  {
    if c.phase2Turns >= maxTurns then (c, Ended(Some("max_turns_reached")))
    else
      var (c', s) := Turn2Step(c, m, turns[0], retry, parse);
      match s
      case End2(o) => (c', o)
      case Say(m') =>
        var r := Run2(c', m', turns[1..], maxTurns, retry, parse);
        ExtendsTrans(c, c', r.0);
        r
  }

  /** `execute_phase_2`: enter the phase, log the opening message, run the loop. */
  function Phase2(c: Ctl, opening: string, turns: seq<Turn2>, maxTurns: int, retry: string, parse: Parser): (r: (Ctl, Outcome2))
    requires |turns| >= maxTurns - c.phase2Turns
    ensures r.0.phase == 2 && r.0.phase1Turns == c.phase1Turns && r.0.assessment == c.assessment
    ensures r.0.failover == c.failover && Phase2Exit(r.1)
    ensures |r.0.log| > |c.log| && r.0.log[..|c.log| + 1] == c.log + [LogEntry(2, 0, "robot", opening)]
    ensures r.0.turnCount - c.turnCount == r.0.phase2Turns - c.phase2Turns
    ensures c.phase2Turns <= r.0.phase2Turns && (c.phase2Turns < maxTurns ==> r.0.phase2Turns <= maxTurns)
    ensures c.phase2Turns >= maxTurns ==> r.0.phase2Turns == c.phase2Turns
  {
    var c1 := c.(phase := 2, log := c.log + [LogEntry(2, 0, "robot", opening)]);
    var r := Run2(c1, opening, turns, maxTurns, retry, parse);
    assert c1.log <= r.0.log;
    r
  }

  // ---------------------------------------------------------------------
  // The whole workflow
  // ---------------------------------------------------------------------

  /** The results dict's exit reason: a phase's reason, or the `ERROR: ...` an exception leaves. */
  datatype ExitReason = Reason(reason: Option<string>) | Error

  /** `execute_full_workflow`'s answer: nothing after a language-model failure, or its results. */
  datatype WorkflowResult =
    | NoResult
    | Results(entryPhase: int, phase1Executed: bool, phase2Executed: bool, exitReason: ExitReason)

  /** `', '.join` accepts a string, a dict (it joins the keys) or a list of strings. */
  predicate Joinable(j: Json)
  {
    j.JStr? || j.JObj? || (j.JArr? && forall i :: 0 <= i < |j.items| ==> j.items[i].JStr?)
  }

  /**
   * `generate_rescue_report` raises `TypeError` exactly when some audited
   * decision names truthy equipment that `', '.join` cannot take.
   */
  predicate ReportRaises(audit: seq<AuditEntry>)
  {
    exists i :: 0 <= i < |audit| && BadEquipment(audit[i])
  }

  /** The equipment of an audited decision is truthy and cannot be joined. */
  predicate BadEquipment(e: AuditEntry)
  {
    var eq := GetOr(e.decision, "specialized_equipment_needed", JNull);
    Truthy(eq) && !Joinable(eq)
  }

  /**
   * The end of the workflow's `try`: results that carry a phase's reason
   * reach the rescue report, and a report that raises turns the reason
   * into the `ERROR: ...` the handler stores.
   */
  function Report(c: Ctl, w: WorkflowResult): (r: WorkflowResult)
    ensures r.Results? <==> w.Results?
    ensures r.Results? ==>
      r.entryPhase == w.entryPhase && r.phase1Executed == w.phase1Executed && r.phase2Executed == w.phase2Executed
    ensures r.Results? && r.exitReason.Reason? <==> w.Results? && w.exitReason.Reason? && !ReportRaises(c.audit)
    ensures r.Results? && r.exitReason.Reason? ==> r.exitReason == w.exitReason
  {
    if w.Results? && w.exitReason.Reason? && ReportRaises(c.audit) then w.(exitReason := Error) else w
  }

  /**
   * `execute_full_workflow`: the phases, then the rescue report. The final
   * triage between them never raises and is not part of this function.
   */
  function Workflow(c: Ctl, prior: Option<map<string, string>>, greeting: string, turns1: seq<Turn1>, max1: int,
                    opening: string, turns2: seq<Turn2>, max2: int, retry: string, parse: Parser): (r: (Ctl, WorkflowResult))
    requires |turns1| >= max1 - c.phase1Turns && |turns2| >= max2 - c.phase2Turns
  {
    var (c', w) := RunPhases(c, prior, greeting, turns1, max1, opening, turns2, max2, retry, parse);
    (c', Report(c', w))
  }

  /**
   * A run that reaches the report keeps its phase's reason exactly when no
   * audited decision carries equipment the report cannot join; otherwise
   * its exit reason is the error.
   */
  lemma WorkflowReport(c: Ctl, prior: Option<map<string, string>>, greeting: string, turns1: seq<Turn1>, max1: int,
                       opening: string, turns2: seq<Turn2>, max2: int, retry: string, parse: Parser)
    requires |turns1| >= max1 - c.phase1Turns && |turns2| >= max2 - c.phase2Turns
    ensures var r, p := Workflow(c, prior, greeting, turns1, max1, opening, turns2, max2, retry, parse),
                        RunPhases(c, prior, greeting, turns1, max1, opening, turns2, max2, retry, parse);
      r.0 == p.0 && (r.1.Results? <==> p.1.Results?) &&
      (r.1.Results? && ReportRaises(r.0.audit) ==> r.1.exitReason == Error) &&
      (r.1.Results? && r.1.exitReason.Reason? <==> p.1.Results? && p.1.exitReason.Reason? && !ReportRaises(p.0.audit))
  {
  }

  /**
   * Equipment the action model names as a list holding a number breaks
   * the report; a list of names, a single name or an empty list does not.
   */
  lemma EquipmentInReport()
    ensures ReportRaises([AuditEntry(1, 1, [("specialized_equipment_needed", JArr([JNum(1)]))])])
    ensures !ReportRaises([AuditEntry(1, 1, [("specialized_equipment_needed", JArr([JStr("crane")]))])])
    ensures !ReportRaises([AuditEntry(1, 1, [("specialized_equipment_needed", JStr("crane"))])])
    ensures !ReportRaises([AuditEntry(1, 1, [("specialized_equipment_needed", JArr([]))])])
  {
    var k := "specialized_equipment_needed";
    forall j: Json ensures GetOr([(k, j)], k, JNull) == j {
      GetFirst([(k, j)], 0, k);
    }
    assert !JArr([JNum(1)]).items[0].JStr?;
    var bad := AuditEntry(1, 1, [(k, JArr([JNum(1)]))]);
    assert BadEquipment(bad) && [bad][0] == bad;
  }

  /** The phases `execute_full_workflow` runs, from the entry point on. */
  function RunPhases(c: Ctl, prior: Option<map<string, string>>, greeting: string, turns1: seq<Turn1>, max1: int,
                    opening: string, turns2: seq<Turn2>, max2: int, retry: string, parse: Parser): (r: (Ctl, WorkflowResult))
    requires |turns1| >= max1 - c.phase1Turns && |turns2| >= max2 - c.phase2Turns
  {
    if EntryPoint(prior) == 2 then
      var (c2, o2) := Phase2(c.(assessment := c.assessment.(assessment := prior.value)), opening, turns2, max2, retry, parse);
      match o2
      case DecisionMissing => (c2, Results(2, false, false, Error))
      case Ended(reason) => (c2, Results(2, false, true, Reason(reason)))
    else
      var (c1, o1) := Phase1(c, greeting, turns1, max1, retry, parse);
      match o1
      case LlmFail => (c1, NoResult)
      case Crashed => (c1, Results(1, false, false, Error))
      case Exited(reason, next) =>
        if next == Some(2) then
          var (c2, o2) := Phase2(c1, opening, turns2, max2, retry, parse);
          match o2
          case DecisionMissing => (c2, Results(1, true, false, Error))
          case Ended(reason2) => (c2, Results(1, true, true, Reason(reason2)))
        else (c1, Results(1, true, false, Reason(reason)))
  }

  /**
   * The backup system is called in exactly when the workflow gives no
   * result, and that happens only from the first phase.
   */
  lemma WorkflowFailover(c: Ctl, prior: Option<map<string, string>>, greeting: string, turns1: seq<Turn1>, max1: int,
                         opening: string, turns2: seq<Turn2>, max2: int, retry: string, parse: Parser)
    requires |turns1| >= max1 - c.phase1Turns && |turns2| >= max2 - c.phase2Turns
    requires !c.failover
    ensures var r := Workflow(c, prior, greeting, turns1, max1, opening, turns2, max2, retry, parse);
      (r.0.failover <==> r.1 == NoResult) && (r.1 == NoResult ==> EntryPoint(prior) == 1)
  {
  }

  /**
   * Counting from a fresh controller, the total turn count is the sum of
   * the two phase counters, and neither phase runs past its budget.
   */
  lemma WorkflowCounters(c: Ctl, prior: Option<map<string, string>>, greeting: string, turns1: seq<Turn1>, max1: int,
                         opening: string, turns2: seq<Turn2>, max2: int, retry: string, parse: Parser)
    requires |turns1| >= max1 - c.phase1Turns && |turns2| >= max2 - c.phase2Turns
    requires c.turnCount == c.phase1Turns + c.phase2Turns
    requires 0 <= c.phase1Turns <= max1 && 0 <= c.phase2Turns <= max2
    ensures var r := Workflow(c, prior, greeting, turns1, max1, opening, turns2, max2, retry, parse);
      r.0.turnCount == r.0.phase1Turns + r.0.phase2Turns && r.0.phase1Turns <= max1 && r.0.phase2Turns <= max2
  {
    WorkflowReport(c, prior, greeting, turns1, max1, opening, turns2, max2, retry, parse);
    PhasesCounters(c, prior, greeting, turns1, max1, opening, turns2, max2, retry, parse);
  }

  /** The counters of `WorkflowCounters`, before the rescue report. */
  lemma PhasesCounters(c: Ctl, prior: Option<map<string, string>>, greeting: string, turns1: seq<Turn1>, max1: int,
                       opening: string, turns2: seq<Turn2>, max2: int, retry: string, parse: Parser)
    requires |turns1| >= max1 - c.phase1Turns && |turns2| >= max2 - c.phase2Turns
    requires c.turnCount == c.phase1Turns + c.phase2Turns
    requires 0 <= c.phase1Turns <= max1 && 0 <= c.phase2Turns <= max2
    ensures var p := RunPhases(c, prior, greeting, turns1, max1, opening, turns2, max2, retry, parse);
      p.0.turnCount == p.0.phase1Turns + p.0.phase2Turns && p.0.phase1Turns <= max1 && p.0.phase2Turns <= max2
  {
    if EntryPoint(prior) == 2 {
      var c0 := c.(assessment := c.assessment.(assessment := prior.value));
      var r2 := Phase2(c0, opening, turns2, max2, retry, parse);
      assert RunPhases(c, prior, greeting, turns1, max1, opening, turns2, max2, retry, parse).0 == r2.0;
    } else {
      var r1 := Phase1(c, greeting, turns1, max1, retry, parse);
      if r1.1.Exited? && r1.1.nextPhase == Some(2) {
        var r2 := Phase2(r1.0, opening, turns2, max2, retry, parse);
        assert RunPhases(c, prior, greeting, turns1, max1, opening, turns2, max2, retry, parse).0 == r2.0;
      } else {
        assert RunPhases(c, prior, greeting, turns1, max1, opening, turns2, max2, retry, parse).0 == r1.0;
      }
    }
  }

  /**
   * Which phases run: a sufficient prior assessment skips the first phase
   * and is taken over as the assessment; otherwise the second phase follows
   * the first unless the first ended by aborting or by ordering an
   * evacuation, and those two reasons are then the workflow's.
   */
  lemma WorkflowPhases(c: Ctl, prior: Option<map<string, string>>, greeting: string, turns1: seq<Turn1>, max1: int,
                       opening: string, turns2: seq<Turn2>, max2: int, retry: string, parse: Parser)
    requires |turns1| >= max1 - c.phase1Turns && |turns2| >= max2 - c.phase2Turns
    ensures var r := Workflow(c, prior, greeting, turns1, max1, opening, turns2, max2, retry, parse);
      r.1.Results? ==> (
        r.1.entryPhase == EntryPoint(prior) &&
        (r.1.entryPhase == 2 ==> (!r.1.phase1Executed && r.0.assessment.assessment == prior.value &&
          r.0.phase1Turns == c.phase1Turns)) &&
        (r.1.entryPhase == 1 && r.1.exitReason.Reason? ==> (r.1.phase1Executed &&
          (r.1.phase2Executed <==>
            r.1.exitReason.reason != Some("abort_and_alert") && r.1.exitReason.reason != Some("immediate_evacuation")))))
  {
    if EntryPoint(prior) == 1 {
      var (c1, o1) := Phase1(c, greeting, turns1, max1, retry, parse);
      if o1.Exited? && o1.nextPhase == Some(2) {
        var (c2, o2) := Phase2(c1, opening, turns2, max2, retry, parse);
        assert |"abort_and_alert"| == 15 && |"immediate_evacuation"| == 20;
        assert "no_victim_response"[0] != "abort_and_alert"[0] && "no_victim_response"[0] != "immediate_evacuation"[0];
        assert |"emergency_detected"| == 18 && |"evacuation_ready"| == 16 && |"phase_2_complete"| == 16;
        assert |"max_turns_reached"| == 17;
      }
    }
  }

  // ---------------------------------------------------------------------
  // The controller
  // ---------------------------------------------------------------------

  /**
   * `PhaseController`: the counters, the conversation log, the audit trail
   * and the two extraction agents it was given. The other agents' answers
   * arrive as per-turn inputs, and the listening attempts read `sttQueue`.
   */
  class PhaseController {
    var currentPhase: int
    var turnCount: int
    var phase1Turns: int
    var phase2Turns: int
    var conversationHistory: seq<LogEntry>
    var actionDecisions: seq<AuditEntry>
    var alerts: seq<Alert>
    var sttQueue: seq<string>
    var spoken: seq<string>
    var failover: bool
    const assessor: Assessment.AssessmentAgent
    const comforter: ComfortAssessment.ComfortAssessmentAgent
    const retryMessage: string
    const parse: Parser

    function Snapshot(): Ctl
      reads this, assessor, comforter
    {
      Ctl(currentPhase, turnCount, phase1Turns, phase2Turns, conversationHistory, actionDecisions, alerts,
        assessor.Snapshot(), comforter.Snapshot(), sttQueue, spoken, failover)
    }

    /** A controller starts with no phase, no turns and empty logs. */
    constructor (assessor: Assessment.AssessmentAgent, comforter: ComfortAssessment.ComfortAssessmentAgent,
                 sttQueue: seq<string>, retryMessage: string, parse: Parser)
      ensures this.assessor == assessor && this.comforter == comforter
      ensures this.retryMessage == retryMessage && this.parse == parse
      ensures Snapshot() == Ctl(0, 0, 0, 0, [], [], [], assessor.Snapshot(), comforter.Snapshot(), sttQueue, [], false)
    {
      this.assessor := assessor;
      this.comforter := comforter;
      this.retryMessage := retryMessage;
      this.parse := parse;
      currentPhase := 0;
      turnCount := 0;
      phase1Turns := 0;
      phase2Turns := 0;
      conversationHistory := [];
      actionDecisions := [];
      alerts := [];
      this.sttQueue := sttQueue;
      spoken := [];
      failover := false;
    }

    /** `_get_victim_response` */
    method GetVictimResponse() returns (r: string)
      modifies this
      ensures (Snapshot(), r) == GetResponse(old(Snapshot()), retryMessage)
    {
      ghost var target := Listening.Listen(sttQueue, 0, MaxRetries, spoken, retryMessage);
      var queue, said := sttQueue, spoken;
      var attempt := 0;
      r := "";
      while attempt < MaxRetries
        invariant 0 <= attempt <= MaxRetries && r == ""
        invariant Listening.Listen(queue, attempt, MaxRetries, said, retryMessage) == target
        decreases MaxRetries - attempt
      {
        var heard := if queue == [] then "" else queue[0];
        queue := if queue == [] then [] else queue[1..];
        if heard != "" {
          r := heard;
          break;
        }
        if attempt < MaxRetries - 1 {
          said := said + [retryMessage];
        }
        attempt := attempt + 1;
      }
      sttQueue, spoken := queue, said;
      if r != "" && currentPhase != 0 {
        conversationHistory := conversationHistory +
          [LogEntry(currentPhase, if currentPhase == 1 then phase1Turns else phase2Turns, "victim", r)];
      }
    }

    /** `_evaluate_action_decision`, with the action agent's reply given. */
    method EvaluateActionDecision(reply: Reply) returns (d: Option<ActionDecision>)
      requires currentPhase == 1 || currentPhase == 2
      modifies this
      ensures (Snapshot(), d) == EvaluateAction(old(Snapshot()), reply, parse)
    {
      var decided := ActionAgent.DecideNextAction(reply, parse);
      if decided.None? {
        return None;
      }
      var raw := ActionAgent.Members(decided.value);
      actionDecisions := actionDecisions + [AuditEntry(turnCount, currentPhase, raw)];
      d := Some(FromRaw(raw));
    }

    /** `_alert_command_center` */
    method AlertCommandCenter(raw: seq<(string, Json)>)
      modifies this
      ensures Snapshot() == old(Snapshot()).(alerts := old(alerts) + [AlertFor(old(Snapshot()), raw)])
    {
      alerts := alerts + [AlertFor(Snapshot(), raw)];
    }

    /** `handle_action_decision`; None stands for the `TypeError` of an unhashable action. */
    method HandleActionDecision(raw: seq<(string, Json)>) returns (step: Option<string>)
      modifies this
      ensures (Snapshot(), step) == HandleDecision(old(Snapshot()), raw)
    {
      actionDecisions := actionDecisions + [AuditEntry(turnCount, currentPhase, raw)];
      var action := GetOr(raw, "primary_action", JStr("continue_conversation"));
      if !ActionAgent.Hashable(action) {
        return None;
      }
      step := Some(StepFor(ActionSteps, action));
      if Truthy(GetOr(raw, "alert_command_center", JBool(false))) {
        AlertCommandCenter(raw);
      }
    }

    // ----- Phase 1 -----

    /** `_update_assessment`; a failed analysis calls in the backup system. */
    method UpdateAssessment(reply: Reply) returns (ok: bool)
      requires assessor.Valid()
      modifies this, assessor
      ensures assessor.Valid()
      ensures ok == AssessReply(old(Snapshot()), reply, parse).Some?
      ensures ok ==> Snapshot() == AssessReply(old(Snapshot()), reply, parse).value
      ensures !ok ==> Snapshot() == Fail(old(Snapshot()))
    {
      var a := assessor.AnalyzeVictimResponse(reply, parse);
      if a.Failed? {
        failover := true;
        return false;
      }
      if a.entries != [] {
        assessor.UpdateAssessment(a.entries);
      }
      ok := true;
    }

    /** The closing decision of the first phase. */
    method FinalDecision(reply: Reply) returns (s: Step1)
      requires currentPhase == 1
      modifies this
      ensures (Snapshot(), s) == Final1(old(Snapshot()), reply, parse)
    {
      var d := EvaluateActionDecision(reply);
      if d.None? {
        return End1(Crashed);
      }
      var h := HandlePhase1(d.value, assessor.assessment, phase1Turns);
      s := End1(Exited(h.exitReason, NextPhaseOr(h.nextPhase, Some(2))));
    }

    /** `_generate_next_phase_1_question`, with the dialogue agent's answer given. */
    method NextPhase1Question(t: Turn1) returns (s: Step1)
      requires currentPhase == 1
      modifies this
      ensures (Snapshot(), s) == NextQuestion1(old(Snapshot()), t, parse)
    {
      if Assessment.NextPriorityField(assessor.Snapshot()) == "" || Assessment.IsComplete(assessor.Snapshot()) {
        s := FinalDecision(t.finalDecision);
        return;
      }
      if t.question.None? {
        failover := true;
        return End1(LlmFail);
      }
      var q := t.question.value;
      conversationHistory := conversationHistory + [LogEntry(1, phase1Turns, "robot", q)];
      if q == "" {
        s := FinalDecision(t.finalDecision);
      } else {
        s := Ask(q);
      }
    }

    /** What a first-phase turn does once the victim has answered. */
    method RespondPhase1(t: Turn1) returns (s: Step1)
      requires currentPhase == 1 && assessor.Valid()
      modifies this, assessor
      ensures assessor.Valid()
      ensures (Snapshot(), s) == Respond1(old(Snapshot()), t, parse)
    {
      var ok := UpdateAssessment(t.analysis);
      if !ok {
        return End1(LlmFail);
      }
      var d := EvaluateActionDecision(t.decision);
      if d.None? {
        failover := true;
        return End1(LlmFail);
      }
      if Truthy(d.value.alertCommandCenter) {
        AlertCommandCenter(d.value.raw);
      }
      var h := HandlePhase1(d.value, assessor.assessment, phase1Turns);
      if h.shouldExit {
        return End1(Exited(h.exitReason, NextPhaseOr(h.nextPhase, None)));
      }
      s := NextPhase1Question(t);
    }

    /** One pass of `execute_phase_1`'s loop body. */
    method Phase1Turn(q: string, t: Turn1) returns (s: Step1)
      requires currentPhase == 1 && assessor.Valid()
      modifies this, assessor
      ensures assessor.Valid()
      ensures (Snapshot(), s) == Turn1Step(old(Snapshot()), q, t, retryMessage, parse)
    {
      ghost var c := Snapshot();
      phase1Turns := phase1Turns + 1;
      turnCount := turnCount + 1;
      spoken := spoken + [q];
      ghost var c0 := Snapshot();
      assert c0 == c.(phase1Turns := c.phase1Turns + 1, turnCount := c.turnCount + 1, spoken := c.spoken + [q]);
      var reply := GetVictimResponse();
      ghost var c1 := Snapshot();
      assert (c1, reply) == GetResponse(c0, retryMessage);
      if reply == "" {
        return End1(Exited(Some("no_victim_response"), Some(2)));
      }
      assert Turn1Step(c, q, t, retryMessage, parse) == Respond1(c1, t, parse);
      s := RespondPhase1(t);
    }

    /** `execute_phase_1` */
    method ExecutePhase1(greeting: string, turns: seq<Turn1>, maxTurns: int) returns (o: Outcome1)
      requires assessor.Valid() && |turns| >= maxTurns - phase1Turns
      modifies this, assessor
      ensures assessor.Valid()
      ensures (Snapshot(), o) == Phase1(old(Snapshot()), greeting, turns, maxTurns, retryMessage, parse)
    {
      ghost var target := Phase1(Snapshot(), greeting, turns, maxTurns, retryMessage, parse);
      currentPhase := 1;
      conversationHistory := conversationHistory + [LogEntry(1, 0, "robot", greeting)];
      var q, rest := greeting, turns;
      while phase1Turns < maxTurns
        invariant currentPhase == 1 && assessor.Valid() && |rest| >= maxTurns - phase1Turns
        invariant Run1(Snapshot(), q, rest, maxTurns, retryMessage, parse) == target
        decreases maxTurns - phase1Turns
      {
        var s := Phase1Turn(q, rest[0]);
        if s.End1? {
          return s.outcome;
        }
        q, rest := s.question, rest[1..];
      }
      o := Exited(Some("max_turns_reached"), Some(2));
    }

    // ----- Phase 2 -----

    /** `_update_comfort_assessment` */
    method UpdateComfortAssessment(reply: Reply)
      requires comforter.Valid()
      modifies comforter
      ensures comforter.Valid()
      ensures Snapshot() == UpdateComfort(old(Snapshot()), reply, parse)
    {
      var updates := comforter.AnalyzeVictimResponse(reply, parse);
      if updates != [] {
        comforter.UpdateSpecialNeeds(updates);
      }
    }

    /** `_generate_next_phase_2_message`, with the comfort agent's answer given. */
    method NextPhase2Message(t: Turn2) returns (s: Step2)
      requires currentPhase == 2
      modifies this
      ensures (Snapshot(), s) == NextMessage2(old(Snapshot()), t)
    {
      if ComfortAssessment.NextPriorityField(comforter.Snapshot()).None? || ComfortAssessment.IsComplete(comforter.Snapshot()) {
        return End2(Ended(Some("phase_2_complete")));
      }
      conversationHistory := conversationHistory + [LogEntry(2, phase2Turns, "robot", t.message)];
      if t.message == "" {
        s := End2(Ended(Some("phase_2_complete")));
      } else {
        s := Say(t.message);
      }
    }

    /** What a second-phase turn does once the victim has answered. */
    method RespondPhase2(t: Turn2) returns (s: Step2)
      requires currentPhase == 2 && comforter.Valid()
      modifies this, comforter
      ensures comforter.Valid()
      ensures (Snapshot(), s) == Respond2(old(Snapshot()), t, parse)
    {
      UpdateComfortAssessment(t.analysis);
      var d := EvaluateActionDecision(t.decision);
      if d.None? {
        return End2(DecisionMissing);
      }
      if Truthy(d.value.alertCommandCenter) {
        AlertCommandCenter(d.value.raw);
      }
      var h := HandlePhase2(d.value);
      if h.shouldExit {
        return End2(Ended(h.exitReason));
      }
      s := NextPhase2Message(t);
    }

    /** One pass of `execute_phase_2`'s loop body. */
    method Phase2Turn(m: string, t: Turn2) returns (s: Step2)
      requires currentPhase == 2 && comforter.Valid()
      modifies this, comforter
      ensures comforter.Valid()
      ensures (Snapshot(), s) == Turn2Step(old(Snapshot()), m, t, retryMessage, parse)
    {
      ghost var c := Snapshot();
      phase2Turns := phase2Turns + 1;
      turnCount := turnCount + 1;
      spoken := spoken + [m];
      ghost var c0 := Snapshot();
      assert c0 == c.(phase2Turns := c.phase2Turns + 1, turnCount := c.turnCount + 1, spoken := c.spoken + [m]);
      var reply := GetVictimResponse();
      ghost var c1 := Snapshot();
      assert (c1, reply) == GetResponse(c0, retryMessage);
      if reply == "" {
        return End2(Ended(Some("no_victim_response")));
      }
      assert Turn2Step(c, m, t, retryMessage, parse) == Respond2(c1, t, parse);
      s := RespondPhase2(t);
    }

    /** `execute_phase_2` */
    method ExecutePhase2(opening: string, turns: seq<Turn2>, maxTurns: int) returns (o: Outcome2)
      requires comforter.Valid() && |turns| >= maxTurns - phase2Turns
      modifies this, comforter
      ensures comforter.Valid()
      ensures (Snapshot(), o) == Phase2(old(Snapshot()), opening, turns, maxTurns, retryMessage, parse)
    {
      ghost var target := Phase2(Snapshot(), opening, turns, maxTurns, retryMessage, parse);
      currentPhase := 2;
      conversationHistory := conversationHistory + [LogEntry(2, 0, "robot", opening)];
      var m, rest := opening, turns;
      while phase2Turns < maxTurns
        invariant currentPhase == 2 && comforter.Valid() && |rest| >= maxTurns - phase2Turns
        invariant Run2(Snapshot(), m, rest, maxTurns, retryMessage, parse) == target
        decreases maxTurns - phase2Turns
      {
        var s := Phase2Turn(m, rest[0]);
        if s.End2? {
          return s.outcome;
        }
        m, rest := s.message, rest[1..];
      }
      o := Ended(Some("max_turns_reached"));
    }

    // ----- The whole workflow -----

    /** `execute_full_workflow`: the phases, then the rescue report. */
    method ExecuteFullWorkflow(prior: Option<map<string, string>>, greeting: string, turns1: seq<Turn1>, max1: int,
                               opening: string, turns2: seq<Turn2>, max2: int) returns (w: WorkflowResult)
      requires assessor.Valid() && comforter.Valid()
      requires |turns1| >= max1 - phase1Turns && |turns2| >= max2 - phase2Turns
      modifies this, assessor, comforter
      ensures comforter.Valid()
      ensures (Snapshot(), w) == Workflow(old(Snapshot()), prior, greeting, turns1, max1, opening, turns2, max2, retryMessage, parse)
    {
      w := ExecutePhases(prior, greeting, turns1, max1, opening, turns2, max2);
      if w.Results? && w.exitReason.Reason? {
        var raises := GenerateRescueReport();
        if raises {
          w := w.(exitReason := Error);
        }
      }
    }

    /**
     * The decision log of `generate_rescue_report`: true when joining some
     * decision's truthy equipment raises `TypeError`.
     */
    method GenerateRescueReport() returns (raises: bool)
      ensures raises <==> ReportRaises(actionDecisions)
    {
      raises := false;
      var i := 0;
      while i < |actionDecisions| && !raises
        invariant 0 <= i <= |actionDecisions|
        invariant raises <==> exists k :: 0 <= k < i && BadEquipment(actionDecisions[k])
        decreases |actionDecisions| - i
      {
        var eq := GetOr(actionDecisions[i].decision, "specialized_equipment_needed", JNull);
        if Truthy(eq) && !Joinable(eq) {
          raises := true;
        }
        i := i + 1;
      }
    }

    /** The phases of `execute_full_workflow`, from the entry point on. */
    method ExecutePhases(prior: Option<map<string, string>>, greeting: string, turns1: seq<Turn1>, max1: int,
                         opening: string, turns2: seq<Turn2>, max2: int) returns (w: WorkflowResult)
      requires assessor.Valid() && comforter.Valid()
      requires |turns1| >= max1 - phase1Turns && |turns2| >= max2 - phase2Turns
      modifies this, assessor, comforter
      ensures comforter.Valid()
      ensures (Snapshot(), w) == RunPhases(old(Snapshot()), prior, greeting, turns1, max1, opening, turns2, max2, retryMessage, parse)
    {
      if EntryPoint(prior) == 2 {
        assessor.assessment := prior.value;
        var o2 := ExecutePhase2(opening, turns2, max2);
        w := if o2.DecisionMissing? then Results(2, false, false, Error) else Results(2, false, true, Reason(o2.reason));
        return;
      }
      var o1 := ExecutePhase1(greeting, turns1, max1);
      if o1.LlmFail? {
        return NoResult;
      }
      if o1.Crashed? {
        return Results(1, false, false, Error);
      }
      if o1.nextPhase == Some(2) {
        var o2 := ExecutePhase2(opening, turns2, max2);
        w := if o2.DecisionMissing? then Results(1, true, false, Error) else Results(1, true, true, Reason(o2.reason));
      } else {
        w := Results(1, true, false, Reason(o1.reason));
      }
    }
  }
}

=== FILE: text.dfy ===
/**
 * Optional values: Python's `None` beside a real value.
 */
module Wrappers {
  datatype Option<T> = None | Some(value: T)
}

/**
 * The few Python string operations the dialogue code relies on, over
 * `seq<char>`: `in` (substring), `lower`, `strip`, `split`, `join`,
 * `replace`, `find`/`rfind`, `startswith`/`endswith`.
 * `lower` and `strip` are modelled on ASCII letters and ASCII whitespace.
 */
module Text {
  import opened Wrappers

  predicate StartsWith(s: string, p: string) { |p| <= |s| && s[..|p|] == p }

  predicate EndsWith(s: string, p: string) { |p| <= |s| && s[|s| - |p|..] == p }

  /** Python's `sub in s`. */
  predicate Contains(s: string, sub: string)
    decreases |s|
  {
    StartsWith(s, sub) || (|s| > 0 && Contains(s[1..], sub))
  }

  /** `any(w in s for w in words)` */
  predicate ContainsAny(s: string, words: seq<string>)
  {
    exists i :: 0 <= i < |words| && Contains(s, words[i])
  }

  lemma {:induction false} ContainsAt(s: string, sub: string, k: nat)
    requires k + |sub| <= |s| && s[k..k + |sub|] == sub
    ensures Contains(s, sub)
    decreases k
  {
    if k > 0 {
      assert s[1..][k - 1..k - 1 + |sub|] == sub;
      ContainsAt(s[1..], sub, k - 1);
    }
  }

  lemma {:induction false} ContainsWitness(s: string, sub: string) returns (k: nat)
    requires Contains(s, sub)
    ensures k + |sub| <= |s| && s[k..k + |sub|] == sub
    decreases |s|
  {
    if StartsWith(s, sub) {
      k := 0;
    } else {
      var j := ContainsWitness(s[1..], sub);
      k := j + 1;
      assert s[k..k + |sub|] == s[1..][j..j + |sub|];
    }
  }

  lemma {:induction false} ContainsLonger(s: string, sub: string)
    requires Contains(s, sub)
    ensures |sub| <= |s|
  {
    var k := ContainsWitness(s, sub);
  }

  /** Every string contains itself, so `x in x` holds in Python. */
  lemma ContainsSelf(s: string)
    ensures Contains(s, s)
  {
    ContainsAt(s, s, 0);
  }

  /** A text lacking some character of `sub` cannot contain `sub`. */
  lemma {:induction false} NotContainsByChar(s: string, sub: string, k: nat)
    requires k < |sub| && forall i :: 0 <= i < |s| ==> s[i] != sub[k]
    ensures !Contains(s, sub)
    decreases |s|
  {
    if |s| > 0 {
      assert |sub| <= |s| ==> s[..|sub|][k] == s[k];
      NotContainsByChar(s[1..], sub, k);
    }
  }

  /** Python's `split` yields at least two pieces when the separator occurs. */
  lemma {:induction false} SplitContains(s: string, sep: string)
    requires |sep| > 0 && Contains(s, sep)
    ensures |Split(s, sep)| >= 2
    decreases |s|
  {
    ContainsLonger(s, sep);
    if s[..|sep|] != sep {
      SplitContains(s[1..], sep);
    }
  }

  function LowerChar(c: char): char
  {
    if 'A' <= c <= 'Z' then (c as int + 32) as char else c
  }

  /** Python's `str.lower()` on ASCII letters. */
  function Lower(s: string): (r: string)
    ensures |r| == |s|
    ensures forall i :: 0 <= i < |s| ==> !('A' <= r[i] <= 'Z')
  {
    seq(|s|, i requires 0 <= i < |s| => LowerChar(s[i]))
  }

  lemma LowerIdempotent(s: string)
    ensures Lower(Lower(s)) == Lower(s)
  {
    assert forall i :: 0 <= i < |s| ==> LowerChar(LowerChar(s[i])) == LowerChar(s[i]);
  }

  /** A string with no upper-case letter is its own lower-case form. */
  lemma LowerOfLower(s: string)
    requires forall i :: 0 <= i < |s| ==> !('A' <= s[i] <= 'Z')
    ensures Lower(s) == s
  {
  }

  predicate IsSpace(c: char)
  {
    c == ' ' || c == '\t' || c == '\n' || c == '\r' || c == '\U{000B}' || c == '\U{000C}'
  }

  function LStrip(s: string): (r: string)
    decreases |s|
  {
    if |s| > 0 && IsSpace(s[0]) then LStrip(s[1..]) else s
  }

  function RStrip(s: string): (r: string)
    decreases |s|
  {
    if |s| > 0 && IsSpace(s[|s| - 1]) then RStrip(s[..|s| - 1]) else s
  }

  /** Python's `str.strip()`. */
  function Strip(s: string): (r: string)
  {
    RStrip(LStrip(s))
  }

  lemma {:induction false} LStripShape(s: string)
    ensures |LStrip(s)| <= |s| && EndsWith(s, LStrip(s))
    ensures LStrip(s) == [] || !IsSpace(LStrip(s)[0])
    ensures LStrip(s) == [] <==> forall i :: 0 <= i < |s| ==> IsSpace(s[i])
    decreases |s|
  {
    if |s| > 0 && IsSpace(s[0]) {
      LStripShape(s[1..]);
      assert s[|s| - |LStrip(s)|..] == s[1..][|s[1..]| - |LStrip(s)|..];
      if LStrip(s) == [] {
        forall i | 0 <= i < |s| ensures IsSpace(s[i]) {
          if i > 0 { assert s[i] == s[1..][i - 1]; }
        }
      }
    }
  }

  /** Stripping adds no character: one absent from a string is absent from its strip. */
  lemma StripAbsent(s: string, c: char)
    requires forall i :: 0 <= i < |s| ==> s[i] != c
    ensures forall i :: 0 <= i < |Strip(s)| ==> Strip(s)[i] != c
  {
    var l := LStrip(s);
    LStripShape(s);
    RStripShape(l);
    assert forall i :: 0 <= i < |l| ==> l[i] == s[|s| - |l| + i];
    assert forall i :: 0 <= i < |Strip(s)| ==> Strip(s)[i] == l[i];
  }

  lemma {:induction false} RStripShape(s: string)
    ensures |RStrip(s)| <= |s| && StartsWith(s, RStrip(s))
    ensures RStrip(s) == [] || !IsSpace(RStrip(s)[|RStrip(s)| - 1])
    ensures RStrip(s) == [] <==> forall i :: 0 <= i < |s| ==> IsSpace(s[i])
    decreases |s|
  {
    if |s| > 0 && IsSpace(s[|s| - 1]) {
      var t := s[..|s| - 1];
      RStripShape(t);
      assert s[..|RStrip(s)|] == t[..|RStrip(t)|];
      if RStrip(s) == [] {
        forall i | 0 <= i < |s| ensures IsSpace(s[i]) {
          if i < |s| - 1 { assert s[i] == t[i]; }
        }
      }
    }
  }

  lemma {:induction false} RStripKeepsFirst(s: string)
    requires |s| > 0 && !IsSpace(s[0])
    ensures |RStrip(s)| > 0 && RStrip(s)[0] == s[0]
    decreases |s|
  {
    if IsSpace(s[|s| - 1]) {
      RStripKeepsFirst(s[..|s| - 1]);
    }
  }

  /**
   * `strip()` leaves no surrounding whitespace, and it is empty exactly
   * when the input is all whitespace: `s.strip() == ""` is the source's
   * whitespace-only test.
   */
  lemma StripShape(s: string)
    ensures var r := Strip(s);
      (r == [] || (!IsSpace(r[0]) && !IsSpace(r[|r| - 1]))) &&
      (r == [] <==> forall i :: 0 <= i < |s| ==> IsSpace(s[i]))
  {
    var l := LStrip(s);
    LStripShape(s);
    RStripShape(l);
    if l != [] {
      RStripKeepsFirst(l);
    }
  }

  lemma {:induction false} LStripNoSpace(s: string)
    requires s == [] || !IsSpace(s[0])
    ensures LStrip(s) == s
  {
  }

  lemma {:induction false} RStripNoSpace(s: string)
    requires s == [] || !IsSpace(s[|s| - 1])
    ensures RStrip(s) == s
  {
  }

  /** Stripping twice is stripping once. */
  lemma StripIdempotent(s: string)
    ensures Strip(Strip(s)) == Strip(s)
  {
    var r := Strip(s);
    StripShape(s);
    LStripNoSpace(r);
    RStripNoSpace(r);
  }

  /** Left-stripping a text with some non-space character commutes with appending. */
  lemma {:induction false} LStripAppend(s: string, t: string)
    requires exists i :: 0 <= i < |s| && !IsSpace(s[i])
    ensures LStrip(s + t) == LStrip(s) + t
    decreases |s|
  {
    if IsSpace(s[0]) {
      var i :| 0 <= i < |s| && !IsSpace(s[i]);
      assert s[1..][i - 1] == s[i];
      assert (s + t)[1..] == s[1..] + t;
      LStripAppend(s[1..], t);
    }
  }

  /** A trailing whitespace character does not change the stripped text. */
  lemma StripTrailingSpace(s: string, c: char)
    requires IsSpace(c)
    ensures Strip(s + [c]) == Strip(s)
  {
    if exists i :: 0 <= i < |s| && !IsSpace(s[i]) {
      LStripAppend(s, [c]);
      var l := LStrip(s);
      assert (l + [c])[..|l + [c]| - 1] == l;
    } else {
      LStripShape(s);
      LStripShape(s + [c]);
      assert forall i :: 0 <= i < |s + [c]| ==> IsSpace((s + [c])[i]);
    }
  }

  /**
   * Python's `s.split(sep)` for a non-empty separator: the pieces between
   * the leftmost non-overlapping occurrences of `sep`.
   */
  function Split(s: string, sep: string): (r: seq<string>)
    requires |sep| > 0
    ensures |r| >= 1
    decreases |s|
  {
    if |s| < |sep| then [s]
    else if s[..|sep|] == sep then [""] + Split(s[|sep|..], sep)
    else
      var rest := Split(s[1..], sep);
      [[s[0]] + rest[0]] + rest[1..]
  }

  /** Python's `sep.join(parts)`. */
  function Join(parts: seq<string>, sep: string): (r: string)
    decreases |parts|
  {
    if |parts| == 0 then ""
    else if |parts| == 1 then parts[0]
    else parts[0] + sep + Join(parts[1..], sep)
  }

  /** Joining two non-empty lists puts one separator between their joins. */
  lemma {:induction false} JoinAppend(a: seq<string>, b: seq<string>, sep: string)
    requires |a| > 0 && |b| > 0
    ensures Join(a + b, sep) == Join(a, sep) + sep + Join(b, sep)
    decreases |a|
  {
    assert (a + b)[0] == a[0];
    assert (a + b)[1..] == a[1..] + b;
    if |a| > 1 {
      JoinAppend(a[1..], b, sep);
    }
  }

  lemma {:induction false} JoinConsChar(c: char, parts: seq<string>, sep: string)
    requires |parts| >= 1
    ensures Join([[c] + parts[0]] + parts[1..], sep) == [c] + Join(parts, sep)
  {
    var q := [[c] + parts[0]] + parts[1..];
    if |parts| > 1 {
      assert q[1..] == parts[1..];
    }
  }

  /** Splitting and re-joining with the same separator gives the text back. */
  lemma {:induction false} JoinSplit(s: string, sep: string)
    requires |sep| > 0
    ensures Join(Split(s, sep), sep) == s
    decreases |s|
  {
    if |s| < |sep| {
    } else if s[..|sep|] == sep {
      var rest := Split(s[|sep|..], sep);
      JoinSplit(s[|sep|..], sep);
      assert ([""] + rest)[1..] == rest;
      assert s == sep + s[|sep|..];
    } else {
      var rest := Split(s[1..], sep);
      JoinSplit(s[1..], sep);
      JoinConsChar(s[0], rest, sep);
      assert s == [s[0]] + s[1..];
    }
  }

  /** The first piece of a split is the whole text, or is followed by the separator. */
  lemma {:induction false} SplitPiecesFree(s: string, sep: string)
    requires |sep| > 0
    ensures Split(s, sep)[0] == s || StartsWith(s, Split(s, sep)[0] + sep)
    decreases |s|
  {
    if |s| < |sep| {
    } else if s[..|sep|] == sep {
    } else {
      var rest := Split(s[1..], sep);
      assert Split(s, sep)[0] == [s[0]] + rest[0];
      SplitPiecesFree(s[1..], sep);
      if rest[0] != s[1..] {
        var p := rest[0] + sep;
        assert s[1..][..|p|] == p;
        assert s[..|p| + 1] == [s[0]] + s[1..][..|p|];
        assert ([s[0]] + rest[0]) + sep == [s[0]] + p;
      } else {
        assert [s[0]] + s[1..] == s;
      }
    }
  }

  /** Python's `s.replace(target, repl)` for a non-empty `target`. */
  function Replace(s: string, target: string, repl: string): (r: string)
    requires |target| > 0
    decreases |s|
  {
    if |s| < |target| then s
    else if s[..|target|] == target then repl + Replace(s[|target|..], target, repl)
    else [s[0]] + Replace(s[1..], target, repl)
  }

  /** Replacing a substring that does not occur changes nothing. */
  lemma {:induction false} ReplaceAbsent(s: string, target: string, repl: string)
    requires |target| > 0 && !Contains(s, target)
    ensures Replace(s, target, repl) == s
    decreases |s|
  {
    if |s| >= |target| {
      assert s[..|target|] != target;
      ReplaceAbsent(s[1..], target, repl);
    }
  }

  /** Python's `s.find(c)` for one character: the first index, or -1. */
  function Find(s: string, c: char): (r: int)
    ensures -1 <= r < |s|
    ensures r >= 0 ==> s[r] == c && forall j :: 0 <= j < r ==> s[j] != c
    ensures r == -1 ==> forall j :: 0 <= j < |s| ==> s[j] != c
    decreases |s|
  {
    if |s| == 0 then -1
    else if s[0] == c then 0
    else
      var k := Find(s[1..], c);
      if k == -1 then -1 else k + 1
  }

  /** Python's `s.rfind(c)` for one character: the last index, or -1. */
  function RFind(s: string, c: char): (r: int)
    ensures -1 <= r < |s|
    ensures r >= 0 ==> s[r] == c && forall j :: r < j < |s| ==> s[j] != c
    ensures r == -1 ==> forall j :: 0 <= j < |s| ==> s[j] != c
    decreases |s|
  {
    if |s| == 0 then -1
    else if s[|s| - 1] == c then |s| - 1
    else RFind(s[..|s| - 1], c)
  }

  predicate IsDigit(c: char) { '0' <= c <= '9' }

  /** The value of the leading run of digits of `s`, read as a decimal number. */
  function DigitsValue(s: string, acc: nat): (r: nat)
    decreases |s|
  {
    if |s| > 0 && IsDigit(s[0]) then DigitsValue(s[1..], acc * 10 + (s[0] as int - '0' as int))
    else acc
  }

  /** `re.search(r'\d+', s)`: the first run of digits, as a number, if any. */
  function FirstNumber(s: string): (r: Option<nat>)
    ensures r.None? <==> forall i :: 0 <= i < |s| ==> !IsDigit(s[i])
    decreases |s|
  {
    if |s| == 0 then None
    else if IsDigit(s[0]) then Some(DigitsValue(s, 0))
    else FirstNumber(s[1..])
  }
}

=== FILE: triage_agent.dfy ===
/**
 * The triage agent: it assigns one of the four START triage categories
 * from the interview record. Too little data gives the safe default
 * without asking the language model; every failure of the model, and
 * every answer that names no category, gives the default as well.
 */
module Triage {
  import opened Wrappers
  import opened Text
  import opened Llm

  /** A dict's items, in insertion order, keys distinct. */
  type Items = seq<(string, string)>

  const Valid: seq<string> := ["Red", "Yellow", "Green", "Black"]
  const DefaultPriority := "Yellow"
  const CriticalFields: seq<string> := ["injuries", "breathing", "consciousness", "immediate_danger"]
  const Phase1Header := "\n" + "PHASE 1 ASSESSMENT (Safety & Injuries):"
  const Phase2Header := "\n" + "PHASE 2 ASSESSMENT (Medical & Special Needs):"

  /** `items.get(key, default)` */
  function Get(items: Items, key: string, default: string): (r: string)
    ensures (forall i :: 0 <= i < |items| ==> items[i].0 != key) ==> r == default
    ensures (exists i :: 0 <= i < |items| && items[i].0 == key) ==> exists i :: 0 <= i < |items| && items[i] == (key, r)
  {
    if |items| == 0 then default
    else if items[0].0 == key then items[0].1
    else Get(items[1..], key, default)
  }

  // ---------------------------------------------------------------------
  // Sufficiency
  // ---------------------------------------------------------------------

  /** A field the triage can rely on: present, not blank, not "unknown" in any case. */
  predicate Informative(items: Items, field: string)
  {
    var v := Strip(Get(items, field, ""));
    v != "" && Lower(v) != "unknown"
  }

  /** `_is_assessment_sufficient`: the first informative critical field settles it. */
  function SufficientFrom(items: Items, fields: seq<string>): (r: bool)
    ensures r <==> exists i :: 0 <= i < |fields| && Informative(items, fields[i])
  {
    if |fields| == 0 then false
    else if Informative(items, fields[0]) then true
    else
      var rest := SufficientFrom(items, fields[1..]);
      assert forall i :: 1 <= i < |fields| ==> fields[i] == fields[1..][i - 1];
      rest
  }

  predicate Sufficient(items: Items)
  {
    SufficientFrom(items, CriticalFields)
  }

  /** An empty record is never sufficient. */
  lemma EmptyInsufficient()
    ensures !Sufficient([])
  {
    StripShape("");
  }

  // ---------------------------------------------------------------------
  // Cleaning the model's answer
  // ---------------------------------------------------------------------

  /** The answer with every newline and carriage return removed, then stripped. */
  function Cleaned(response: string): string
  {
    Strip(Replace(Replace(response, "\n", ""), "\r", ""))
  }

  predicate IsLetter(c: char) { 'a' <= c <= 'z' || 'A' <= c <= 'Z' }

  /** `w` occurs in `s` at `k`, with no letter touching it on either side. */
  predicate WordAt(s: string, w: string, k: nat)
  {
    k + |w| <= |s| && s[k..k + |w|] == w &&
    (k == 0 || !IsLetter(s[k - 1])) && (k + |w| == |s| || !IsLetter(s[k + |w|]))
  }

  /**
   * Whether the answer names category `p`: as written, any case-insensitive
   * substring; with `wholeWord`, only a case-insensitive whole word.
   */
  predicate Names(t: string, p: string, wholeWord: bool)
  {
    if wholeWord then exists k: nat | k <= |t| :: WordAt(Lower(t), Lower(p), k)
    else Contains(Lower(t), Lower(p))
  }

  /** The first candidate the answer names, else the answer itself. */
  function Pick(cands: seq<string>, t: string, wholeWord: bool): (r: string)
    ensures (exists i :: 0 <= i < |cands| && Names(t, cands[i], wholeWord)) ==>
      exists i :: 0 <= i < |cands| && r == cands[i] && Names(t, cands[i], wholeWord) &&
        forall j :: 0 <= j < i ==> !Names(t, cands[j], wholeWord)
    ensures (forall i :: 0 <= i < |cands| ==> !Names(t, cands[i], wholeWord)) ==> r == t
  {
    if |cands| == 0 then t
    else if Names(t, cands[0], wholeWord) then cands[0]
    else
      var r := Pick(cands[1..], t, wholeWord);
      assert forall i :: 1 <= i < |cands| ==> cands[i] == cands[1..][i - 1];
      r
  }

  /** `_clean_priority_response` as written: substring matching. */
  function CleanPriorityAsWritten(response: string): string
  {
    Pick(Valid, Cleaned(response), false)
  }

  /** `_clean_priority_response` with whole-word matching, the version the agent uses here. */
  function CleanPriority(response: string): (r: string)
    ensures r in Valid || r == Cleaned(response)
  {
    Pick(Valid, Cleaned(response), true)
  }

  /** An answer naming exactly one category as a word is read as that category. */
  lemma {:induction false} CleanSingleMention(response: string, i: nat)
    requires i < |Valid| && Names(Cleaned(response), Valid[i], true)
    requires forall j :: 0 <= j < |Valid| && j != i ==> !Names(Cleaned(response), Valid[j], true)
    ensures CleanPriority(response) == Valid[i]
  {
  }

  /** An answer without line breaks or surrounding spaces is already clean. */
  lemma CleanedPlain(t: string)
    requires forall i :: 0 <= i < |t| ==> t[i] != '\n' && t[i] != '\r'
    requires t == [] || (!IsSpace(t[0]) && !IsSpace(t[|t| - 1]))
    ensures Cleaned(t) == t
  {
    NotContainsByChar(t, "\n", 0);
    ReplaceAbsent(t, "\n", "");
    NotContainsByChar(t, "\r", 0);
    ReplaceAbsent(t, "\r", "");
    LStripNoSpace(t);
    RStripNoSpace(t);
  }

  /** The example answer is already clean. */
  lemma InjuredExampleClean()
    ensures Cleaned("Yellow, injured") == "Yellow, injured"
  {
    var t := "Yellow, injured";
    assert forall i :: 0 <= i < |t| ==> t[i] != '\n' && t[i] != '\r';
    CleanedPlain(t);
  }

  /** Its lower-case form: only one 'r', right after the letter 'u' of "injured". */
  lemma InjuredExampleLower()
    ensures var l := Lower("Yellow, injured");
      |l| == 15 && l[..6] == "yellow" && l[6] == ',' && l[11] == 'u' && l[12..15] == "red" &&
      forall j :: 0 <= j < |l| && j != 12 ==> l[j] != 'r'
  {
    var t := "Yellow, injured";
    var l := Lower(t);
    assert forall j :: 0 <= j < |l| ==> l[j] == LowerChar(t[j]);
    assert forall j :: 0 <= j < |t| && j != 12 ==> t[j] !in "rR";
  }

  /**
   * "Yellow, injured" names only Yellow, yet substring matching finds the
   * "red" inside "injured" first and reads it as Red.
   */
  lemma MisreadInjuredAsRed()
    ensures CleanPriorityAsWritten("Yellow, injured") == "Red"
  {
    InjuredExampleClean();
    InjuredExampleLower();
    assert Lower("Red") == "red";
    ContainsAt(Lower("Yellow, injured"), "red", 12);
  }

  /** The "red" inside "injured" is not a whole word. */
  lemma InjuredNamesNoRed()
    ensures !Names("Yellow, injured", "Red", true)
  {
    InjuredExampleLower();
    var l := Lower("Yellow, injured");
    assert Lower("Red") == "red";
    forall k: nat | k <= |l| ensures !WordAt(l, "red", k) {
      if k + 3 <= |l| {
        assert l[k..k + 3][0] == l[k];
        if k == 12 {
          assert IsLetter(l[11]);
        }
      }
    }
  }

  /** With whole-word matching the same answer is read as Yellow. */
  lemma InjuredReadAsYellow()
    ensures CleanPriority("Yellow, injured") == "Yellow"
  {
    var t := "Yellow, injured";
    InjuredExampleClean();
    InjuredNamesNoRed();
    assert Names(t, "Yellow", true) by {
      InjuredExampleLower();
      assert Lower("Yellow") == "yellow";
      assert WordAt(Lower(t), "yellow", 0);
    }
    assert Valid[0] == "Red" && Valid[1] == "Yellow";
    assert Pick(Valid, t, true) == Pick(Valid[1..], t, true);
  }

  // ---------------------------------------------------------------------
  // The prompt
  // ---------------------------------------------------------------------

  /** A value worth telling the model: truthy and not the literal "unknown". */
  predicate Known(v: string) { v != "" && v != "unknown" }

  function Bullet(item: (string, string)): string
  {
    "- " + item.0 + ": " + item.1
  }

  /** The bullet lines of the known items, in order. */
  function Listed(items: Items): (r: seq<string>)
    ensures |r| <= |items|
    ensures forall l :: l in r ==> exists i :: 0 <= i < |items| && Known(items[i].1) && l == Bullet(items[i])
  {
    if |items| == 0 then []
    else
      var init := Listed(items[..|items| - 1]);
      assert forall i :: 0 <= i < |items| - 1 ==> items[..|items| - 1][i] == items[i];
      if Known(items[|items| - 1].1) then init + [Bullet(items[|items| - 1])] else init
  }

  /** Every known item does get its line. */
  lemma {:induction false} ListedComplete(items: Items, i: nat)
    requires i < |items| && Known(items[i].1)
    ensures Bullet(items[i]) in Listed(items)
  {
    if i < |items| - 1 {
      ListedComplete(items[..|items| - 1], i);
    }
  }

  /** The lines keep the order of the items: listing two runs of items one after the other lists each in turn. */
  lemma {:induction false} ListedInOrder(a: Items, b: Items)
    ensures Listed(a + b) == Listed(a) + Listed(b)
    decreases |b|
  {
    if |b| > 0 {
      var init := b[..|b| - 1];
      assert (a + b)[..|a + b| - 1] == a + init;
      assert (a + b)[|a + b| - 1] == b[|b| - 1];
      ListedInOrder(a, init);
    } else {
      assert a + b == a;
    }
  }

  /** `_build_triage_prompt`, as its list of parts (joined with newlines). */
  function PromptParts(base: string, assessment: Items, comfort: Items): seq<string>
  {
    [base, Phase1Header] + Listed(assessment) +
    (if |comfort| > 0 then [Phase2Header] + Listed(comfort) else [])
  }

  /** Every line but the instructions is a bullet or a section header. */
  lemma {:induction false} PromptShape(base: string, assessment: Items, comfort: Items)
    ensures var p := PromptParts(base, assessment, comfort);
      p[0] == base && p[1] == Phase1Header &&
      (Phase2Header in p[1..] <==> |comfort| > 0) &&
      |p| == 2 + |Listed(assessment)| + (if |comfort| > 0 then 1 + |Listed(comfort)| else 0)
  {
    var p := PromptParts(base, assessment, comfort);
    assert Phase2Header[0] == '\n';
    forall l | l in Listed(assessment) + Listed(comfort) ensures l != Phase2Header {
      if l in Listed(assessment) {
        var i :| 0 <= i < |assessment| && l == Bullet(assessment[i]);
        assert l[0] == '-';
      } else {
        var i :| 0 <= i < |comfort| && l == Bullet(comfort[i]);
        assert l[0] == '-';
      }
    }
    if |comfort| > 0 {
      assert p[1..][1 + |Listed(assessment)|] == Phase2Header;
    } else {
      assert p[1..] == [Phase1Header] + Listed(assessment);
      assert Phase1Header[7] != Phase2Header[7];
    }
  }

  /** The same list, built the way the source builds it. */
  method BuildTriagePrompt(base: string, assessment: Items, comfort: Items) returns (parts: seq<string>)
    ensures parts == PromptParts(base, assessment, comfort)
  {
    parts := [base, Phase1Header];
    var i := 0;
    while i < |assessment|
      invariant 0 <= i <= |assessment|
      invariant parts == [base, Phase1Header] + Listed(assessment[..i])
    {
      assert assessment[..i + 1][..i] == assessment[..i];
      if Known(assessment[i].1) {
        parts := parts + [Bullet(assessment[i])];
      }
      i := i + 1;
    }
    assert assessment[..i] == assessment;
    if |comfort| > 0 {
      var head := parts + [Phase2Header];
      parts := head;
      var j := 0;
      while j < |comfort|
        invariant 0 <= j <= |comfort|
        invariant parts == head + Listed(comfort[..j])
      {
        assert comfort[..j + 1][..j] == comfort[..j];
        if Known(comfort[j].1) {
          parts := parts + [Bullet(comfort[j])];
        }
        j := j + 1;
      }
      assert comfort[..j] == comfort;
    }
  }

  // ---------------------------------------------------------------------
  // Assigning a priority
  // ---------------------------------------------------------------------

  /** `_get_llm_triage_decision`: the cleaned answer, or the default on any failure. */
  function LlmDecision(reply: Reply): string
  {
    if IsOk(reply) then CleanPriority(Strip(reply.text)) else DefaultPriority
  }

  /**
   * `assign_triage_priority`. `asked` is the prompt sent to the model (None
   * when the record is too thin to ask); `reply` is what the model answered.
   */
  method AssignTriagePriority(base: string, assessment: Items, comfort: Items, reply: Reply)
    returns (asked: Option<string>, priority: string)
    ensures !Sufficient(assessment) ==> asked == None && priority == DefaultPriority
    ensures Sufficient(assessment) ==> asked == Some(Join(PromptParts(base, assessment, comfort), "\n"))
    ensures priority in Valid
    ensures Sufficient(assessment) && !IsOk(reply) ==> priority == DefaultPriority
    ensures Sufficient(assessment) && IsOk(reply) ==>
      priority == (if CleanPriority(Strip(reply.text)) in Valid then CleanPriority(Strip(reply.text)) else DefaultPriority)
  {
    if |assessment| == 0 || !Sufficient(assessment) {
      EmptyInsufficient();
      return None, DefaultPriority;
    }
    var parts := BuildTriagePrompt(base, assessment, comfort);
    asked := Some(Join(parts, "\n"));
    var answer := LlmDecision(reply);
    priority := if answer in Valid then answer else DefaultPriority;
  }

  // ---------------------------------------------------------------------
  // Helpers on a priority
  // ---------------------------------------------------------------------

  const UnknownDescription := "Unknown priority level"

  /** `get_priority_description` */
  function Description(p: string): (r: string)
    ensures r == UnknownDescription <==> p !in Valid
  {
    if p == "Red" then "IMMEDIATE - Life-threatening injuries requiring immediate intervention"
    else if p == "Yellow" then "DELAYED - Serious injuries but stable, can wait for treatment"
    else if p == "Green" then "MINOR - Minor injuries, can walk and wait"
    else if p == "Black" then "DECEASED/EXPECTANT - Deceased or injuries incompatible with life"
    else UnknownDescription
  }

  predicate IsHighPriority(p: string) { p == "Red" }

  predicate IsAmbulatory(p: string) { p == "Green" }

  /** Every assigned priority has a real description, and no victim is both red and green. */
  lemma AssignedPriorityDescribed(p: string)
    requires p in Valid
    ensures Description(p) != UnknownDescription
    ensures !(IsHighPriority(p) && IsAmbulatory(p))
  {
  }
}
